=== FILE: README.md ===
# Procedural level generation of a kirby-like platformer, in Dafny

This project models the logic that builds one level of the game and the
small state machines around it.

- **The simple tiled model** (`src/map_generator/SimpleTiledModel.ts`) is a wave-function-collapse solver.
  - Every cell keeps a permuted candidate array. Its live prefix ends at the top of a per-cell stack of live ends.
  - Every cell also keeps four edge-label count tables, one per direction.
  - The solver fixes a tile, then propagates through a first-in first-out queue.
  - On a contradiction it undoes the newest fix from an undo log and excludes the tile it tried.
  - An outer loop picks minimum-entropy cells and draws a tile by weight.
- **The nested solver** (`src/NWFC.ts`) has four parts:
  - the sub-completeness test on the catalog's edge labels;
  - the default and user-set frame proportions;
  - the 5×5 blocks that overlap by one row and one column, each solved with its left column and top row fixed;
  - `validateMap`.
- **The level post-processing** (`src/map_generator/workers/levelLayer.ts` and its near copy in `src/map.ts`) covers:
  - the map size draw;
  - the door block;
  - the floating-grass pass;
  - rectangle colliders from a row sweep;
  - spawn points from a reservoir sample, an inside-out shuffle and slicing;
  - `pathToDoor`, a breadth-first search that carves the nearest wall until the door is reached.
- **The Lehmer generator** (`src/helpers.ts`) is modelled as an integer state machine with A = 48271 and M = 2^31 − 1. The seed is an integer and the product A · seed is exact (see "## Left out").
- **The game-data reducer** (`src/ui/Game.tsx`) handles three actions over an immutable record.

Randomness is a sequence of draws in [0, 1) (`Draws.Unit`). Every result is a deterministic function of those draws.

The Lehmer generator state is only its seed (`Lehmer.Gen`). Two generators with equal seeds are therefore the same value and give the same draws.

The entropy of a cell is an oracle `ent` from the live candidate list to a real number. `SolverGenerate.Entropy` returns −1 for a cell without live candidates and consults the oracle only for a cell with some. `SolverGenerate.EntropyOk` states what the solver relies on: the oracle never returns −1 itself and never exceeds `Number.MAX_VALUE`. No lower bound is assumed, since the source's running sums can round slightly below 0.

Tile weights are Dafny reals.

Sources are cited by path and line below. Each module's doc comment names the source function it follows.

## Model

| member | source | states |
|---|---|---|
| Lehmer.JsRem | src/helpers.ts:16 | JavaScript's `%`: the remainder takes the sign of the dividend and is smaller than the modulus in magnitude |
| Lehmer.RandNum | src/helpers.ts:14-18 | the draw times M is the pre-advance seed; the next seed is (A · seed) mod M; a seed in [0, M) gives a draw in [0, 1) and a next seed in [0, M) |
| Lehmer.Seed | src/helpers.ts:20-26 | the state changes only for 0 < newSeed < M, and then to newSeed; with no argument it is a pure read; it always returns the current seed |
| Lehmer.UpperBound | src/helpers.ts:28-30 | returns 2^31 − 1 |
| Lehmer.DefaultSeed | src/helpers.ts:7-10 | `1 + t mod (M − 1)` lies in [1, M − 1] for every non-negative t |
| Lehmer.InitGen | src/helpers.ts:7-10 | as written: an explicit initial seed is taken unchecked; the default seed lies in [1, M) |
| Lehmer.InitGenChecked | src/helpers.ts:7-10 | corrected: the initial seed always lies in (0, M); an explicit seed in that range is kept |
| Lehmer.DrawsInUnit | src/helpers.ts:14-18 | from a seed in [0, M), every one of n successive draws lies in [0, 1) |
| Lehmer.DrawsSplit | src/helpers.ts:14-18 | n + k draws are the first n draws followed by k draws from the generator advanced n times |
| Lehmer.CheckedInitDrawsInUnit | src/helpers.ts:7-18 | every draw of a generator started by the corrected initialiser lies in [0, 1) |
| Lehmer.InitSeedModulusDrawsOne | src/helpers.ts:7-18 | an initial seed of M makes the first draw exactly 1.0, outside [0, 1) |
| Lehmer.InitSeedZeroIsStuck | src/helpers.ts:7-18 | an initial seed of 0 makes every draw 0 |
| GameState.Initial | src/ui/Game.tsx:84-92 | the start screen, no rounds (−1) and empty screenshot, time and seed lists |
| GameState.Reduce | src/ui/Game.tsx:10-47 | changedScreen sets the screen, sets rounds to the given value or −1, appends the seed if given and leaves the other lists alone; nextScene appends one screenshot, time and seed and keeps screen and rounds; reset empties the three lists and keeps screen and rounds |
| GameState.ReducePreservesConsistent | src/ui/Game.tsx:10-47 | every action keeps as many times as screenshots and at least as many seeds as times |
| GameState.RunPreservesConsistent | src/ui/Game.tsx:10-47 | any sequence of actions keeps that length invariant |
| GameState.InitialRunConsistent | src/ui/Game.tsx:84-92 | from the initial state, after any actions, times and screenshots have equal length and seeds are at least as many |
| Grid.AdjacentIsNeighbour | src/map_generator/SimpleTiledModel.ts:87-94 | `getAdjacent` gives the north, east, south and west row-major neighbour, and −1 exactly on the matching grid border |
| Grid.AdjacentInRange | src/map_generator/SimpleTiledModel.ts:87-94 | a neighbour index is −1 or a cell of the grid other than the cell itself |
| Grid.AdjacentSymmetric | src/map_generator/SimpleTiledModel.ts:87-94 | the neighbour of the neighbour in the opposite direction is the cell itself |
| SubComplete.IsSubComplete | src/NWFC.ts:32-91 | true exactly when every west/east, north/south, north/west and south/east label pair from the catalog's label sets is shown by some tile |
| SubComplete.PairsMeaning | src/NWFC.ts:32-91 | the pair set built from the joined label keys holds exactly the pairs some tile shows |
| SubComplete.UniformTileIsSubComplete | src/NWFC.ts:32-91 | a one-tile catalog with one label on every side is sub-complete |
| SubComplete.UnpartneredLabelIsNotSubComplete | src/NWFC.ts:32-91 | a catalog whose east label has no matching west pair is not sub-complete |
| Proportions.DefaultProportions | src/NWFC.ts:20-29 | every catalog frame gets 1/(number of frames) and no other key is present |
| Proportions.ValidateProportions | src/NWFC.ts:190-211 | accepts exactly when every key is a catalog frame, every value is in [0, 1] and every running total stays at most 1 |
| Proportions.AcceptedProportions | src/NWFC.ts:212-222 | given values are kept; every frame not given receives (1 − total)/(number of missing frames); every value is non-negative |
| Proportions.SetFrameProportions | src/NWFC.ts:190-225 | a rejected input leaves the stored proportions unchanged; an accepted one stores the filled map; stored proportions the solver accepts stay acceptable to it |
| Proportions.SolverAccepts | src/map_generator/SimpleTiledModel.ts:512-541 | the solver accepts proportions exactly when their keys are the catalog's frames and no value is negative |
| Proportions.DefaultsPassSolver | src/NWFC.ts:20-29 | the default proportions pass the solver's own check |
| EdgeCounts.EdgeAdd | src/map_generator/SimpleTiledModel.ts:100-106 | adds one to a label's count, creating the key at 1, and leaves every other key alone |
| EdgeCounts.CatalogTableCounts | src/map_generator/SimpleTiledModel.ts:464-467 | the catalog table of a side has exactly the labels shown on that side, each with the number of tiles showing it |
| EdgeCounts.CatalogTables | src/map_generator/SimpleTiledModel.ts:473-484 | the four catalog tables count exactly the labels of all tiles |
| EdgeCounts.LookupIsCount | src/map_generator/SimpleTiledModel.ts:116-144 | under the count invariant, reading a table (a missing key reads 0) gives the number of live candidates showing that label |
| EdgeCounts.RemoveKeepsCounts | src/map_generator/SimpleTiledModel.ts:108-114 | decrementing a removed candidate's four labels keeps the tables exact for the remaining candidates |
| EdgeCounts.AddKeepsCounts | src/map_generator/SimpleTiledModel.ts:108-114 | incrementing a restored candidate's labels keeps the tables exact for the enlarged candidates |
| SolverState.Swap | src/map_generator/SimpleTiledModel.ts:146-150 | exchanges the two entries, leaves every other entry alone and keeps the array a permutation |
| SolverState.Adj | src/map_generator/SimpleTiledModel.ts:87-94 | four neighbour indices, each −1 or another cell of the grid |
| SolverState.AdjacentEdgeCountMeaning | src/map_generator/SimpleTiledModel.ts:116-144 | the count read for a tile on side d is the number of the current cell's live candidates whose side-d label faces it; it is positive exactly when some live candidate fits the tile there |
| SolverState.Init | src/map_generator/SimpleTiledModel.ts:444-510 | every cell holds all tile ids with live end |tiles| − 1 and exact count tables; the tile map is all −1; no fixes, no stack and no undo records |
| SolverState.FreshValid | src/map_generator/SimpleTiledModel.ts:486-495 | the freshly built state satisfies the solver's invariants and every cell starts with the identity candidate order |
| SolverState.RemoveTileCounts | src/map_generator/SimpleTiledModel.ts:152-166 | removing a live candidate by swapping it to the live end keeps the tables exact for the shortened live region |
| SolverState.SwapOut | src/map_generator/SimpleTiledModel.ts:146-166 | the swap moves the removed candidate out of the live region, which loses exactly that one element; entries past the end are untouched |
| SolverFilter.Filter | src/map_generator/SimpleTiledModel.ts:265-301 | the neighbour's live region is permuted; every kept candidate has a partner in the current cell and every dropped one has none; the tables are exact for the kept ones; the impact flag is set exactly when a dropped candidate left one of its labels with no live carrier; nothing changes when nothing is dropped |
| SolverFilter.ImpactCheck | src/map_generator/SimpleTiledModel.ts:284-299 | a zero count at one of the removed tile's own labels means exactly that some label of it has lost its last live carrier |
| SolverFilter.StarvedStep | src/map_generator/SimpleTiledModel.ts:265-301 | removals never revive a starved label, and a newly starved label must come from the removed tile |
| SolverNarrow.NarrowTotal | src/map_generator/SimpleTiledModel.ts:307-319 | pushing a new live end never grows a cell and lowers the grid's live total by the drop; a lower end means strictly fewer live candidates |
| SolverNarrow.NarrowLive | src/map_generator/SimpleTiledModel.ts:307-319 | a narrowing step only drops live candidates of the neighbour |
| SolverNarrow.NarrowSound | src/map_generator/SimpleTiledModel.ts:307-319 | a narrowing step during a fix keeps the solver's invariants; only the newest record may have an empty cell |
| SolverPropagate.Spread | src/map_generator/SimpleTiledModel.ts:259-319 | one direction of one queued cell: the neighbour is filtered and narrowed, and the step keeps the invariants |
| SolverPropagate.Visit | src/map_generator/SimpleTiledModel.ts:255-330 | the four directions of one queued cell only drop live candidates, lower the live total by at least the number of cells queued, and queue only grid cells; with a catalog where every tile fits every tile nothing changes |
| SolverPropagate.Propagate | src/map_generator/SimpleTiledModel.ts:251-335 | success keeps everything but live candidates, which only shrink, and empties no cell that had a live candidate (`NoneEmptied`); failure has backtracked; after a fresh fix, success leaves every neighbour of the fixed cell fitting its tile and failure restores the between-calls invariant; with a catalog where every tile fits every tile it succeeds without change |
| SolverPropagate.Abandon | src/map_generator/SimpleTiledModel.ts:321-328 | a neighbour left without candidates ends the propagation with a backtrack that restores the between-calls invariant |
| SolverBacktrack.UndoRecord | src/map_generator/SimpleTiledModel.ts:380-421 | popping the newest record restores every candidate it removed, pops one live end per noted cell, resets its cell to −1 and lowers the fix count by one |
| SolverBacktrack.Exclude | src/map_generator/SimpleTiledModel.ts:423-432 | a cell with more than one live candidate loses exactly the tried tile (the first candidate) and is pushed back on the choice stack; otherwise nothing changes |
| SolverBacktrack.UndoAndExcludeSound | src/map_generator/SimpleTiledModel.ts:376-441 | undoing a failed fix and excluding the tile restores the invariants for the older records |
| SolverBacktrack.SentinelPopSound | src/map_generator/SimpleTiledModel.ts:434-438 | popping a −1 marker of a pre-fixed tile keeps the invariants |
| SolverBacktrack.BackTrack | src/map_generator/SimpleTiledModel.ts:376-441 | undoes a prefix-preserving suffix of the undo log (at least one record when there is one), resetting exactly those cells and lowering the fix count by their number; success leaves a real cell on top of the stack; after a failed fix the between-calls invariant holds again |
| SolverFix.FindLive | src/map_generator/SimpleTiledModel.ts:338-346 | the position of the tile in the live region, searching from the top, or −1 exactly when it is not live |
| SolverFix.FixTile | src/map_generator/SimpleTiledModel.ts:337-374 | a tile that is not live fails with no change; success leaves exactly that tile live (`Live(m', index) == [tile]`, since a successful propagation empties no cell, `SolverPropagate.NoneEmptied`), writes it to the tile map and counts the fix; a failing propagation leaves the cell unfixed and the invariant restored |
| SolverFix.FixTiles | src/map_generator/SimpleTiledModel.ts:557-569 | success shows every requested tile at its cell, keeps every earlier resolved cell, clears the choice stack and keeps the invariants; on distinct unresolved cells (`FreshCells`) it agrees with the source's version: one fix counted per pair and unrequested cells unchanged (`AsWrittenInv`) |
| SolverFix.FixTilesAsWritten | src/map_generator/SimpleTiledModel.ts:557-569 | as written: a success counts one fix per request and leaves unrequested cells alone |
| SolverFix.DuplicateFixOvercounts | src/map_generator/SimpleTiledModel.ts:337-374 | with a one-tile catalog on a 2×1 grid, fixing cell 0 twice counts two fixes, equal to the grid size, while cell 1 is still unresolved (−1), so the main loop would end early |
| SolverGenerate.ResolvedCount | src/map_generator/SimpleTiledModel.ts:571-592 | between calls, the fix count equals the number of resolved cells |
| SolverGenerate.FullMapConsistent | src/map_generator/SimpleTiledModel.ts:571-592 | when every cell is resolved, every pair of neighbouring cells shows tiles with matching facing edges |
| SolverGenerate.InitStable | src/map_generator/SimpleTiledModel.ts:444-510 | the initial state satisfies the between-calls invariant |
| SolverGenerate.MinEntropyCells | src/map_generator/SimpleTiledModel.ts:183-205 | fails exactly when an unresolved cell has entropy −1; otherwise returns, in ascending order, exactly the unresolved cells of minimum entropy, which is empty exactly when all entropies are above the maximum |
| SolverGenerate.Shuffle | src/map_generator/SimpleTiledModel.ts:207-215 | the shuffled cells are a permutation of the input; the generator advances once per element |
| SolverGenerate.AddPossibleFixedTiles | src/map_generator/SimpleTiledModel.ts:183-218 | succeeds exactly when the minimum-entropy scan does; then pushes each minimum-entropy cell exactly once above the old stack and changes nothing else |
| SolverGenerate.ThresholdWalk | src/map_generator/SimpleTiledModel.ts:226-240 | returns the first candidate whose running weight total reaches the threshold, or −1 when none does |
| SolverGenerate.WeightedChoice | src/map_generator/SimpleTiledModel.ts:220-249 | picks a candidate exactly when there is one; with a positive total weight and a positive draw, a picked candidate has positive weight |
| SolverGenerate.SelectTile | src/map_generator/SimpleTiledModel.ts:220-249 | pops the stack and draws once; a −1 marker crashes; a cell with live candidates yields one of them, and a cell without yields no choice |
| SolverGenerate.Select | src/map_generator/SimpleTiledModel.ts:576-583 | the retry loop: keeps the tile map and undo log; a chosen cell is in range and chosen from a properly seeded stack |
| SolverGenerate.SeedStack | src/map_generator/SimpleTiledModel.ts:573-575 | with an unresolved cell left, the refill (or the backtrack after a failed refill) leaves a ready stack and keeps the invariants |
| SolverGenerate.GenerateMap | src/map_generator/SimpleTiledModel.ts:571-592 | never crashes from a state between calls; a returned map resolves every cell, is consistent on every neighbour pair, and keeps every tile fixed before it |
| SolverWeights.InitShares | src/map_generator/SimpleTiledModel.ts:454-463 | one entry per catalog frame, counting that frame's tiles, each with weight 1/(number of tiles) |
| SolverWeights.Reweigh | src/map_generator/SimpleTiledModel.ts:543-550 | every given frame's per-tile weight, times its tile count, is its value over the total (1 when the total is not positive); other frames and all counts are unchanged |
| SolverWeights.SetProportion | src/map_generator/SimpleTiledModel.ts:512-555 | accepted exactly when the keys are the catalog's frames and no value is negative; then every frame's per-tile weight is its normalised share |
| SolverWeights.TileWeights | src/map_generator/SimpleTiledModel.ts:232-233 | each tile's weight is its frame's per-tile weight |
| SolverWeights.InitMass | src/map_generator/SimpleTiledModel.ts:454-463 | initially a frame's tiles together weigh its tile count over the catalog size |
| SolverWeights.FrameShare | src/map_generator/SimpleTiledModel.ts:543-552 | after setProportion a frame's tiles together weigh its value over the total |
| SolverWeights.NormalizedSum | src/map_generator/SimpleTiledModel.ts:543-552 | the rescaled frame shares sum to 1 |
| SolverWeights.WeightsNonNegative | src/map_generator/SimpleTiledModel.ts:512-555 | initial and accepted weights are never negative |
| SolverWeights.TileWeightsOk | src/map_generator/SimpleTiledModel.ts:232-233 | per-tile weights from non-negative shares are valid solver weights |
| NwfcBlocks.SubgridDims | src/NWFC.ts:123-129 | the block is min(5, width − column) wide and min(5, height − row) high |
| NwfcBlocks.SubgridFits | src/NWFC.ts:123-129 | the block lies inside the map |
| NwfcBlocks.LeftColumnFixed | src/NWFC.ts:131-139 | fixes exactly the resolved cells of the block's left column, at local index row · blockWidth, in row order |
| NwfcBlocks.TopRowFixed | src/NWFC.ts:141-149 | fixes exactly the resolved cells of the block's top row from column 1, at local index column, in column order |
| NwfcBlocks.SubgridFixedTiles | src/NWFC.ts:131-149 | every fixed tile is a resolved border cell with its map value; every resolved left-column and top-row cell is fixed; local indices are distinct |
| NwfcBlocks.FixedDistinct | src/NWFC.ts:131-149 | left-column and top-row local indices never collide |
| NwfcBlocks.HomeInjective | src/NWFC.ts:153-157 | distinct local indices write to distinct map cells |
| NwfcBlocks.WriteBack | src/NWFC.ts:151-160 | every block cell receives its solved value and every cell outside the block is unchanged |
| NwfcBlocks.CoveringOriginVisited | src/NWFC.ts:240-249 | the covering origin of every cell is one of the origins the loop visits |
| NwfcBlocks.BlocksCover | src/NWFC.ts:240-249 | every cell of the grid lies in the block of a visited origin |
| NwfcBlocks.BlockOriginsOrdered | src/NWFC.ts:240-249 | the loop visits origins in strictly increasing order, all on the 4-step lattice |
| NwfcBlocks.OverlapOnBorder | src/NWFC.ts:240-249 | a cell shared by an earlier and a later block lies in the later block's top row or left column |
| Nwfc.Weights | src/NWFC.ts:97-101 | the solver runs exactly when setProportion accepts the stored proportions, and then with valid weights |
| Nwfc.SolveGrid | src/NWFC.ts:93-114 | a refused proportion gives nothing; a returned map always covers the grid, and with a well-behaved entropy oracle it is consistent and shows every fixed tile at its cell |
| Nwfc.InitFresh | src/NWFC.ts:93-114 | distinct in-range fixed cells on a freshly initialised grid are all unresolved, so the corrected `fixTiles` behaves as the source's there |
| Nwfc.FixAll | src/NWFC.ts:166-171 | one fixed tile per map cell, at its own index |
| Nwfc.Pinned | src/NWFC.ts:166-178 | a consistent solve that shows every cell of the map pins the map: its entries are catalog tiles and it is consistent itself |
| Nwfc.ValidateMap | src/NWFC.ts:166-178 | a passing map names only catalog tiles and, at full size, is a consistent tiling |
| Nwfc.GenSubgrid | src/NWFC.ts:116-164 | an out-of-range origin fails; a failure leaves the map alone; success writes a consistent block that keeps the resolved left column and top row and changes nothing outside |
| Nwfc.BlockIsSolved | src/NWFC.ts:151-160 | a consistent solved block, written back, reads back consistent |
| Nwfc.BorderKept | src/NWFC.ts:131-160 | the written block keeps every resolved left-column and top-row cell |
| Nwfc.ConsistentKept | src/NWFC.ts:240-249 | solving a later block keeps every earlier block consistent |
| Nwfc.AllConsistent | src/NWFC.ts:240-249 | when every visited block is consistent, so is the whole map |
| Nwfc.GenerateMap | src/NWFC.ts:227-250 | a catalog that is not sub-complete gives nothing without fallback; any returned map covers the grid and is consistent on every neighbour pair |
| LevelLayer.MapSize | src/map.ts:17-18 | the width lies in [50, 70] and the height in [40, 50] |
| LevelLayer.WorkerAirProp | src/map_generator/workers/levelLayer.ts:15 | the air proportion lies in [0.6, 0.8) |
| LevelLayer.MapAirProp | src/map.ts:109 | the air proportion lies in [0.4, 0.7) |
| LevelLayer.LevelProportionsAccepted | src/map_generator/workers/levelLayer.ts:17 | the air/grass proportions pass the setter exactly when both frames are in the catalog, with a total below 1 |
| LevelLayer.DoorTopLeft | src/map_generator/workers/levelLayer.ts:34-37 | the door corner lies in [0, width − 5] × [0, height − 3] |
| LevelLayer.DoorIndexInDoor | src/map_generator/workers/levelLayer.ts:39 | the door index is the middle of the door block's second row, inside the grid |
| LevelLayer.PlaceDoor | src/map_generator/workers/levelLayer.ts:41-48 | exactly the 15 cells of the door block become tile 0 |
| LevelLayer.AirFlags | src/map_generator/workers/levelLayer.ts:50-57 | a cell is air exactly when its frame is the air or the grass frame |
| LevelLayer.ClearFloatingGrass | src/map_generator/workers/levelLayer.ts:61-69 | exactly the floating grass cells become tile 0; when tile 0 is not grass, afterwards no grass sits on the bottom row or above air |
| LevelLayer.ConnectToDoor | src/map.ts:203-212 | the repeated calls (of either variant) end with the door joined to the player through air, air only added, tiles changed only by the grass clearing |
| LevelLayer.LevelPost | src/map_generator/workers/levelLayer.ts:6-79 | the door block is tile 0; the door is reachable from the player through air; when tile 0 is not grass, no grass floats; the colliders cover exactly the non-air cells once; the player comes from the corrected, scaled spawn fallback (`SpawnPoints.Fallback`, not `SpawnPoints.FallbackAsWritten`; Findings row 2) |
| Colliders.RowRuns | src/map_generator/workers/levelLayer.ts:110-125 | the runs of one row are maximal and cover each non-special cell of the row exactly once |
| Colliders.MergeRow | src/map_generator/workers/levelLayer.ts:127-165 | a previous run continues only with the run of the same left and right x; runs that do not continue are emitted, never dropped |
| Colliders.CellColliders | src/map_generator/workers/levelLayer.ts:100-172 | the rectangles lie in the grid and cover each non-special cell exactly once and no special cell |
| Colliders.GetRectColliders | src/map_generator/workers/levelLayer.ts:100-172 | the same exact cover, scaled by the frame side; empty when width or height is 0 |
| Colliders.CollidersDisjoint | src/map.ts:310-382 | no cell is covered by two rectangles |
| SpawnPoints.ScanCells | src/map_generator/workers/levelLayer.ts:191-228 | the grass list is a permutation of the grass cells' coordinates; a player is found exactly when some air cell stands on a solid non-grass cell, and is such a cell |
| SpawnPoints.Reservoir | src/map_generator/workers/levelLayer.ts:196-208 | the first candidate is always taken; later ones replace the choice or keep it |
| SpawnPoints.ShuffleIn | src/map_generator/workers/levelLayer.ts:209-224 | the inside-out step adds exactly the new coordinate at the drawn position |
| SpawnPoints.FallbackAsWritten | src/map_generator/workers/levelLayer.ts:230-233 | as written: random cell coordinates, not multiplied by the frame side |
| SpawnPoints.FallbackAsWrittenMissesCells | src/map_generator/workers/levelLayer.ts:28-32 | with a frame side of at least 2, an unscaled fallback point can give a player index that is not a whole cell |
| SpawnPoints.FallbackIsCell | src/map_generator/workers/levelLayer.ts:230-233 | the corrected fallback is the scaled position of a grid cell |
| SpawnPoints.FallbackReachesCell | src/map_generator/workers/levelLayer.ts:28-32 | the corrected fallback always gives a player index inside the grid |
| SpawnPoints.PlayerIndexOfCell | src/map_generator/workers/levelLayer.ts:28-32 | the player index of a cell's scaled position is that cell |
| SpawnPoints.CandidateNotGrass | src/map_generator/workers/levelLayer.ts:191-228 | the player cell is never in the grass list |
| SpawnPoints.ChoosePlayer | src/map_generator/workers/levelLayer.ts:230-239 | a found player is kept; else the last grass entry is taken off the list; else the fallback is used |
| SpawnPoints.PlayerAndPool | src/map_generator/workers/levelLayer.ts:174-239 | the player is one cell; with a candidate it is a candidate and the pool is all the grass; the pool has no repeats and never holds the player |
| SpawnPoints.CappedSlicesShape | src/map_generator/workers/levelLayer.ts:243-254 | guy, flame and bird are the slices from n/10, 2n/10 and 3n/10 of the pool, each capped at cells/300 |
| SpawnPoints.CappedSlicesDisjoint | src/map_generator/workers/levelLayer.ts:243-254 | the three capped slices of a repeat-free pool share no point |
| SpawnPoints.JsSlice | src/map_generator/workers/levelLayer.ts:243-254 | JavaScript `slice`: an in-range pair gives the sub-sequence and a reversed pair gives nothing |
| SpawnPoints.FifthSlices | src/map.ts:453-460 | guy, flame and bird are the pool's fifths [0, n/5), [n/5, 2n/5) and [2n/5, 3n/5) |
| SpawnPoints.FifthSlicesDisjoint | src/map.ts:453-460 | the three fifths of a repeat-free pool share no point |
| SpawnPoints.GetSpawnPoints | src/map_generator/workers/levelLayer.ts:174-257 | exactly one player point at a grid cell; the enemy lists are the capped slices of the pool and are disjoint and free of the player; the no-candidate fallback is the corrected, scaled `SpawnPoints.Fallback` (Findings row 2), not the source's unscaled one |
| SpawnPoints.GetSpawnPointsFifths | src/map.ts:384-463 | the same with uncapped fifths of the pool, also with the corrected, scaled `SpawnPoints.Fallback` (Findings row 2) |
| PathToDoor.PathExtend | src/map_generator/workers/levelLayer.ts:294-298 | an air path extends by one adjacent air cell |
| PathToDoor.PathGrow | src/map_generator/workers/levelLayer.ts:324-328 | adding air never breaks a path |
| PathToDoor.DistBound | src/map_generator/workers/levelLayer.ts:305-309 | the Manhattan distance stays below JavaScript's largest safe integer |
| PathToDoor.ClosedReachesAll | src/map_generator/workers/levelLayer.ts:277-318 | a cell set closed under neighbours that holds one cell holds the whole grid |
| PathToDoor.Explore | src/map_generator/workers/levelLayer.ts:294-316 | one neighbour step keeps the search invariant and visits an in-range neighbour unless a wall was recorded |
| PathToDoor.ExploreCell | src/map_generator/workers/levelLayer.ts:285-316 | all four directions of one dequeued cell are examined |
| PathToDoor.Round | src/map_generator/workers/levelLayer.ts:278-318 | a search round keeps the invariant and ends with an empty queue unless the door was reached |
| PathToDoor.FirstRoundMeetsWall | src/map_generator/workers/levelLayer.ts:277-329 | a first round that finds no wall has reached the door |
| PathToDoor.CarveKeepsInv | src/map_generator/workers/levelLayer.ts:324-328 | carving the nearest wall keeps the invariant, records it and strictly lowers the number of walls |
| PathToDoor.Run | src/map_generator/workers/levelLayer.ts:277-329 | the search ends in the invariant state; a call that misses the door has carved at least one wall |
| PathToDoor.PathToDoor | src/map_generator/workers/levelLayer.ts:259-332 | air only turns false to true, exactly at the carved walls; each carved wall is strictly closer to the door; every visited cell, the door when found, is joined to the start through air; the result is whether the door was visited; tiles change only in the `src/map.ts` variant, and only where a grass cell above an original wall becomes 0 |

## Left out

- Floating-point entropy: `computeEntropy`, `initSums` and the running `proportionSums` and `plogpSums` use `Math.log`. They are replaced by the oracle `ent` from a cell's live candidates to a real. The properties that need its two promises assume `SolverGenerate.EntropyOk`.
- Floating-point rounding: weights, shares and the threshold walk use exact Dafny reals. The model proves nothing about rounding.
- Lehmer.RandNum, Lehmer.Seed, Lehmer.InitGen: seeds are integers and A · seed is computed exactly. The source's seed is a JavaScript number. This agrees with the source for integer seeds below about 2^53 / 48271 ≈ 1.87 · 10^11, which covers every seed the generator produces itself (all below M). Two kinds of seed are not modelled.
  - A fractional seed such as 1.5 passes the start screen's check (src/ui/StartScreen.tsx:50-53 accepts a value in (0, M) or a digit string) and reaches `initRandNumGen`.
  - For a larger digit string, the product rounds in double precision.
- `rand_TND` in `src/helpers.ts`: floating-point rejection sampling with `exp` and `sqrt`.
- `Math.random()` and `Date.now()` in the default seed become one non-negative integer parameter `t`.
- Rendering and I/O:
  - Kaboom sprites, areas and bodies in `src/map.ts`;
  - the background layer;
  - worker `onmessage` plumbing;
  - the `fetch` of the tile set;
  - `Promise.all` over the layers;
  - every `console.log`.
- The constants file (`src/constants.ts`) is not part of this model. The frame side and the air and grass frame numbers are parameters (`side > 0`, `air`, `grass`).
- `hasInitializedWrapper`: the model always initialises before use, so the "not initialised" path is not modelled.
- The accessors `getFrames` and `getProportion`.
- The `width` and `height` setters of the nested solver: width and height are parameters, and the dimension is their product.
- SolverGenerate.GenerateMap: carries a `fuel` bound on the outer loop and reports `OutOfFuel` when it runs out. The source loop has no bound, and its termination is not proved.
- SolverBacktrack.BackTrack: only soundness is stated. An exclusion pushed without a record can later be popped by an older record's undo. This keeps every invariant but may drop a candidate the search never tried again, so completeness is neither stated nor refuted.
- SolverFix.FixTiles, Nwfc.SolveGrid: require every fixed index to be a cell of the grid (`CellsIn`). For any other index the source reads an undefined array and throws.
- Nwfc.ValidateMap requires the map to be no longer than the grid for the same reason.
- Nwfc.SolveGrid: a solver run that would throw (`Crashed`) or runs out of fuel gives no map, like a failed one. `SolverGenerate.GenerateMap` proves that a run from a state between calls never crashes.
- Nwfc: the nested solver drives the shown flat solver with the threaded Lehmer generator. The source's call to `init` passes three arguments, where the shown solver takes a fourth, the generator.
- Proportions: an object of frame proportions is modelled as its entries in key order, with distinct keys (`Proportions.DistinctKeys`).
- GameState.Reduce: `newScreenshot` is a mandatory field of every action, as in the action type. The non-null assertions on `newTime`, `newSeed` and `nextScreen` become mandatory fields of the matching action. The `default` throw cannot occur with three constructors.
- LevelLayer.ClearFloatingGrass, LevelLayer.LevelPost: "no grass floats" is promised only when tile 0 is not a grass tile. The source writes tile 0 over floating grass whatever its frame (src/map_generator/workers/levelLayer.ts:61-69). With a grass tile 0, the cleared cell is grass again.
- LevelLayer.LevelPost takes the solver's map as input. An undefined map, which makes the driver return nothing, is not modelled. `tilemap[playerIndex] = 1` is modelled, but no contract states it.
- LevelLayer.LevelPost, LevelLayer.LevelMap, LevelLayer.PlacePlayer: require `|tileset| >= 2`, `width >= 5` and `height >= 3`, which the source does not check. With a one-tile catalog, `tilemap[playerIndex] = 1` (src/map_generator/workers/levelLayer.ts:32) makes `tileset[tilemap[i]].frame` at line 53 throw. With `width < 5` or `height < 3`, the door loop at lines 34-48 writes outside its row or past the end of the map. The visible callers always choose larger maps (src/map.ts:17-18, src/map_generator/map.ts:19-20).
- LevelLayer.ConnectToDoor, PathToDoor.PathToDoor: require a grid of fewer than 2^32 cells (`ArrayLimit`), the JavaScript array length bound. This keeps distances below `Number.MAX_SAFE_INTEGER`.

## Findings

| source | as written | input that shows it | evidently intended | confidence | as-written member | corrected member |
|---|---|---|---|---|---|---|
| src/helpers.ts:7-10 | a supplied initial seed is stored unchecked, although `seed(newSeed)` accepts only 0 < newSeed < M | `initRandNumGen(2147483647)`: the first `randNum()` is 1.0, outside [0, 1); `initRandNumGen(0)`: every draw is 0 | an initial seed outside (0, M) is refused like in `seed`, falling back to the default seed | not executed; medium, callers may never pass such a seed | Lehmer.InitGen (Lehmer.InitSeedModulusDrawsOne, Lehmer.InitSeedZeroIsStuck) | Lehmer.InitGenChecked (Lehmer.CheckedInitDrawsInUnit) |
| src/map_generator/workers/levelLayer.ts:230-233 | with no spawn candidate and no grass, the player point is `floor(draw · width)`, `floor(draw · height)` in cells, while every other point is in pixels and line 30 divides by the frame side | frame side 2, width 2, x = 1, y = 0: the player index is 1/2, not a cell (the same code is at src/map.ts:440-443) | multiply the fallback coordinates by the frame side, as for every other spawn point | not executed; high | SpawnPoints.FallbackAsWritten (SpawnPoints.FallbackAsWrittenMissesCells) | SpawnPoints.Fallback (SpawnPoints.FallbackReachesCell), used by SpawnPoints.GetSpawnPoints |
| src/map_generator/SimpleTiledModel.ts:557-569 | `fixTiles` calls `fixTile` for every pair; fixing an already fixed cell with its own tile succeeds and counts a second fix | one-tile catalog, 2×1 grid, `fixTiles([{0,0},{0,0}])`: the fix count is 2 = size, so `generateMap` returns `[0, -1]` without filling cell 1 | a cell already showing the requested tile is accepted without counting it again, so the fix count equals the number of resolved cells | not executed; medium, latent in the nested solver, whose fixed cells are distinct and unresolved (Nwfc.InitFresh), where the two versions agree (SolverFix.FixTiles) | SolverFix.FixTilesAsWritten (SolverFix.DuplicateFixOvercounts) | SolverFix.FixTiles (SolverGenerate.ResolvedCount), used by Nwfc.SolveGrid |

=== FILE: colliders.dfy ===
/**
  Collider extraction (`getRectColliders`, identical in
  src/map_generator/workers/levelLayer.ts and src/map.ts).

  A row sweep: each row is split into maximal horizontal runs of platform
  (non-special) cells; at the end of a row the runs are matched, right to
  left, against the still-open rectangles of the previous row, and a run
  whose left and right edges coincide with an open rectangle extends it
  downwards. Open rectangles that cannot be extended are emitted.

  The sweep is modelled in cell units; the result is then scaled by the
  frame side, which preserves every comparison the sweep makes.
*/
module Colliders {
  import opened Grid

  /** An axis-aligned rectangle: column, row, width and height. */
  datatype Rect = Rect(x: int, y: int, w: int, h: int)

  predicate Covers(b: Rect, row: int, col: int)
  {
    b.y <= row < b.y + b.h && b.x <= col < b.x + b.w
  }

  function One(b: Rect, row: int, col: int): nat
  {
    if Covers(b, row, col) then 1 else 0
  }

  /** How many rectangles of `bs` cover the cell (row, col). */
  function Count(bs: seq<Rect>, row: int, col: int): nat
  {
    if |bs| == 0 then 0 else Count(bs[..|bs| - 1], row, col) + One(bs[|bs| - 1], row, col)
  }

  /** A non-empty rectangle inside a width x height grid. */
  predicate InGrid(b: Rect, width: int, height: int)
  {
    0 <= b.x && 1 <= b.w && b.x + b.w <= width && 0 <= b.y && 1 <= b.h && b.y + b.h <= height
  }

  /** The rectangle in world units. */
  function Scale(b: Rect, side: int): Rect
  {
    Rect(side * b.x, side * b.y, side * b.w, side * b.h)
  }

  /** An open rectangle `a` extended downwards by the run `b` below it. */
  function Stack(a: Rect, b: Rect): Rect
  {
    Rect(a.x, a.y, b.w, b.h + a.h)
  }

  /** How often each cell of the first `upTo` rows must be covered: once for a platform cell, never otherwise. */
  function Target(grid: seq<seq<bool>>, upTo: int, row: int, col: int): nat
  {
    if 0 <= row < upTo && row < |grid| && 0 <= col < |grid[row]| then
      (if grid[row][col] then 0 else 1)
    else 0
  }

  lemma {:induction false} CountAppend(a: seq<Rect>, b: seq<Rect>, row: int, col: int)
    ensures Count(a + b, row, col) == Count(a, row, col) + Count(b, row, col)
    decreases |b|
  {
    if |b| == 0 {
      assert a + b == a;
    } else {
      assert (a + b)[..|a + b| - 1] == a + b[..|b| - 1];
      CountAppend(a, b[..|b| - 1], row, col);
    }
  }

  lemma {:induction false} CountNone(bs: seq<Rect>, row: int, col: int)
    requires forall k | 0 <= k < |bs| :: !Covers(bs[k], row, col)
    ensures Count(bs, row, col) == 0
    decreases |bs|
  {
    if |bs| > 0 {
      CountNone(bs[..|bs| - 1], row, col);
    }
  }

  lemma {:induction false} CountUpdate(bs: seq<Rect>, k: int, b: Rect, row: int, col: int)
    requires 0 <= k < |bs|
    ensures Count(bs[k := b], row, col) + One(bs[k], row, col) == Count(bs, row, col) + One(b, row, col)
    decreases |bs|
  {
    var n := |bs| - 1;
    if k < n {
      assert bs[k := b][..n] == bs[..n][k := b];
      CountUpdate(bs[..n], k, b, row, col);
    } else {
      assert bs[k := b][..n] == bs[..n];
    }
  }

  /** Two distinct rectangles of a list each add to a cell's count. */
  lemma {:induction false} CountAtLeastTwo(bs: seq<Rect>, k1: int, k2: int, row: int, col: int)
    requires 0 <= k1 < k2 < |bs|
    ensures Count(bs, row, col) >= One(bs[k1], row, col) + One(bs[k2], row, col)
    decreases |bs|
  {
    var n := |bs| - 1;
    if k2 < n {
      CountAtLeastTwo(bs[..n], k1, k2, row, col);
    } else {
      CountAtLeastOne(bs[..n], k1, row, col);
    }
  }

  lemma {:induction false} CountAtLeastOne(bs: seq<Rect>, k: int, row: int, col: int)
    requires 0 <= k < |bs|
    ensures Count(bs, row, col) >= One(bs[k], row, col)
    decreases |bs|
  {
    var n := |bs| - 1;
    if k < n {
      CountAtLeastOne(bs[..n], k, row, col);
    }
  }

  /** Stacking a run under a rectangle with the same span covers exactly the cells of both. */
  lemma StackOne(a: Rect, b: Rect, row: int, col: int)
    requires a.x == b.x && a.w == b.w && a.y + a.h == b.y && a.h >= 1 && b.h >= 1
    ensures One(Stack(a, b), row, col) == One(a, row, col) + One(b, row, col)
  {
  }

  /** A run of row r: one row high, inside the row, bounded left and right by a special cell or the border. */
  predicate Maximal(b: Rect, row: seq<bool>, r: int)
  {
    InGrid(b, |row|, r + 1) && b.y == r && b.h == 1 &&
    (b.x == 0 || row[b.x - 1]) && (b.x + b.w == |row| || row[b.x + b.w])
  }

  /**
    The runs of row `r` (one row of `isSpecialTile`, `row[c]` true for a
    special cell): every run is maximal, and every platform cell of the row
    is covered by exactly one run.
  */
  method RowRuns(row: seq<bool>, r: int) returns (runs: seq<Rect>)
    requires r >= 0
    ensures forall k | 0 <= k < |runs| :: Maximal(runs[k], row, r)
    ensures forall rw, col :: Count(runs, rw, col) == Target([row], 1, rw - r, col)
  {
    runs := [];
    var c := 0;
    while c < |row|
      invariant 0 <= c <= |row|
      invariant forall k | 0 <= k < |runs| :: Maximal(runs[k], row, r)
      invariant forall k | 0 <= k < |runs| :: runs[k].x + runs[k].w <= c
      invariant 0 < c < |row| && !row[c] ==> row[c - 1]
      invariant forall rw, col :: Count(runs, rw, col) == Target([row], 1, rw - r, if col < c then col else -1)
    {
      if !row[c] {
        var e := c;
        while e + 1 < |row| && !row[e + 1]
          invariant c <= e < |row|
          invariant forall x | c <= x <= e :: !row[x]
        {
          e := e + 1;
        }
        var run := Rect(c, r, e + 1 - c, 1);
        forall rw, col
          ensures Count(runs + [run], rw, col) == Target([row], 1, rw - r, if col < e + 1 then col else -1)
        {
          assert (runs + [run])[..|runs|] == runs;
          if Covers(run, rw, col) {
            CountNone(runs, rw, col);
          }
        }
        assert Maximal(run, row, r);
        runs := runs + [run];
        c := e;
      }
      c := c + 1;
    }
  }

  /** `MergeRow`'s loop keeps the cover of the emitted, still-unmatched and current rectangles. */
  ghost predicate Balanced(emitted: seq<Rect>, rest: seq<Rect>, temp: seq<Rect>, pm: seq<Rect>, temp0: seq<Rect>)
  {
    forall row, col ::
      Count(emitted, row, col) + Count(rest, row, col) + Count(temp, row, col) ==
      Count(pm, row, col) + Count(temp0, row, col)
  }

  lemma EmitStep(emitted: seq<Rect>, pm: seq<Rect>, j: int, temp: seq<Rect>, temp0: seq<Rect>)
    requires 0 <= j < |pm|
    requires Balanced(emitted, pm[..j + 1], temp, pm, temp0)
    ensures Balanced(emitted + [pm[j]], pm[..j], temp, pm, temp0)
  {
    forall row, col
      ensures Count(emitted + [pm[j]], row, col) + Count(pm[..j], row, col) + Count(temp, row, col) ==
        Count(pm, row, col) + Count(temp0, row, col)
    {
      assert (emitted + [pm[j]])[..|emitted|] == emitted;
      assert pm[..j + 1][..j] == pm[..j];
    }
  }

  lemma MergeStep(emitted: seq<Rect>, pm: seq<Rect>, j: int, temp: seq<Rect>, k: int, temp0: seq<Rect>)
    requires 0 <= j < |pm| && 0 <= k < |temp|
    requires pm[j].x == temp[k].x && pm[j].w == temp[k].w && pm[j].y + pm[j].h == temp[k].y
    requires pm[j].h >= 1 && temp[k].h >= 1
    requires Balanced(emitted, pm[..j + 1], temp, pm, temp0)
    ensures Balanced(emitted, pm[..j], temp[k := Stack(pm[j], temp[k])], pm, temp0)
  {
    forall row, col
      ensures Count(emitted, row, col) + Count(pm[..j], row, col) + Count(temp[k := Stack(pm[j], temp[k])], row, col) ==
        Count(pm, row, col) + Count(temp0, row, col)
    {
      assert pm[..j + 1][..j] == pm[..j];
      CountUpdate(temp, k, Stack(pm[j], temp[k]), row, col);
      StackOne(pm[j], temp[k], row, col);
    }
  }

  /**
    The end-of-row step: `pm` holds the open rectangles ending on row r - 1,
    `temp0` the runs of row r. Open rectangles are either emitted unchanged
    or extended by a run with exactly the same left and right edge; together
    the emitted and the new open rectangles cover every cell exactly as often
    as `pm` and `temp0` did, so no rectangle is dropped or duplicated.
  */
  method MergeRow(pm: seq<Rect>, temp0: seq<Rect>, r: int) returns (emitted: seq<Rect>, newPm: seq<Rect>, ghost src: seq<int>)
    requires forall j | 0 <= j < |pm| :: pm[j].y + pm[j].h == r && pm[j].h >= 1
    requires forall k | 0 <= k < |temp0| :: temp0[k].y == r && temp0[k].h == 1
    ensures forall row, col :: Count(emitted, row, col) + Count(newPm, row, col) == Count(pm, row, col) + Count(temp0, row, col)
    ensures forall e | e in emitted :: e in pm
    ensures |newPm| == |temp0| && |src| == |temp0|
    ensures forall k | 0 <= k < |newPm| ::
      newPm[k].x == temp0[k].x && newPm[k].w == temp0[k].w && newPm[k].y + newPm[k].h == r + 1 &&
      (newPm[k] == temp0[k] ||
       (0 <= src[k] < |pm| && pm[src[k]].x == temp0[k].x && pm[src[k]].w == temp0[k].w &&
        newPm[k] == Stack(pm[src[k]], temp0[k])))
  {
    emitted := [];
    var temp := temp0;
    src := seq(|temp0|, _ => -1);
    var j, k := |pm| - 1, |temp0| - 1;
    assert pm[..j + 1] == pm;
    while j > -1 && k > -1
      invariant -1 <= j < |pm| && -1 <= k < |temp0|
      invariant |temp| == |temp0| && |src| == |temp0|
      invariant forall k' | 0 <= k' <= k :: temp[k'] == temp0[k']
      invariant forall k' | 0 <= k' < |temp| ::
        temp[k'].x == temp0[k'].x && temp[k'].w == temp0[k'].w && temp[k'].y + temp[k'].h == r + 1 &&
        (temp[k'] == temp0[k'] ||
         (0 <= src[k'] < |pm| && pm[src[k']].x == temp0[k'].x && pm[src[k']].w == temp0[k'].w &&
          temp[k'] == Stack(pm[src[k']], temp0[k'])))
      invariant forall e | e in emitted :: e in pm
      invariant Balanced(emitted, pm[..j + 1], temp, pm, temp0)
      decreases j + k
    {
      var bottomLeft := pm[j].x;
      var bottomRight := bottomLeft + pm[j].w;
      var topLeft := temp[k].x;
      var topRight := topLeft + temp[k].w;
      if topRight < bottomRight {
        EmitStep(emitted, pm, j, temp, temp0);
        emitted := emitted + [pm[j]];
        j := j - 1;
      } else {
        if bottomRight == topRight && bottomLeft == topLeft {
          MergeStep(emitted, pm, j, temp, k, temp0);
          temp := temp[k := Stack(pm[j], temp[k])];
          src := src[k := j];
          j := j - 1;
        }
        k := k - 1;
      }
    }
    while j > -1
      invariant -1 <= j < |pm|
      invariant forall e | e in emitted :: e in pm
      invariant Balanced(emitted, pm[..j + 1], temp, pm, temp0)
    {
      EmitStep(emitted, pm, j, temp, temp0);
      emitted := emitted + [pm[j]];
      j := j - 1;
    }
    newPm := temp;
    assert pm[..0] == [];
  }

  /**
    The sweep over the rows of a grid of platform flags, in cell units:
    every platform cell is covered by exactly one rectangle and every other
    cell by none.
  */
  method CellColliders(grid: seq<seq<bool>>, width: int) returns (cells: seq<Rect>)
    requires width >= 0 && forall r | 0 <= r < |grid| :: |grid[r]| == width
    ensures forall k | 0 <= k < |cells| :: InGrid(cells[k], width, |grid|)
    ensures forall row, col :: Count(cells, row, col) == Target(grid, |grid|, row, col)
  {
    cells := [];
    var pm: seq<Rect> := [];
    var r := 0;
    while r < |grid|
      invariant 0 <= r <= |grid|
      invariant forall k | 0 <= k < |cells| :: InGrid(cells[k], width, |grid|)
      invariant forall k | 0 <= k < |pm| :: InGrid(pm[k], width, |grid|) && pm[k].y + pm[k].h == r
      invariant forall row, col :: Count(cells, row, col) + Count(pm, row, col) == Target(grid, r, row, col)
    {
      cells, pm := RowStep(grid, width, r, cells, pm);
      r := r + 1;
    }
    cells := Flush(grid, width, cells, pm);
  }

  /** One row of the scan: merge the row's runs into the open rectangles and emit the ones that stop. */
  method RowStep(grid: seq<seq<bool>>, width: int, r: int, cells: seq<Rect>, pm: seq<Rect>)
    returns (cells': seq<Rect>, pm': seq<Rect>)
    requires width >= 0 && forall r | 0 <= r < |grid| :: |grid[r]| == width
    requires 0 <= r < |grid|
    requires forall k | 0 <= k < |cells| :: InGrid(cells[k], width, |grid|)
    requires forall k | 0 <= k < |pm| :: InGrid(pm[k], width, |grid|) && pm[k].y + pm[k].h == r
    requires forall row, col :: Count(cells, row, col) + Count(pm, row, col) == Target(grid, r, row, col)
    ensures forall k | 0 <= k < |cells'| :: InGrid(cells'[k], width, |grid|)
    ensures forall k | 0 <= k < |pm'| :: InGrid(pm'[k], width, |grid|) && pm'[k].y + pm'[k].h == r + 1
    ensures forall row, col :: Count(cells', row, col) + Count(pm', row, col) == Target(grid, r + 1, row, col)
  {
    var temp := RowRuns(grid[r], r);
    var emitted, newPm, src := MergeRow(pm, temp, r);
    forall row, col
      ensures Count(cells + emitted, row, col) + Count(newPm, row, col) == Target(grid, r + 1, row, col)
    {
      CountAppend(cells, emitted, row, col);
    }
    forall k | 0 <= k < |newPm|
      ensures InGrid(newPm[k], width, |grid|) && newPm[k].y + newPm[k].h == r + 1
    {
      if newPm[k] != temp[k] {
        assert InGrid(pm[src[k]], width, |grid|);
      }
    }
    forall k | 0 <= k < |emitted|
      ensures InGrid(emitted[k], width, |grid|)
    {
      assert emitted[k] in pm;
    }
    cells', pm' := cells + emitted, newPm;
  }

  /** After the last row every rectangle still open is emitted. */
  method Flush(grid: seq<seq<bool>>, width: int, cells: seq<Rect>, pm: seq<Rect>) returns (cells': seq<Rect>)
    requires forall k | 0 <= k < |cells| :: InGrid(cells[k], width, |grid|)
    requires forall k | 0 <= k < |pm| :: InGrid(pm[k], width, |grid|)
    requires forall row, col :: Count(cells, row, col) + Count(pm, row, col) == Target(grid, |grid|, row, col)
    ensures forall k | 0 <= k < |cells'| :: InGrid(cells'[k], width, |grid|)
    ensures forall row, col :: Count(cells', row, col) == Target(grid, |grid|, row, col)
  {
    cells' := cells;
    var open := pm;
    while |open| > 0
      invariant forall k | 0 <= k < |cells'| :: InGrid(cells'[k], width, |grid|)
      invariant forall k | 0 <= k < |open| :: InGrid(open[k], width, |grid|)
      invariant forall row, col :: Count(cells', row, col) + Count(open, row, col) == Target(grid, |grid|, row, col)
    {
      var last := open[|open| - 1];
      forall row, col
        ensures Count(cells' + [last], row, col) + Count(open[..|open| - 1], row, col) == Target(grid, |grid|, row, col)
      {
        assert (cells' + [last])[..|cells'|] == cells';
      }
      cells' := cells' + [last];
      open := open[..|open| - 1];
    }
  }


  /**
    `getRectColliders(tilemap, width, height, isSpecialTile)` with
    `isSpecialTile` row-major of length width * height: `cells` is the
    result in cell units and `colliders` the same rectangles scaled by the
    frame side. Cell i is covered by exactly one rectangle when it is a
    platform cell and by none otherwise; the result is empty when the grid
    has no rows or no columns.
  */
  method GetRectColliders(special: seq<bool>, width: int, height: int, side: int)
    returns (cells: seq<Rect>, colliders: seq<Rect>)
    requires width >= 0 && height >= 0 && |special| == width * height && side > 0
    ensures |colliders| == |cells| && forall k | 0 <= k < |cells| :: colliders[k] == Scale(cells[k], side)
    ensures forall k | 0 <= k < |cells| :: InGrid(cells[k], width, height)
    ensures forall i | 0 <= i < |special| :: Count(cells, i / width, i % width) == if special[i] then 0 else 1
    ensures width == 0 || height == 0 ==> cells == []
  {
    if height > 0 && width > 0 {
      var grid := ToRows(special, width, height);
      cells := CellColliders(grid, width);
      forall i | 0 <= i < |special|
        ensures Count(cells, i / width, i % width) == if special[i] then 0 else 1
      {
        DivMod(i, width, height);
        ToRowsAt(special, width, height, i / width, i % width);
      }
    } else {
      cells := [];
    }
    colliders := seq(|cells|, k requires 0 <= k < |cells| => Scale(cells[k], side));
  }

  /** The emitted rectangles are pairwise disjoint. */
  lemma CollidersDisjoint(cells: seq<Rect>, grid: seq<seq<bool>>, k1: int, k2: int, row: int, col: int)
    requires forall row, col :: Count(cells, row, col) == Target(grid, |grid|, row, col)
    requires 0 <= k1 < |cells| && 0 <= k2 < |cells| && k1 != k2
    ensures !(Covers(cells[k1], row, col) && Covers(cells[k2], row, col))
  {
    if k1 < k2 {
      CountAtLeastTwo(cells, k1, k2, row, col);
    } else {
      CountAtLeastTwo(cells, k2, k1, row, col);
    }
  }
}

=== FILE: draws.dfy ===
/**
  Random draws as the map generator consumes them: reals in [0, 1) from
  `randNum` (src/helpers.ts), turned into integers with `Math.floor(d * m)`.
*/
module Draws {

  predicate Unit(d: real)
  {
    0.0 <= d < 1.0
  }

  predicate AllUnit(ds: seq<real>)
  {
    forall k | 0 <= k < |ds| :: Unit(ds[k])
  }

  /** `Math.floor(d * m)`: for a draw in [0, 1) it is one of 0, 1, ..., m - 1. */
  function Pick(d: real, m: int): (j: int)
    requires Unit(d) && m >= 1
    ensures 0 <= j < m
  {
    ScaledBelow(d, m);
    (d * (m as real)).Floor
  }

  lemma ScaledBelow(d: real, m: int)
    requires Unit(d) && m >= 1
    ensures 0.0 <= d * (m as real) < m as real
  {
    assert (m as real) - d * (m as real) == (1.0 - d) * (m as real);
  }

  /** A single choice among one value always picks it. */
  lemma PickOne(d: real)
    requires Unit(d)
    ensures Pick(d, 1) == 0
  {
  }
}

=== FILE: edge_counts.dfy ===
/**
  The solver's per-cell edge-label tables (`EdgesCount` objects in
  src/map_generator/SimpleTiledModel.ts): for each direction, a map from an
  edge label to the number of live candidates that carry that label on that
  side. A label missing from a table reads as 0 (`getAdjacentEdgeCount`).
*/
module EdgeCounts {
  import opened Tiles

  type Table = map<int, int>

  /** A candidate id that names a catalog tile carrying label `l` on side `d`. */
  predicate Has(ts: seq<Tile>, x: int, d: Dir, l: int)
  {
    0 <= x < |ts| && Edge(ts[x], d) == l
  }

  /** Number of entries of `s` whose tile carries label `l` on side `d`. */
  function Cnt(ts: seq<Tile>, s: seq<int>, d: Dir, l: int): nat
  {
    if s == [] then 0
    else Cnt(ts, s[..|s| - 1], d, l) + (if Has(ts, s[|s| - 1], d, l) then 1 else 0)
  }

  /** `table[label]`, reading a missing label as 0. */
  function Lookup(t: Table, l: int): int
  {
    if l in t then t[l] else 0
  }

  /** `updateEdgesCounts(index, tile, value)` on one cell's four tables. */
  function UpdateEdges(c: seq<Table>, t: Tile, v: int): (r: seq<Table>)
    requires |c| == 4
    ensures |r| == 4
  {
    seq(4, d requires 0 <= d < 4 =>
      c[d][Edge(t, d) := Lookup(c[d], Edge(t, d)) + v])
  }

  /**
    A cell's four tables are exact for the live candidate list `live`:
    each holds exactly the catalog's labels for its side, and each count is
    the number of live candidates with that label.
  */
  ghost predicate CountsOk(c: seq<Table>, ts: seq<Tile>, live: seq<int>)
  {
    |c| == 4 &&
    forall d: Dir :: c[d].Keys == Labels(ts, d) && forall l | l in c[d] :: c[d][l] == Cnt(ts, live, d, l)
  }

  lemma {:induction false} CntAppend(ts: seq<Tile>, a: seq<int>, b: seq<int>, d: Dir, l: int)
    ensures Cnt(ts, a + b, d, l) == Cnt(ts, a, d, l) + Cnt(ts, b, d, l)
    decreases |b|
  {
    if b != [] {
      var b0 := b[..|b| - 1];
      assert (a + b)[..|a + b| - 1] == a + b0;
      CntAppend(ts, a, b0, d, l);
    } else {
      assert a + b == a;
    }
  }

  /** The count depends only on the multiset of entries. */
  lemma {:induction false} CntPerm(ts: seq<Tile>, a: seq<int>, b: seq<int>, d: Dir, l: int)
    requires multiset(a) == multiset(b)
    ensures Cnt(ts, a, d, l) == Cnt(ts, b, d, l)
    decreases |a|
  {
    if a == [] {
      assert |b| == |multiset(b)| == 0;
    } else {
      var x := a[|a| - 1];
      var a0 := a[..|a| - 1];
      DropLast(a);
      assert x in multiset(b);
      var k :| 0 <= k < |b| && b[k] == x;
      var b0 := b[..k] + b[k + 1..];
      DropOne(b, k);
      CntPerm(ts, a0, b0, d, l);
      CntDrop(ts, b, k, d, l);
    }
  }

  /** Dropping position k lowers the count by that entry's contribution. */
  lemma CntDrop(ts: seq<Tile>, b: seq<int>, k: int, d: Dir, l: int)
    requires 0 <= k < |b|
    ensures Cnt(ts, b, d, l) == Cnt(ts, b[..k] + b[k + 1..], d, l) + (if Has(ts, b[k], d, l) then 1 else 0)
  {
    var x := b[k];
    assert b == b[..k] + [x] + b[k + 1..];
    CntAppend(ts, b[..k], [x], d, l);
    CntAppend(ts, b[..k] + [x], b[k + 1..], d, l);
    CntAppend(ts, b[..k], b[k + 1..], d, l);
    assert Cnt(ts, [x], d, l) == (if Has(ts, x, d, l) then 1 else 0) by {
      assert [x][..0] == [];
    }
  }

  /** Dropping the last entry removes one copy of it. */
  lemma DropLast(a: seq<int>)
    requires |a| > 0
    ensures a[|a| - 1] in multiset(a)
    ensures multiset(a[..|a| - 1]) == multiset(a) - multiset{a[|a| - 1]}
  {
    assert a == a[..|a| - 1] + [a[|a| - 1]];
  }

  /** Dropping position k removes one copy of its entry. */
  lemma DropOne(b: seq<int>, k: int)
    requires 0 <= k < |b|
    ensures b == b[..k] + [b[k]] + b[k + 1..]
    ensures multiset(b[..k] + b[k + 1..]) == multiset(b) - multiset{b[k]}
  {
    assert b == b[..k] + [b[k]] + b[k + 1..];
    assert multiset(b) == multiset(b[..k]) + multiset{b[k]} + multiset(b[k + 1..]);
  }

  /** Removing one entry from the multiset lowers exactly the counts of its labels. */
  lemma CntRemove(ts: seq<Tile>, live: seq<int>, live': seq<int>, x: int, d: Dir, l: int)
    requires multiset(live) == multiset(live') + multiset{x}
    ensures Cnt(ts, live, d, l) == Cnt(ts, live', d, l) + (if Has(ts, x, d, l) then 1 else 0)
  {
    assert multiset(live) == multiset(live' + [x]);
    CntPerm(ts, live, live' + [x], d, l);
    assert (live' + [x])[..|live'|] == live';
  }

  /** A label no catalog tile carries is never counted. */
  lemma {:induction false} CntOffCatalog(ts: seq<Tile>, s: seq<int>, d: Dir, l: int)
    requires l !in Labels(ts, d)
    ensures Cnt(ts, s, d, l) == 0
    decreases |s|
  {
    if s != [] {
      CntOffCatalog(ts, s[..|s| - 1], d, l);
      var x := s[|s| - 1];
      if 0 <= x < |ts| {
        assert ts[x] in ts;
      }
    }
  }

  /** The count is positive exactly when some entry carries the label. */
  lemma {:induction false} CntPositive(ts: seq<Tile>, s: seq<int>, d: Dir, l: int)
    ensures Cnt(ts, s, d, l) > 0 <==> exists k :: 0 <= k < |s| && Has(ts, s[k], d, l)
    decreases |s|
  {
    if s != [] {
      var s0 := s[..|s| - 1];
      CntPositive(ts, s0, d, l);
      if exists k :: 0 <= k < |s| && Has(ts, s[k], d, l) {
        var k :| 0 <= k < |s| && Has(ts, s[k], d, l);
        if k < |s| - 1 {
          assert s0[k] == s[k];
        }
      }
      if exists k :: 0 <= k < |s0| && Has(ts, s0[k], d, l) {
        var k :| 0 <= k < |s0| && Has(ts, s0[k], d, l);
        assert s[k] == s0[k];
      }
    }
  }

  /** With exact tables, a lookup is the live count, also for labels outside the catalog. */
  lemma LookupIsCount(c: seq<Table>, ts: seq<Tile>, live: seq<int>, d: Dir, l: int)
    requires CountsOk(c, ts, live)
    ensures Lookup(c[d], l) == Cnt(ts, live, d, l)
  {
    if l !in c[d] {
      CntOffCatalog(ts, live, d, l);
    }
  }

  /** `updateEdgesCounts(index, tile, -1)` keeps the tables exact when the tile leaves the live multiset. */
  lemma RemoveKeepsCounts(c: seq<Table>, ts: seq<Tile>, live: seq<int>, live': seq<int>, x: int)
    requires CountsOk(c, ts, live) && 0 <= x < |ts|
    requires multiset(live) == multiset(live') + multiset{x}
    ensures CountsOk(UpdateEdges(c, ts[x], -1), ts, live')
  {
    var c' := UpdateEdges(c, ts[x], -1);
    forall d: Dir
      ensures c'[d].Keys == Labels(ts, d) && forall l | l in c'[d] :: c'[d][l] == Cnt(ts, live', d, l)
    {
      assert ts[x] in ts;
      forall l | l in c'[d]
        ensures c'[d][l] == Cnt(ts, live', d, l)
      {
        CntRemove(ts, live, live', x, d, l);
      }
    }
  }

  /** `updateEdgesCounts(index, tile, 1)` keeps the tables exact when the tile joins the live multiset. */
  lemma AddKeepsCounts(c: seq<Table>, ts: seq<Tile>, live: seq<int>, live': seq<int>, x: int)
    requires CountsOk(c, ts, live) && 0 <= x < |ts|
    requires multiset(live') == multiset(live) + multiset{x}
    ensures CountsOk(UpdateEdges(c, ts[x], 1), ts, live')
  {
    var c' := UpdateEdges(c, ts[x], 1);
    forall d: Dir
      ensures c'[d].Keys == Labels(ts, d) && forall l | l in c'[d] :: c'[d][l] == Cnt(ts, live', d, l)
    {
      assert ts[x] in ts;
      forall l | l in c'[d]
        ensures c'[d][l] == Cnt(ts, live', d, l)
      {
        CntRemove(ts, live', live, x, d, l);
      }
    }
  }

  /** Exactness only depends on the multiset of live candidates. */
  lemma CountsPerm(c: seq<Table>, ts: seq<Tile>, live: seq<int>, live': seq<int>)
    requires CountsOk(c, ts, live) && multiset(live) == multiset(live')
    ensures CountsOk(c, ts, live')
  {
    forall d: Dir, l | l in c[d]
      ensures c[d][l] == Cnt(ts, live', d, l)
    {
      CntPerm(ts, live, live', d, l);
    }
  }

  /** `edgeAdd`: count one more occurrence of a label. */
  function EdgeAdd(t: Table, l: int): (r: Table)
    ensures r.Keys == t.Keys + {l}
    ensures r[l] == Lookup(t, l) + 1
    ensures forall k | k in t && k != l :: r[k] == t[k]
  {
    if l in t then t[l := t[l] + 1] else t[l := 1]
  }

  /** The catalog-wide table of side `d`, built by `edgeAdd` over the tiles in order. */
  function CatalogTable(ts: seq<Tile>, d: Dir): Table
  {
    if ts == [] then map[] else EdgeAdd(CatalogTable(ts[..|ts| - 1], d), Edge(ts[|ts| - 1], d))
  }

  /** The ids 0 .. n - 1 in order: a fresh cell's candidate array. */
  function Iota(n: nat): (r: seq<int>)
    ensures |r| == n && forall k | 0 <= k < n :: r[k] == k
  {
    seq(n, k => k)
  }

  /**
    The catalog table counts, for every label, the tiles carrying it: it is
    the exact table of a cell whose live candidates are the whole catalog.
  */
  lemma {:induction false} CatalogTableCounts(ts: seq<Tile>, d: Dir)
    ensures CatalogTable(ts, d).Keys == Labels(ts, d)
    ensures forall l | l in CatalogTable(ts, d) :: CatalogTable(ts, d)[l] == Cnt(ts, Iota(|ts|), d, l)
    decreases |ts|
  {
    if ts != [] {
      var n := |ts| - 1;
      var ts0 := ts[..n];
      CatalogTableCounts(ts0, d);
      assert ts == ts0 + [ts[n]];
      assert Labels(ts, d) == Labels(ts0, d) + {Edge(ts[n], d)};
      forall l | l in CatalogTable(ts, d)
        ensures CatalogTable(ts, d)[l] == Cnt(ts, Iota(|ts|), d, l)
      {
        CatalogStep(ts, ts0, d, l);
      }
    }
  }

  /** One `edgeAdd` step of the catalog table. */
  lemma CatalogStep(ts: seq<Tile>, ts0: seq<Tile>, d: Dir, l: int)
    requires |ts| > 0 && ts0 == ts[..|ts| - 1]
    requires CatalogTable(ts0, d).Keys == Labels(ts0, d)
    requires forall l | l in CatalogTable(ts0, d) :: CatalogTable(ts0, d)[l] == Cnt(ts0, Iota(|ts0|), d, l)
    requires l in CatalogTable(ts, d)
    ensures CatalogTable(ts, d)[l] == Cnt(ts, Iota(|ts|), d, l)
  {
    var n := |ts| - 1;
    assert Iota(|ts|)[..n] == Iota(n);
    CntPrefixCatalog(ts, Iota(n), d, l);
    if l !in CatalogTable(ts0, d) {
      CntOffCatalogTable(ts0, d, l);
    }
  }

  /** A label the catalog table lacks is counted nowhere in the catalog. */
  lemma CntOffCatalogTable(ts: seq<Tile>, d: Dir, l: int)
    requires CatalogTable(ts, d).Keys == Labels(ts, d) && l !in CatalogTable(ts, d)
    ensures Cnt(ts, Iota(|ts|), d, l) == 0
  {
    CntOffCatalog(ts, Iota(|ts|), d, l);
  }

  /** Entries naming tiles of a catalog prefix count the same against the prefix. */
  lemma {:induction false} CntPrefixCatalog(ts: seq<Tile>, s: seq<int>, d: Dir, l: int)
    requires |ts| > 0 && forall k | 0 <= k < |s| :: 0 <= s[k] < |ts| - 1
    ensures Cnt(ts, s, d, l) == Cnt(ts[..|ts| - 1], s, d, l)
    decreases |s|
  {
    if s != [] {
      CntPrefixCatalog(ts, s[..|s| - 1], d, l);
    }
  }

  /** The four catalog tables every cell starts with. */
  function CatalogTables(ts: seq<Tile>): (c: seq<Table>)
    ensures CountsOk(c, ts, Iota(|ts|))
  {
    CatalogTableCounts(ts, 0);
    CatalogTableCounts(ts, 1);
    CatalogTableCounts(ts, 2);
    CatalogTableCounts(ts, 3);
    [CatalogTable(ts, 0), CatalogTable(ts, 1), CatalogTable(ts, 2), CatalogTable(ts, 3)]
  }
}

=== FILE: game_state.dfy ===
/**
  The game-session reducer `gameStatesReducer` and its initial state
  `createInitialGameStates` from src/ui/Game.tsx: a pure state machine over
  immutable records with three actions.
*/
module GameState {
  import opened Wrappers

  datatype Screen = Start | Rounds | End

  /** `GameData`: screenshots and times of finished scenes, the seeds used, the round count. */
  datatype GameData = GameData(
    scenesScreenshot: seq<string>,
    numRounds: int,
    times: seq<real>,
    currentScreen: Screen,
    seeds: seq<int>)

  /**
    `GameDataAction`. The reducer dereferences `nextScreen!`, `newTime!` and
    `newSeed!` with non-null assertions, so those fields are mandatory here;
    the optional ones stay optional.
  */
  datatype Action =
    | ChangedScreen(nextScreen: Screen, newRounds: Option<int>, newSeed: Option<int>)
    | NextScene(newScreenshot: string, newTime: real, sceneSeed: int)
    | Reset

  /** `createInitialGameStates`. */
  function Initial(): (g: GameData)
    ensures g.currentScreen == Start && g.numRounds == -1
    ensures g.scenesScreenshot == [] && g.times == [] && g.seeds == []
  {
    GameData([], -1, [], Start, [])
  }

  /** `gameStatesReducer`. */
  function Reduce(g: GameData, a: Action): (r: GameData)
    ensures a.ChangedScreen? ==>
      && r.currentScreen == a.nextScreen
      && r.numRounds == (if a.newRounds.Some? then a.newRounds.value else -1)
      && r.seeds == (if a.newSeed.Some? then g.seeds + [a.newSeed.value] else g.seeds)
      && r.scenesScreenshot == g.scenesScreenshot
      && r.times == g.times
    ensures a.NextScene? ==>
      && r.scenesScreenshot == g.scenesScreenshot + [a.newScreenshot]
      && r.times == g.times + [a.newTime]
      && r.seeds == g.seeds + [a.sceneSeed]
      && r.currentScreen == g.currentScreen
      && r.numRounds == g.numRounds
    ensures a.Reset? ==>
      && r.scenesScreenshot == [] && r.seeds == [] && r.times == []
      && r.currentScreen == g.currentScreen
      && r.numRounds == g.numRounds
  {
    match a
    case ChangedScreen(next, rounds, seed) =>
      g.(currentScreen := next,
         numRounds := if rounds.Some? then rounds.value else -1,
         seeds := if seed.Some? then g.seeds + [seed.value] else g.seeds)
    case NextScene(shot, time, seed) =>
      g.(scenesScreenshot := g.scenesScreenshot + [shot],
         times := g.times + [time],
         seeds := g.seeds + [seed])
    case Reset =>
      g.(scenesScreenshot := [], seeds := [], times := [])
  }

  /** Applies a sequence of actions, first to last. */
  function Run(g: GameData, actions: seq<Action>): GameData
    decreases |actions|
  {
    if |actions| == 0 then g else Run(Reduce(g, actions[0]), actions[1..])
  }

  /** Every recorded scene has a time and a seed. */
  ghost predicate Consistent(g: GameData)
  {
    |g.times| == |g.scenesScreenshot| && |g.seeds| >= |g.times|
  }

  /** One reducer step keeps the lists consistent. */
  lemma ReducePreservesConsistent(g: GameData, a: Action)
    requires Consistent(g)
    ensures Consistent(Reduce(g, a))
  {
  }

  /** From any consistent state, any action sequence keeps the lists consistent. */
  lemma {:induction false} RunPreservesConsistent(g: GameData, actions: seq<Action>)
    requires Consistent(g)
    ensures Consistent(Run(g, actions))
    decreases |actions|
  {
    if |actions| > 0 {
      ReducePreservesConsistent(g, actions[0]);
      RunPreservesConsistent(Reduce(g, actions[0]), actions[1..]);
    }
  }

  /**
    From the initial state, every action sequence keeps one time per
    screenshot and at least as many seeds as times.
  */
  lemma InitialRunConsistent(actions: seq<Action>)
    ensures |Run(Initial(), actions).times| == |Run(Initial(), actions).scenesScreenshot|
    ensures |Run(Initial(), actions).seeds| >= |Run(Initial(), actions).times|
  {
    RunPreservesConsistent(Initial(), actions);
  }
}

=== FILE: grid.dfy ===
/**
  Row-major grid geometry shared by the solver (`getAdjacent` in
  src/map_generator/SimpleTiledModel.ts) and the connectivity repair (the
  `adjacents` array of `pathToDoor`).
*/
module Grid {
  import opened Tiles

  /** Cell index of (row, col) in a grid of the given width. */
  function Cell(row: int, col: int, width: int): int
  {
    row * width + col
  }

  /** Division facts for a row-major index. */
  lemma DivMod(i: int, width: int, height: int)
    requires width > 0 && 0 <= i < width * height
    ensures 0 <= i / width < height && 0 <= i % width < width
    ensures i == Cell(i / width, i % width, width)
  {
    var q := i / width;
    if q >= height {
      assert q * width >= height * width by { MulMono(height, q, width); }
    }
  }

  /** Multiplication by a non-negative factor is monotone. */
  lemma MulMono(a: int, b: int, c: int)
    requires a <= b && c >= 0
    ensures a * c <= b * c
  {
  }

  /** Row and column of a cell index are unique. */
  lemma CellUnique(row: int, col: int, width: int)
    requires width > 0 && 0 <= col < width
    ensures Cell(row, col, width) / width == row
    ensures Cell(row, col, width) % width == col
  {
    var i := Cell(row, col, width);
    var q, r := i / width, i % width;
    assert i == q * width + r;
    if q > row {
      MulMono(row + 1, q, width);
      assert false;
    } else if q < row {
      MulMono(q + 1, row, width);
      assert false;
    }
  }

  /** Cell indices of in-range coordinates are in range. */
  lemma CellInRange(row: int, col: int, width: int, height: int)
    requires 0 <= row < height && 0 <= col < width
    ensures 0 <= Cell(row, col, width) < width * height
  {
    MulMono(row, height - 1, width);
  }

  /**
    `getAdjacent(i)`: the north, east, south and west neighbours of cell
    `i` in a grid of `size` cells, with -1 where the border is reached.
  */
  function Adjacent(i: int, width: int, size: int): (r: seq<int>)
    requires width > 0 && i >= 0
    ensures |r| == 4
  {
    [ if i - width < -1 then -1 else i - width,
      if (i + 1) % width == 0 then -1 else i + 1,
      if i + width >= size then -1 else i + width,
      if i % width == 0 then -1 else i - 1 ]
  }

  /** The row and column offsets of each direction. */
  function DRow(d: Dir): int
  {
    if d == 0 then -1 else if d == 2 then 1 else 0
  }

  function DCol(d: Dir): int
  {
    if d == 1 then 1 else if d == 3 then -1 else 0
  }

  /** Reference definition of the neighbour in direction d, from (row, col) coordinates. */
  function Neighbour(i: int, d: Dir, width: int, height: int): int
    requires width > 0 && i >= 0
  {
    var row, col := i / width + DRow(d), i % width + DCol(d);
    if 0 <= row < height && 0 <= col < width then Cell(row, col, width) else -1
  }

  lemma AdjacentNorth(i: int, width: int, height: int)
    requires width > 0 && height >= 0 && 0 <= i < width * height
    ensures Adjacent(i, width, width * height)[0] == Neighbour(i, 0, width, height)
  {
    DivMod(i, width, height);
    var row, col := i / width, i % width;
    if row > 0 {
      assert i - width == Cell(row - 1, col, width);
    } else {
      assert i == col;
    }
  }

  lemma AdjacentEast(i: int, width: int, height: int)
    requires width > 0 && height >= 0 && 0 <= i < width * height
    ensures Adjacent(i, width, width * height)[1] == Neighbour(i, 1, width, height)
  {
    DivMod(i, width, height);
    var row, col := i / width, i % width;
    assert i + 1 == Cell(row, col + 1, width);
    if col + 1 < width {
      CellUnique(row, col + 1, width);
    } else {
      assert i + 1 == Cell(row + 1, 0, width);
      CellUnique(row + 1, 0, width);
    }
  }

  lemma AdjacentSouth(i: int, width: int, height: int)
    requires width > 0 && height >= 0 && 0 <= i < width * height
    ensures Adjacent(i, width, width * height)[2] == Neighbour(i, 2, width, height)
  {
    DivMod(i, width, height);
    var row, col := i / width, i % width;
    assert i + width == Cell(row + 1, col, width);
    if row + 1 < height {
      CellInRange(row + 1, col, width, height);
    } else {
      assert i + width == height * width + col;
    }
  }

  lemma AdjacentWest(i: int, width: int, height: int)
    requires width > 0 && height >= 0 && 0 <= i < width * height
    ensures Adjacent(i, width, width * height)[3] == Neighbour(i, 3, width, height)
  {
    DivMod(i, width, height);
  }

  /**
    `getAdjacent` returns, in N/E/S/W order, the row-major 4-neighbours of an
    in-range cell, with -1 exactly on the corresponding border.
  */
  lemma AdjacentIsNeighbour(i: int, width: int, height: int, d: Dir)
    requires width > 0 && height >= 0 && 0 <= i < width * height
    ensures Adjacent(i, width, width * height)[d] == Neighbour(i, d, width, height)
    ensures Adjacent(i, width, width * height)[d] == -1 <==>
      (d == 0 && i / width == 0) || (d == 1 && i % width == width - 1) ||
      (d == 2 && i / width == height - 1) || (d == 3 && i % width == 0)
  {
    DivMod(i, width, height);
    if d == 0 {
      AdjacentNorth(i, width, height);
    } else if d == 1 {
      AdjacentEast(i, width, height);
    } else if d == 2 {
      AdjacentSouth(i, width, height);
    } else {
      AdjacentWest(i, width, height);
    }
  }

  /** Adjacent cells are in range and distinct from the cell itself. */
  lemma AdjacentInRange(i: int, width: int, height: int, d: Dir)
    requires width > 0 && height >= 0 && 0 <= i < width * height
    ensures -1 <= Adjacent(i, width, width * height)[d] < width * height
    ensures Adjacent(i, width, width * height)[d] != i
  {
    AdjacentIsNeighbour(i, width, height, d);
    DivMod(i, width, height);
    var row, col := i / width + DRow(d), i % width + DCol(d);
    if 0 <= row < height && 0 <= col < width {
      CellInRange(row, col, width, height);
      CellUnique(row, col, width);
    }
  }

  /** Adjacency is symmetric: if j is i's neighbour in direction d then i is j's neighbour in the opposite one. */
  lemma AdjacentSymmetric(i: int, width: int, height: int, d: Dir)
    requires width > 0 && height >= 0 && 0 <= i < width * height
    requires Adjacent(i, width, width * height)[d] != -1
    ensures var j := Adjacent(i, width, width * height)[d];
      0 <= j < width * height && Adjacent(j, width, width * height)[Opposite(d)] == i
  {
    AdjacentInRange(i, width, height, d);
    AdjacentIsNeighbour(i, width, height, d);
    var j := Adjacent(i, width, width * height)[d];
    DivMod(i, width, height);
    var row, col := i / width + DRow(d), i % width + DCol(d);
    CellUnique(row, col, width);
    AdjacentIsNeighbour(j, width, height, Opposite(d));
    CellUnique(i / width, i % width, width);
  }

  /** Row `r` of a row-major grid, as a sequence of `width` cells. */
  function RowOf<T>(s: seq<T>, width: nat, height: nat, r: int): (row: seq<T>)
    requires |s| == width * height && 0 <= r < height
    ensures |row| == width
  {
    MulMono(r + 1, height, width);
    s[r * width .. r * width + width]
  }

  /** The rows of a row-major grid. */
  function ToRows<T>(s: seq<T>, width: nat, height: nat): (g: seq<seq<T>>)
    requires |s| == width * height
    ensures |g| == height
    ensures forall r | 0 <= r < height :: |g[r]| == width
  {
    seq(height, r requires 0 <= r < height => RowOf(s, width, height, r))
  }

  /** Cell (r, c) of the rows is cell `Cell(r, c, width)` of the flat grid. */
  lemma ToRowsAt<T>(s: seq<T>, width: nat, height: nat, r: int, c: int)
    requires |s| == width * height && 0 <= r < height && 0 <= c < width
    ensures 0 <= Cell(r, c, width) < |s|
    ensures ToRows(s, width, height)[r][c] == s[Cell(r, c, width)]
  {
    CellInRange(r, c, width, height);
    MulMono(r + 1, height, width);
  }
}

=== FILE: lehmer.dfy ===
/**
  The integer state machine of the Lehmer (MINSTD-style) generator built by
  `initRandNumGen` in src/helpers.ts: multiplier 48271, modulus 2^31 - 1.
  The whole generator state is its seed, so two generators with equal seeds
  produce equal draw streams by construction (`Draws` is a function of the seed).
*/
module Lehmer {
  import opened Wrappers

  /** The modulus 2^31 - 1. */
  const M: int := 0x7FFF_FFFF
  /** The multiplier. */
  const A: int := 48271

  datatype Gen = Gen(seed: int)

  /** JavaScript's `%`: the remainder takes the sign of the dividend. */
  function JsRem(a: int, m: int): (r: int)
    requires m > 0
    ensures a >= 0 ==> 0 <= r < m
    ensures a < 0 ==> -m < r <= 0
  {
    if a >= 0 then a % m else -((-a) % m)
  }

  /** The seed that follows `seed` in the stream. */
  function Next(seed: int): int
  {
    JsRem(A * seed, M)
  }

  /**
    `randNum()`: returns the seed as it was before the call divided by M,
    then advances the seed. A seed in [0, M) yields a draw in [0, 1) and a
    next seed that is again in [0, M).
  */
  function RandNum(g: Gen): (res: (real, Gen))
    ensures res.0 * (M as real) == g.seed as real
    ensures res.1.seed == Next(g.seed)
    ensures 0 <= g.seed < M ==> 0.0 <= res.0 < 1.0 && 0 <= res.1.seed < M
    ensures g.seed >= 0 ==> res.1.seed == (A * g.seed) % M
  {
    ((g.seed as real) / (M as real), Gen(Next(g.seed)))
  }

  /**
    `seed(newSeed?)`: a new seed is accepted only when 0 < newSeed < M; the
    (possibly updated) seed is always returned, and with no argument the call
    is a pure read.
  */
  function Seed(g: Gen, newSeed: Option<int>): (res: (Gen, int))
    ensures res.1 == res.0.seed
    ensures newSeed.None? ==> res.0 == g
    ensures res.0 != g ==> newSeed.Some? && 0 < newSeed.value < M && res.0.seed == newSeed.value
    ensures newSeed.Some? && 0 < newSeed.value < M ==> res.1 == newSeed.value
  {
    if newSeed.Some? && newSeed.value > 0 && newSeed.value < M then
      (Gen(newSeed.value), newSeed.value)
    else
      (g, g.seed)
  }

  /** `upperBound()`: the modulus, 2^31 - 1. */
  function UpperBound(): (r: int)
    ensures r + 1 == 0x8000_0000
  {
    M
  }

  /**
    The default seed `1 + t % (M - 1)`, where `t` stands for the clock reading
    plus a random offset (both non-negative integers in the source).
  */
  function DefaultSeed(t: nat): (r: int)
    ensures 1 <= r <= M - 1
  {
    1 + t % (M - 1)
  }

  /** `initRandNumGen(initSeed?)` as written: a supplied seed is taken as is. */
  function InitGen(initSeed: Option<int>, t: nat): (g: Gen)
    ensures initSeed.Some? ==> g.seed == initSeed.value
    ensures initSeed.None? ==> 1 <= g.seed < M
  {
    if initSeed.Some? then Gen(initSeed.value) else Gen(DefaultSeed(t))
  }

  /**
    `initRandNumGen` with the range check that `seed()` applies: an initial
    seed outside (0, M) falls back to the default seed.
  */
  function InitGenChecked(initSeed: Option<int>, t: nat): (g: Gen)
    ensures 0 < g.seed < M
    ensures initSeed.Some? && 0 < initSeed.value < M ==> g.seed == initSeed.value
  {
    if initSeed.Some? && 0 < initSeed.value < M then Gen(initSeed.value) else Gen(DefaultSeed(t))
  }

  /** Advances a generator `n` times. */
  function Advance(g: Gen, n: nat): Gen
    decreases n
  {
    if n == 0 then g else Advance(RandNum(g).1, n - 1)
  }

  /** The first `n` draws of a generator. */
  function Draws(g: Gen, n: nat): (ds: seq<real>)
    ensures |ds| == n
    decreases n
  {
    if n == 0 then [] else [RandNum(g).0] + Draws(RandNum(g).1, n - 1)
  }

  /** Every draw of a generator whose seed is in [0, M) lies in [0, 1). */
  lemma {:induction false} DrawsInUnit(g: Gen, n: nat)
    requires 0 <= g.seed < M
    ensures forall i :: 0 <= i < n ==> 0.0 <= Draws(g, n)[i] < 1.0
    decreases n
  {
    if n > 0 {
      DrawsInUnit(RandNum(g).1, n - 1);
      forall i | 0 <= i < n
        ensures 0.0 <= Draws(g, n)[i] < 1.0
      {
        if i > 0 {
          assert Draws(g, n)[i] == Draws(RandNum(g).1, n - 1)[i - 1];
        }
      }
    }
  }

  /** The stream is a single sequence: n + k draws are n draws followed by k more. */
  lemma {:induction false} DrawsSplit(g: Gen, n: nat, k: nat)
    ensures Draws(g, n + k) == Draws(g, n) + Draws(Advance(g, n), k)
    decreases n
  {
    if n > 0 {
      DrawsSplit(RandNum(g).1, n - 1, k);
    }
  }

  /** A generator started by the range-checked initialisation only ever draws from [0, 1). */
  lemma CheckedInitDrawsInUnit(initSeed: Option<int>, t: nat, n: nat)
    ensures forall i :: 0 <= i < n ==> 0.0 <= Draws(InitGenChecked(initSeed, t), n)[i] < 1.0
  {
    DrawsInUnit(InitGenChecked(initSeed, t), n);
  }

  /** As written, an initial seed of M makes the very first draw 1.0, outside [0, 1). */
  lemma InitSeedModulusDrawsOne()
    ensures RandNum(InitGen(Some(M), 0)).0 == 1.0
  {
  }

  /** As written, an initial seed of 0 is a fixed point: every draw is 0. */
  lemma {:induction false} InitSeedZeroIsStuck(n: nat)
    ensures forall i :: 0 <= i < n ==> Draws(InitGen(Some(0), 0), n)[i] == 0.0
    decreases n
  {
    if n > 0 {
      InitSeedZeroIsStuck(n - 1);
      assert RandNum(Gen(0)).1 == Gen(0);
      forall i | 0 <= i < n
        ensures Draws(InitGen(Some(0), 0), n)[i] == 0.0
      {
        if i > 0 {
          assert Draws(Gen(0), n)[i] == Draws(Gen(0), n - 1)[i - 1];
        }
      }
    }
  }
}

=== FILE: level_layer.dfy ===
/**
  The post-processing of a generated level (`levelLayerWorker` in
  src/map_generator/workers/levelLayer.ts and `makeLevelLayer` in
  src/map.ts), after the nested solver has produced a tile map: the player
  marker, the 5 x 3 door block, the air flags, the repeated door-path repair,
  the floating-grass pass and the colliders; and the map size draw of
  `makeMap` (src/map.ts).

  Frame numbers (`AIR_FRAME`, `GRASS_FRAME`) and the frame side are
  parameters: the constants file is not part of this model.
*/
module LevelLayer {
  import opened Tiles
  import opened Grid
  import opened Draws
  import Proportions
  import SpawnPoints
  import PathToDoor
  import Colliders

  /** `makeMap`: width 50 + floor(d1 * 21) and height 40 + floor(d2 * 11). */
  function MapSize(d1: real, d2: real): (r: (int, int))
    requires Unit(d1) && Unit(d2)
    ensures 50 <= r.0 <= 70 && 40 <= r.1 <= 50
  {
    (50 + Pick(d1, 21), 40 + Pick(d2, 11))
  }

  /** The air proportion drawn by `levelLayerWorker`. */
  function WorkerAirProp(d: real): (a: real)
    requires Unit(d)
    ensures 0.6 <= a < 0.8
  {
    d * 0.2 + 0.6
  }

  /** The air proportion drawn by `makeLevelLayer`. */
  function MapAirProp(d: real): (a: real)
    requires Unit(d)
    ensures 0.4 <= a < 0.7
  {
    d * 0.3 + 0.4
  }

  /** `{ 0: airProp, 60: (7 * (1 - airProp)) / 12 }`, in key order. */
  function LevelProportions(a: real): Proportions.Entries
  {
    [(0, a), (60, 7.0 * (1.0 - a) / 12.0)]
  }

  /**
    For any drawn air proportion the values are in [0, 1] and sum to less
    than 1, so the setter accepts the object exactly when the catalog has
    frames 0 and 60.
  */
  lemma LevelProportionsAccepted(a: real, frames: set<int>)
    requires 0.0 <= a < 1.0
    ensures Proportions.SetterAccepts(LevelProportions(a), frames) <==> 0 in frames && 60 in frames
    ensures Proportions.Total(LevelProportions(a)) < 1.0
  {
    var es := LevelProportions(a);
    assert es[..|es| - 1] == [(0, a)];
    assert [(0, a)][..0] == [];
    assert Proportions.Total([(0, a)]) == a;
    assert Proportions.Total(es) == a + 7.0 * (1.0 - a) / 12.0;
  }

  /** The top-left cell of the door: column floor(dx * (width - 4)), row floor(dy * (height - 2)). */
  function DoorTopLeft(dx: real, dy: real, width: int, height: int): (c: SpawnPoints.Coord)
    requires Unit(dx) && Unit(dy) && width >= 5 && height >= 3
    ensures 0 <= c.x <= width - 5 && 0 <= c.y <= height - 3
  {
    SpawnPoints.Coord(Pick(dx, width - 4), Pick(dy, height - 2))
  }

  /** Cell k lies in the 5-wide, 3-high door block whose top-left cell is c. */
  predicate InDoor(k: int, c: SpawnPoints.Coord, width: int)
    requires width > 0
  {
    c.x <= k % width < c.x + 5 && c.y <= k / width < c.y + 3
  }

  /** `doorIndex`: the cell in the middle of the door block's second row. */
  function DoorIndex(c: SpawnPoints.Coord, width: int): int
  {
    c.x + 2 + (c.y + 1) * width
  }

  lemma DoorIndexInDoor(c: SpawnPoints.Coord, width: int, height: int)
    requires width > 0 && 0 <= c.x <= width - 5 && 0 <= c.y <= height - 3
    ensures 0 <= DoorIndex(c, width) < width * height && InDoor(DoorIndex(c, width), c, width)
    ensures DoorIndex(c, width) / width == c.y + 1 && DoorIndex(c, width) % width == c.x + 2
  {
    assert DoorIndex(c, width) == Cell(c.y + 1, c.x + 2, width);
    CellInRange(c.y + 1, c.x + 2, width, height);
    CellUnique(c.y + 1, c.x + 2, width);
  }

  /** The door cells written after `i` full columns and `j` cells of column `i`. */
  predicate DoorWritten(k: int, c: SpawnPoints.Coord, width: int, i: int, j: int)
    requires width > 0
  {
    var x, y := k % width - c.x, k / width - c.y;
    0 <= y < 3 && 0 <= x && (x < i || (x == i && y < j))
  }

  lemma DoorStep(k: int, c: SpawnPoints.Coord, width: int, height: int, i: int, j: int)
    requires width > 0 && 0 <= c.x <= width - 5 && 0 <= c.y <= height - 3
    requires 0 <= i < 5 && 0 <= j < 3 && 0 <= k < width * height
    ensures 0 <= Cell(c.y + j, c.x + i, width) < width * height
    ensures DoorWritten(k, c, width, i, j + 1) <==>
      DoorWritten(k, c, width, i, j) || k == Cell(c.y + j, c.x + i, width)
  {
    CellInRange(c.y + j, c.x + i, width, height);
    CellUnique(c.y + j, c.x + i, width);
    DivMod(k, width, height);
  }

  /** The door loop: the fifteen cells of the block become tile 0, nothing else changes. */
  method PlaceDoor(tilemap: seq<int>, width: int, height: int, c: SpawnPoints.Coord) returns (r: seq<int>)
    requires width > 0 && |tilemap| == width * height
    requires 0 <= c.x <= width - 5 && 0 <= c.y <= height - 3
    ensures |r| == |tilemap|
    ensures forall k | 0 <= k < |r| :: r[k] == if InDoor(k, c, width) then 0 else tilemap[k]
  {
    r := tilemap;
    for i := 0 to 5
      invariant |r| == |tilemap|
      invariant forall k | 0 <= k < |r| :: r[k] == if DoorWritten(k, c, width, i, 0) then 0 else tilemap[k]
    {
      var x := c.x + i;
      for j := 0 to 3
        invariant |r| == |tilemap|
        invariant forall k | 0 <= k < |r| :: r[k] == if DoorWritten(k, c, width, i, j) then 0 else tilemap[k]
      {
        var y := c.y + j;
        var index := y * width + x;
        forall k | 0 <= k < |r|
          ensures DoorWritten(k, c, width, i, j + 1) <==> DoorWritten(k, c, width, i, j) || k == index
        {
          DoorStep(k, c, width, height, i, j);
        }
        DoorStep(0, c, width, height, i, j);
        r := r[index := 0];
      }
    }
  }

  /** `isAirTile`: the cells whose frame is air or grass. */
  method AirFlags(tileset: seq<Tile>, tilemap: seq<int>, air: int, grass: int) returns (isAir: seq<bool>)
    requires ValidMap(tileset, tilemap)
    ensures |isAir| == |tilemap|
    ensures forall i | 0 <= i < |tilemap| ::
      isAir[i] <==> FrameAt(tileset, tilemap, i) == air || FrameAt(tileset, tilemap, i) == grass
  {
    isAir := seq(|tilemap|, _ => false);
    for i := 0 to |tilemap|
      invariant |isAir| == |tilemap|
      invariant forall k | 0 <= k < i ::
        isAir[k] <==> FrameAt(tileset, tilemap, k) == air || FrameAt(tileset, tilemap, k) == grass
      invariant forall k | i <= k < |tilemap| :: !isAir[k]
    {
      var tile := tileset[tilemap[i]];
      if tile.frame == air || tile.frame == grass {
        isAir := isAir[i := true];
      }
    }
  }

  /** A grass cell on the bottom row or with air below it. */
  predicate Floating(tileset: seq<Tile>, tilemap: seq<int>, isAir: seq<bool>, width: int, height: int, grass: int, i: int)
    requires ValidMap(tileset, tilemap) && 0 <= i < |tilemap| && |isAir| == |tilemap| && width > 0
  {
    FrameAt(tileset, tilemap, i) == grass &&
    (i >= (height - 1) * width || (i + width < |isAir| && isAir[i + width]))
  }

  /**
    The floating-grass pass: floating grass becomes tile 0 and every other
    cell keeps its tile. When tile 0 is not itself grass, no grass is left on
    the bottom row or above an air cell.
  */
  method ClearFloatingGrass(tileset: seq<Tile>, tilemap: seq<int>, isAir: seq<bool>, width: int, height: int, grass: int)
    returns (r: seq<int>)
    requires ValidMap(tileset, tilemap) && |isAir| == |tilemap| && width > 0 && |tilemap| == width * height
    ensures |r| == |tilemap| && ValidMap(tileset, r)
    ensures forall i | 0 <= i < |r| ::
      r[i] == if Floating(tileset, tilemap, isAir, width, height, grass, i) then 0 else tilemap[i]
    ensures |tileset| > 0 && tileset[0].frame != grass ==>
      forall i | 0 <= i < |r| && FrameAt(tileset, r, i) == grass ::
        i < (height - 1) * width && !isAir[i + width]
  {
    r := tilemap;
    for i := 0 to |tilemap|
      invariant |r| == |tilemap| && ValidMap(tileset, r)
      invariant forall k | 0 <= k < i ::
        r[k] == if Floating(tileset, tilemap, isAir, width, height, grass, k) then 0 else tilemap[k]
      invariant forall k | i <= k < |r| :: r[k] == tilemap[k]
    {
      if tileset[r[i]].frame == grass && (i >= (height - 1) * width || isAir[i + width]) {
        r := r[i := 0];
      }
    }
    assert (height - 1) * width + width == |r|;
  }

  /** The count of non-air cells drops when some wall becomes air and no air cell is lost. */
  lemma {:induction false} CountFalseGrow(a: seq<bool>, b: seq<bool>, i: int)
    requires |a| == |b| && 0 <= i < |a| && !a[i] && b[i]
    requires forall k | 0 <= k < |a| && a[k] :: b[k]
    ensures PathToDoor.CountFalse(b) < PathToDoor.CountFalse(a)
  {
    var n := |a|;
    var a', b' := a[..n - 1], b[..n - 1];
    if i < n - 1 {
      CountFalseGrow(a', b', i);
      CountFalseMono(a', b');
    } else {
      CountFalseMono(a', b');
    }
  }

  lemma {:induction false} CountFalseMono(a: seq<bool>, b: seq<bool>)
    requires |a| == |b| && forall k | 0 <= k < |a| && a[k] :: b[k]
    ensures PathToDoor.CountFalse(b) <= PathToDoor.CountFalse(a)
  {
    if |a| > 0 {
      CountFalseMono(a[..|a| - 1], b[..|b| - 1]);
    }
  }

  /**
    `while (!pathToDoor(...));`: repeat the search until the door is
    reached. Every failing call opens a wall, so the loop ends, and at its
    end the door is joined to the player through air.
  */
  method ConnectToDoor(player: int, door: int, width: int, isAir: seq<bool>,
                       tilemap: seq<int>, tileset: seq<Tile>, grass: int, clearGrass: bool)
    returns (air: seq<bool>, tiles: seq<int>)
    requires width > 0 && |isAir| % width == 0 && 2 <= |isAir| < PathToDoor.ArrayLimit
    requires 0 <= player < |isAir| && 0 <= door < |isAir|
    requires |tilemap| == |isAir| && ValidMap(tileset, tilemap)
    ensures |air| == |isAir| && PathToDoor.Linked(player, door, width, air)
    ensures forall i | 0 <= i < |isAir| && isAir[i] :: air[i]
    ensures |tiles| == |tilemap| && ValidMap(tileset, tiles)
    ensures forall i | 0 <= i < |tiles| ::
      tiles[i] == tilemap[i] ||
      (clearGrass && tiles[i] == 0 && tileset[tilemap[i]].frame == grass &&
       i + width < |isAir| && !isAir[i + width])
  {
    var found := false;
    air, tiles := isAir, tilemap;
    while !found
      invariant |air| == |isAir| && forall i | 0 <= i < |isAir| && isAir[i] :: air[i]
      invariant found ==> PathToDoor.Linked(player, door, width, air)
      invariant |tiles| == |tilemap| && ValidMap(tileset, tiles)
      invariant forall i | 0 <= i < |tiles| ::
        tiles[i] == tilemap[i] ||
        (clearGrass && tiles[i] == 0 && tileset[tilemap[i]].frame == grass &&
         i + width < |isAir| && !isAir[i + width])
      decreases PathToDoor.CountFalse(air), !found
    {
      ghost var air0 := air;
      ghost var visited, carved;
      found, air, tiles, visited, carved := PathToDoor.PathToDoor(player, door, width, air, tiles, tileset, grass, clearGrass);
      if !found {
        CountFalseGrow(air0, air, carved[0]);
      } else {
        CountFalseMono(air0, air);
      }
    }
  }

  lemma WholeRows(width: int, height: int)
    requires width > 0
    ensures (width * height) % width == 0
  {
    CellUnique(height, 0, width);
  }

  /** What a generated level hands to the game. */
  datatype Level = Level(tilemap: seq<int>, doorTopLeft: SpawnPoints.Coord, doorIndex: int, playerIndex: int,
                         colliders: seq<Colliders.Rect>, spawns: SpawnPoints.Spawns, isAir: seq<bool>)

  /**
    Everything `levelLayerWorker` (`inMap` false) and `makeLevelLayer`
    (`inMap` true) do with the solver's tile map: spawn points, player
    marker, door, air flags, door-path repair, floating-grass pass and
    colliders. `draws` feeds `getSpawnPoints`; `dx` and `dy` place the door.
  */
  method LevelPost(tileset: seq<Tile>, tilemap: seq<int>, width: int, height: int, side: int,
                   air: int, grass: int, draws: seq<real>, dx: real, dy: real, inMap: bool)
    returns (lv: Level, ghost cells: seq<Colliders.Rect>)
    requires |tileset| >= 2 && ValidMap(tileset, tilemap)
    requires width >= 5 && height >= 3 && |tilemap| == width * height && |tilemap| < PathToDoor.ArrayLimit && side > 0
    requires |draws| >= |tilemap| + 2 && AllUnit(draws) && Unit(dx) && Unit(dy)
    ensures |lv.tilemap| == |tilemap| && ValidMap(tileset, lv.tilemap) && |lv.isAir| == |tilemap|
    ensures lv.doorTopLeft == DoorTopLeft(dx, dy, width, height) && lv.doorIndex == DoorIndex(lv.doorTopLeft, width)
    ensures 0 <= lv.playerIndex < |tilemap| && lv.spawns.player == [SpawnPoints.CoordOf(lv.playerIndex, width, side)]
    // the door block is tile 0
    ensures forall k | 0 <= k < |tilemap| && InDoor(k, lv.doorTopLeft, width) :: lv.tilemap[k] == 0
    // the door can be reached from the player through air
    ensures PathToDoor.Linked(lv.playerIndex, lv.doorIndex, width, lv.isAir)
    // no grass is left floating, unless tile 0 is grass itself
    ensures tileset[0].frame != grass ==>
      forall i | 0 <= i < |tilemap| && FrameAt(tileset, lv.tilemap, i) == grass ::
        i < (height - 1) * width && !lv.isAir[i + width]
    // the colliders cover exactly the cells that are not air
    ensures |lv.colliders| == |cells|
    ensures forall k | 0 <= k < |cells| ::
      lv.colliders[k] == Colliders.Scale(cells[k], side) && Colliders.InGrid(cells[k], width, height)
    ensures forall i | 0 <= i < |tilemap| ::
      Colliders.Count(cells, i / width, i % width) == if lv.isAir[i] then 0 else 1
  {
    var tm2, c, doorIndex, playerIndex, sp, isAir :=
      LevelMap(tileset, tilemap, width, height, side, air, grass, draws, dx, dy, inMap);
    var colliders;
    cells, colliders := Colliders.GetRectColliders(isAir, width, height, side);
    lv := Level(tm2, c, doorIndex, playerIndex, colliders, sp, isAir);
  }

  /** The spawn points of either variant, and the grid cell of the player's point. */
  method PlacePlayer(tileset: seq<Tile>, tilemap: seq<int>, width: int, height: int, side: int,
                     air: int, grass: int, draws: seq<real>, inMap: bool)
    returns (sp: SpawnPoints.Spawns, playerIndex: int)
    requires |tileset| >= 2 && ValidMap(tileset, tilemap)
    requires width >= 5 && height >= 3 && |tilemap| == width * height && side > 0
    requires |draws| >= |tilemap| + 2 && AllUnit(draws)
    ensures 0 <= playerIndex < |tilemap| && sp.player == [SpawnPoints.CoordOf(playerIndex, width, side)]
  {
    var pool: seq<SpawnPoints.Coord>;
    ghost var playerCell: int;
    if inMap {
      sp, pool, playerCell := SpawnPoints.GetSpawnPointsFifths(tileset, tilemap, width, height, side, air, grass, draws);
    } else {
      sp, pool, playerCell := SpawnPoints.GetSpawnPoints(tileset, tilemap, width, height, side, air, grass, draws);
    }
    SpawnPoints.PlayerIndexOfCell(playerCell, width, side);
    playerIndex := SpawnPoints.PlayerIndex(sp.player[0], width, side).value;
  }

  /** The map part of `LevelPost`: spawn points, the player, the door, the path to it and the grass clean-up. */
  method LevelMap(tileset: seq<Tile>, tilemap: seq<int>, width: int, height: int, side: int,
                  air: int, grass: int, draws: seq<real>, dx: real, dy: real, inMap: bool)
    returns (tm2: seq<int>, c: SpawnPoints.Coord, doorIndex: int, playerIndex: int, sp: SpawnPoints.Spawns, isAir: seq<bool>)
    requires |tileset| >= 2 && ValidMap(tileset, tilemap)
    requires width >= 5 && height >= 3 && |tilemap| == width * height && |tilemap| < PathToDoor.ArrayLimit && side > 0
    requires |draws| >= |tilemap| + 2 && AllUnit(draws) && Unit(dx) && Unit(dy)
    ensures |tm2| == |tilemap| && ValidMap(tileset, tm2) && |isAir| == |tilemap|
    ensures c == DoorTopLeft(dx, dy, width, height) && doorIndex == DoorIndex(c, width)
    ensures 0 <= playerIndex < |tilemap| && sp.player == [SpawnPoints.CoordOf(playerIndex, width, side)]
    ensures forall k | 0 <= k < |tilemap| && InDoor(k, c, width) :: tm2[k] == 0
    ensures PathToDoor.Linked(playerIndex, doorIndex, width, isAir)
    ensures tileset[0].frame != grass ==>
      forall i | 0 <= i < |tilemap| && FrameAt(tileset, tm2, i) == grass ::
        i < (height - 1) * width && !isAir[i + width]
  {
    sp, playerIndex := PlacePlayer(tileset, tilemap, width, height, side, air, grass, draws, inMap);
    var tm := tilemap[playerIndex := 1];
    c := DoorTopLeft(dx, dy, width, height);
    doorIndex := DoorIndex(c, width);
    DoorIndexInDoor(c, width, height);
    tm := PlaceDoor(tm, width, height, c);
    isAir := AirFlags(tileset, tm, air, grass);
    WholeRows(width, height);
    isAir, tm := ConnectToDoor(playerIndex, doorIndex, width, isAir, tm, tileset, grass, inMap);
    tm2 := ClearFloatingGrass(tileset, tm, isAir, width, height, grass);
  }

}

=== FILE: nwfc.dfy ===
/**
  The drivers of the nested solver (src/NWFC.ts). `#simpleTiledModelGenMap`
  runs the flat solver on one grid with the stored frame proportions and
  the fixed tiles. `#genSubgrid` solves one block and writes it back into
  the map. `generateMap` tiles the whole map with blocks, or falls back to
  one whole-grid solve when the catalog is not sub-complete.

  The stored proportions are passed as the entries of the proportion
  object in key order; the random generator and the entropy oracle are
  threaded through to the flat solver.
*/
module Nwfc {
  import opened Wrappers
  import opened Tiles
  import opened Grid
  import opened NwfcBlocks
  import Proportions
  import SolverState
  import SolverFix
  import SolverGenerate
  import SolverWeights
  import SubComplete
  import Lehmer

  /** The weights the flat solver runs with after `init` and `setProportion(props)`, if it accepts them. */
  function Weights(ts: seq<Tile>, props: Proportions.Entries): (wt: Option<seq<real>>)
    requires Proportions.DistinctKeys(props)
    ensures wt.Some? <==> SolverWeights.SetProportion(SolverWeights.InitShares(ts, |ts|), props).Some?
    ensures wt.Some? ==> SolverGenerate.WeightsOk(ts, wt.value)
  {
    var p := SolverWeights.InitShares(ts, |ts|);
    SolverWeights.InitSharesFor(ts);
    var sp := SolverWeights.SetProportion(p, props);
    if sp.None? then None
    else
      SolverWeights.SetKeepsShares(ts, p, props);
      SolverWeights.WeightsNonNegative(ts, p, props);
      SolverWeights.TileWeightsOk(ts, sp.value);
      Some(SolverWeights.TileWeights(ts, sp.value))
  }

  /**
    `#simpleTiledModelGenMap(width, height, fixedTiles)`: nothing when the
    solver refuses the proportions or one of the fixed tiles, otherwise
    what `generateMap` returns. A map it returns is a consistent tiling of
    the grid that shows every fixed tile where it was fixed.
  */
  method SolveGrid(ts: seq<Tile>, width: nat, height: nat, props: Proportions.Entries, fixed: seq<(int, int)>,
                   ent: seq<int> -> real, g: Lehmer.Gen, fuel: nat)
    returns (r: Option<seq<int>>, g': Lehmer.Gen)
    requires Proportions.DistinctKeys(props) && SolverFix.CellsIn(fixed, width * height)
    requires 0 <= g.seed < Lehmer.M
    ensures 0 <= g'.seed < Lehmer.M
    ensures Weights(ts, props).None? ==> r.None?
    ensures r.Some? ==> |r.value| == width * height
    ensures SolverGenerate.EntropyOk(ent) && r.Some? ==> SolverGenerate.Consistent(ts, width, r.value)
    ensures SolverGenerate.EntropyOk(ent) && r.Some? ==>
              forall k | 0 <= k < |fixed| :: r.value[fixed[k].0] == fixed[k].1
  {
    var wt := Weights(ts, props);
    if wt.None? {
      return None, g;
    }
    var m := SolverState.Init(ts, width, height);
    SolverGenerate.InitStable(ts, width, height);
    var ok, m1, H1, K1 := SolverFix.FixTiles(m, fixed, [], 0);
    if !ok {
      return None, g;
    }
    var out, m2;
    out, m2, g' := SolverGenerate.GenerateMap(m1, wt.value, ent, g, fuel, H1, K1);
    if out.Generated? {
      r := Some(out.tiles);
    } else {
      r := None;
    }
  }

  /**
    `validateMap(map)`: one solve of the grid with every cell of the map fixed
    to its value. A map that passes is a consistent tiling of the grid.
  */
  method ValidateMap(ts: seq<Tile>, width: nat, height: nat, props: Proportions.Entries, tiles: seq<int>,
                     ent: seq<int> -> real, g: Lehmer.Gen, fuel: nat)
    returns (ok: bool, g': Lehmer.Gen)
    requires Proportions.DistinctKeys(props) && |tiles| <= width * height
    requires 0 <= g.seed < Lehmer.M
    ensures 0 <= g'.seed < Lehmer.M
    ensures Weights(ts, props).None? ==> !ok
    ensures SolverGenerate.EntropyOk(ent) && ok ==> ValidMap(ts, tiles)
    ensures SolverGenerate.EntropyOk(ent) && ok && |tiles| == width * height ==> SolverGenerate.Consistent(ts, width, tiles)
  {
    var fixed := FixAll(tiles);
    var r;
    r, g' := SolveGrid(ts, width, height, props, fixed, ent, g, fuel);
    ok := r.Some?;
    if SolverGenerate.EntropyOk(ent) && ok {
      Pinned(ts, width, r.value, tiles);
    }
  }

  /** The fixed tiles `validateMap` hands over: every cell of the map at its own index. */
  function FixAll(tiles: seq<int>): (fixed: seq<(int, int)>)
    ensures |fixed| == |tiles| && SolverFix.CellsIn(fixed, |tiles|)
    ensures forall k | 0 <= k < |tiles| :: fixed[k].0 == k && fixed[k].1 == tiles[k]
  {
    seq(|tiles|, k requires 0 <= k < |tiles| => (k, tiles[k]))
  }

  /**
    The fixed tiles reach `fixTiles` on a freshly initialised grid; when
    they name distinct cells, as those of `validateMap` (`FixAll`) and of
    `#genSubgrid` (`SubgridFixedTiles`) do, they are fresh, so the
    corrected `SolverFix.FixTiles` behaves as the source's does.
  */
  lemma InitFresh(ts: seq<Tile>, width: nat, height: nat, fixed: seq<(int, int)>)
    requires SolverFix.CellsIn(fixed, width * height)
    requires forall k, l | 0 <= k < l < |fixed| :: fixed[k].0 != fixed[l].0
    ensures SolverFix.FreshCells(SolverState.Init(ts, width, height), fixed)
  {
  }

  /** A consistent tiling that shows every fixed tile of `FixAll(tiles)` agrees with `tiles` cell by cell. */
  lemma Pinned(ts: seq<Tile>, width: int, r: seq<int>, tiles: seq<int>)
    requires |tiles| <= |r| && SolverGenerate.Consistent(ts, width, r)
    requires forall k | 0 <= k < |FixAll(tiles)| :: r[FixAll(tiles)[k].0] == FixAll(tiles)[k].1
    ensures ValidMap(ts, tiles)
    ensures |tiles| == |r| ==> SolverGenerate.Consistent(ts, width, tiles)
  {
    var fixed := FixAll(tiles);
    assert forall k | 0 <= k < |tiles| :: r[k] == fixed[k].1 == tiles[k];
    if |tiles| == |r| {
      assert r == tiles;
    }
  }

  /** The values a block's cells hold in the full map, in local row-major order. */
  function Block(m: seq<int>, width: int, topLeft: int, bw: int, bh: int): (b: seq<int>)
    requires bw >= 1 && bh >= 1 && BlockInMap(|m|, width, topLeft, bw, bh)
    ensures |b| == bw * bh && forall i | 0 <= i < bw * bh :: b[i] == HomeValue(m, width, topLeft, bw, bh, i)
  {
    seq(bw * bh, i requires 0 <= i < bw * bh => HomeValue(m, width, topLeft, bw, bh, i))
  }

  /** The resolved cells of a block's left column and top row: the ones handed over as fixed tiles. */
  ghost predicate KeepsBorder(m: seq<int>, m': seq<int>, width: int, topLeft: int, bw: int, bh: int)
    requires 1 <= bw && 1 <= bh && BlockInMap(|m|, width, topLeft, bw, bh) && |m'| == |m|
  {
    && (forall r | 0 <= r < bh && m[BlockCell(width, topLeft, r, 0)] > -1 ::
          m'[BlockCell(width, topLeft, r, 0)] == m[BlockCell(width, topLeft, r, 0)])
    && (forall c | 0 <= c < bw && m[BlockCell(width, topLeft, 0, c)] > -1 ::
          m'[BlockCell(width, topLeft, 0, c)] == m[BlockCell(width, topLeft, 0, c)])
  }

  /**
    After a successful `#genSubgrid` at `topLeft`: the block lies inside the
    map, holds a consistent tiling and kept its resolved left column and top row.
  */
  ghost predicate Solved(ts: seq<Tile>, m: seq<int>, m': seq<int>, width: int, height: int, topLeft: int)
  {
    && width > 0 && 0 <= topLeft < width * height && |m| == |m'| == width * height
    && var dims := SubgridDims(width, height, topLeft);
       && BlockFits(width, height, topLeft, dims.0, dims.1)
       && BlockInMap(|m|, width, topLeft, dims.0, dims.1)
       && SolverGenerate.Consistent(ts, dims.0, Block(m', width, topLeft, dims.0, dims.1))
       && KeepsBorder(m, m', width, topLeft, dims.0, dims.1)
  }

  /**
    `#genSubgrid(map, topLeftIndex)`: refused for an origin past the map;
    otherwise the block at the origin is solved with its resolved left
    column and top row fixed and, on success, written back. Cells outside
    the block never change, nor does anything when the block fails; the
    written block is a consistent tiling that keeps the fixed cells.
  */
  method GenSubgrid(ts: seq<Tile>, width: nat, height: nat, props: Proportions.Entries, m: seq<int>, topLeft: nat,
                    ent: seq<int> -> real, g: Lehmer.Gen, fuel: nat)
    returns (ok: bool, m': seq<int>, g': Lehmer.Gen)
    requires width > 0 && |m| == width * height
    requires Proportions.DistinctKeys(props) && 0 <= g.seed < Lehmer.M
    ensures 0 <= g'.seed < Lehmer.M && |m'| == |m|
    ensures topLeft >= width * height ==> !ok
    ensures !ok ==> m' == m
    ensures ok ==> topLeft < width * height
    ensures ok ==> var dims := SubgridDims(width, height, topLeft);
              && BlockFits(width, height, topLeft, dims.0, dims.1)
              && forall k | 0 <= k < |m| && k !in BlockCells(width, topLeft, dims.0, dims.1) :: m'[k] == m[k]
    ensures SolverGenerate.EntropyOk(ent) && ok ==> Solved(ts, m, m', width, height, topLeft)
  {
    if topLeft >= width * height {
      return false, m, g;
    }
    var dims := SubgridDims(width, height, topLeft);
    var bw, bh := dims.0, dims.1;
    SubgridFits(width, height, topLeft);
    BlockFitsInMap(width, height, topLeft, bw, bh);
    var fixed := SubgridFixedTiles(m, width, topLeft, bw, bh);
    var sub;
    sub, g' := SolveGrid(ts, bw, bh, props, fixed, ent, g, fuel);
    if sub.None? {
      return false, m, g';
    }
    m' := WriteBack(m, width, topLeft, bw, bh, sub.value);
    ok := true;
    if SolverGenerate.EntropyOk(ent) {
      BlockIsSolved(ts, m', width, topLeft, bw, bh, sub.value);
      BorderKept(m, m', width, topLeft, bw, bh, fixed, sub.value);
      assert Solved(ts, m, m', width, height, topLeft);
    }
  }

  /** A block written back from a consistent solve reads back as that solve. */
  lemma BlockIsSolved(ts: seq<Tile>, m: seq<int>, width: int, topLeft: int, bw: int, bh: int, sub: seq<int>)
    requires 1 <= bw && 1 <= bh && BlockInMap(|m|, width, topLeft, bw, bh) && |sub| == bw * bh
    requires forall i | 0 <= i < bw * bh :: HomeValue(m, width, topLeft, bw, bh, i) == sub[i]
    requires SolverGenerate.Consistent(ts, bw, sub)
    ensures SolverGenerate.Consistent(ts, bw, Block(m, width, topLeft, bw, bh))
  {
    assert Block(m, width, topLeft, bw, bh) == sub;
  }

  /** The fixed tiles come back where they were fixed, so the written block keeps the resolved border cells. */
  lemma BorderKept(m: seq<int>, m': seq<int>, width: int, topLeft: int, bw: int, bh: int,
                   fixed: seq<(int, int)>, sub: seq<int>)
    requires 1 <= bw && 1 <= bh && BlockInMap(|m|, width, topLeft, bw, bh) && |m'| == |m| && |sub| == bw * bh
    requires forall r | 0 <= r < bh && m[BlockCell(width, topLeft, r, 0)] > -1 ::
               (Cell(r, 0, bw), m[BlockCell(width, topLeft, r, 0)]) in fixed
    requires forall c | 1 <= c < bw && m[BlockCell(width, topLeft, 0, c)] > -1 ::
               (c, m[BlockCell(width, topLeft, 0, c)]) in fixed
    requires forall k | 0 <= k < |fixed| :: 0 <= fixed[k].0 < |sub| && sub[fixed[k].0] == fixed[k].1
    requires forall i | 0 <= i < bw * bh :: HomeValue(m', width, topLeft, bw, bh, i) == sub[i]
    ensures KeepsBorder(m, m', width, topLeft, bw, bh)
  {
    forall r | 0 <= r < bh && m[BlockCell(width, topLeft, r, 0)] > -1
      ensures m'[BlockCell(width, topLeft, r, 0)] == m[BlockCell(width, topLeft, r, 0)]
    {
      var i := Cell(r, 0, bw);
      CellInRange(r, 0, bw, bh);
      HomeIsBlockCell(width, topLeft, bw, r, 0);
      var k :| 0 <= k < |fixed| && fixed[k] == (i, m[BlockCell(width, topLeft, r, 0)]);
      assert HomeValue(m', width, topLeft, bw, bh, i) == sub[i];
    }
    forall c | 0 <= c < bw && m[BlockCell(width, topLeft, 0, c)] > -1
      ensures m'[BlockCell(width, topLeft, 0, c)] == m[BlockCell(width, topLeft, 0, c)]
    {
      if c > 0 {
        CellInRange(0, c, bw, bh);
        HomeIsBlockCell(width, topLeft, bw, 0, c);
        var k :| 0 <= k < |fixed| && fixed[k] == (c, m[BlockCell(width, topLeft, 0, c)]);
        assert Cell(0, c, bw) == c;
        assert HomeValue(m', width, topLeft, bw, bh, c) == sub[c];
      }
    }
  }

  /** Every cell of the block at `origin` names a catalog tile. */
  ghost predicate BlockResolved(ts: seq<Tile>, m: seq<int>, width: int, height: int, origin: int)
  {
    && width > 0 && 0 <= origin < width * height && |m| == width * height
    && var dims := SubgridDims(width, height, origin);
       && BlockFits(width, height, origin, dims.0, dims.1)
       && BlockInMap(|m|, width, origin, dims.0, dims.1)
       && forall i | 0 <= i < dims.0 * dims.1 :: 0 <= HomeValue(m, width, origin, dims.0, dims.1, i) < |ts|
  }

  /** The block at `origin` holds a consistent tiling in `m`. */
  ghost predicate BlockConsistent(ts: seq<Tile>, m: seq<int>, width: int, height: int, origin: int)
  {
    && width > 0 && 0 <= origin < width * height && |m| == width * height
    && var dims := SubgridDims(width, height, origin);
       && BlockFits(width, height, origin, dims.0, dims.1)
       && BlockInMap(|m|, width, origin, dims.0, dims.1)
       && SolverGenerate.Consistent(ts, dims.0, Block(m, width, origin, dims.0, dims.1))
  }

  /** A consistent block is resolved. */
  lemma ConsistentResolved(ts: seq<Tile>, m: seq<int>, width: int, height: int, origin: int)
    requires BlockConsistent(ts, m, width, height, origin)
    ensures BlockResolved(ts, m, width, height, origin)
  {
    var dims := SubgridDims(width, height, origin);
    var b := Block(m, width, origin, dims.0, dims.1);
    assert forall i | 0 <= i < dims.0 * dims.1 :: b[i] == HomeValue(m, width, origin, dims.0, dims.1, i);
  }

  /**
    Writing the block at `topLeft` leaves an earlier block unchanged: the
    two overlap only in the new block's left column and top row, whose
    resolved cells the new block keeps.
  */
  lemma ConsistentKept(ts: seq<Tile>, m: seq<int>, m': seq<int>, width: int, height: int, origin: int, topLeft: int)
    requires BlockConsistent(ts, m, width, height, origin) && Solved(ts, m, m', width, height, topLeft)
    requires OnLattice(width, origin) && OnLattice(width, topLeft) && origin < topLeft
    requires var dims := SubgridDims(width, height, topLeft);
      forall k | 0 <= k < |m| && k !in BlockCells(width, topLeft, dims.0, dims.1) :: m'[k] == m[k]
    ensures BlockConsistent(ts, m', width, height, origin)
  {
    var dims := SubgridDims(width, height, origin);
    var b := Block(m, width, origin, dims.0, dims.1);
    var b' := Block(m', width, origin, dims.0, dims.1);
    forall i | 0 <= i < dims.0 * dims.1
      ensures b'[i] == b[i]
    {
      CellSame(ts, m, m', width, height, origin, topLeft, i);
    }
    assert b' == b;
  }

  lemma CellSame(ts: seq<Tile>, m: seq<int>, m': seq<int>, width: int, height: int, origin: int, topLeft: int, i: int)
    requires BlockConsistent(ts, m, width, height, origin) && Solved(ts, m, m', width, height, topLeft)
    requires OnLattice(width, origin) && OnLattice(width, topLeft) && origin < topLeft
    requires var dims := SubgridDims(width, height, topLeft);
      forall k | 0 <= k < |m| && k !in BlockCells(width, topLeft, dims.0, dims.1) :: m'[k] == m[k]
    requires var dims := SubgridDims(width, height, origin); 0 <= i < dims.0 * dims.1
    ensures var dims := SubgridDims(width, height, origin);
      HomeValue(m', width, origin, dims.0, dims.1, i) == HomeValue(m, width, origin, dims.0, dims.1, i)
  {
    var dims := SubgridDims(width, height, origin);
    var b := Block(m, width, origin, dims.0, dims.1);
    assert b[i] == HomeValue(m, width, origin, dims.0, dims.1, i);
    DivMod(i, dims.0, dims.1);
    var h := Home(width, origin, dims.0, i);
    assert m[h] > -1;
    var nd := SubgridDims(width, height, topLeft);
    if h in BlockCells(width, topLeft, nd.0, nd.1) {
      var i' :| 0 <= i' < nd.0 * nd.1 && Home(width, topLeft, nd.0, i') == h;
      DivMod(i', nd.0, nd.1);
      OverlapOnBorder(width, origin, topLeft, i / dims.0, i % dims.0, i' / nd.0, i' % nd.0);
      assert KeepsBorder(m, m', width, topLeft, nd.0, nd.1);
    }
  }

  /**
    The block covering a cell also holds the cell's east or south
    neighbour, one step further along the same local row or column.
  */
  lemma CoverPair(width: int, height: int, i: int, d: Dir) returns (origin: int, dr: int, dc: int)
    requires width > 0 && 0 <= i < width * height && (d == 1 || d == 2)
    requires 0 <= Adjacent(i, width, width * height)[d] < width * height
    ensures origin in BlockOrigins(width, height, 0) && 0 <= origin < width * height
    ensures var dims := SubgridDims(width, height, origin);
      && 0 <= dr && dr + DRow(d) < dims.1 && 0 <= dc && dc + DCol(d) < dims.0
    ensures i == BlockCell(width, origin, dr, dc)
    ensures Adjacent(i, width, width * height)[d] == BlockCell(width, origin, dr + DRow(d), dc + DCol(d))
  {
    DivMod(i, width, height);
    var row, col := i / width, i % width;
    AdjacentIsNeighbour(i, width, height, d);
    assert i == Cell(row, col, width);
    BlocksCover(width, height, row, col);
    CoveringOriginSplit(width, row, col);
    origin := CoveringOrigin(width, row, col);
    dr, dc := row - origin / width, col - origin % width;
    if d == 2 {
      Distrib(dr, 1, width);
    }
  }

  /** Inside a block, the local cell one step east or south is the local neighbour `getAdjacent` names. */
  lemma LocalStep(bw: int, bh: int, dr: int, dc: int, d: Dir)
    requires bw > 0 && (d == 1 || d == 2) && 0 <= dr && dr + DRow(d) < bh && 0 <= dc && dc + DCol(d) < bw
    ensures 0 <= Cell(dr, dc, bw) < bw * bh && 0 <= Cell(dr + DRow(d), dc + DCol(d), bw) < bw * bh
    ensures Adjacent(Cell(dr, dc, bw), bw, bw * bh)[d] == Cell(dr + DRow(d), dc + DCol(d), bw)
  {
    CellInRange(dr, dc, bw, bh);
    CellInRange(dr + DRow(d), dc + DCol(d), bw, bh);
    if d == 1 {
      CellUnique(dr, dc + 1, bw);
    } else {
      Distrib(dr, 1, bw);
    }
  }

  /** Inside one visited block, a cell and its east or south neighbour fit. */
  lemma ForwardFits(ts: seq<Tile>, m: seq<int>, width: int, height: int, i: int, d: Dir)
    requires width > 0 && |m| == width * height && 0 <= i < |m| && (d == 1 || d == 2)
    requires forall o | o in BlockOrigins(width, height, 0) :: BlockConsistent(ts, m, width, height, o)
    requires 0 <= Adjacent(i, width, |m|)[d] < |m|
    ensures 0 <= m[i] < |ts| && 0 <= m[Adjacent(i, width, |m|)[d]] < |ts|
    ensures Fits(ts[m[i]], d, ts[m[Adjacent(i, width, |m|)[d]]])
  {
    var origin, dr, dc := CoverPair(width, height, i, d);
    assert BlockConsistent(ts, m, width, height, origin);
    var dims := SubgridDims(width, height, origin);
    BlockPair(ts, m, width, origin, dims.0, dims.1, dr, dc, d);
  }

  /** Two cells of one consistent block, the second on side `d` of the first, hold fitting tiles. */
  lemma BlockPair(ts: seq<Tile>, m: seq<int>, width: int, origin: int, bw: int, bh: int, dr: int, dc: int, d: Dir)
    requires bw >= 1 && bh >= 1 && BlockInMap(|m|, width, origin, bw, bh)
    requires SolverGenerate.Consistent(ts, bw, Block(m, width, origin, bw, bh)) && (d == 1 || d == 2)
    requires 0 <= dr && dr + DRow(d) < bh && 0 <= dc && dc + DCol(d) < bw
    ensures var a := BlockCell(width, origin, dr, dc);
      var c := BlockCell(width, origin, dr + DRow(d), dc + DCol(d));
      && 0 <= a < |m| && 0 <= c < |m| && 0 <= m[a] < |ts| && 0 <= m[c] < |ts|
      && Fits(ts[m[a]], d, ts[m[c]])
  {
    var b := Block(m, width, origin, bw, bh);
    LocalStep(bw, bh, dr, dc, d);
    BlockValue(m, width, origin, bw, bh, dr, dc);
    BlockValue(m, width, origin, bw, bh, dr + DRow(d), dc + DCol(d));
    ConsistentAt(ts, bw, b, Cell(dr, dc, bw), d);
  }

  /** Local cell (`r`, `c`) of a block holds the value of the map cell it stands for. */
  lemma BlockValue(m: seq<int>, width: int, origin: int, bw: int, bh: int, r: int, c: int)
    requires bw >= 1 && bh >= 1 && BlockInMap(|m|, width, origin, bw, bh)
    requires 0 <= r < bh && 0 <= c < bw
    ensures 0 <= Cell(r, c, bw) < bw * bh && 0 <= BlockCell(width, origin, r, c) < |m|
    ensures Block(m, width, origin, bw, bh)[Cell(r, c, bw)] == m[BlockCell(width, origin, r, c)]
  {
    CellInRange(r, c, bw, bh);
    HomeIsBlockCell(width, origin, bw, r, c);
  }

  /** A consistent map's tile fits its neighbour's on any side that stays inside the map. */
  lemma ConsistentAt(ts: seq<Tile>, width: int, tm: seq<int>, i: int, d: Dir)
    requires SolverGenerate.Consistent(ts, width, tm) && width > 0 && 0 <= i < |tm|
    requires 0 <= Adjacent(i, width, |tm|)[d] < |tm|
    ensures 0 <= tm[i] < |ts| && 0 <= tm[Adjacent(i, width, |tm|)[d]] < |ts|
    ensures Fits(ts[tm[i]], d, ts[tm[Adjacent(i, width, |tm|)[d]]])
  {
  }


  /** Every 4-neighbour pair of the map fits, once every visited block is consistent. */
  lemma PairFits(ts: seq<Tile>, m: seq<int>, width: int, height: int, i: int, d: Dir)
    requires width > 0 && |m| == width * height && 0 <= i < |m|
    requires forall o | o in BlockOrigins(width, height, 0) :: BlockConsistent(ts, m, width, height, o)
    requires 0 <= Adjacent(i, width, |m|)[d] < |m|
    ensures 0 <= m[i] < |ts| && 0 <= m[Adjacent(i, width, |m|)[d]] < |ts|
    ensures Fits(ts[m[i]], d, ts[m[Adjacent(i, width, |m|)[d]]])
  {
    if d == 1 || d == 2 {
      ForwardFits(ts, m, width, height, i, d);
    } else {
      var j := Adjacent(i, width, |m|)[d];
      AdjacentSymmetric(i, width, height, d);
      ForwardFits(ts, m, width, height, j, Opposite(d));
      FitsSymmetric(ts[m[j]], Opposite(d), ts[m[i]]);
    }
  }

  /**
    Global consistency of the nested generator: when every visited block is
    a consistent tiling of its part of the map, the whole map is one.
  */
  lemma AllConsistent(ts: seq<Tile>, m: seq<int>, width: int, height: int)
    requires width > 0 && |m| == width * height
    requires forall o | o in BlockOrigins(width, height, 0) :: BlockConsistent(ts, m, width, height, o)
    ensures SolverGenerate.Consistent(ts, width, m)
  {
    forall o | o in BlockOrigins(width, height, 0)
      ensures BlockResolved(ts, m, width, height, o)
    {
      ConsistentResolved(ts, m, width, height, o);
    }
    AllResolved(ts, m, width, height);
    forall i, d: Dir | 0 <= i < |m| && 0 <= Adjacent(i, width, |m|)[d] < |m|
      ensures Fits(ts[m[i]], d, ts[m[Adjacent(i, width, |m|)[d]]])
    {
      PairFits(ts, m, width, height, i, d);
    }
  }

  /** Every block origin `generateMap` visits lies inside the map. */
  lemma {:induction false} OriginsInMap(width: int, height: int, i: nat, o: int)
    requires width > 0 && i % width == 0 && o in BlockOrigins(width, height, i)
    ensures 0 <= o < width * height
    decreases width * height - i
  {
    if i < width * height {
      if o in RowOrigins(width, i, 0) {
        RowOriginInMap(width, height, i, o);
      } else {
        var next := i + width * (SubgridSide - 1);
        NextBand(width, i);
        OriginsInMap(width, height, next, o);
      }
    }
  }

  lemma NextBand(width: int, i: int)
    requires width > 0 && i % width == 0
    ensures (i + width * (SubgridSide - 1)) % width == 0
  {
    var q := i / width;
    assert i == q * width;
    Distrib(q, 4, width);
    CellUnique(q + 4, 0, width);
  }

  lemma RowOriginInMap(width: int, height: int, i: int, o: int)
    requires width > 0 && 0 <= i < width * height && i % width == 0 && o in RowOrigins(width, i, 0)
    ensures 0 <= o < width * height
  {
    RowOriginsBelow(width, i, 0, o);
    DivMod(i, width, height);
    CellInRange(i / width, o - i, width, height);
  }

  lemma {:induction false} RowOriginsBelow(width: int, i: int, j: nat, o: int)
    requires o in RowOrigins(width, i, j)
    ensures i + j <= o < i + width
    decreases width - j
  {
    if j < width && o != i + j {
      RowOriginsBelow(width, i, j + (SubgridSide - 1), o);
    }
  }

  /** With every visited block resolved, every cell of the map is. */
  lemma AllResolved(ts: seq<Tile>, m: seq<int>, width: int, height: int)
    requires width > 0 && |m| == width * height
    requires forall o | o in BlockOrigins(width, height, 0) :: BlockResolved(ts, m, width, height, o)
    ensures ValidMap(ts, m)
  {
    forall c | 0 <= c < |m|
      ensures 0 <= m[c] < |ts|
    {
      DivMod(c, width, height);
      var row, col := c / width, c % width;
      BlocksCover(width, height, row, col);
      var origin := CoveringOrigin(width, row, col);
      var dims := SubgridDims(width, height, origin);
      var dr, dc := row - origin / width, col - origin % width;
      assert BlockResolved(ts, m, width, height, origin);
      CellInRange(dr, dc, dims.0, dims.1);
      HomeIsBlockCell(width, origin, dims.0, dr, dc);
      assert 0 <= HomeValue(m, width, origin, dims.0, dims.1, Cell(dr, dc, dims.0)) < |ts|;
    }
  }

  /**
    NWFC's `generateMap(allowFallback)`. A catalog that is not sub-complete
    gets one whole-grid solve when the fallback is allowed and nothing
    otherwise. A sub-complete one gets a map of -1 that the blocks at the
    origins of `BlockOrigins` overwrite in turn; the first failing block
    makes the result nothing. Either way a returned map is a consistent
    tiling of the whole grid.
  */
  method GenerateMap(ts: seq<Tile>, width: nat, height: nat, props: Proportions.Entries, allowFallback: bool,
                     ent: seq<int> -> real, g: Lehmer.Gen, fuel: nat)
    returns (r: Option<seq<int>>, g': Lehmer.Gen)
    requires Proportions.DistinctKeys(props) && 0 <= g.seed < Lehmer.M
    ensures 0 <= g'.seed < Lehmer.M
    ensures !SubComplete.IsSubCompleteSpec(ts) && !allowFallback ==> r.None?
    ensures SolverGenerate.EntropyOk(ent) && r.Some? ==>
              |r.value| == width * height && SolverGenerate.Consistent(ts, width, r.value)
  {
    var sub := SubComplete.IsSubComplete(ts);
    if !sub {
      if allowFallback {
        r, g' := SolveGrid(ts, width, height, props, [], ent, g, fuel);
      } else {
        r, g' := None, g;
      }
      return;
    }
    g' := g;
    var m := seq(width * height, _ => -1);
    if width == 0 {
      return Some(m), g';
    }
    var os := BlockOrigins(width, height, 0);
    BlockOriginsOrdered(width, height, 0);
    var k := 0;
    while k < |os|
      invariant 0 <= k <= |os| && |m| == width * height && 0 <= g'.seed < Lehmer.M
      invariant SolverGenerate.EntropyOk(ent) ==> forall j | 0 <= j < k :: BlockConsistent(ts, m, width, height, os[j])
    {
      OriginsInMap(width, height, 0, os[k]);
      var ok, m';
      ok, m', g' := GenSubgrid(ts, width, height, props, m, os[k], ent, g', fuel);
      if !ok {
        return None, g';
      }
      if SolverGenerate.EntropyOk(ent) {
        forall j | 0 <= j < k
          ensures BlockConsistent(ts, m', width, height, os[j])
        {
          ConsistentKept(ts, m, m', width, height, os[j], os[k]);
        }
        assert BlockConsistent(ts, m', width, height, os[k]);
      }
      m := m';
      k := k + 1;
    }
    if SolverGenerate.EntropyOk(ent) {
      forall o | o in os
        ensures BlockConsistent(ts, m, width, height, o)
      {
        var j :| 0 <= j < |os| && os[j] == o;
      }
      AllConsistent(ts, m, width, height);
    }
    r := Some(m);
  }
}

=== FILE: nwfc_blocks.dfy ===
/**
  Block geometry of the nested solver (`#genSubgrid` and the block loop of
  `generateMap` in src/NWFC.ts): a W x H map is filled by 5 x 5 blocks whose
  origins step by 4, so consecutive blocks share one row or column; the
  shared cells are handed to the next block as fixed tiles.
*/
module NwfcBlocks {
  import opened Grid

  /** `#SUBGRID_SIDE`. */
  const SubgridSide := 5

  function Min(a: int, b: int): int
  {
    if a <= b then a else b
  }

  /** `Math.ceil(a / b)` for a positive divisor. */
  function CeilDiv(a: int, b: int): (r: int)
    requires b > 0
    ensures (r - 1) * b < a <= r * b
  {
    if a % b == 0 then a / b else a / b + 1
  }

  lemma CeilDivUnique(a: int, b: int, k: int)
    requires b > 0 && (k - 1) * b < a <= k * b
    ensures CeilDiv(a, b) == k
  {
    var r := CeilDiv(a, b);
    if r < k {
      MulMono(r, k - 1, b);
    } else if r > k {
      MulMono(k, r - 1, b);
    }
  }

  /** Width and height of the block whose top-left cell is `topLeft`, computed as the source does. */
  function SubgridDims(width: int, height: int, topLeft: int): (dims: (int, int))
    requires width > 0 && 0 <= topLeft < width * height
    ensures dims.0 == Min(SubgridSide, width - topLeft % width)
    ensures dims.1 == Min(SubgridSide, height - topLeft / width)
    ensures 1 <= dims.0 <= SubgridSide && 1 <= dims.1 <= SubgridSide
  {
    var rowEnd := Min(width * height, topLeft + width * SubgridSide);
    var colEnd := Min(width, topLeft % width + SubgridSide);
    BlockRows(width, height, topLeft);
    DivMod(topLeft, width, height);
    (colEnd - topLeft % width, CeilDiv(rowEnd - topLeft, width))
  }

  lemma Distrib(a: int, b: int, w: int)
    ensures (a + b) * w == a * w + b * w
  {
  }

  /** Rounding up `k * w - col` to whole rows of `w` gives `k` when 0 <= col < w. */
  lemma CeilDivRows(k: int, w: int, col: int)
    requires w > 0 && 0 <= col < w
    ensures CeilDiv(k * w - col, w) == k
  {
    Distrib(k - 1, 1, w);
    CeilDivUnique(k * w - col, w, k);
  }

  /** The ceiling division recovers the number of block rows. */
  lemma BlockRows(width: int, height: int, topLeft: int)
    requires width > 0 && 0 <= topLeft < width * height
    ensures CeilDiv(Min(width * height, topLeft + width * SubgridSide) - topLeft, width)
         == Min(SubgridSide, height - topLeft / width)
  {
    DivMod(topLeft, width, height);
    var row, col := topLeft / width, topLeft % width;
    var k := Min(SubgridSide, height - row);
    BlockSpan(width, height, row, col);
    CeilDivRows(k, width, if height - row <= SubgridSide then col else 0);
  }

  /** The cells from a block's origin to the end of its last row, for origin (row, col). */
  lemma BlockSpan(width: int, height: int, row: int, col: int)
    requires width > 0 && 0 <= col < width && 0 <= row < height
    ensures var topLeft := row * width + col;
      Min(width * height, topLeft + width * SubgridSide) - topLeft
        == if height - row <= SubgridSide then (height - row) * width - col else SubgridSide * width - 0
  {
    var left := height - row;
    Distrib(row, left, width);
    if left <= SubgridSide {
      MulMono(left, SubgridSide, width);
    } else {
      MulMono(SubgridSide + 1, left, width);
      Distrib(SubgridSide, 1, width);
    }
  }

  /** The full-map index of local cell `i` of a block (the write-back formula). */
  function Home(width: int, topLeft: int, blockWidth: int, i: int): int
    requires blockWidth > 0
  {
    BlockCell(width, topLeft, i / blockWidth, i % blockWidth)
  }

  /** The full-map index of block row `r`, block column `c`. */
  function BlockCell(width: int, topLeft: int, r: int, c: int): int
  {
    topLeft + r * width + c
  }

  /** A block lies inside the map. */
  predicate BlockFits(width: int, height: int, topLeft: int, bw: int, bh: int)
  {
    && width > 0 && 0 <= topLeft < width * height
    && 1 <= bw && 1 <= bh
    && topLeft % width + bw <= width && topLeft / width + bh <= height
  }

  lemma BlockCellInRange(width: int, height: int, topLeft: int, bw: int, bh: int, r: int, c: int)
    requires BlockFits(width, height, topLeft, bw, bh)
    requires 0 <= r < bh && 0 <= c < bw
    ensures 0 <= BlockCell(width, topLeft, r, c) < width * height
    ensures BlockCell(width, topLeft, r, c) == Cell(topLeft / width + r, topLeft % width + c, width)
  {
    DivMod(topLeft, width, height);
    CellInRange(topLeft / width + r, topLeft % width + c, width, height);
  }

  lemma HomeIsBlockCell(width: int, topLeft: int, bw: int, r: int, c: int)
    requires bw > 0 && 0 <= c < bw
    ensures Home(width, topLeft, bw, Cell(r, c, bw)) == BlockCell(width, topLeft, r, c)
  {
    CellUnique(r, c, bw);
  }

  /** The block computed by `SubgridDims` lies inside the map. */
  lemma SubgridFits(width: int, height: int, topLeft: int)
    requires width > 0 && 0 <= topLeft < width * height
    ensures var dims := SubgridDims(width, height, topLeft);
      BlockFits(width, height, topLeft, dims.0, dims.1)
  {
    DivMod(topLeft, width, height);
  }

  /** Every cell of a bw x bh block at `topLeft` is an index of a map of `n` cells. */
  predicate BlockInMap(n: int, width: int, topLeft: int, bw: int, bh: int)
  {
    forall r, c | 0 <= r < bh && 0 <= c < bw :: 0 <= BlockCell(width, topLeft, r, c) < n
  }

  lemma BlockFitsInMap(width: int, height: int, topLeft: int, bw: int, bh: int)
    requires BlockFits(width, height, topLeft, bw, bh)
    ensures BlockInMap(width * height, width, topLeft, bw, bh)
  {
    forall r, c | 0 <= r < bh && 0 <= c < bw
      ensures 0 <= BlockCell(width, topLeft, r, c) < width * height
    {
      BlockCellInRange(width, height, topLeft, bw, bh, r, c);
    }
  }

  /** The full-map value behind local cell `i` of a block. */
  function HomeValue(m: seq<int>, width: int, topLeft: int, bw: int, bh: int, i: int): int
    requires bw >= 1 && BlockInMap(|m|, width, topLeft, bw, bh)
    requires 0 <= i < bw * bh
  {
    DivMod(i, bw, bh);
    m[Home(width, topLeft, bw, i)]
  }

  /** The left-column pass of `#genSubgrid`: resolved cells of block column 0, top to bottom. */
  method LeftColumnFixed(m: seq<int>, width: int, topLeft: int, bw: int, bh: int)
    returns (fixed: seq<(int, int)>, ghost rows: seq<int>)
    requires bw >= 1 && bh >= 1 && BlockInMap(|m|, width, topLeft, bw, bh)
    ensures |rows| == |fixed|
    ensures forall k | 0 <= k < |fixed| ::
      && 0 <= rows[k] < bh
      && fixed[k] == (Cell(rows[k], 0, bw), m[BlockCell(width, topLeft, rows[k], 0)])
      && fixed[k].1 > -1
    ensures forall k, l | 0 <= k < l < |rows| :: rows[k] < rows[l]
    ensures forall r | 0 <= r < bh && m[BlockCell(width, topLeft, r, 0)] > -1 :: r in rows
  {
    fixed, rows := [], [];
    var r := 0;
    while r < bh
      invariant 0 <= r <= bh
      invariant |rows| == |fixed|
      invariant forall k | 0 <= k < |fixed| ::
        && 0 <= rows[k] < r
        && fixed[k] == (Cell(rows[k], 0, bw), m[BlockCell(width, topLeft, rows[k], 0)])
        && fixed[k].1 > -1
      invariant forall k, l | 0 <= k < l < |rows| :: rows[k] < rows[l]
      invariant forall r' | 0 <= r' < r && m[BlockCell(width, topLeft, r', 0)] > -1 :: r' in rows
    {
      var tile := m[BlockCell(width, topLeft, r, 0)];
      if tile > -1 {
        fixed := fixed + [(Cell(r, 0, bw), tile)];
        rows := rows + [r];
      }
      r := r + 1;
    }
  }

  /** The top-row pass of `#genSubgrid`: resolved cells of block row 0 from column 1, left to right. */
  method TopRowFixed(m: seq<int>, width: int, topLeft: int, bw: int, bh: int)
    returns (fixed: seq<(int, int)>)
    requires bw >= 1 && bh >= 1 && BlockInMap(|m|, width, topLeft, bw, bh)
    ensures forall k | 0 <= k < |fixed| ::
      && 1 <= fixed[k].0 < bw
      && fixed[k].1 == m[BlockCell(width, topLeft, 0, fixed[k].0)]
      && fixed[k].1 > -1
    ensures forall k, l | 0 <= k < l < |fixed| :: fixed[k].0 < fixed[l].0
    ensures forall c | 1 <= c < bw && m[BlockCell(width, topLeft, 0, c)] > -1 ::
      (c, m[BlockCell(width, topLeft, 0, c)]) in fixed
  {
    fixed := [];
    var c := 1;
    while c < bw
      invariant 1 <= c <= bw
      invariant forall k | 0 <= k < |fixed| ::
        && 1 <= fixed[k].0 < c
        && fixed[k].1 == m[BlockCell(width, topLeft, 0, fixed[k].0)]
        && fixed[k].1 > -1
      invariant forall k, l | 0 <= k < l < |fixed| :: fixed[k].0 < fixed[l].0
      invariant forall c' | 1 <= c' < c && m[BlockCell(width, topLeft, 0, c')] > -1 ::
        (c', m[BlockCell(width, topLeft, 0, c')]) in fixed
    {
      var tile := m[BlockCell(width, topLeft, 0, c)];
      if tile > -1 {
        fixed := fixed + [(c, tile)];
      }
      c := c + 1;
    }
  }

  /**
    The fixed tiles handed to a block's solver: exactly the already resolved
    cells (value above -1) of the block's left column, at local index
    row * bw, and of its top row from column 1, at local index col. Each
    carries the value of the full-map cell it will be written back to.
  */
  method SubgridFixedTiles(m: seq<int>, width: int, topLeft: int, bw: int, bh: int)
    returns (fixed: seq<(int, int)>)
    requires bw >= 1 && bh >= 1 && BlockInMap(|m|, width, topLeft, bw, bh)
    ensures forall k | 0 <= k < |fixed| ::
      && 0 <= fixed[k].0 < bw * bh
      && (fixed[k].0 % bw == 0 || fixed[k].0 < bw)
      && fixed[k].1 > -1
      && fixed[k].1 == HomeValue(m, width, topLeft, bw, bh, fixed[k].0)
    ensures forall r | 0 <= r < bh && m[BlockCell(width, topLeft, r, 0)] > -1 ::
      (Cell(r, 0, bw), m[BlockCell(width, topLeft, r, 0)]) in fixed
    ensures forall c | 1 <= c < bw && m[BlockCell(width, topLeft, 0, c)] > -1 ::
      (c, m[BlockCell(width, topLeft, 0, c)]) in fixed
    ensures forall k, l | 0 <= k < l < |fixed| :: fixed[k].0 != fixed[l].0
  {
    var left, rows := LeftColumnFixed(m, width, topLeft, bw, bh);
    var top := TopRowFixed(m, width, topLeft, bw, bh);
    fixed := left + top;
    forall k | 0 <= k < |left|
      ensures && 0 <= left[k].0 < bw * bh && left[k].0 % bw == 0
              && left[k].1 == HomeValue(m, width, topLeft, bw, bh, left[k].0)
    {
      LeftColumnHome(m, width, topLeft, bw, bh, rows[k]);
    }
    forall k | 0 <= k < |top|
      ensures && 0 <= top[k].0 < bw * bh
              && top[k].1 == HomeValue(m, width, topLeft, bw, bh, top[k].0)
    {
      TopRowHome(m, width, topLeft, bw, bh, top[k].0);
    }
    assert forall r | 0 <= r < bh && m[BlockCell(width, topLeft, r, 0)] > -1 ::
      (Cell(r, 0, bw), m[BlockCell(width, topLeft, r, 0)]) in fixed by {
      forall r | 0 <= r < bh && m[BlockCell(width, topLeft, r, 0)] > -1
        ensures (Cell(r, 0, bw), m[BlockCell(width, topLeft, r, 0)]) in fixed
      {
        var k :| 0 <= k < |rows| && rows[k] == r;
        assert fixed[k] == left[k];
      }
    }
    assert forall c | 1 <= c < bw && m[BlockCell(width, topLeft, 0, c)] > -1 ::
      (c, m[BlockCell(width, topLeft, 0, c)]) in fixed by {
      forall c | 1 <= c < bw && m[BlockCell(width, topLeft, 0, c)] > -1
        ensures (c, m[BlockCell(width, topLeft, 0, c)]) in fixed
      {
        var k :| 0 <= k < |top| && top[k] == (c, m[BlockCell(width, topLeft, 0, c)]);
        assert fixed[|left| + k] == top[k];
      }
    }
    FixedDistinct(left, rows, top, bw);
  }

  /** Left-column entries are multiples of bw, top-row entries lie strictly between 0 and bw. */
  lemma FixedDistinct(left: seq<(int, int)>, rows: seq<int>, top: seq<(int, int)>, bw: int)
    requires bw >= 1 && |rows| == |left|
    requires forall k | 0 <= k < |left| :: left[k].0 == Cell(rows[k], 0, bw)
    requires forall k, l | 0 <= k < l < |rows| :: rows[k] < rows[l]
    requires forall k | 0 <= k < |top| :: 1 <= top[k].0 < bw
    requires forall k, l | 0 <= k < l < |top| :: top[k].0 < top[l].0
    ensures forall k, l | 0 <= k < l < |left + top| :: (left + top)[k].0 != (left + top)[l].0
  {
    var fixed := left + top;
    forall k, l | 0 <= k < l < |fixed|
      ensures fixed[k].0 != fixed[l].0
    {
      if l < |left| {
        CellUnique(rows[k], 0, bw);
        CellUnique(rows[l], 0, bw);
      } else if k >= |left| {
        assert fixed[k] == top[k - |left|] && fixed[l] == top[l - |left|];
      } else {
        assert fixed[l] == top[l - |left|];
        CellUnique(rows[k], 0, bw);
        CellUnique(0, top[l - |left|].0, bw);
      }
    }
  }

  lemma LeftColumnHome(m: seq<int>, width: int, topLeft: int, bw: int, bh: int, r: int)
    requires bw >= 1 && bh >= 1 && BlockInMap(|m|, width, topLeft, bw, bh)
    requires 0 <= r < bh
    ensures 0 <= Cell(r, 0, bw) < bw * bh && Cell(r, 0, bw) % bw == 0
    ensures HomeValue(m, width, topLeft, bw, bh, Cell(r, 0, bw)) == m[BlockCell(width, topLeft, r, 0)]
  {
    CellUnique(r, 0, bw);
    CellInRange(r, 0, bw, bh);
  }

  lemma TopRowHome(m: seq<int>, width: int, topLeft: int, bw: int, bh: int, c: int)
    requires bw >= 1 && bh >= 1 && BlockInMap(|m|, width, topLeft, bw, bh)
    requires 0 <= c < bw
    ensures 0 <= c < bw * bh
    ensures HomeValue(m, width, topLeft, bw, bh, c) == m[BlockCell(width, topLeft, 0, c)]
  {
    CellUnique(0, c, bw);
    CellInRange(0, c, bw, bh);
  }

  /** Distinct local cells of a block that is no wider than the map have distinct homes. */
  lemma HomeInjective(width: int, topLeft: int, bw: int, bh: int, i: int, j: int)
    requires 1 <= bw <= width && 0 <= i < bw * bh && 0 <= j < bw * bh
    requires Home(width, topLeft, bw, i) == Home(width, topLeft, bw, j)
    ensures i == j
  {
    DivMod(i, bw, bh);
    DivMod(j, bw, bh);
    CellUnique(i / bw, i % bw, width);
    CellUnique(j / bw, j % bw, width);
  }

  /** The cells a block writes. */
  ghost function BlockCells(width: int, topLeft: int, bw: int, bh: int): set<int>
    requires bw >= 1
  {
    set i | 0 <= i < bw * bh :: Home(width, topLeft, bw, i)
  }

  /** The homes of the first `n` local cells. */
  ghost function Written(width: int, topLeft: int, bw: int, n: int): set<int>
    requires bw >= 1
  {
    set j | 0 <= j < n :: Home(width, topLeft, bw, j)
  }

  /** The write-back loop's invariant after `n` local cells. */
  ghost predicate WrittenUpTo(m: seq<int>, r: seq<int>, width: int, topLeft: int, bw: int, bh: int, sub: seq<int>, n: int)
    requires 1 <= bw && BlockInMap(|m|, width, topLeft, bw, bh) && |sub| == bw * bh && 0 <= n <= bw * bh
  {
    && |r| == |m|
    && (forall j | 0 <= j < n :: HomeValue(r, width, topLeft, bw, bh, j) == sub[j])
    && (forall k | 0 <= k < |m| && k !in Written(width, topLeft, bw, n) :: r[k] == m[k])
  }

  lemma WriteBackStep(m: seq<int>, r: seq<int>, width: int, topLeft: int, bw: int, bh: int, sub: seq<int>, n: int)
    requires 1 <= bw <= width && bh >= 1 && BlockInMap(|m|, width, topLeft, bw, bh)
    requires |sub| == bw * bh && 0 <= n < bw * bh
    requires WrittenUpTo(m, r, width, topLeft, bw, bh, sub, n)
    ensures 0 <= Home(width, topLeft, bw, n) < |r|
    ensures WrittenUpTo(m, r[Home(width, topLeft, bw, n) := sub[n]], width, topLeft, bw, bh, sub, n + 1)
  {
    DivMod(n, bw, bh);
    var home := Home(width, topLeft, bw, n);
    var r' := r[home := sub[n]];
    forall j | 0 <= j < n
      ensures HomeValue(r', width, topLeft, bw, bh, j) == sub[j]
    {
      DivMod(j, bw, bh);
      if Home(width, topLeft, bw, j) == home {
        HomeInjective(width, topLeft, bw, bh, n, j);
      }
    }
    assert Written(width, topLeft, bw, n + 1) == Written(width, topLeft, bw, n) + {home};
  }

  /**
    The write-back loop of `#genSubgrid`: local cell i of the solved block
    goes to its home cell; every other map cell keeps its value.
  */
  method WriteBack(m: seq<int>, width: int, topLeft: int, bw: int, bh: int, sub: seq<int>)
    returns (r: seq<int>)
    requires 1 <= bw <= width && bh >= 1 && BlockInMap(|m|, width, topLeft, bw, bh)
    requires |sub| == bw * bh
    ensures |r| == |m|
    ensures BlockInMap(|r|, width, topLeft, bw, bh)
    ensures forall i | 0 <= i < bw * bh :: HomeValue(r, width, topLeft, bw, bh, i) == sub[i]
    ensures forall k | 0 <= k < |m| && k !in BlockCells(width, topLeft, bw, bh) :: r[k] == m[k]
  {
    r := m;
    var i := 0;
    while i < bw * bh
      invariant 0 <= i <= bw * bh
      invariant WrittenUpTo(m, r, width, topLeft, bw, bh, sub, i)
    {
      WriteBackStep(m, r, width, topLeft, bw, bh, sub, i);
      r := r[Home(width, topLeft, bw, i) := sub[i]];
      i := i + 1;
    }
    assert Written(width, topLeft, bw, i) == BlockCells(width, topLeft, bw, bh);
  }

  /** Block origins along one row band: `i + j` for j = 0, 4, 8, ... below the width. */
  function RowOrigins(width: int, i: int, j: nat): seq<int>
    decreases width - j
  {
    if j >= width then [] else [i + j] + RowOrigins(width, i, j + (SubgridSide - 1))
  }

  /** All block origins in the order `generateMap` visits them, from row band `i` on. */
  function BlockOrigins(width: int, height: int, i: nat): seq<int>
    requires width > 0
    decreases width * height - i
  {
    if i >= width * height then []
    else RowOrigins(width, i, 0) + BlockOrigins(width, height, i + width * (SubgridSide - 1))
  }

  lemma {:induction false} RowOriginsHas(width: int, i: int, j: nat, steps: nat)
    requires j + (SubgridSide - 1) * steps < width
    ensures i + j + (SubgridSide - 1) * steps in RowOrigins(width, i, j)
    decreases steps
  {
    if steps > 0 {
      RowOriginsHas(width, i, j + (SubgridSide - 1), steps - 1);
    }
  }

  lemma {:induction false} BlockOriginsHas(width: int, height: int, i: nat, steps: nat, c: int)
    requires width > 0
    requires i + width * (SubgridSide - 1) * steps < width * height
    requires c in RowOrigins(width, i + width * (SubgridSide - 1) * steps, 0)
    ensures c in BlockOrigins(width, height, i)
    decreases steps
  {
    if steps > 0 {
      var next := i + width * (SubgridSide - 1);
      assert next + width * (SubgridSide - 1) * (steps - 1) == i + width * (SubgridSide - 1) * steps;
      BlockOriginsHas(width, height, next, steps - 1, c);
    }
  }

  /** The origin of the block that covers cell (row, col). */
  function CoveringOrigin(width: int, row: int, col: int): int
  {
    Cell((SubgridSide - 1) * (row / 4), (SubgridSide - 1) * (col / 4), width)
  }

  lemma CoveringOriginVisited(width: int, height: int, row: int, col: int)
    requires width > 0 && 0 <= row < height && 0 <= col < width
    ensures 0 <= CoveringOrigin(width, row, col) < width * height
    ensures CoveringOrigin(width, row, col) in BlockOrigins(width, height, 0)
  {
    var r0, c0 := (SubgridSide - 1) * (row / 4), (SubgridSide - 1) * (col / 4);
    var origin := CoveringOrigin(width, row, col);
    CellInRange(r0, c0, width, height);
    RowOriginsHas(width, width * r0, 0, col / 4);
    assert width * r0 + 0 + (SubgridSide - 1) * (col / 4) == origin;
    assert width * (SubgridSide - 1) * (row / 4) == width * r0;
    BlockOriginsHas(width, height, 0, row / 4, origin);
  }

  lemma CoveringOriginSplit(width: int, row: int, col: int)
    requires width > 0 && 0 <= row && 0 <= col < width
    ensures CoveringOrigin(width, row, col) / width == (SubgridSide - 1) * (row / 4)
    ensures CoveringOrigin(width, row, col) % width == (SubgridSide - 1) * (col / 4)
  {
    CellUnique((SubgridSide - 1) * (row / 4), (SubgridSide - 1) * (col / 4), width);
  }

  lemma ShiftCell(width: int, r0: int, c0: int, dr: int, dc: int)
    ensures BlockCell(width, Cell(r0, c0, width), dr, dc) == Cell(r0 + dr, c0 + dc, width)
  {
    Distrib(r0, dr, width);
  }

  /**
    Coverage: cell (row, col) of the map lies in the block whose origin is
    (4 * (row / 4), 4 * (col / 4)); that origin is visited by `generateMap`
    and the block computed there reaches the cell.
  */
  lemma BlocksCover(width: int, height: int, row: int, col: int)
    requires width > 0 && 0 <= row < height && 0 <= col < width
    ensures CoveringOrigin(width, row, col) in BlockOrigins(width, height, 0)
    ensures 0 <= CoveringOrigin(width, row, col) < width * height
    ensures var origin := CoveringOrigin(width, row, col);
      var dims := SubgridDims(width, height, origin);
      && 0 <= row - origin / width < dims.1 && 0 <= col - origin % width < dims.0
      && Cell(row, col, width) == BlockCell(width, origin, row - origin / width, col - origin % width)
  {
    CoveringOriginVisited(width, height, row, col);
    CoveringOriginSplit(width, row, col);
    var r0, c0 := (SubgridSide - 1) * (row / 4), (SubgridSide - 1) * (col / 4);
    ShiftCell(width, r0, c0, row - r0, col - c0);
  }

  /** A block origin: its row and its column are both multiples of the step between blocks. */
  predicate OnLattice(width: int, o: int)
  {
    width > 0 && o >= 0 && (o / width) % (SubgridSide - 1) == 0 && (o % width) % (SubgridSide - 1) == 0
  }

  /** Origins visited in increasing index order. */
  predicate Increasing(s: seq<int>)
  {
    forall a, b | 0 <= a < b < |s| :: s[a] < s[b]
  }

  /** A column on the lattice, in a lattice row, gives a lattice origin. */
  lemma RowHead(width: int, i: int, j: int)
    requires width > 0 && i >= 0 && i % width == 0 && (i / width) % (SubgridSide - 1) == 0
    requires 0 <= j < width && j % (SubgridSide - 1) == 0
    ensures OnLattice(width, i + j)
  {
    var q := i / width;
    assert i == Cell(q, 0, width);
    CellUnique(q, j, width);
    assert i + j == Cell(q, j, width);
  }

  /** The origins of one row band lie on the lattice, inside the band's row, in increasing order. */
  lemma {:induction false} RowOriginsOrdered(width: int, i: int, j: nat)
    requires width > 0 && i >= 0 && i % width == 0 && (i / width) % (SubgridSide - 1) == 0
    requires j % (SubgridSide - 1) == 0
    ensures Increasing(RowOrigins(width, i, j))
    ensures forall a | 0 <= a < |RowOrigins(width, i, j)| ::
      i + j <= RowOrigins(width, i, j)[a] < i + width && OnLattice(width, RowOrigins(width, i, j)[a])
    decreases width - j
  {
    if j < width {
      var rest := RowOrigins(width, i, j + (SubgridSide - 1));
      RowOriginsOrdered(width, i, j + (SubgridSide - 1));
      RowHead(width, i, j);
      var s := RowOrigins(width, i, j);
      assert s == [i + j] + rest;
      forall a | 0 <= a < |s|
        ensures i + j <= s[a] < i + width && OnLattice(width, s[a])
      {
        if a > 0 {
          assert s[a] == rest[a - 1];
        }
      }
      forall a, b | 0 <= a < b < |s|
        ensures s[a] < s[b]
      {
        assert s[b] == rest[b - 1];
        if a > 0 {
          assert s[a] == rest[a - 1];
        }
      }
    }
  }

  /** The first row of the next band is again a lattice row. */
  lemma NextBandOnLattice(width: int, i: int)
    requires width > 0 && i >= 0 && i % width == 0 && (i / width) % (SubgridSide - 1) == 0
    ensures var next := i + width * (SubgridSide - 1);
      next % width == 0 && next / width == i / width + (SubgridSide - 1)
  {
    var q := i / width;
    assert i == q * width;
    Distrib(q, SubgridSide - 1, width);
    CellUnique(q + (SubgridSide - 1), 0, width);
  }

  /** `generateMap` visits the origins in increasing order, each on the lattice. */
  lemma {:induction false} BlockOriginsOrdered(width: int, height: int, i: nat)
    requires width > 0 && i % width == 0 && (i / width) % (SubgridSide - 1) == 0
    ensures Increasing(BlockOrigins(width, height, i))
    ensures forall a | 0 <= a < |BlockOrigins(width, height, i)| ::
      i <= BlockOrigins(width, height, i)[a] && OnLattice(width, BlockOrigins(width, height, i)[a])
    decreases width * height - i
  {
    if i < width * height {
      var next := i + width * (SubgridSide - 1);
      NextBandOnLattice(width, i);
      BlockOriginsOrdered(width, height, next);
      RowOriginsOrdered(width, i, 0);
      var row := RowOrigins(width, i, 0);
      var rest := BlockOrigins(width, height, next);
      var s := row + rest;
      assert s == BlockOrigins(width, height, i);
      forall a, b | 0 <= a < b < |s|
        ensures s[a] < s[b]
      {
        if b < |row| {
          assert s[a] == row[a] && s[b] == row[b];
        } else if a >= |row| {
          assert s[a] == rest[a - |row|] && s[b] == rest[b - |row|];
        } else {
          assert s[a] == row[a] && s[b] == rest[b - |row|];
        }
      }
      forall a | 0 <= a < |s|
        ensures i <= s[a] && OnLattice(width, s[a])
      {
        if a < |row| {
          assert s[a] == row[a];
        } else {
          assert s[a] == rest[a - |row|];
        }
      }
    }
  }

  /** Row and column of a block cell, for a block that does not run past the right edge. */
  lemma BlockCellCoords(width: int, o: int, r: int, c: int)
    requires width > 0 && o >= 0 && 0 <= c && o % width + c < width
    ensures BlockCell(width, o, r, c) / width == o / width + r
    ensures BlockCell(width, o, r, c) % width == o % width + c
  {
    assert o == Cell(o / width, o % width, width);
    Distrib(o / width, r, width);
    assert BlockCell(width, o, r, c) == Cell(o / width + r, o % width + c, width);
    CellUnique(o / width + r, o % width + c, width);
  }

  /** A smaller lattice origin lies in an earlier row band, or in the same band further left. */
  lemma LatticeOrder(width: int, o1: int, o2: int)
    requires OnLattice(width, o1) && OnLattice(width, o2) && o1 < o2
    ensures || o1 / width + (SubgridSide - 1) <= o2 / width
            || (o1 / width == o2 / width && o1 % width + (SubgridSide - 1) <= o2 % width)
  {
    assert o1 == Cell(o1 / width, o1 % width, width);
    assert o2 == Cell(o2 / width, o2 % width, width);
    if o1 / width > o2 / width {
      MulMono(o2 / width + 1, o1 / width, width);
    } else if o1 / width == o2 / width {
      assert o1 % width < o2 % width;
    }
  }

  /**
    Blocks visited in order overlap only in the later block's left column
    or top row: a cell of both blocks has local row 0 or local column 0 in
    the later one.
  */
  lemma OverlapOnBorder(width: int, o1: int, o2: int, r1: int, c1: int, r2: int, c2: int)
    requires OnLattice(width, o1) && OnLattice(width, o2) && o1 < o2
    requires 0 <= r1 < SubgridSide && 0 <= c1 < SubgridSide && o1 % width + c1 < width
    requires 0 <= r2 && 0 <= c2 && o2 % width + c2 < width
    requires BlockCell(width, o1, r1, c1) == BlockCell(width, o2, r2, c2)
    ensures r2 == 0 || c2 == 0
  {
    BlockCellCoords(width, o1, r1, c1);
    BlockCellCoords(width, o2, r2, c2);
    LatticeOrder(width, o1, o2);
  }
}

=== FILE: path_to_door.dfy ===
/**
  `pathToDoor` (src/map_generator/workers/levelLayer.ts and src/map.ts): a
  breadth-first search from the player's cell towards the door cell over air
  cells. Whenever a round of the search runs dry without reaching the door,
  the wall cell closest to the door (Manhattan distance) among the walls met
  so far is turned into air and the search resumes from it. The variant in
  src/map.ts also clears grass standing on top of every wall it meets.

  The search state is a `Search` value; the proof keeps a separate `Trace`
  (a path to every reached cell, the cells turned into air, and the cells the
  first round has examined).
*/
module PathToDoor {
  import opened Tiles
  import opened Grid

  /** `Number.MAX_SAFE_INTEGER`, the initial `minDist`. */
  const MaxSafeInteger := 9007199254740991

  /** One more than the largest length of a JavaScript array. */
  const ArrayLimit := 0x1_0000_0000

  function Abs(x: int): nat
  {
    if x < 0 then -x else x
  }

  function Max(a: int, b: int): int
  {
    if a < b then b else a
  }

  /** Manhattan distance between cells i and j of a grid of the given width. */
  function Dist(i: int, j: int, width: int): nat
    requires width > 0
  {
    Abs(i % width - j % width) + Abs(i / width - j / width)
  }

  /** The number of false entries of a flag array. */
  function CountFalse(s: seq<bool>): nat
  {
    if |s| == 0 then 0 else CountFalse(s[..|s| - 1]) + (if s[|s| - 1] then 0 else 1)
  }

  /** Setting a false flag lowers the count by one. */
  lemma {:induction false} CountFalseSet(s: seq<bool>, i: int)
    requires 0 <= i < |s| && !s[i]
    ensures CountFalse(s[i := true]) == CountFalse(s) - 1
  {
    var t := s[i := true];
    if i < |s| - 1 {
      assert t[..|t| - 1] == s[..|s| - 1][i := true];
      CountFalseSet(s[..|s| - 1], i);
    } else {
      assert t[..|t| - 1] == s[..|s| - 1];
    }
  }

  /** With every flag set the count is zero; a false flag makes it positive. */
  lemma {:induction false} CountFalsePositive(s: seq<bool>, i: int)
    requires 0 <= i < |s| && !s[i]
    ensures CountFalse(s) > 0
  {
    if i < |s| - 1 {
      CountFalsePositive(s[..|s| - 1], i);
    }
  }

  /**
    `p` walks from `start` to `v` through 4-neighbours of the grid, every
    cell after the first being air.
  */
  ghost predicate Path(p: seq<int>, start: int, v: int, width: int, air: seq<bool>)
    requires width > 0
  {
    |p| >= 1 && p[0] == start && p[|p| - 1] == v &&
    (forall k | 0 <= k < |p| :: 0 <= p[k] < |air|) &&
    (forall k | 1 <= k < |p| :: air[p[k]] && p[k] in Adjacent(p[k - 1], width, |air|))
  }

  /** Cell v can be reached from start through air. */
  ghost predicate Linked(start: int, v: int, width: int, air: seq<bool>)
    requires width > 0
  {
    exists p :: Path(p, start, v, width, air)
  }

  lemma PathExtend(p: seq<int>, start: int, u: int, v: int, width: int, air: seq<bool>)
    requires width > 0 && Path(p, start, u, width, air)
    requires 0 <= v < |air| && air[v] && v in Adjacent(u, width, |air|)
    ensures Path(p + [v], start, v, width, air)
  {
    var q := p + [v];
    forall k | 1 <= k < |q|
      ensures air[q[k]] && q[k] in Adjacent(q[k - 1], width, |air|)
    {
      if k < |p| {
        assert q[k] == p[k] && q[k - 1] == p[k - 1];
      }
    }
  }

  /** Turning more cells into air keeps every path a path. */
  lemma PathGrow(p: seq<int>, start: int, v: int, width: int, air: seq<bool>, air': seq<bool>)
    requires width > 0 && Path(p, start, v, width, air)
    requires |air'| == |air| && forall i | 0 <= i < |air| && air[i] :: air'[i]
    ensures Path(p, start, v, width, air')
  {
  }

  /** Distances in a grid of fewer than 2^32 cells stay below `Number.MAX_SAFE_INTEGER`. */
  lemma DistBound(i: int, j: int, width: int, height: int)
    requires width > 0 && 0 <= i < width * height && 0 <= j < width * height
    requires width * height < ArrayLimit
    ensures Dist(i, j, width) < MaxSafeInteger
  {
    DivMod(i, width, height);
    DivMod(j, width, height);
    assert Abs(i % width - j % width) < width && Abs(i / width - j / width) < height;
    MulMono(1, width, height);
    MulMono(1, height, width);
    assert width <= width * height && height <= width * height;
  }

  /** A set of cells closed under taking neighbours. */
  ghost predicate Closed(cells: set<int>, width: int, height: int)
    requires width > 0
  {
    forall u, d: Dir | u in cells && 0 <= u && Adjacent(u, width, width * height)[d] != -1 ::
      Adjacent(u, width, width * height)[d] in cells
  }

  /** The grid is connected: a neighbour-closed set holding one cell holds them all. */
  lemma ClosedReachesAll(cells: set<int>, width: int, height: int, u: int, v: int)
    requires width > 0 && height >= 0 && Closed(cells, width, height)
    requires u in cells && 0 <= u < width * height && 0 <= v < width * height
    ensures v in cells
    decreases Abs(u / width - v / width) + Abs(u % width - v % width)
  {
    DivMod(u, width, height);
    DivMod(v, width, height);
    if u != v {
      var d: Dir :=
        if u / width < v / width then 2
        else if u / width > v / width then 0
        else if u % width < v % width then 1
        else 3;
      AdjacentIsNeighbour(u, width, height, d);
      AdjacentInRange(u, width, height, d);
      var w := Adjacent(u, width, width * height)[d];
      CellUnique(u / width + DRow(d), u % width + DCol(d), width);
      ClosedReachesAll(cells, width, height, w, v);
    }
  }

  /** In a grid of at least two cells every cell has a neighbour. */
  lemma HasNeighbour(i: int, width: int, height: int) returns (d: Dir)
    requires width > 0 && height >= 0 && 0 <= i < width * height && width * height >= 2
    ensures Adjacent(i, width, width * height)[d] != -1
  {
    DivMod(i, width, height);
    if width >= 2 {
      d := if i % width == 0 then 1 else 3;
    } else {
      assert height >= 2;
      d := if i / width == 0 then 2 else 0;
    }
    AdjacentIsNeighbour(i, width, height, d);
  }

  /** The inputs of one call. */
  datatype Env = Env(start: int, end: int, width: int, height: int, isAir: seq<bool>,
                     tilemap: seq<int>, tileset: seq<Tile>, grass: int, clearGrass: bool)

  ghost predicate EnvOk(e: Env)
  {
    e.width > 0 && e.height > 0 && |e.isAir| == e.width * e.height && |e.isAir| < ArrayLimit &&
    0 <= e.start < |e.isAir| && 0 <= e.end < |e.isAir| &&
    |e.tilemap| == |e.isAir| && ValidMap(e.tileset, e.tilemap)
  }

  /** The variables of `pathToDoor`, with `isAirTile` as `air` and `tilemap` as `tilemap`. */
  datatype Search = Search(visited: seq<bool>, queue: seq<int>, air: seq<bool>, tilemap: seq<int>,
                           preClosest: int, closest: int, minDist: int)

  /**
    Proof bookkeeping: a path to every reached cell, the cell from which the
    current closest wall was seen, the cells turned into air so far, and the
    cells whose neighbours the first round has examined.
  */
  datatype Trace = Trace(paths: map<int, seq<int>>, from: int, carved: seq<int>, done: set<int>)

  ghost predicate Shape(e: Env, s: Search)
  {
    |s.visited| == |e.isAir| && |s.air| == |e.isAir| && |s.tilemap| == |e.isAir| &&
    (forall k | 0 <= k < |s.queue| :: 0 <= s.queue[k] < |e.isAir|) &&
    -1 <= s.closest < |e.isAir|
  }

  /** Each carved cell is strictly closer to the door than the one before. */
  ghost predicate Approaching(carved: seq<int>, end: int, width: int)
    requires width > 0
  {
    forall a, b | 0 <= a < b < |carved| :: Dist(carved[a], end, width) > Dist(carved[b], end, width)
  }

  /** Air is the original air plus the carved cells, which were all walls. */
  ghost predicate AirInv(e: Env, s: Search, t: Trace)
    requires EnvOk(e) && Shape(e, s)
  {
    (forall k | 0 <= k < |t.carved| :: 0 <= t.carved[k] < |e.isAir| && !e.isAir[t.carved[k]]) &&
    (forall i | 0 <= i < |e.isAir| :: s.air[i] == (e.isAir[i] || i in t.carved)) &&
    Approaching(t.carved, e.end, e.width)
  }

  /** Cell i of `tm` is as given, or it was grass on top of an original wall and was cleared (src/map.ts only). */
  ghost predicate ClearedOk(e: Env, tm: seq<int>, i: int)
    requires EnvOk(e) && |tm| == |e.isAir| && 0 <= i < |tm|
  {
    tm[i] == e.tilemap[i] ||
    (e.clearGrass && tm[i] == 0 && FrameAt(e.tileset, e.tilemap, i) == e.grass &&
     i + e.width < |e.isAir| && !e.isAir[i + e.width])
  }

  ghost predicate TilesInv(e: Env, s: Search)
    requires EnvOk(e) && Shape(e, s)
  {
    ValidMap(e.tileset, s.tilemap) && forall i | 0 <= i < |e.isAir| :: ClearedOk(e, s.tilemap, i)
  }

  /** What `closest`, `preClosest` and `minDist` record. */
  ghost predicate ClosestInv(e: Env, s: Search, t: Trace)
    requires EnvOk(e) && Shape(e, s)
  {
    (s.closest == -1 <==> s.minDist == MaxSafeInteger) &&
    (s.closest != -1 ==>
      s.minDist == Dist(s.closest, e.end, e.width) && t.from in t.paths &&
      0 <= t.from < |e.isAir| && s.closest in Adjacent(t.from, e.width, |e.isAir|)) &&
    (s.preClosest != s.closest ==> s.closest != -1 && !s.air[s.closest]) &&
    (|t.carved| > 0 ==>
      var last := t.carved[|t.carved| - 1];
      s.minDist <= Dist(last, e.end, e.width) &&
      (s.closest != last ==> s.minDist < Dist(last, e.end, e.width)) &&
      (s.closest == last ==> s.preClosest == s.closest)) &&
    (|t.carved| == 0 && s.closest != -1 ==> s.preClosest != s.closest)
  }

  /** Every reached or queued cell has a recorded air path from the start. */
  ghost predicate PathInv(e: Env, s: Search, t: Trace)
    requires EnvOk(e) && Shape(e, s)
  {
    e.start in t.paths &&
    (forall v | v in t.paths :: 0 <= v < |e.isAir| && Path(t.paths[v], e.start, v, e.width, s.air)) &&
    (forall v | 0 <= v < |e.isAir| && s.visited[v] :: v in t.paths) &&
    (forall k | 0 <= k < |s.queue| :: s.queue[k] in t.paths)
  }

  ghost predicate Inv(e: Env, s: Search, t: Trace)
  {
    EnvOk(e) && Shape(e, s) && AirInv(e, s, t) && TilesInv(e, s) && ClosestInv(e, s, t) && PathInv(e, s, t)
  }

  /**
    The first round, before anything is carved: every reached cell has been
    examined, is waiting in the queue or is the cell `cur` being examined;
    and as long as no wall has been met, every neighbour of an examined cell
    has been reached.
  */
  ghost predicate FirstRound(e: Env, s: Search, t: Trace, cur: int)
    requires Inv(e, s, t)
  {
    (forall v | v in t.done :: 0 <= v < |e.isAir|) &&
    (forall v | 0 <= v < |e.isAir| && s.visited[v] :: v in t.done || v in s.queue || v == cur) &&
    (e.start in t.done || e.start in s.queue || e.start == cur) &&
    (s.closest == -1 ==>
      forall u, d: Dir | u in t.done && 0 <= u && 0 <= Adjacent(u, e.width, |e.isAir|)[d] < |e.isAir| ::
        s.visited[Adjacent(u, e.width, |e.isAir|)[d]])
  }

  /** How one examination step may change the state: it only reaches new cells and queues them. */
  ghost predicate Step(s: Search, t: Trace, s': Search, t': Trace)
  {
    s'.air == s.air && t'.carved == t.carved && t'.done == t.done &&
    |s'.visited| == |s.visited| &&
    (forall i | 0 <= i < |s.visited| && s.visited[i] :: s'.visited[i]) &&
    |s.queue| <= |s'.queue| && s'.queue[..|s.queue|] == s.queue &&
    |s'.queue| - |s.queue| + CountFalse(s'.visited) == CountFalse(s.visited) &&
    (forall v | 0 <= v < |s.visited| && s'.visited[v] && !s.visited[v] :: v in s'.queue) &&
    (s.closest != -1 ==> s'.closest != -1) &&
    (forall v | v in t.paths :: v in t'.paths)
  }

  lemma StepTrans(s1: Search, t1: Trace, s2: Search, t2: Trace, s3: Search, t3: Trace)
    requires Step(s1, t1, s2, t2) && Step(s2, t2, s3, t3)
    ensures Step(s1, t1, s3, t3)
  {
    assert s3.queue[..|s1.queue|] == s3.queue[..|s2.queue|][..|s1.queue|];
    forall v | 0 <= v < |s1.visited| && s3.visited[v] && !s1.visited[v]
      ensures v in s3.queue
    {
      if s2.visited[v] {
        assert v in s3.queue[..|s2.queue|];
      }
    }
  }

  /** Reach the air cell `a`: mark it visited and queue it. */
  function Reach(s: Search, a: int): Search
    requires 0 <= a < |s.visited|
  {
    s.(visited := s.visited[a := true], queue := s.queue + [a])
  }

  /** Record a path to a newly reached cell, through the cell it was reached from. */
  function ReachTrace(t: Trace, cur: int, a: int): Trace
    requires cur in t.paths
  {
    if a in t.paths then t else t.(paths := t.paths[a := t.paths[cur] + [a]])
  }

  /** Remember the wall `a` as the closest one so far. */
  function Weigh(s: Search, a: int, dist: int): Search
  {
    s.(preClosest := s.closest, closest := a, minDist := dist)
  }

  lemma ReachStep(e: Env, s: Search, t: Trace, cur: int, a: int)
    requires Inv(e, s, t) && cur in t.paths
    requires 0 <= a < |e.isAir| && a in Adjacent(cur, e.width, |e.isAir|) && !s.visited[a] && s.air[a]
    ensures Inv(e, Reach(s, a), ReachTrace(t, cur, a)) && Step(s, t, Reach(s, a), ReachTrace(t, cur, a))
    ensures |t.carved| == 0 && FirstRound(e, s, t, cur) ==> FirstRound(e, Reach(s, a), ReachTrace(t, cur, a), cur)
  {
    ReachInv(e, s, t, cur, a);
    ReachIsStep(s, t, cur, a);
    if |t.carved| == 0 && FirstRound(e, s, t, cur) {
      ReachFirstRound(e, s, t, cur, a);
    }
  }

  lemma ReachIsStep(s: Search, t: Trace, cur: int, a: int)
    requires cur in t.paths && 0 <= a < |s.visited| && !s.visited[a]
    ensures Step(s, t, Reach(s, a), ReachTrace(t, cur, a))
  {
    var s' := Reach(s, a);
    CountFalseSet(s.visited, a);
    assert s'.queue[..|s.queue|] == s.queue;
  }

  lemma ReachFirstRound(e: Env, s: Search, t: Trace, cur: int, a: int)
    requires Inv(e, s, t) && cur in t.paths && FirstRound(e, s, t, cur)
    requires 0 <= a < |e.isAir| && !s.visited[a]
    requires Inv(e, Reach(s, a), ReachTrace(t, cur, a))
    ensures FirstRound(e, Reach(s, a), ReachTrace(t, cur, a), cur)
  {
  }

  lemma ReachInv(e: Env, s: Search, t: Trace, cur: int, a: int)
    requires Inv(e, s, t) && cur in t.paths
    requires 0 <= a < |e.isAir| && a in Adjacent(cur, e.width, |e.isAir|) && !s.visited[a] && s.air[a]
    ensures Inv(e, Reach(s, a), ReachTrace(t, cur, a))
  {
    var s', t' := Reach(s, a), ReachTrace(t, cur, a);
    ReachPaths(e, s, t, cur, a);
    assert Shape(e, s');
    assert AirInv(e, s', t') && TilesInv(e, s');
    ReachClosest(e, s, t, cur, a);
  }

  /** Reaching a cell leaves the closest wall, and the path to where it was seen from, alone. */
  lemma ReachClosest(e: Env, s: Search, t: Trace, cur: int, a: int)
    requires Inv(e, s, t) && cur in t.paths && 0 <= a < |e.isAir| && Shape(e, Reach(s, a))
    ensures ClosestInv(e, Reach(s, a), ReachTrace(t, cur, a))
  {
    var s', t' := Reach(s, a), ReachTrace(t, cur, a);
    assert t'.carved == t.carved && t'.from == t.from && s'.air == s.air;
    if s.closest != -1 {
      assert t.from in t'.paths;
    }
  }

  lemma ReachPaths(e: Env, s: Search, t: Trace, cur: int, a: int)
    requires Inv(e, s, t) && cur in t.paths
    requires 0 <= a < |e.isAir| && a in Adjacent(cur, e.width, |e.isAir|) && !s.visited[a] && s.air[a]
    ensures Shape(e, Reach(s, a)) && PathInv(e, Reach(s, a), ReachTrace(t, cur, a))
  {
    var s', t' := Reach(s, a), ReachTrace(t, cur, a);
    if a !in t.paths {
      PathExtend(t.paths[cur], e.start, cur, a, e.width, s.air);
    }
    assert Shape(e, s');
    forall v | v in t'.paths
      ensures 0 <= v < |e.isAir| && Path(t'.paths[v], e.start, v, e.width, s'.air)
    {
      if v != a {
        assert t'.paths[v] == t.paths[v];
      }
    }
  }

  lemma ClearStep(e: Env, s: Search, t: Trace, top: int)
    requires Inv(e, s, t) && e.clearGrass
    requires 0 <= top && top + e.width < |e.isAir| && !s.air[top + e.width]
    requires FrameAt(e.tileset, s.tilemap, top) == e.grass
    ensures Inv(e, s.(tilemap := s.tilemap[top := 0]), t) && Step(s, t, s.(tilemap := s.tilemap[top := 0]), t)
    ensures forall cur :: |t.carved| == 0 && FirstRound(e, s, t, cur) ==> FirstRound(e, s.(tilemap := s.tilemap[top := 0]), t, cur)
  {
    assert s.queue[..|s.queue|] == s.queue;
    var s' := s.(tilemap := s.tilemap[top := 0]);
    assert ClearedOk(e, s.tilemap, top);
    assert !e.isAir[top + e.width];
    assert 0 <= e.tilemap[0] < |e.tileset|;
    assert ValidMap(e.tileset, s'.tilemap);
    assert ClearedOk(e, s'.tilemap, top);
    forall i | 0 <= i < |e.isAir|
      ensures ClearedOk(e, s'.tilemap, i)
    {
      if i != top {
        assert ClearedOk(e, s.tilemap, i);
      }
    }
    assert Shape(e, s');
    assert TilesInv(e, s');
  }

  lemma WeighStep(e: Env, s: Search, t: Trace, cur: int, a: int, dist: int)
    requires Inv(e, s, t) && cur in t.paths
    requires 0 <= a < |e.isAir| && a in Adjacent(cur, e.width, |e.isAir|) && !s.air[a]
    requires dist == Dist(a, e.end, e.width) && dist < s.minDist
    ensures Inv(e, Weigh(s, a, dist), t.(from := cur)) && Step(s, t, Weigh(s, a, dist), t.(from := cur))
    ensures |t.carved| == 0 && FirstRound(e, s, t, cur) ==> FirstRound(e, Weigh(s, a, dist), t.(from := cur), cur)
  {
    assert s.queue[..|s.queue|] == s.queue;
    var s', t' := Weigh(s, a, dist), t.(from := cur);
    DistBound(a, e.end, e.width, e.height);
    assert Shape(e, s');
    assert ClosestInv(e, s', t');
  }

  /** In the `src/map.ts` variant, the grass above the wall just met is cleared; nothing else changes. */
  method ClearAbove(e: Env, s: Search, ghost t: Trace, ghost cur: int, a: int) returns (s': Search)
    requires Inv(e, s, t) && 0 <= a < |e.isAir| && !s.air[a]
    ensures Inv(e, s', t) && Step(s, t, s', t)
    ensures s'.air == s.air && s'.closest == s.closest && s'.minDist == s.minDist
    ensures |t.carved| == 0 && FirstRound(e, s, t, cur) ==> FirstRound(e, s', t, cur)
  {
    s' := s;
    assert s'.queue[..|s.queue|] == s.queue;
    var top := Max(-1, a - e.width);
    if e.clearGrass && top > -1 && FrameAt(e.tileset, s.tilemap, top) == e.grass {
      ClearStep(e, s, t, top);
      s' := s.(tilemap := s.tilemap[top := 0]);
    }
  }

  /** A wall neighbour `a` of `cur`: clear the grass on top of it if asked, and weigh it. */
  method MeetWall(e: Env, s: Search, ghost t: Trace, cur: int, a: int) returns (s': Search, ghost t': Trace)
    requires Inv(e, s, t) && cur in t.paths
    requires 0 <= a < |e.isAir| && a in Adjacent(cur, e.width, |e.isAir|) && !s.air[a]
    ensures Inv(e, s', t') && Step(s, t, s', t') && s'.closest != -1
    ensures |t.carved| == 0 && FirstRound(e, s, t, cur) ==> FirstRound(e, s', t', cur)
  {
    s' := ClearAbove(e, s, t, cur, a);
    t' := t;
    DistBound(a, e.end, e.width, e.height);
    var dist := Dist(a, e.end, e.width);
    if dist < s'.minDist {
      var s0 := s';
      WeighStep(e, s0, t, cur, a, dist);
      s', t' := Weigh(s0, a, dist), t.(from := cur);
      StepTrans(s, t, s0, t, s', t');
    }
  }

  /** One `adjacent` of the examined cell `cur`: reach it if it is air, otherwise weigh it as a wall to carve. */
  method Explore(e: Env, s: Search, ghost t: Trace, cur: int, d: Dir) returns (s': Search, ghost t': Trace)
    requires Inv(e, s, t) && cur in t.paths
    ensures Inv(e, s', t') && Step(s, t, s', t')
    ensures |t.carved| == 0 && FirstRound(e, s, t, cur) ==> FirstRound(e, s', t', cur)
    ensures var a := Adjacent(cur, e.width, |e.isAir|)[d];
      0 <= a < |e.isAir| && s'.closest == -1 ==> s'.visited[a]
  {
    var n := |e.isAir|;
    AdjacentInRange(cur, e.width, e.height, d);
    var a := Adjacent(cur, e.width, n)[d];
    s', t' := s, t;
    assert s'.queue[..|s.queue|] == s.queue;
    if a > -1 && !s.visited[a] {
      if s.air[a] {
        ReachStep(e, s, t, cur, a);
        s', t' := Reach(s, a), ReachTrace(t, cur, a);
      } else {
        s', t' := MeetWall(e, s, t, cur, a);
      }
    }
  }

  /** Every in-range neighbour of `cur` in the first `k` directions has been reached. */
  ghost predicate Examined(e: Env, s: Search, cur: int, k: int)
    requires e.width > 0 && cur >= 0
  {
    forall d: Dir | d < k && 0 <= Adjacent(cur, e.width, |e.isAir|)[d] < |s.visited| ::
      s.visited[Adjacent(cur, e.width, |e.isAir|)[d]]
  }

  /** The state after examining the first `k` neighbours of `cur`, starting from (s, t). */
  ghost predicate CellDone(e: Env, s: Search, t: Trace, s': Search, t': Trace, cur: int, k: int)
    requires Inv(e, s, t) && cur >= 0
  {
    Inv(e, s', t') && Step(s, t, s', t') && cur in t'.paths &&
    (|t.carved| == 0 && FirstRound(e, s, t, cur) ==>
      FirstRound(e, s', t', cur) && (s'.closest == -1 ==> Examined(e, s', cur, k)))
  }

  lemma CellStep(e: Env, s: Search, t: Trace, s0: Search, t0: Trace, s1: Search, t1: Trace, cur: int, d: Dir)
    requires Inv(e, s, t) && cur >= 0 && CellDone(e, s, t, s0, t0, cur, d)
    requires Inv(e, s1, t1) && Step(s0, t0, s1, t1)
    requires |t0.carved| == 0 && FirstRound(e, s0, t0, cur) ==> FirstRound(e, s1, t1, cur)
    requires var a := Adjacent(cur, e.width, |e.isAir|)[d];
      0 <= a < |e.isAir| && s1.closest == -1 ==> s1.visited[a]
    ensures CellDone(e, s, t, s1, t1, cur, d + 1)
  {
    StepTrans(s, t, s0, t0, s1, t1);
  }

  /** Examine the four neighbours of `cur`. */
  method ExploreCell(e: Env, s: Search, ghost t: Trace, cur: int) returns (s': Search, ghost t': Trace)
    requires Inv(e, s, t) && cur in t.paths
    ensures cur >= 0 && CellDone(e, s, t, s', t', cur, 4)
  {
    s', t' := s, t;
    assert s'.queue[..|s.queue|] == s.queue;
    for d := 0 to 4
      invariant CellDone(e, s, t, s', t', cur, d)
    {
      ghost var s0, t0 := s', t';
      s', t' := Explore(e, s', t', cur, d);
      CellStep(e, s, t, s0, t0, s', t', cur, d);
    }
  }

  /** The inner `while (queue.length > 0)` loop: one round of the search. */
  method Round(e: Env, s: Search, ghost t: Trace) returns (s': Search, ghost t': Trace)
    requires Inv(e, s, t)
    requires |t.carved| == 0 ==> FirstRound(e, s, t, -1)
    ensures Inv(e, s', t') && s'.air == s.air && t'.carved == t.carved
    ensures !s'.visited[e.end] ==> s'.queue == [] && (|t'.carved| == 0 ==> FirstRound(e, s', t', -1))
  {
    s', t' := s, t;
    while |s'.queue| > 0
      invariant Inv(e, s', t') && s'.air == s.air && t'.carved == t.carved
      invariant |t.carved| == 0 ==> FirstRound(e, s', t', -1)
      decreases CountFalse(s'.visited), |s'.queue|
    {
      var cur := s'.queue[0];
      PopStep(e, s', t');
      s' := s'.(queue := s'.queue[1..]);
      if s'.visited[e.end] {
        break;
      }
      ghost var s0, t0 := s', t';
      s', t' := ExploreCell(e, s', t', cur);
      DoneStep(e, s0, t0, s', t', cur);
      t' := t'.(done := t'.done + {cur});
    }
  }

  lemma PopStep(e: Env, s: Search, t: Trace)
    requires Inv(e, s, t) && |s.queue| > 0
    ensures Inv(e, s.(queue := s.queue[1..]), t) && s.queue[0] in t.paths
    ensures |t.carved| == 0 && FirstRound(e, s, t, -1) ==> FirstRound(e, s.(queue := s.queue[1..]), t, s.queue[0])
  {
    assert s.queue == [s.queue[0]] + s.queue[1..];
    var s' := s.(queue := s.queue[1..]);
    assert Shape(e, s');
    assert PathInv(e, s', t);
  }

  lemma DoneStep(e: Env, s0: Search, t0: Trace, s1: Search, t1: Trace, cur: int)
    requires Inv(e, s0, t0) && cur >= 0 && CellDone(e, s0, t0, s1, t1, cur, 4)
    ensures Inv(e, s1, t1.(done := t1.done + {cur}))
    ensures |t0.carved| == 0 && FirstRound(e, s0, t0, cur) ==> FirstRound(e, s1, t1.(done := t1.done + {cur}), -1)
  {
    var t' := t1.(done := t1.done + {cur});
    assert Inv(e, s1, t') by {
      assert AirInv(e, s1, t') && ClosestInv(e, s1, t') && PathInv(e, s1, t');
    }
    if |t0.carved| == 0 && FirstRound(e, s0, t0, cur) {
      DoneFirstRound(e, s0, t0, s1, t1, cur);
    }
  }

  /** Once all four neighbours of `cur` are examined, `cur` joins the examined cells. */
  lemma DoneFirstRound(e: Env, s0: Search, t0: Trace, s1: Search, t1: Trace, cur: int)
    requires Inv(e, s0, t0) && cur >= 0 && CellDone(e, s0, t0, s1, t1, cur, 4)
    requires Inv(e, s1, t1.(done := t1.done + {cur}))
    requires |t0.carved| == 0 && FirstRound(e, s0, t0, cur)
    ensures FirstRound(e, s1, t1.(done := t1.done + {cur}), -1)
  {
    var t' := t1.(done := t1.done + {cur});
    assert FirstRound(e, s1, t1, cur);
    forall v | 0 <= v < |e.isAir| && s1.visited[v]
      ensures v in t'.done || v in s1.queue
    {
    }
    if s1.closest == -1 {
      DoneNeighbours(e, s1, t1.done, cur);
    }
  }

  /** Adding a cell whose four neighbours were examined keeps every examined cell's neighbours visited. */
  lemma DoneNeighbours(e: Env, s: Search, done: set<int>, cur: int)
    requires e.width > 0 && cur >= 0 && |s.visited| == |e.isAir|
    requires forall u, d: Dir | u in done && 0 <= u && 0 <= Adjacent(u, e.width, |e.isAir|)[d] < |e.isAir| ::
               s.visited[Adjacent(u, e.width, |e.isAir|)[d]]
    requires Examined(e, s, cur, 4)
    ensures forall u, d: Dir | u in done + {cur} && 0 <= u && 0 <= Adjacent(u, e.width, |e.isAir|)[d] < |e.isAir| ::
              s.visited[Adjacent(u, e.width, |e.isAir|)[d]]
  {
  }

  /**
    A first round that ends without meeting any wall has reached every
    neighbour of every examined cell; since the grid is connected, it has
    reached every cell that has a neighbour, the door included.
  */
  lemma FirstRoundMeetsWall(e: Env, s: Search, t: Trace)
    requires Inv(e, s, t)
    requires |t.carved| == 0 ==> FirstRound(e, s, t, -1)
    ensures |t.carved| == 0 && |e.isAir| >= 2 && s.closest == -1 && s.queue == [] ==> s.visited[e.end]
  {
    var n := |e.isAir|;
    if |t.carved| == 0 && n >= 2 && s.closest == -1 && s.queue == [] {
      assert Closed(t.done, e.width, e.height) by {
        forall u, d: Dir | u in t.done && 0 <= u && Adjacent(u, e.width, e.width * e.height)[d] != -1
          ensures Adjacent(u, e.width, e.width * e.height)[d] in t.done
        {
          AdjacentInRange(u, e.width, e.height, d);
        }
      }
      var d := HasNeighbour(e.end, e.width, e.height);
      AdjacentSymmetric(e.end, e.width, e.height, d);
      var u := Adjacent(e.end, e.width, n)[d];
      ClosedReachesAll(t.done, e.width, e.height, e.start, u);
      assert Adjacent(u, e.width, n)[Opposite(d)] == e.end;
    }
  }

  /** Turn the closest wall into air and queue it. */
  function Carve(s: Search): Search
    requires 0 <= s.closest < |s.air|
  {
    s.(queue := s.queue + [s.closest], air := s.air[s.closest := true], preClosest := s.closest)
  }

  /** The bookkeeping of a carve: a path to the carved wall through the cell it was seen from. */
  ghost function CarveTrace(s: Search, t: Trace): Trace
    requires s.closest in t.paths || t.from in t.paths
  {
    var c := s.closest;
    t.(paths := if c in t.paths then t.paths else t.paths[c := t.paths[t.from] + [c]],
       carved := t.carved + [c])
  }

  lemma CarvePaths(e: Env, s: Search, t: Trace)
    requires Inv(e, s, t) && s.preClosest != s.closest
    ensures 0 <= s.closest < |s.air| && Shape(e, Carve(s)) && PathInv(e, Carve(s), CarveTrace(s, t))
  {
    var c := s.closest;
    var s', t' := Carve(s), CarveTrace(s, t);
    forall v | v in t.paths
      ensures Path(t.paths[v], e.start, v, e.width, s'.air)
    {
      PathGrow(t.paths[v], e.start, v, e.width, s.air, s'.air);
    }
    if c !in t.paths {
      PathGrow(t.paths[t.from], e.start, t.from, e.width, s.air, s'.air);
      PathExtend(t.paths[t.from], e.start, t.from, c, e.width, s'.air);
    }
    assert Shape(e, s');
  }

  lemma CarveAir(e: Env, s: Search, t: Trace)
    requires Inv(e, s, t) && s.preClosest != s.closest && Shape(e, Carve(s))
    ensures AirInv(e, Carve(s), CarveTrace(s, t)) && TilesInv(e, Carve(s))
  {
    var c := s.closest;
    var s', t' := Carve(s), CarveTrace(s, t);
    assert forall i | 0 <= i < |e.isAir| :: s'.air[i] == (e.isAir[i] || i in t'.carved);
    CarveApproaching(e, s, t);
  }

  /** The carved wall is strictly closer to the door than every wall carved before it. */
  lemma CarveApproaching(e: Env, s: Search, t: Trace)
    requires Inv(e, s, t) && s.preClosest != s.closest
    ensures Approaching(t.carved + [s.closest], e.end, e.width)
  {
    var cs := t.carved + [s.closest];
    forall a, b | 0 <= a < b < |cs|
      ensures Dist(cs[a], e.end, e.width) > Dist(cs[b], e.end, e.width)
    {
      if b == |t.carved| {
        var last := t.carved[|t.carved| - 1];
        assert Dist(cs[a], e.end, e.width) >= Dist(last, e.end, e.width) > s.minDist;
      }
    }
  }

  lemma CarveClosest(e: Env, s: Search, t: Trace)
    requires Inv(e, s, t) && s.preClosest != s.closest && Shape(e, Carve(s))
    requires PathInv(e, Carve(s), CarveTrace(s, t))
    ensures ClosestInv(e, Carve(s), CarveTrace(s, t))
  {
  }

  lemma CarveKeepsInv(e: Env, s: Search, t: Trace) returns (t': Trace)
    requires Inv(e, s, t) && s.preClosest != s.closest
    ensures 0 <= s.closest < |s.air| && Inv(e, Carve(s), t')
    ensures t'.carved == t.carved + [s.closest]
    ensures CountFalse(Carve(s).air) < CountFalse(s.air)
  {
    CountFalseSet(s.air, s.closest);
    CarvePaths(e, s, t);
    CarveAir(e, s, t);
    CarveClosest(e, s, t);
    t' := CarveTrace(s, t);
  }

  method Run(e: Env) returns (s: Search, ghost t: Trace)
    requires EnvOk(e)
    ensures Inv(e, s, t)
    ensures |e.isAir| >= 2 && !s.visited[e.end] ==> |t.carved| > 0
  {
    var n := |e.isAir|;
    s := Search(seq(n, _ => false), [e.start], e.isAir, e.tilemap, -1, -1, MaxSafeInteger);
    t := Trace(map[e.start := [e.start]], 0, [], {});
    while true
      invariant Inv(e, s, t)
      invariant |t.carved| == 0 ==> FirstRound(e, s, t, -1)
      decreases CountFalse(s.air)
    {
      s, t := Round(e, s, t);
      if s.visited[e.end] {
        break;
      }
      FirstRoundMeetsWall(e, s, t);
      if s.preClosest == s.closest {
        break;
      }
      t := CarveKeepsInv(e, s, t);
      s := Carve(s);
    }
  }

  /**
    `pathToDoor(startIndex, endIndex, width, isAirTile)` of
    src/map_generator/workers/levelLayer.ts (`clearGrass` false) and the
    six-argument variant of src/map.ts (`clearGrass` true). Returns whether
    the door was reached together with the updated `isAirTile` and `tilemap`.
  */
  method PathToDoor(start: int, end: int, width: int, isAir: seq<bool>,
                    tilemap: seq<int>, tileset: seq<Tile>, grass: int, clearGrass: bool)
    returns (found: bool, air: seq<bool>, tiles: seq<int>, ghost visited: seq<bool>, ghost carved: seq<int>)
    requires width > 0 && |isAir| % width == 0 && |isAir| < ArrayLimit
    requires 0 <= start < |isAir| && 0 <= end < |isAir|
    requires |tilemap| == |isAir| && ValidMap(tileset, tilemap)
    ensures |air| == |isAir| && |visited| == |isAir| && found == visited[end]
    // isAirTile only changes from false to true, exactly at the carved walls
    ensures forall i | 0 <= i < |isAir| && isAir[i] :: air[i]
    ensures forall i | 0 <= i < |isAir| :: air[i] == (isAir[i] || i in carved)
    ensures forall k | 0 <= k < |carved| :: 0 <= carved[k] < |isAir| && !isAir[carved[k]]
    // every carved wall is strictly closer to the door than the previous one
    ensures Approaching(carved, end, width)
    // every reached cell, the door in particular, is joined to the start through air
    ensures forall v | 0 <= v < |isAir| && visited[v] :: Linked(start, v, width, air)
    ensures found ==> Linked(start, end, width, air)
    // a failing call always opens at least one wall
    ensures |isAir| >= 2 && !found ==> |carved| > 0
    // the tile map changes only by clearing grass above original walls, and only in the src/map.ts variant
    ensures |tiles| == |tilemap| && ValidMap(tileset, tiles)
    ensures forall i | 0 <= i < |tiles| ::
      tiles[i] == tilemap[i] ||
      (clearGrass && tiles[i] == 0 && tileset[tilemap[i]].frame == grass &&
       i + width < |isAir| && !isAir[i + width])
  {
    var height := |isAir| / width;
    var e := Env(start, end, width, height, isAir, tilemap, tileset, grass, clearGrass);
    var s;
    ghost var t;
    s, t := Run(e);
    found, air, tiles, visited, carved := s.visited[end], s.air, s.tilemap, s.visited, t.carved;
    forall v | 0 <= v < |isAir| && visited[v]
      ensures Linked(start, v, width, air)
    {
      assert Path(t.paths[v], start, v, width, air);
    }
    forall i | 0 <= i < |tiles|
      ensures tiles[i] == tilemap[i] ||
        (clearGrass && tiles[i] == 0 && tileset[tilemap[i]].frame == grass &&
         i + width < |isAir| && !isAir[i + width])
    {
      assert ClearedOk(e, s.tilemap, i);
    }
  }
}

=== FILE: proportions.dfy ===
/**
  Frame proportions: the nested solver's defaults and its validating setter
  (src/NWFC.ts), and the flat solver's `setProportion` validation
  (src/map_generator/SimpleTiledModel.ts). A proportion object is a list of
  (frame, value) entries in the object's key order; its keys are distinct.
  The rescaling of tile weights that follows a successful validation is
  in module SolverWeights.
*/
module Proportions {

  type Entries = seq<(int, real)>

  /** An object never holds the same key twice. */
  predicate DistinctKeys(es: Entries)
  {
    forall i, j | 0 <= i < j < |es| :: es[i].0 != es[j].0
  }

  function KeySet(es: Entries): set<int>
  {
    set i | 0 <= i < |es| :: es[i].0
  }

  /** The sum of the values, in key order. */
  function Total(es: Entries): real
  {
    if |es| == 0 then 0.0 else Total(es[..|es| - 1]) + es[|es| - 1].1
  }

  /** Nonnegative values make the running total grow. */
  lemma {:induction false} TotalPrefixMono(es: Entries, k: nat)
    requires k <= |es|
    requires forall i | 0 <= i < |es| :: es[i].1 >= 0.0
    ensures Total(es[..k]) <= Total(es)
    decreases |es|
  {
    if k < |es| {
      var init := es[..|es| - 1];
      assert es[..k] == init[..k];
      TotalPrefixMono(init, k);
    } else {
      assert es[..k] == es;
    }
  }

  lemma {:induction false} TotalNonNegative(es: Entries)
    requires forall i | 0 <= i < |es| :: es[i].1 >= 0.0
    ensures Total(es) >= 0.0
    decreases |es|
  {
    if |es| > 0 {
      TotalNonNegative(es[..|es| - 1]);
    }
  }

  /** The constructor's defaults: every catalog frame gets weight 1 / |frames|. */
  function DefaultProportions(frames: set<int>): (r: map<int, real>)
    ensures r.Keys == frames
    ensures forall f | f in r :: r[f] * (|frames| as real) == 1.0
  {
    map f | f in frames :: 1.0 / (|frames| as real)
  }

  /** What the nested solver's setter accepts: known frames, values in [0, 1], total at most 1. */
  predicate SetterAccepts(es: Entries, frames: set<int>)
  {
    && (forall i | 0 <= i < |es| :: es[i].0 in frames && 0.0 <= es[i].1 <= 1.0)
    && Total(es) <= 1.0
  }

  /** The setter's validation pass: stops at the first bad key, bad value or running total above 1. */
  method ValidateProportions(frames: set<int>, es: Entries) returns (ok: bool)
    ensures ok <==> SetterAccepts(es, frames)
  {
    var total := 0.0;
    var i := 0;
    while i < |es|
      invariant 0 <= i <= |es|
      invariant total == Total(es[..i])
      invariant forall k | 0 <= k < i :: es[k].0 in frames && 0.0 <= es[k].1 <= 1.0
    {
      var (frame, value) := es[i];
      if frame !in frames || value < 0.0 || value > 1.0 {
        return false;
      }
      assert es[..i + 1][..i] == es[..i];
      total := total + value;
      if total > 1.0 {
        if forall k | 0 <= k < |es| :: 0.0 <= es[k].1 {
          TotalPrefixMono(es, i + 1);
        }
        return false;
      }
      i := i + 1;
    }
    assert es[..i] == es;
    ok := true;
  }

  /** What the setter stores after accepting `es`. */
  function AcceptedProportions(frames: set<int>, es: Entries): (r: map<int, real>)
    requires DistinctKeys(es)
    requires SetterAccepts(es, frames)
    ensures r.Keys == frames
    ensures forall i | 0 <= i < |es| :: r[es[i].0] == es[i].1
    ensures forall f | f in frames - KeySet(es) ::
      r[f] * ((|frames| - |es|) as real) == 1.0 - Total(es)
    ensures forall f | f in r :: r[f] >= 0.0
  {
    KeysDistinctCard(es);
    var keys := KeySet(es);
    assert keys <= frames;
    SubsetCard(keys, frames);
    var diff := |frames| - |es|;
    EqualCardSubset(keys, frames);
    var r :=
      if diff > 0 then
        (map f | f in frames :: if f in keys then ValueOf(es, f) else (1.0 - Total(es)) / (diff as real))
      else
        (map k | k in keys :: ValueOf(es, k));
    assert forall j | 0 <= j < |es| :: r[es[j].0] == es[j].1 by {
      forall j | 0 <= j < |es|
        ensures r[es[j].0] == es[j].1
      {
        ValueOfAt(es, j);
      }
    }
    assert forall f | f in r :: r[f] >= 0.0 by {
      forall f | f in r
        ensures r[f] >= 0.0
      {
        if f in keys {
          var j := ValueOfIndex(es, f);
          ValueOfAt(es, j);
        }
      }
    }
    r
  }

  /**
    The `frameProportions` setter. On rejection the stored proportions are
    kept. On acceptance the input is stored and, when some catalog frames
    were not supplied, each of them gets an equal share of what is left.
  */
  method SetFrameProportions(stored: map<int, real>, frames: set<int>, es: Entries)
    returns (accepted: bool, r: map<int, real>)
    requires DistinctKeys(es)
    ensures accepted <==> SetterAccepts(es, frames)
    ensures !accepted ==> r == stored
    ensures accepted ==> r == AcceptedProportions(frames, es)
    ensures SolverAccepts(stored, frames) ==> SolverAccepts(r, frames)
  {
    accepted := ValidateProportions(frames, es);
    if accepted {
      r := AcceptedProportions(frames, es);
    } else {
      r := stored;
    }
  }

  /** The value an object holds for key `k`. */
  function ValueOf(es: Entries, k: int): real
    requires k in KeySet(es)
  {
    if es[|es| - 1].0 == k then es[|es| - 1].1
    else
      assert k in KeySet(es[..|es| - 1]) by {
        var j :| 0 <= j < |es| && es[j].0 == k;
        assert es[..|es| - 1][j] == es[j];
      }
      ValueOf(es[..|es| - 1], k)
  }

  lemma {:induction false} ValueOfAt(es: Entries, j: int)
    requires DistinctKeys(es)
    requires 0 <= j < |es|
    ensures ValueOf(es, es[j].0) == es[j].1
    decreases |es|
  {
    if j < |es| - 1 {
      var init := es[..|es| - 1];
      assert init[j] == es[j];
      ValueOfAt(init, j);
    }
  }

  lemma ValueOfIndex(es: Entries, k: int) returns (j: int)
    requires k in KeySet(es)
    ensures 0 <= j < |es| && es[j].0 == k
  {
    j :| 0 <= j < |es| && es[j].0 == k;
  }

  /** Distinct keys: as many keys as entries. */
  lemma {:induction false} KeysDistinctCard(es: Entries)
    requires DistinctKeys(es)
    ensures |KeySet(es)| == |es|
    decreases |es|
  {
    if |es| > 0 {
      var init := es[..|es| - 1];
      KeysDistinctCard(init);
      assert KeySet(es) == KeySet(init) + {es[|es| - 1].0} by {
        forall k
          ensures k in KeySet(es) <==> k in KeySet(init) || k == es[|es| - 1].0
        {
          if k in KeySet(es) && k != es[|es| - 1].0 {
            var j :| 0 <= j < |es| && es[j].0 == k;
            assert init[j] == es[j];
          }
          if k in KeySet(init) {
            var j :| 0 <= j < |init| && init[j].0 == k;
            assert es[j] == init[j];
          }
        }
      }
      assert es[|es| - 1].0 !in KeySet(init);
    }
  }

  lemma SubsetCard<T>(a: set<T>, b: set<T>)
    requires a <= b
    ensures |a| <= |b|
  {
    assert b == a + (b - a);
  }

  lemma EqualCardSubset<T>(a: set<T>, b: set<T>)
    requires a <= b
    ensures |a| >= |b| ==> a == b
  {
    assert b == a + (b - a);
  }

  /** The flat solver's `setProportion` validation, over a stored proportion map. */
  function SolverAccepts(p: map<int, real>, frames: set<int>): (ok: bool)
    ensures ok <==> p.Keys == frames && forall f | f in p :: p[f] >= 0.0
  {
    if |p.Keys| == |frames| && (forall f | f in p :: f in frames && p[f] >= 0.0) then
      EqualCardSubset(p.Keys, frames);
      true
    else
      false
  }

  /** The defaults the nested solver starts with pass the flat solver's validation. */
  lemma DefaultsPassSolver(frames: set<int>)
    ensures SolverAccepts(DefaultProportions(frames), frames)
  {
  }
}

=== FILE: solver_backtrack.dfy ===
/**
  `backTrack` of the simple tiled model (src/map_generator/SimpleTiledModel.ts):
  undo the newest record (restore every live end it pushed and recount the
  candidates that come back), exclude the tile that was tried on its fixed
  cell, and keep going while the choice stack shows a `-1` marker.
*/
module SolverBacktrack {
  import opened Tiles
  import opened Grid
  import opened EdgeCounts
  import opened SolverState
  import opened SolverSound
  import opened SolverFilter

  /** Every cell's candidates are tile ids. */
  lemma BaseIds(m: Model, j: int)
    requires Base(m) && 0 <= j < |m.possible|
    ensures IdsIn(m.possible[j], |m.tileset|)
  {
    assert CellOk(m, j);
    forall q | 0 <= q < |m.possible[j]|
      ensures 0 <= m.possible[j][q] < |m.tileset|
    {
      PermEntry(m.possible[j], |m.tileset|, q);
    }
  }

  /**
    The recount loop of `backTrack`: add back, one by one, the candidates at
    positions `lo` to `hi`; exact tables for the shorter prefix become exact
    tables for the longer one.
  */
  function Recount(ts: seq<Tile>, p: seq<int>, c: seq<Table>, lo: int, hi: int): (r: seq<Table>)
    requires 0 <= lo <= hi + 1 && hi < |p| && IdsIn(p, |ts|)
    requires CountsOk(c, ts, p[..lo])
    ensures CountsOk(r, ts, p[..hi + 1])
    decreases hi - lo + 1
  {
    if lo > hi then
      c
    else
      assert p[..lo + 1] == p[..lo] + [p[lo]];
      AddKeepsCounts(c, ts, p[..lo], p[..lo + 1], p[lo]);
      Recount(ts, p, UpdateEdges(c, ts[p[lo]], 1), lo + 1, hi)
  }

  /** Pop one live end of cell `j` and recount the candidates it had cut off. */
  function UndoEntry(m: Model, j: int): (m': Model)
    requires Base(m) && 0 <= j < |m.possible| && |m.ends[j]| >= 2
    ensures Base(m')
    ensures m'.ends == m.ends[j := Pop(m.ends[j])]
    ensures m' == m.(ends := m'.ends, counts := m'.counts)
  {
    assert CellOk(m, j);
    BaseIds(m, j);
    var e := m.ends[j];
    var popped, end := Top(e), Top(Pop(e));
    var c := Recount(m.tileset, m.possible[j], m.counts[j], popped + 1, end);
    var m' := m.(ends := m.ends[j := Pop(e)], counts := m.counts[j := c]);
    assert CellOk(m', j);
    assert forall i | 0 <= i < |m.possible| && i != j :: CellOk(m, i) ==> CellOk(m', i);
    m'
  }

  /** `e'` is `e` with, for every cell, as many entries popped as `last` names it. */
  ghost predicate PoppedBy(e: seq<seq<int>>, e': seq<seq<int>>, last: seq<int>)
  {
    && |e'| == |e|
    && forall j | 0 <= j < |e| :: |e'[j]| == |e[j]| - multiset(last)[j] && e'[j] == e[j][..|e'[j]|]
  }

  lemma PoppedByStep(e: seq<seq<int>>, e': seq<seq<int>>, last: seq<int>)
    requires |last| > 0 && 0 <= last[|last| - 1] < |e| && |e[last[|last| - 1]]| > 0
    requires PoppedBy(e[last[|last| - 1] := Pop(e[last[|last| - 1]])], e', Pop(last))
    ensures PoppedBy(e, e', last)
  {
    var j := last[|last| - 1];
    assert last == Pop(last) + [j];
    assert multiset(last) == multiset(Pop(last)) + multiset{j};
  }

  /** The newest entry still to undo has an entry of its own to pop. */
  lemma UndoEntryOcc(m: Model, last: seq<int>)
    requires Base(m) && OccOk(m, last) && |last| > 0
    requires forall k | 0 <= k < |last| :: 0 <= last[k] < |m.possible|
    ensures |m.ends[last[|last| - 1]]| >= 2
    ensures OccOk(UndoEntry(m, last[|last| - 1]), Pop(last))
  {
    var j := last[|last| - 1];
    assert last == Pop(last) + [j];
    assert multiset(last) == multiset(Pop(last)) + multiset{j};
    assert Occ(m.records, j) + multiset(last)[j] < |m.ends[j]|;
  }

  /** Undo the entries of a record, newest first. */
  function UndoEntries(m: Model, last: seq<int>): (m': Model)
    requires Base(m) && OccOk(m, last) && forall k | 0 <= k < |last| :: 0 <= last[k] < |m.possible|
    ensures Base(m') && OccOk(m', [])
    ensures m' == m.(ends := m'.ends, counts := m'.counts)
    ensures PoppedBy(m.ends, m'.ends, last)
    decreases |last|
  {
    if last == [] then
      m
    else
      var j := last[|last| - 1];
      UndoEntryOcc(m, last);
      var m' := UndoEntries(UndoEntry(m, j), Pop(last));
      PoppedByStep(m.ends, m'.ends, last);
      m'
  }

  /**
    Pop the newest record, unresolve its fixed cell and undo its entries:
    every live end it pushed is popped again.
  */
  function UndoRecord(m: Model): (m': Model)
    requires Valid(m) && |m.records| > 0
    ensures Valid(m')
    ensures m'.records == Pop(m.records)
    ensures m'.tileMap == m.tileMap[First(m.records[|m.records| - 1]) := -1]
    ensures m'.fixedCount == m.fixedCount - 1
    ensures m'.possible == m.possible && m'.stack == m.stack && m'.tileset == m.tileset
    ensures PoppedBy(m.ends, m'.ends, m.records[|m.records| - 1])
  {
    var R := m.records[|m.records| - 1];
    assert RecordOk(R, |m.possible|);
    var m1 := Unresolve(m);
    assert forall i | 0 <= i < |m.possible| :: CellOk(m, i) ==> CellOk(m1, i);
    forall j | 0 <= j < |m.possible|
      ensures Occ(m1.records, j) + multiset(R)[j] < |m1.ends[j]|
    {
      OccPop(m.records, j);
    }
    UndoEntries(m1, R)
  }

  /**
    After the undo: when the fixed cell still has more than one live
    candidate, the tile that was tried there (now first) is removed for good,
    the shorter live end pushed, and the cell pushed back onto the choice stack.
  */
  function Exclude(m: Model, f: int): (m': Model)
    requires Valid(m) && 0 <= f < |m.possible|
    ensures Valid(m')
    ensures Top(m.ends[f]) <= 0 ==> m' == m
    ensures Top(m.ends[f]) > 0 ==>
      && Base(m') && |m'.possible| == |m.possible| && |m.possible[f]| > 0
      && m'.stack == m.stack + [f]
      && multiset(Live(m', f)) + multiset{m.possible[f][0]} == multiset(Live(m, f))
      && m' == m.(possible := m'.possible, counts := m'.counts, ends := m'.ends, stack := m'.stack)
      && m'.ends == m.ends[f := m.ends[f] + [Top(m.ends[f]) - 1]]
      && m'.possible == m.possible[f := m'.possible[f]]
  {
    assert CellOk(m, f);
    if Top(m.ends[f]) <= 0 then
      m
    else
      ExcludeValid(m, f);
      ExcludeRaw(m, f)
  }

  /** The state change of an exclusion, without its guard. */
  function ExcludeRaw(m: Model, f: int): Model
    requires Base(m) && 0 <= f < |m.possible| && |m.ends[f]| > 0 && Top(m.ends[f]) > 0
  {
    assert CellOk(m, f);
    BaseIds(m, f);
    var top := Top(m.ends[f]);
    RemoveTile(m, f, 0, top).(ends := m.ends[f := m.ends[f] + [top - 1]], stack := m.stack + [f])
  }

  /** Pushing a live end one below the top keeps a live-end stack well formed. */
  lemma PushLower(e: seq<int>, tiles: int)
    requires EndsOk(e, tiles) && Top(e) > 0
    ensures EndsOk(e + [Top(e) - 1], tiles) && Top(e + [Top(e) - 1]) == Top(e) - 1
  {
  }

  /** The cell update of an exclusion: the tried tile moves past the new live end. */
  lemma ExcludeCell(m: Model, f: int)
    requires Valid(m) && 0 <= f < |m.possible| && |m.ends[f]| > 0 && Top(m.ends[f]) > 0
    ensures var m' := ExcludeRaw(m, f);
      && Base(m') && |m'.possible| == |m.possible| && |m.possible[f]| > 0
      && m'.stack == m.stack + [f]
      && m' == m.(possible := m'.possible, counts := m'.counts, ends := m'.ends, stack := m'.stack)
      && m'.ends == m.ends[f := m.ends[f] + [Top(m.ends[f]) - 1]]
      && m'.possible == m.possible[f := m'.possible[f]]
  {
    assert CellOk(m, f);
    BaseIds(m, f);
    var top := Top(m.ends[f]);
    RemoveTileCounts(m, f, 0, top);
    var m2 := RemoveTile(m, f, 0, top);
    var p', c' := m2.possible[f], m2.counts[f];
    var e' := m.ends[f] + [top - 1];
    PushLower(m.ends[f], |m.tileset|);
    assert multiset(p') == multiset(m.possible[f]);
    CellUpdateBase(m, f, p', c', e');
    var m1 := m.(possible := m.possible[f := p'], counts := m.counts[f := c'], ends := m.ends[f := e']);
    StackBase(m1, m.stack + [f]);
    assert ExcludeRaw(m, f) == m1.(stack := m.stack + [f]);
  }

  lemma ExcludeValid(m: Model, f: int)
    requires Valid(m) && 0 <= f < |m.possible| && |m.ends[f]| > 0 && Top(m.ends[f]) > 0
    ensures var m' := ExcludeRaw(m, f);
      && Valid(m') && |m'.possible| == |m.possible| && |m.possible[f]| > 0
      && m'.stack == m.stack + [f]
      && multiset(Live(m', f)) + multiset{m.possible[f][0]} == multiset(Live(m, f))
      && m' == m.(possible := m'.possible, counts := m'.counts, ends := m'.ends, stack := m'.stack)
      && m'.ends == m.ends[f := m.ends[f] + [Top(m.ends[f]) - 1]]
      && m'.possible == m.possible[f := m'.possible[f]]
  {
    assert CellOk(m, f);
    ExcludeCell(m, f);
    var top := Top(m.ends[f]);
    var m' := ExcludeRaw(m, f);
    SwapOut(m.possible[f], 0, top);
    assert Live(m', f) == Swap(m.possible[f], 0, top)[..top];
    assert OccOk(m', []);
  }

  // ---------------------------------------------------------------------
  // The consistency invariants through an undo
  // ---------------------------------------------------------------------

  /** Popping the newest record and unresolving its fixed cell (the first lines of `backTrack`'s loop). */
  function Unresolve(m: Model): Model
    requires |m.records| > 0
  {
    var f := First(m.records[|m.records| - 1]);
    m.(records := Pop(m.records), tileMap := if 0 <= f < |m.tileMap| then m.tileMap[f := -1] else m.tileMap,
       fixedCount := m.fixedCount - 1)
  }

  lemma UnresolveFixed(m: Model)
    requires FixedOk(m) && |m.records| > 0
    ensures FixedOk(Unresolve(m))
    ensures forall a | 0 <= a < |m.records| - 1 :: First(m.records[a]) != First(m.records[|m.records| - 1])
  {
    var n := |m.records|;
    var f := First(m.records[n - 1]);
    var m1 := Unresolve(m);
    forall i | 0 <= i < |m.possible| && m1.tileMap[i] != -1
      ensures i in Firsts(m1.records)
    {
      assert i in Firsts(m.records);
      var a :| 0 <= a < n && Firsts(m.records)[a] == i;
      assert a != n - 1;
      assert Firsts(m1.records)[a] == i;
    }
  }

  lemma UnresolveStack(m: Model, K: nat)
    requires StackOk(m, 1, K) && |m.records| > 0
    ensures StackOk(Unresolve(m), 0, K)
  {
  }

  lemma UnresolveSelf(m: Model, H: seq<seq<int>>)
    requires SelfOk(m, H, []) && |m.records| > 0
    ensures SelfOk(Unresolve(m), Pop(H), m.records[|m.records| - 1])
  {
    var m1 := Unresolve(m);
    var R := m.records[|m.records| - 1];
    forall a | 0 <= a < |m1.records|
      ensures H[a][4] + After(m1.records, a, First(m1.records[a])) + multiset(R)[First(m1.records[a])]
              < |m1.ends[First(m1.records[a])]|
    {
      AfterPop(m.records, a, First(m.records[a]));
    }
  }

  lemma UnresolveFit(m: Model, H: seq<seq<int>>, a: int, d: Dir)
    requires |m.records| > 0 && 0 <= a < |m.records| - 1 && |H| == |m.records| && RecFit(m, H, a, d, [])
    requires First(m.records[a]) != First(m.records[|m.records| - 1])
    ensures RecFit(Unresolve(m), Pop(H), a, d, m.records[|m.records| - 1])
  {
    var j := Adjacent(First(m.records[a]), m.width, |m.possible|)[d];
    AfterPop(m.records, a, j);
  }

  /** Unresolving keeps the shape, and the popped record's entries can still be undone. */
  lemma UnresolveBase(m: Model)
    requires Valid(m) && |m.records| > 0
    ensures Base(Unresolve(m)) && OccOk(Unresolve(m), m.records[|m.records| - 1])
  {
    var R := m.records[|m.records| - 1];
    var m1 := Unresolve(m);
    assert forall i | 0 <= i < |m.possible| :: CellOk(m, i) ==> CellOk(m1, i);
    forall j | 0 <= j < |m.possible|
      ensures Occ(m1.records, j) + multiset(R)[j] < |m1.ends[j]|
    {
      OccPop(m.records, j);
    }
  }

  /** Every older record still fits after the newest one is popped. */
  lemma UnresolveFitAll(m: Model, H: seq<seq<int>>)
    requires |m.records| > 0 && |H| == |m.records| && FitUpTo(m, H, |m.records| - 1, [])
    requires forall a | 0 <= a < |m.records| - 1 :: First(m.records[a]) != First(m.records[|m.records| - 1])
    ensures FitUpTo(Unresolve(m), Pop(H), |m.records| - 1, m.records[|m.records| - 1])
  {
    var m1, H1, R := Unresolve(m), Pop(H), m.records[|m.records| - 1];
    forall a, d: Dir | 0 <= a < |m.records| - 1
      ensures RecFit(m1, H1, a, d, R)
    {
      UnresolveFit(m, H, a, d);
    }
  }

  /** Popping the record of a failed fix: its entries become the ones still to undo. */
  lemma PopRecordSound(m: Model, H: seq<seq<int>>, K: nat)
    requires Failing(m, H, K)
    ensures var m1 := Unresolve(m); var R := m.records[|m.records| - 1];
      && Core(m1, Pop(H), K, 0, R) && NonNeg(m1, R) && FitUpTo(m1, Pop(H), |m1.records|, R)
  {
    UnresolveBase(m);
    UnresolveFixed(m);
    UnresolveStack(m, K);
    UnresolveSelf(m, H);
    UnresolveFitAll(m, H);
  }

  /** The fields an undone entry leaves alone. */
  predicate EntryUndone(m: Model, m2: Model, j: int)
    requires 0 <= j < |m.ends| && |m.ends[j]| > 0
  {
    m2.ends == m.ends[j := Pop(m.ends[j])] && m2 == m.(ends := m2.ends, counts := m2.counts)
  }

  lemma EntrySelf(m: Model, m2: Model, H: seq<seq<int>>, last: seq<int>)
    requires SelfOk(m, H, last) && |last| > 0 && 0 <= last[|last| - 1] < |m.ends|
    requires |m.ends[last[|last| - 1]]| >= 2 && EntryUndone(m, m2, last[|last| - 1])
    ensures SelfOk(m2, H, Pop(last))
  {
    var j := last[|last| - 1];
    assert last == Pop(last) + [j];
    assert multiset(last) == multiset(Pop(last)) + multiset{j};
  }

  lemma EntryFit(m: Model, m2: Model, H: seq<seq<int>>, last: seq<int>, a: int, d: Dir)
    requires RecFit(m, H, a, d, last) && |last| > 0 && 0 <= last[|last| - 1] < |m.ends|
    requires |m.ends[last[|last| - 1]]| >= 2 && EntryUndone(m, m2, last[|last| - 1])
    ensures RecFit(m2, H, a, d, Pop(last))
  {
    var j := last[|last| - 1];
    assert last == Pop(last) + [j];
    assert multiset(last) == multiset(Pop(last)) + multiset{j};
  }

  lemma EntryNonNeg(m: Model, m2: Model, last: seq<int>)
    requires NonNeg(m, last) && |last| > 0 && 0 <= last[|last| - 1] < |m.ends|
    requires |m.ends[last[|last| - 1]]| >= 2 && EntryUndone(m, m2, last[|last| - 1])
    ensures NonNeg(m2, Pop(last))
  {
    var j := last[|last| - 1];
    assert last == Pop(last) + [j];
    assert multiset(last) == multiset(Pop(last)) + multiset{j};
    if |m.tileset| > 0 {
      forall i, k | 0 <= i < |m2.ends| && 0 <= k < |m2.ends[i]| - multiset(Pop(last))[i]
        ensures m2.ends[i][k] >= 0
      {
        assert m2.ends[i][k] == m.ends[i][k];
      }
    }
  }

  /** Undoing one entry keeps the invariants, with one entry fewer still to undo. */
  lemma UndoEntrySound(m: Model, H: seq<seq<int>>, K: nat, last: seq<int>)
    requires Core(m, H, K, 0, last) && NonNeg(m, last) && FitUpTo(m, H, |m.records|, last)
    requires |last| > 0 && forall k | 0 <= k < |last| :: 0 <= last[k] < |m.possible|
    ensures |m.ends[last[|last| - 1]]| >= 2
    ensures var m2 := UndoEntry(m, last[|last| - 1]);
      Core(m2, H, K, 0, Pop(last)) && NonNeg(m2, Pop(last)) && FitUpTo(m2, H, |m2.records|, Pop(last))
  {
    var j := last[|last| - 1];
    UndoEntryOcc(m, last);
    var m2 := UndoEntry(m, j);
    assert EntryUndone(m, m2, j);
    assert FixedOk(m2) && StackOk(m2, 0, K);
    EntrySelf(m, m2, H, last);
    forall a, d: Dir | 0 <= a < |m.records|
      ensures RecFit(m2, H, a, d, Pop(last))
    {
      EntryFit(m, m2, H, last, a, d);
    }
    EntryNonNeg(m, m2, last);
  }

  lemma {:induction false} UndoEntriesSound(m: Model, H: seq<seq<int>>, K: nat, last: seq<int>)
    requires Core(m, H, K, 0, last) && NonNeg(m, last) && FitUpTo(m, H, |m.records|, last)
    requires forall k | 0 <= k < |last| :: 0 <= last[k] < |m.possible|
    ensures var m' := UndoEntries(m, last);
      Core(m', H, K, 0, []) && NonNeg(m', []) && FitUpTo(m', H, |m'.records|, [])
    decreases |last|
  {
    if last != [] {
      var j := last[|last| - 1];
      UndoEntrySound(m, H, K, last);
      UndoEntriesSound(UndoEntry(m, j), H, K, Pop(last));
    }
  }

  /**
    Undoing the record of a failed fix leaves a consistent state: all
    remaining records fit, and no live end is negative.
  */
  lemma UndoRecordSound(m: Model, H: seq<seq<int>>, K: nat)
    requires Failing(m, H, K)
    ensures var m' := UndoRecord(m);
      Core(m', Pop(H), K, 0, []) && NonNeg(m', []) && FitUpTo(m', Pop(H), |m'.records|, [])
  {
    var R := m.records[|m.records| - 1];
    PopRecordSound(m, H, K);
    assert RecordOk(R, |m.possible|);
    UndoEntriesSound(Unresolve(m), Pop(H), K, R);
  }

  /** The fields an exclusion changes, for a cell with more than one live candidate. */
  predicate Excluded(m: Model, m': Model, f: int)
    requires 0 <= f < |m.ends| && |m.ends[f]| > 0 && |m.ends| == |m.possible| && Top(m.ends[f]) < |m.possible[f]|
  {
    var top := Top(m.ends[f]);
    && top > 0
    && m'.ends == m.ends[f := m.ends[f] + [top - 1]]
    && m'.stack == m.stack + [f]
    && m'.possible == m.possible[f := Swap(m.possible[f], 0, top)]
    && m' == m.(possible := m'.possible, counts := m'.counts, ends := m'.ends, stack := m'.stack)
  }

  lemma ExcludeFixed(m: Model, m': Model, f: int)
    requires Base(m) && FixedOk(m) && 0 <= f < |m.possible| && f !in Firsts(m.records)
    requires |m.ends[f]| > 0 && Top(m.ends[f]) < |m.possible[f]| && Excluded(m, m', f)
    ensures FixedOk(m')
    ensures forall a | 0 <= a < |m.records| :: First(m.records[a]) != f
  {
    forall a | 0 <= a < |m.records|
      ensures First(m.records[a]) != f
    {
      assert Firsts(m.records)[a] == First(m.records[a]);
    }
  }

  lemma ExcludeStack(m: Model, m': Model, f: int, K: nat)
    requires Base(m) && StackOk(m, 0, K) && 0 <= f < |m.possible|
    requires forall a | 0 <= a < |m.records| :: First(m.records[a]) != f
    requires |m.ends[f]| > 0 && Top(m.ends[f]) < |m.possible[f]| && Excluded(m, m', f)
    ensures StackOk(m', 0, K)
  {
    forall q | 0 <= q < |m'.stack| && m'.stack[q] != -1
      ensures forall a | 0 <= a < |m'.records| - Sentinels(m'.stack[q + 1..]) :: First(m'.records[a]) != m'.stack[q]
    {
      if q < |m.stack| {
        assert m'.stack[q + 1..] == m.stack[q + 1..] + [f];
      } else {
        assert m'.stack[q + 1..] == [];
      }
    }
  }

  lemma ExcludeFit(m: Model, m': Model, H: seq<seq<int>>, f: int, a: int, d: Dir)
    requires Base(m) && 0 <= f < |m.possible| && RecFit(m, H, a, d, [])
    requires First(m.records[a]) != f
    requires |m.ends[f]| > 0 && Top(m.ends[f]) < |m.possible[f]| && Excluded(m, m', f)
    ensures RecFit(m', H, a, d, [])
  {
    assert CellOk(m, f);
    var top := Top(m.ends[f]);
    var p, p' := m.possible[f], m'.possible[f];
    var g := First(m.records[a]);
    var j := Adjacent(g, m.width, |m.possible|)[d];
    if j == f {
      SwapIsLivePerm(p, 0, top, top);
      EndsMono(m.ends[f], |m.tileset|, H[a][d], |m.ends[f]| - 1);
      PrefixPerm(p, p', top, m.ends[f][H[a][d]]);
      FitsKept(m.tileset, m.tileMap[g], d, p, p', m.ends[f][H[a][d]]);
    }
  }

  /** An exclusion leaves the fixed cells' own stacks alone and pushes a live end of at least 0. */
  lemma ExcludeSelf(m: Model, m': Model, H: seq<seq<int>>, f: int)
    requires Base(m) && SelfOk(m, H, []) && NonNeg(m, []) && 0 <= f < |m.possible|
    requires |m.ends[f]| > 0 && Top(m.ends[f]) < |m.possible[f]| && Excluded(m, m', f)
    ensures SelfOk(m', H, []) && NonNeg(m', [])
  {
  }

  /** Every record still fits after an exclusion at a cell none of them fixed. */
  lemma ExcludeFitAll(m: Model, m': Model, H: seq<seq<int>>, f: int)
    requires Base(m) && FitUpTo(m, H, |m.records|, []) && 0 <= f < |m.possible|
    requires forall a | 0 <= a < |m.records| :: First(m.records[a]) != f
    requires |m.ends[f]| > 0 && Top(m.ends[f]) < |m.possible[f]| && Excluded(m, m', f)
    ensures FitUpTo(m', H, |m'.records|, [])
  {
    forall a, d: Dir | 0 <= a < |m.records|
      ensures RecFit(m', H, a, d, [])
    {
      ExcludeFit(m, m', H, f, a, d);
    }
  }

  /** Excluding the tried tile of an unresolved cell keeps the invariants. */
  lemma ExcludeSound(m: Model, H: seq<seq<int>>, K: nat, f: int)
    requires Core(m, H, K, 0, []) && NonNeg(m, []) && FitUpTo(m, H, |m.records|, [])
    requires 0 <= f < |m.possible| && f !in Firsts(m.records)
    ensures var m' := Exclude(m, f);
      Core(m', H, K, 0, []) && NonNeg(m', []) && FitUpTo(m', H, |m'.records|, [])
  {
    assert CellOk(m, f);
    if Top(m.ends[f]) > 0 {
      var m' := Exclude(m, f);
      assert Excluded(m, m', f);
      ExcludeFixed(m, m', f);
      ExcludeStack(m, m', f, K);
      ExcludeSelf(m, m', H, f);
      ExcludeFitAll(m, m', H, f);
    }
  }

  /** Popping a `-1` marker leaves one record without its marker. */
  lemma SentinelStack(m: Model, K: nat)
    requires StackOk(m, 0, K) && |m.stack| > 0 && Top(m.stack) == -1
    ensures StackOk(m.(stack := Pop(m.stack)), 1, K)
  {
    var s := m.stack;
    var m' := m.(stack := Pop(s));
    assert s == Pop(s) + [-1];
    assert Sentinels(s) == Sentinels(Pop(s)) + 1;
    forall q | 0 <= q < |Pop(s)| && Pop(s)[q] != -1
      ensures forall a | 0 <= a < |m'.records| - 1 - Sentinels(Pop(s)[q + 1..]) :: First(m'.records[a]) != Pop(s)[q]
    {
      assert s[q + 1..] == Pop(s)[q + 1..] + [-1];
      assert Sentinels(s[q + 1..]) == Sentinels(Pop(s)[q + 1..]) + 1;
    }
  }

  /** Popping a `-1` marker makes the newest record the one to undo next. */
  lemma SentinelPopSound(m: Model, H: seq<seq<int>>, K: nat)
    requires Core(m, H, K, 0, []) && NonNeg(m, []) && FitUpTo(m, H, |m.records|, [])
    requires |m.stack| > 0 && Top(m.stack) == -1
    ensures Failing(m.(stack := Pop(m.stack)), H, K)
  {
    var m' := m.(stack := Pop(m.stack));
    SentinelStack(m, K);
    assert forall i | 0 <= i < |m.possible| :: CellOk(m, i) ==> CellOk(m', i);
    forall a, d: Dir | 0 <= a < |m.records| - 1
      ensures RecFit(m', H, a, d, [])
    {
      assert RecFit(m, H, a, d, []);
    }
  }

  // ---------------------------------------------------------------------
  // backTrack
  // ---------------------------------------------------------------------

  lemma FirstsFrom(rs: seq<seq<int>>, k: int)
    requires 0 < k <= |rs|
    ensures Firsts(rs[k - 1..]) == [First(rs[k - 1])] + Firsts(rs[k..])
  {
    assert rs[k - 1..] == [rs[k - 1]] + rs[k..];
  }

  /** The tile map after undoing the records from `k` on: their fixed cells unresolved, the rest untouched. */
  ghost predicate MapUndone(t0: seq<int>, t: seq<int>, rs: seq<seq<int>>, k: int)
    requires 0 <= k <= |rs|
  {
    |t| == |t0| && forall i | 0 <= i < |t0| :: t[i] == if i in Firsts(rs[k..]) then -1 else t0[i]
  }

  lemma MapUndoneStep(t0: seq<int>, t: seq<int>, rs: seq<seq<int>>, k: int)
    requires 0 < k <= |rs| && MapUndone(t0, t, rs, k) && 0 <= First(rs[k - 1]) < |t|
    ensures MapUndone(t0, t[First(rs[k - 1]) := -1], rs, k - 1)
  {
    FirstsFrom(rs, k);
  }

  /** One round of the loop: undo the newest record, then exclude its tried tile. */
  function UndoAndExclude(m: Model): (m': Model)
    requires Valid(m) && |m.records| > 0
    ensures Valid(m') && m'.tileset == m.tileset && m'.width == m.width && m'.height == m.height
    ensures m'.records == Pop(m.records) && m'.fixedCount == m.fixedCount - 1
    ensures 0 <= First(m.records[|m.records| - 1]) < |m.tileMap|
    ensures m'.tileMap == m.tileMap[First(m.records[|m.records| - 1]) := -1]
  {
    assert RecordOk(m.records[|m.records| - 1], |m.possible|);
    Exclude(UndoRecord(m), First(m.records[|m.records| - 1]))
  }

  lemma UndoAndExcludeSound(m: Model, H: seq<seq<int>>, K: nat)
    requires Failing(m, H, K)
    ensures var m' := UndoAndExclude(m);
      Core(m', Pop(H), K, 0, []) && NonNeg(m', []) && FitUpTo(m', Pop(H), |m'.records|, [])
  {
    var f := First(m.records[|m.records| - 1]);
    UndoRecordSound(m, H, K);
    UnresolveFixed(m);
    var m1 := UndoRecord(m);
    assert f !in Firsts(m1.records);
    ExcludeSound(m1, Pop(H), K, f);
  }

  /** The ghost history without its newest entry. */
  ghost function Drop(H: seq<seq<int>>): (H': seq<seq<int>>)
    ensures |H| > 0 ==> H' == Pop(H)
  {
    if |H| > 0 then Pop(H) else H
  }

  /** What the loop of `backTrack` keeps. */
  ghost predicate BackInv(m: Model, m': Model, H': seq<seq<int>>, K: nat, failing: bool)
  {
    && Valid(m') && m'.tileset == m.tileset && m'.width == m.width && m'.height == m.height
    && |m'.records| <= |m.records| && m'.records == m.records[..|m'.records|]
    && m'.fixedCount == m.fixedCount - (|m.records| - |m'.records|)
    && MapUndone(m.tileMap, m'.tileMap, m.records, |m'.records|)
    && (|m'.records| == |m.records| ==> m' == m)
    && (failing ==> Failing(m', H', K))
  }

  lemma BackInvPlain(m: Model, m': Model, H': seq<seq<int>>, H2: seq<seq<int>>, K: nat, failing: bool)
    requires BackInv(m, m', H', K, failing) && |m'.records| > 0
    ensures BackInv(m, UndoAndExclude(m'), H2, K, false)
  {
    var k := |m'.records|;
    var m2 := UndoAndExclude(m');
    assert Valid(m2) && m2.tileset == m.tileset && m2.width == m.width && m2.height == m.height;
    assert m.records[k - 1] == m'.records[k - 1];
    assert m2.records == m.records[..k - 1];
    assert m2.fixedCount == m.fixedCount - (|m.records| - |m2.records|);
    MapUndoneStep(m.tileMap, m'.tileMap, m.records, k);
    assert MapUndone(m.tileMap, m2.tileMap, m.records, |m2.records|);
    assert |m2.records| < |m.records|;
  }

  lemma BackInvPop(m: Model, m2: Model, H2: seq<seq<int>>, K: nat, failing: bool)
    requires BackInv(m, m2, H2, K, false) && |m2.records| < |m.records|
    requires failing ==> Core(m2, H2, K, 0, []) && NonNeg(m2, []) && FitUpTo(m2, H2, |m2.records|, [])
    requires |m2.stack| > 0 && Top(m2.stack) == -1
    ensures BackInv(m, m2.(stack := Pop(m2.stack)), H2, K, failing)
  {
    if failing {
      SentinelPopSound(m2, H2, K);
    }
    StackBase(m2, Pop(m2.stack));
  }

  /**
    `backTrack()`: undo records newest first, excluding each tried tile,
    until the choice stack no longer shows a `-1` marker; then report
    whether any choice is left. With no record left to undo it gives up
    ("Cannot backtrack") and changes nothing more.
  */
  /** No `-1` sentinel waits on top of the choice stack. */
  predicate Ready(s: seq<int>)
  {
    |s| > 0 ==> s[|s| - 1] != -1
  }

  method BackTrack(m: Model, ghost H: seq<seq<int>>, ghost K: nat) returns (ok: bool, m': Model, ghost H': seq<seq<int>>)
    requires Valid(m)
    ensures Valid(m') && m'.tileset == m.tileset && m'.width == m.width && m'.height == m.height
    ensures ok ==> |m'.stack| > 0 && Top(m'.stack) != -1
    ensures m.records == [] ==> !ok && m' == m
    ensures m.records != [] ==> |m'.records| < |m.records|
    ensures m'.records == m.records[..|m'.records|]
    ensures m'.fixedCount == m.fixedCount - (|m.records| - |m'.records|)
    ensures MapUndone(m.tileMap, m'.tileMap, m.records, |m'.records|)
    ensures Failing(m, H, K) ==> Stable(m', H', K) && (ok <==> |m'.stack| > 0) && Ready(m'.stack)
  {
    m', H' := m, H;
    ghost var failing := Failing(m, H, K);
    while true
      invariant BackInv(m, m', H', K, failing)
      decreases |m'.records|
    {
      if m'.records == [] {
        return false, m', H';
      }
      BackInvPlain(m, m', H', Drop(H'), K, failing);
      if failing {
        UndoAndExcludeSound(m', H', K);
      }
      var m2 := UndoAndExclude(m');
      H' := Drop(H');
      if |m2.stack| > 0 && Top(m2.stack) == -1 {
        BackInvPop(m, m2, H', K, failing);
        m' := m2.(stack := Pop(m2.stack));
      } else {
        return |m2.stack| > 0, m2, H';
      }
    }
  }
}

=== FILE: solver_filter.dfy ===
/**
  The inner loop of `propagate` (src/map_generator/SimpleTiledModel.ts):
  filtering the live candidates of one neighbour against the live
  candidates of the current cell, in one direction.
*/
module SolverFilter {
  import opened Tiles
  import opened EdgeCounts
  import opened SolverState
  import opened SolverSound

  /**
    Tile `x` still has a partner in the current cell on side `d`: the current
    cell's table for side `d`, read at the label `x` shows on the facing
    side, is not zero.
  */
  predicate Supported(ts: seq<Tile>, cur: Table, d: Dir, x: int)
    requires 0 <= x < |ts|
  {
    Lookup(cur, Edge(ts[x], Opposite(d))) != 0
  }

  /** Some label tile `x` shows is no longer shown on the same side by any live candidate. */
  ghost predicate Starved(ts: seq<Tile>, live: seq<int>, x: int)
    requires 0 <= x < |ts|
  {
    exists d': Dir :: Cnt(ts, live, d', Edge(ts[x], d')) == 0
  }

  predicate IdsIn(p: seq<int>, tiles: int)
  {
    forall q | 0 <= q < |p| :: 0 <= p[q] < tiles
  }

  /**
    The state of the filter after examining positions `top` down to `k + 1`
    with running end `e`: unexamined positions untouched, kept candidates
    supported, removed ones (beyond `e`) unsupported, exact tables for the
    kept prefix, and the impact flag telling whether a removed candidate
    left one of its labels without a live carrier.
  */
  ghost predicate FilterInv(ts: seq<Tile>, cur: Table, d: Dir, p: seq<int>, c: seq<Table>, top: int,
                            k: int, e: int, p': seq<int>, c': seq<Table>, impact: bool)
  {
    && -1 <= k <= e <= top < |p| && |p'| == |p| && |c'| == 4
    && IdsIn(p', |ts|)
    && (forall q | 0 <= q <= k :: p'[q] == p[q])
    && (forall q | k < q <= e :: Supported(ts, cur, d, p'[q]))
    && (forall q | e < q <= top :: !Supported(ts, cur, d, p'[q]))
    && LiveRegionPerm(p, p', top)
    && CountsOk(c', ts, p'[..e + 1])
    && (impact <==> exists q | e < q <= top :: Starved(ts, p'[..e + 1], p'[q]))
    && (e == top ==> p' == p && c' == c)
  }

  lemma InRangeKept(p: seq<int>, p': seq<int>, tiles: int)
    requires IdsIn(p, tiles) && |p'| == |p| && multiset(p') == multiset(p)
    ensures IdsIn(p', tiles)
  {
    forall q | 0 <= q < |p'|
      ensures 0 <= p'[q] < tiles
    {
      assert p'[q] in multiset(p);
    }
  }

  /** Removing a live tile never gives a starved tile its label back. */
  lemma StarvedStep(ts: seq<Tile>, live: seq<int>, live': seq<int>, y: int, x: int)
    requires 0 <= x < |ts| && 0 <= y < |ts|
    requires multiset(live) == multiset(live') + multiset{y}
    ensures Starved(ts, live, x) ==> Starved(ts, live', x)
    ensures Starved(ts, live', x) && !Starved(ts, live, x) ==> Starved(ts, live', y)
  {
    if Starved(ts, live, x) {
      var d' :| Cnt(ts, live, d', Edge(ts[x], d')) == 0;
      CntRemove(ts, live, live', y, d', Edge(ts[x], d'));
    }
    if Starved(ts, live', x) && !Starved(ts, live, x) {
      var d' :| Cnt(ts, live', d', Edge(ts[x], d')) == 0;
      CntRemove(ts, live, live', y, d', Edge(ts[x], d'));
      assert Edge(ts[y], d') == Edge(ts[x], d');
      assert Cnt(ts, live', d', Edge(ts[y], d')) == 0;
    }
  }

  /** The source's check after a removal reads the four tables at the removed tile's own labels. */
  lemma ImpactCheck(c: seq<Table>, ts: seq<Tile>, live: seq<int>, y: int)
    requires CountsOk(c, ts, live) && 0 <= y < |ts|
    ensures (Lookup(c[0], Edge(ts[y], 0)) == 0 || Lookup(c[1], Edge(ts[y], 1)) == 0 ||
             Lookup(c[2], Edge(ts[y], 2)) == 0 || Lookup(c[3], Edge(ts[y], 3)) == 0)
            <==> Starved(ts, live, y)
  {
    LookupIsCount(c, ts, live, 0, Edge(ts[y], 0));
    LookupIsCount(c, ts, live, 1, Edge(ts[y], 1));
    LookupIsCount(c, ts, live, 2, Edge(ts[y], 2));
    LookupIsCount(c, ts, live, 3, Edge(ts[y], 3));
    if Starved(ts, live, y) {
      var d' :| Cnt(ts, live, d', Edge(ts[y], d')) == 0;
      assert d' == 0 || d' == 1 || d' == 2 || d' == 3;
    }
  }

  /** One removal keeps the shape half of the filter state: positions, support and permutation. */
  lemma RemoveShape(ts: seq<Tile>, cur: Table, d: Dir, p: seq<int>, c: seq<Table>, top: int,
                    k: int, e: int, p': seq<int>, c': seq<Table>, impact: bool)
    requires FilterInv(ts, cur, d, p, c, top, k, e, p', c', impact) && k >= 0
    requires !Supported(ts, cur, d, p'[k])
    ensures var p'' := Swap(p', k, e);
      && -1 <= k - 1 <= e - 1 < top < |p| && |p''| == |p|
      && IdsIn(p'', |ts|)
      && (forall q | 0 <= q <= k - 1 :: p''[q] == p[q])
      && (forall q | k - 1 < q <= e - 1 :: Supported(ts, cur, d, p''[q]))
      && (forall q | e - 1 < q <= top :: !Supported(ts, cur, d, p''[q]))
      && LiveRegionPerm(p, p'', top)
  {
    var p'' := Swap(p', k, e);
    SwapIsLivePerm(p', k, e, top);
    LivePermTrans(p, p', p'', top, top);
    LivePermWhole(p', p'', top);
    InRangeKept(p', p'', |ts|);
  }

  /** One removal keeps the counting half of the filter state: exact tables and the impact flag. */
  lemma RemoveCounts(ts: seq<Tile>, cur: Table, d: Dir, p: seq<int>, c: seq<Table>, top: int,
                     k: int, e: int, p': seq<int>, c': seq<Table>, impact: bool)
    requires FilterInv(ts, cur, d, p, c, top, k, e, p', c', impact) && k >= 0
    ensures
      var y := p'[k];
      var c'' := UpdateEdges(c', ts[y], -1);
      var p'' := Swap(p', k, e);
      var check := Lookup(c''[0], Edge(ts[y], 0)) == 0 || Lookup(c''[1], Edge(ts[y], 1)) == 0 ||
                   Lookup(c''[2], Edge(ts[y], 2)) == 0 || Lookup(c''[3], Edge(ts[y], 3)) == 0;
      && CountsOk(c'', ts, p''[..e])
      && ((impact || check) <==> exists q | e - 1 < q <= top :: Starved(ts, p''[..e], p''[q]))
  {
    var y := p'[k];
    var c'' := UpdateEdges(c', ts[y], -1);
    var p'' := Swap(p', k, e);
    SwapOut(p', k, e);
    RemoveKeepsCounts(c', ts, p'[..e + 1], p''[..e], y);
    ImpactCheck(c'', ts, p''[..e], y);
    InRangeKept(p', p'', |ts|);
    var check := Lookup(c''[0], Edge(ts[y], 0)) == 0 || Lookup(c''[1], Edge(ts[y], 1)) == 0 ||
                 Lookup(c''[2], Edge(ts[y], 2)) == 0 || Lookup(c''[3], Edge(ts[y], 3)) == 0;
    ImpactStep(ts, p', p'', y, e, top, impact, check);
  }

  /** One removal: uncount, swap to the running end, shorten. */
  lemma RemoveStep(ts: seq<Tile>, cur: Table, d: Dir, p: seq<int>, c: seq<Table>, top: int,
                   k: int, e: int, p': seq<int>, c': seq<Table>, impact: bool)
    requires FilterInv(ts, cur, d, p, c, top, k, e, p', c', impact) && k >= 0
    requires !Supported(ts, cur, d, p'[k])
    ensures
      var y := p'[k];
      var c'' := UpdateEdges(c', ts[y], -1);
      var p'' := Swap(p', k, e);
      var check := Lookup(c''[0], Edge(ts[y], 0)) == 0 || Lookup(c''[1], Edge(ts[y], 1)) == 0 ||
                   Lookup(c''[2], Edge(ts[y], 2)) == 0 || Lookup(c''[3], Edge(ts[y], 3)) == 0;
      FilterInv(ts, cur, d, p, c, top, k - 1, e - 1, p'', c'', impact || check)
  {
    RemoveShape(ts, cur, d, p, c, top, k, e, p', c', impact);
    RemoveCounts(ts, cur, d, p, c, top, k, e, p', c', impact);
  }

  /**
    The impact flag after one removal: a removed candidate is starved for the
    shortened live region exactly when one was before, or the new one is.
  */
  lemma ImpactStep(ts: seq<Tile>, p': seq<int>, p'': seq<int>, y: int, e: int, top: int, impact: bool, check: bool)
    requires 0 <= e <= top < |p'| && |p''| == |p'| && IdsIn(p', |ts|) && IdsIn(p'', |ts|) && 0 <= y < |ts|
    requires multiset(p'[..e + 1]) == multiset(p''[..e]) + multiset{y}
    requires p''[e] == y && forall q | e < q <= top :: p''[q] == p'[q]
    requires impact <==> exists q | e < q <= top :: Starved(ts, p'[..e + 1], p'[q])
    requires check <==> Starved(ts, p''[..e], y)
    ensures (impact || check) <==> exists q | e - 1 < q <= top :: Starved(ts, p''[..e], p''[q])
  {
    var live, live' := p'[..e + 1], p''[..e];
    if impact {
      var q :| e < q <= top && Starved(ts, live, p'[q]);
      StarvedStep(ts, live, live', y, p'[q]);
      assert p''[q] == p'[q];
    } else if check {
      assert Starved(ts, live', p''[e]);
    }
    if exists q | e - 1 < q <= top :: Starved(ts, live', p''[q]) {
      var q :| e - 1 < q <= top && Starved(ts, live', p''[q]);
      if q != e {
        StarvedStep(ts, live, live', y, p''[q]);
        assert p''[q] == p'[q];
      }
    }
  }

  /** Keeping a supported candidate only moves the examined boundary. */
  lemma KeepStep(ts: seq<Tile>, cur: Table, d: Dir, p: seq<int>, c: seq<Table>, top: int,
                 k: int, e: int, p': seq<int>, c': seq<Table>, impact: bool)
    requires FilterInv(ts, cur, d, p, c, top, k, e, p', c', impact) && k >= 0
    requires Supported(ts, cur, d, p'[k])
    ensures FilterInv(ts, cur, d, p, c, top, k - 1, e, p', c', impact)
  {
  }

  lemma FilterStart(ts: seq<Tile>, cur: Table, d: Dir, p: seq<int>, c: seq<Table>, top: int)
    requires -1 <= top < |p| && IdsIn(p, |ts|)
    requires CountsOk(c, ts, p[..top + 1])
    ensures FilterInv(ts, cur, d, p, c, top, top, top, p, c, false)
  {
  }

  /**
    Filters the live candidates `p[..top + 1]` of a neighbour on side `d` of
    the current cell, whose side-`d` table is `cur`. Returns the permuted
    candidates, the updated tables, the new live end and the impact flag.
  */
  method Filter(ts: seq<Tile>, cur: Table, d: Dir, p: seq<int>, c: seq<Table>, top: int)
    returns (p': seq<int>, c': seq<Table>, e: int, impact: bool)
    requires -1 <= top < |p| && IdsIn(p, |ts|)
    requires CountsOk(c, ts, p[..top + 1])
    ensures -1 <= e <= top && |c'| == 4 && IdsIn(p', |ts|)
    ensures LiveRegionPerm(p, p', top)
    ensures forall q | 0 <= q <= e :: Supported(ts, cur, d, p'[q])
    ensures forall q | e < q <= top :: !Supported(ts, cur, d, p'[q])
    ensures CountsOk(c', ts, p'[..e + 1])
    ensures impact <==> exists q | e < q <= top :: Starved(ts, p'[..e + 1], p'[q])
    ensures e == top ==> p' == p && c' == c
  {
    p', c', e, impact := p, c, top, false;
    var k := top;
    FilterStart(ts, cur, d, p, c, top);
    while k > -1
      invariant FilterInv(ts, cur, d, p, c, top, k, e, p', c', impact)
      decreases k
    {
      var y := p'[k];
      if Lookup(cur, Edge(ts[y], Opposite(d))) == 0 {
        RemoveStep(ts, cur, d, p, c, top, k, e, p', c', impact);
        c' := UpdateEdges(c', ts[y], -1);
        p' := Swap(p', k, e);
        e := e - 1;
        if Lookup(c'[0], Edge(ts[y], 0)) == 0 || Lookup(c'[1], Edge(ts[y], 1)) == 0 ||
           Lookup(c'[2], Edge(ts[y], 2)) == 0 || Lookup(c'[3], Edge(ts[y], 3)) == 0 {
          impact := true;
        }
      } else {
        KeepStep(ts, cur, d, p, c, top, k, e, p', c', impact);
      }
      k := k - 1;
    }
  }
}

=== FILE: solver_fix.dfy ===
/**
  `fixTile` of the simple tiled model (src/map_generator/SimpleTiledModel.ts):
  find the tile among a cell's live candidates, collapse the cell onto it,
  open a new undo record, propagate, and on success mark the choice stack.
*/
module SolverFix {
  import opened Tiles
  import opened Grid
  import opened EdgeCounts
  import opened SolverState
  import opened SolverSound
  import opened SolverFilter
  import opened SolverBacktrack
  import opened SolverNarrow
  import opened SolverPropagate

  /**
    The search loop of `fixTile`: the highest live position holding `tile`,
    or -1 when no live position holds it.
  */
  method FindLive(p: seq<int>, top: int, tile: int) returns (q: int)
    requires -1 <= top < |p|
    ensures -1 <= q <= top
    ensures q >= 0 ==> p[q] == tile && forall r | q < r <= top :: p[r] != tile
    ensures q == -1 <==> forall r | 0 <= r <= top :: p[r] != tile
  {
    q := top;
    while q > -1
      invariant -1 <= q <= top
      invariant forall r | q < r <= top :: p[r] != tile
      decreases q
    {
      if p[q] == tile {
        return;
      }
      q := q - 1;
    }
  }

  /** Membership in a live prefix is a live position holding the value. */
  lemma InPrefix(p: seq<int>, top: int, tile: int)
    requires -1 <= top < |p|
    ensures tile in p[..top + 1] <==> exists r | 0 <= r <= top :: p[r] == tile
  {
    if exists r | 0 <= r <= top :: p[r] == tile {
      var r :| 0 <= r <= top && p[r] == tile;
      assert p[..top + 1][r] == tile;
    }
    if tile in p[..top + 1] {
      var r :| 0 <= r < top + 1 && p[..top + 1][r] == tile;
      assert p[r] == tile;
    }
  }

  /**
    The removal loop of `fixTile`: uncount the candidates at positions `hi`
    down to 1, leaving the tables of the single candidate at position 0.
  */
  function Uncount(ts: seq<Tile>, p: seq<int>, c: seq<Table>, hi: int): (r: seq<Table>)
    requires 0 <= hi < |p| && IdsIn(p, |ts|)
    requires CountsOk(c, ts, p[..hi + 1])
    ensures CountsOk(r, ts, p[..1])
    decreases hi
  {
    if hi == 0 then
      c
    else
      assert p[..hi + 1] == p[..hi] + [p[hi]];
      RemoveKeepsCounts(c, ts, p[..hi + 1], p[..hi], p[hi]);
      Uncount(ts, p, UpdateEdges(c, ts[p[hi]], -1), hi - 1)
  }

  /**
    The state change of `fixTile` before it propagates: the candidate at
    live position `q` of cell `i` is swapped to the front, every other
    candidate uncounted, the live end `0` pushed, a record `[i]` opened, and
    the tile written to the map.
  */
  function Collapse(m: Model, i: int, q: int): Model
    requires Base(m) && 0 <= i < |m.possible| && |m.ends[i]| > 0 && 0 <= q <= Top(m.ends[i])
  {
    CollapsePrep(m, i, q);
    var top := Top(m.ends[i]);
    var p := Swap(m.possible[i], 0, q);
    m.(possible := m.possible[i := p],
       counts := m.counts[i := Uncount(m.tileset, p, m.counts[i], top)],
       ends := m.ends[i := m.ends[i] + [0]],
       records := m.records + [[i]],
       tileMap := m.tileMap[i := p[0]],
       fixedCount := m.fixedCount + 1)
  }

  /** Swapping a live candidate to the front keeps the candidates ids and the tables exact. */
  lemma CollapsePrep(m: Model, i: int, q: int)
    requires Base(m) && 0 <= i < |m.possible| && |m.ends[i]| > 0 && 0 <= q <= Top(m.ends[i])
    ensures Top(m.ends[i]) < |m.possible[i]| == |m.tileset| && |m.counts[i]| == 4
    ensures var p := Swap(m.possible[i], 0, q);
      && IdsIn(p, |m.tileset|) && CountsOk(m.counts[i], m.tileset, p[..Top(m.ends[i]) + 1])
      && LiveRegionPerm(m.possible[i], p, Top(m.ends[i])) && multiset(p) == multiset(Iota(|m.tileset|))
  {
    assert CellOk(m, i);
    BaseIds(m, i);
    var top := Top(m.ends[i]);
    var p := Swap(m.possible[i], 0, q);
    SwapIsLivePerm(m.possible[i], 0, q, top);
    LivePermWhole(m.possible[i], p, top);
    InRangeKept(m.possible[i], p, |m.tileset|);
    CountsPerm(m.counts[i], m.tileset, m.possible[i][..top + 1], p[..top + 1]);
  }

  /** `m'` is `m` with cell `i` collapsed onto tile `t` and a record opened for it. */
  ghost predicate Collapsed(m: Model, m': Model, i: int, t: int)
  {
    && Base(m) && 0 <= i < |m.possible| && |m.ends[i]| > 0 && Top(m.ends[i]) >= 0
    && m'.tileset == m.tileset && m'.width == m.width && m'.height == m.height && m'.stack == m.stack
    && |m'.possible| == |m.possible| && |m'.counts| == |m.counts| && |m'.ends| == |m.ends|
    && (forall j | 0 <= j < |m.possible| && j != i ::
          m'.possible[j] == m.possible[j] && m'.counts[j] == m.counts[j] && m'.ends[j] == m.ends[j])
    && LiveRegionPerm(m.possible[i], m'.possible[i], Top(m.ends[i]))
    && m'.possible[i][0] == t && m'.ends[i] == m.ends[i] + [0]
    && m'.records == m.records + [[i]]
    && m'.tileMap == m.tileMap[i := t] && m'.fixedCount == m.fixedCount + 1
  }

  /** Replacing the undo log, the map and the fixed count by in-range ones keeps the basic shape. */
  lemma LogMapBase(m: Model, rs: seq<seq<int>>, tm: seq<int>, fc: int)
    requires Base(m) && |tm| == |m.possible|
    requires forall i | 0 <= i < |tm| :: -1 <= tm[i] < |m.tileset|
    requires forall a | 0 <= a < |rs| :: RecordOk(rs[a], |m.possible|)
    ensures Base(m.(records := rs, tileMap := tm, fixedCount := fc))
  {
    var m' := m.(records := rs, tileMap := tm, fixedCount := fc);
    assert forall j | 0 <= j < |m.possible| :: CellOk(m, j) ==> CellOk(m', j);
  }

  /** The collapsed cell's new candidates, tables and live-end stack are well formed. */
  lemma CollapseCell(m: Model, i: int, q: int)
    requires Base(m) && 0 <= i < |m.possible| && |m.ends[i]| > 0 && 0 <= q <= Top(m.ends[i])
    ensures Top(m.ends[i]) < |m.possible[i]| == |m.tileset|
    ensures var p := Swap(m.possible[i], 0, q); var e' := m.ends[i] + [0];
      && |p| == |m.tileset| && multiset(p) == multiset(Iota(|m.tileset|)) && EndsOk(e', |m.tileset|)
      && CountsOk(Collapse(m, i, q).counts[i], m.tileset, p[..Top(e') + 1]) && 0 <= p[0] < |m.tileset|
  {
    CollapsePrep(m, i, q);
    var p := Swap(m.possible[i], 0, q);
    assert CellOk(m, i);
    assert EndsOk(m.ends[i] + [0], |m.tileset|);
    PermEntry(p, |m.tileset|, 0);
  }

  lemma CollapseBase(m: Model, i: int, q: int)
    requires Base(m) && 0 <= i < |m.possible| && |m.ends[i]| > 0 && 0 <= q <= Top(m.ends[i])
    ensures Base(Collapse(m, i, q))
  {
    CollapseCell(m, i, q);
    var m' := Collapse(m, i, q);
    var p := Swap(m.possible[i], 0, q);
    var e' := m.ends[i] + [0];
    CellUpdateBase(m, i, p, m'.counts[i], e');
    var m1 := m.(possible := m.possible[i := p], counts := m.counts[i := m'.counts[i]], ends := m.ends[i := e']);
    LogMapBase(m1, m.records + [[i]], m.tileMap[i := p[0]], m.fixedCount + 1);
    assert m' == m1.(records := m.records + [[i]], tileMap := m.tileMap[i := p[0]], fixedCount := m.fixedCount + 1);
  }

  lemma CollapseFacts(m: Model, i: int, q: int)
    requires Valid(m) && 0 <= i < |m.possible| && |m.ends[i]| > 0 && 0 <= q <= Top(m.ends[i]) && q < |m.possible[i]|
    ensures Valid(Collapse(m, i, q))
    ensures Collapsed(m, Collapse(m, i, q), i, m.possible[i][q])
    ensures Live(Collapse(m, i, q), i) == [m.possible[i][q]]
  {
    CollapsePrep(m, i, q);
    CollapseBase(m, i, q);
    var m' := Collapse(m, i, q);
    forall j | 0 <= j < |m.possible|
      ensures Occ(m'.records, j) < |m'.ends[j]|
    {
      OccSnoc(m.records, [i], j);
    }
    assert Live(m', i) == m'.possible[i][..1];
  }

  // ---------------------------------------------------------------------
  // The consistency invariants through a collapse
  // ---------------------------------------------------------------------

  /** An unresolved cell is no record's fixed cell. */
  lemma UnresolvedNotFixed(m: Model, i: int)
    requires Base(m) && FixedOk(m) && 0 <= i < |m.possible| && m.tileMap[i] == -1
    ensures i !in Firsts(m.records)
  {
    if i in Firsts(m.records) {
      var a :| 0 <= a < |m.records| && Firsts(m.records)[a] == i;
      assert CellOk(m, i);
      PermEntry(m.possible[i], |m.tileset|, 0);
    }
  }

  lemma CollapseFixed(m: Model, m': Model, i: int, t: int)
    requires Collapsed(m, m', i, t) && FixedOk(m) && m.tileMap[i] == -1
    ensures FixedOk(m')
  {
    UnresolvedNotFixed(m, i);
    FirstsSnoc(m.records, [i]);
    var n := |m.records|;
    forall a | 0 <= a < n
      ensures First(m'.records[a]) != i
    {
      assert Firsts(m.records)[a] == First(m.records[a]);
    }
  }

  lemma CollapseStack(m: Model, m': Model, i: int, t: int, K: nat)
    requires Collapsed(m, m', i, t) && StackOk(m, 0, K)
    ensures StackOk(m', 1, K)
  {
  }

  lemma CollapseSelf(m: Model, m': Model, H: seq<seq<int>>, i: int, t: int)
    requires Collapsed(m, m', i, t) && SelfOk(m, H, []) && FixedOk(m) && m.tileMap[i] == -1
    ensures SelfOk(m', H + [[0, 0, 0, 0, |m.ends[i]|]], [])
  {
    UnresolvedNotFixed(m, i);
    var H' := H + [[0, 0, 0, 0, |m.ends[i]|]];
    var n := |m.records|;
    forall a | 0 <= a < n + 1
      ensures && |H'[a]| == 5 && 0 <= First(m'.records[a]) < |m'.ends| && 0 <= H'[a][4]
              && H'[a][4] + After(m'.records, a, First(m'.records[a])) < |m'.ends[First(m'.records[a])]|
              && m'.ends[First(m'.records[a])][H'[a][4]] == 0
    {
      if a < n {
        AfterSnoc(m.records, [i], a, First(m.records[a]));
        assert Firsts(m.records)[a] == First(m.records[a]);
      } else {
        assert m'.records[a + 1..] == [];
      }
    }
  }

  lemma CollapseFit(m: Model, m': Model, H: seq<seq<int>>, i: int, t: int, a: int, d: Dir)
    requires Collapsed(m, m', i, t) && RecFit(m, H, a, d, []) && FixedOk(m) && m.tileMap[i] == -1
    ensures RecFit(m', H + [[0, 0, 0, 0, |m.ends[i]|]], a, d, [])
  {
    UnresolvedNotFixed(m, i);
    assert Firsts(m.records)[a] == First(m.records[a]);
    var H' := H + [[0, 0, 0, 0, |m.ends[i]|]];
    assert H'[a] == H[a];
    var g := First(m.records[a]);
    var j := Adjacent(g, m.width, |m.possible|)[d];
    AfterSnoc(m.records, [i], a, j);
    if j == i {
      assert CellOk(m, i);
      var top := Top(m.ends[i]);
      var p, p' := m.possible[i], m'.possible[i];
      var b := m.ends[i][H[a][d]];
      assert m'.ends[i][H[a][d]] == b;
      EndsMono(m.ends[i], |m.tileset|, H[a][d], |m.ends[i]| - 1);
      PrefixPerm(p, p', top, b);
      FitsKept(m.tileset, m.tileMap[g], d, p, p', b);
    }
  }

  /**
    Collapsing an unresolved cell of a consistent state starts a fix in
    progress: the older records still fit and the new one is just fixed.
  */
  lemma CollapseSound(m: Model, m': Model, H: seq<seq<int>>, K: nat, i: int, t: int)
    requires Collapsed(m, m', i, t) && Valid(m') && Stable(m, H, K) && m.tileMap[i] == -1 && 0 <= t < |m.tileset|
    ensures JustFixed(m', H + [[0, 0, 0, 0, |m.ends[i]|]], K, i)
  {
    var H' := H + [[0, 0, 0, 0, |m.ends[i]|]];
    CollapseFixed(m, m', i, t);
    CollapseStack(m, m', i, t, K);
    CollapseSelf(m, m', H, i, t);
    forall a, d: Dir | 0 <= a < |m.records|
      ensures RecFit(m', H', a, d, [])
    {
      CollapseFit(m, m', H, i, t, a, d);
    }
    CollapseNonNeg(m, m', i, t);
  }

  /** Collapsing pushes the live end `0`, so no live end turns negative. */
  lemma CollapseNonNeg(m: Model, m': Model, i: int, t: int)
    requires Collapsed(m, m', i, t) && NonNeg(m, [])
    ensures NonNeg(m', [])
  {
    if |m.tileset| > 0 {
      forall j, k | 0 <= j < |m'.ends| && 0 <= k < |m'.ends[j]|
        ensures m'.ends[j][k] >= 0
      {
        if j == i && k < |m.ends[i]| {
          assert m'.ends[j][k] == m.ends[i][k];
        }
      }
    }
  }

  lemma MarkStack(m: Model, K: nat)
    requires StackOk(m, 1, K)
    ensures StackOk(m.(stack := m.stack + [-1]), 0, K)
  {
    var m' := m.(stack := m.stack + [-1]);
    assert Sentinels(m'.stack) == Sentinels(m.stack) + 1;
    forall p | 0 <= p < |m'.stack| && m'.stack[p] != -1
      ensures Sentinels(m'.stack[p + 1..]) == Sentinels(m.stack[p + 1..]) + 1
    {
      assert m'.stack[p + 1..] == m.stack[p + 1..] + [-1];
    }
  }

  /** The fits of a record do not read the choice stack. */
  lemma FitIgnoresStack(m: Model, H: seq<seq<int>>, s: seq<int>, a: int, d: Dir)
    requires RecFit(m, H, a, d, [])
    ensures RecFit(m.(stack := s), H, a, d, [])
  {
  }

  lemma MarkFits(m: Model, H: seq<seq<int>>)
    requires |m.records| >= 1 && FitUpTo(m, H, |m.records| - 1, []) && LastFit(m, H, 4)
    ensures FitUpTo(m.(stack := m.stack + [-1]), H, |m.records|, [])
  {
    forall a, d: Dir | 0 <= a < |m.records|
      ensures RecFit(m.(stack := m.stack + [-1]), H, a, d, [])
    {
      if a == |m.records| - 1 {
        assert NewestFits(m, H, d);
      }
      FitIgnoresStack(m, H, m.stack + [-1], a, d);
    }
  }

  /**
    A fix whose propagation went through, with the `-1` marker pushed: the
    state is consistent again.
  */
  lemma MarkSound(m: Model, H: seq<seq<int>>, K: nat)
    requires Spreading(m, H, K) && NonNeg(m, []) && LastFit(m, H, 4)
    ensures Stable(m.(stack := m.stack + [-1]), H, K)
  {
    var m' := m.(stack := m.stack + [-1]);
    StackBase(m, m.stack + [-1]);
    assert forall j | 0 <= j < |m.possible| :: CellOk(m, j) ==> CellOk(m', j);
    MarkStack(m, K);
    MarkFits(m, H);
  }

  // ---------------------------------------------------------------------
  // fixTile
  // ---------------------------------------------------------------------

  /** A successful fix of cell `i` to `tile`: one new record, the tile on the map, the marker pushed. */
  ghost predicate Resolved(m: Model, m': Model, i: int, tile: int)
  {
    && Valid(m) && Valid(m') && 0 <= i < |m.possible|
    && m'.tileset == m.tileset && m'.width == m.width && m'.height == m.height
    && m'.tileMap == m.tileMap[i := tile] && m'.fixedCount == m.fixedCount + 1
    && |m'.records| == |m.records| + 1 && m'.records[..|m.records|] == m.records
    && First(m'.records[|m.records|]) == i
    && m'.stack == m.stack + [-1]
    && Live(m', i) == [tile]
    && (forall j | 0 <= j < |m.possible| :: multiset(Live(m', j)) <= multiset(Live(m, j)))
  }

  /** A failed fix: records only undone, the fixed count following them, and unresolved cells staying so. */
  ghost predicate Unfixed(m: Model, m': Model, i: int)
  {
    && Valid(m) && Valid(m') && 0 <= i < |m.possible|
    && m'.tileset == m.tileset && m'.width == m.width && m'.height == m.height
    && |m'.records| <= |m.records| && m'.records == m.records[..|m'.records|]
    && m'.fixedCount == m.fixedCount - (|m.records| - |m'.records|)
    && (m.tileMap[i] == -1 ==> MapUndone(m.tileMap, m'.tileMap, m.records, |m'.records|))
  }

  /** Pushing the marker changes no cell. */
  lemma MarkKeepsCells(m: Model)
    requires Valid(m)
    ensures Valid(m.(stack := m.stack + [-1]))
    ensures forall j | 0 <= j < |m.possible| :: Live(m.(stack := m.stack + [-1]), j) == Live(m, j)
  {
    var m' := m.(stack := m.stack + [-1]);
    StackBase(m, m.stack + [-1]);
    assert forall j | 0 <= j < |m.possible| :: CellOk(m, j) ==> CellOk(m', j);
  }

  lemma FixOkShrink(m: Model, m1: Model, m2: Model, i: int, tile: int)
    requires Valid(m) && Valid(m1) && Valid(m2) && Collapsed(m, m1, i, tile) && Live(m1, i) == [tile] && tile in Live(m, i)
    requires |m2.possible| == |m.possible|
    requires forall j | 0 <= j < |m.possible| :: multiset(Live(m2, j)) <= multiset(Live(m1, j))
    ensures multiset(Live(m2, i)) <= multiset{tile}
    ensures forall j | 0 <= j < |m.possible| :: multiset(Live(m2, j)) <= multiset(Live(m, j))
  {
    forall j | 0 <= j < |m.possible|
      ensures multiset(Live(m2, j)) <= multiset(Live(m, j))
    {
      if j != i {
        assert Live(m1, j) == Live(m, j);
      } else {
        assert multiset(Live(m1, i)) == multiset{tile};
      }
    }
  }

  /** A sequence all of whose entries are `t` holds `t` once per entry. */
  lemma {:induction false} CountAll(s: seq<int>, t: int)
    requires forall k | 0 <= k < |s| :: s[k] == t
    ensures multiset(s)[t] == |s|
  {
    if |s| > 0 {
      CountAll(s[1..], t);
      assert s == [s[0]] + s[1..];
    }
  }

  /** A non-empty sequence drawn from at most one `t` is exactly `[t]`. */
  lemma SingleLive(s: seq<int>, t: int)
    requires |s| >= 1 && multiset(s) <= multiset{t}
    ensures s == [t]
  {
    forall k | 0 <= k < |s|
      ensures s[k] == t
    {
      assert s[k] in multiset(s);
    }
    CountAll(s, t);
  }

  /** The propagation after a fix empties no cell, so the fixed cell keeps exactly its tile. */
  lemma FixOkSingle(m1: Model, m2: Model, i: int, tile: int)
    requires Valid(m1) && Valid(m2) && 0 <= i < |m1.possible| && |m2.possible| == |m1.possible|
    requires Live(m1, i) == [tile] && NoneEmptied(m1, m2) && multiset(Live(m2, i)) <= multiset{tile}
    ensures Live(m2, i) == [tile]
  {
    assert CellOk(m1, i) && CellOk(m2, i);
    SingleLive(Live(m2, i), tile);
  }

  lemma FixOkEnd(m: Model, m1: Model, m2: Model, H1: seq<seq<int>>, H2: seq<seq<int>>, K: nat, i: int, tile: int)
    requires Valid(m) && Valid(m1) && Collapsed(m, m1, i, tile) && Live(m1, i) == [tile] && tile in Live(m, i)
    requires PropOutcome(m1, m2, true) && NoneEmptied(m1, m2)
    requires JustFixed(m1, H1, K, i) ==> Spreading(m2, H2, K) && NonNeg(m2, []) && LastFit(m2, H2, 4)
    ensures Resolved(m, m2.(stack := m2.stack + [-1]), i, tile)
    ensures JustFixed(m1, H1, K, i) ==> Stable(m2.(stack := m2.stack + [-1]), H2, K)
  {
    var m' := m2.(stack := m2.stack + [-1]);
    MarkKeepsCells(m2);
    FixOkShrink(m, m1, m2, i, tile);
    FixOkSingle(m1, m2, i, tile);
    assert m'.records[..|m.records|] == m1.records[..|m.records|];
    if JustFixed(m1, H1, K, i) {
      MarkSound(m2, H2, K);
    }
  }

  lemma FixOkLive(m: Model, m1: Model, m2: Model)
    requires Valid(m) && Valid(m1) && m1.tileset == m.tileset && |m1.ends| == |m.ends|
    requires Uniform(m.tileset) && AllLive(m1) ==> m2 == m1
    requires Uniform(m.tileset) && AllLive(m) ==> AllLive(m1)
    ensures Uniform(m.tileset) && AllLive(m) ==> AllLive(m2.(stack := m2.stack + [-1]))
  {
  }

  lemma FixFailEnd(m: Model, m1: Model, m2: Model, i: int, tile: int)
    requires Valid(m) && Collapsed(m, m1, i, tile) && PropOutcome(m1, m2, false)
    ensures Unfixed(m, m2, i)
  {
    var k := |m2.records|;
    assert m2.records == m.records[..k] by {
      assert m1.records[..k] == m.records[..k];
    }
    if m.tileMap[i] == -1 {
      assert m1.records[k..] == m.records[k..] + [[i]];
      FirstsSnoc(m.records[k..], [i]);
    }
  }

  /** What the collapse at the head of `fixTile` establishes for the propagation. */
  lemma CollapseStep(m: Model, i: int, q: int, tile: int, H: seq<seq<int>>, K: nat)
    requires Valid(m) && 0 <= i < |m.possible| && |m.ends[i]| > 0 && 0 <= q <= Top(m.ends[i])
    requires q < |m.possible[i]| && m.possible[i][q] == tile
    ensures var m1 := Collapse(m, i, q);
      && Valid(m1) && Collapsed(m, m1, i, tile) && Live(m1, i) == [tile] && tile in Live(m, i)
      && (Stable(m, H, K) && m.tileMap[i] == -1 ==> JustFixed(m1, H + [[0, 0, 0, 0, |m.ends[i]|]], K, i))
      && (Uniform(m.tileset) && AllLive(m) ==> AllLive(m1))
  {
    var m1 := Collapse(m, i, q);
    CollapseFacts(m, i, q);
    InPrefix(m.possible[i], Top(m.ends[i]), tile);
    BaseIds(m, i);
    if Stable(m, H, K) && m.tileMap[i] == -1 {
      CollapseSound(m, m1, H, K, i, tile);
    }
  }

  /**
    `fixTile(index, tile)`: look for `tile` among the live candidates of
    cell `index`; if it is not there, fail and change nothing. Otherwise
    collapse the cell onto it, propagate, and mark the choice stack when the
    propagation went through; a failed propagation has already backtracked.
  */
  method FixTile(m: Model, index: int, tile: int, ghost H: seq<seq<int>>, ghost K: nat)
    returns (ok: bool, m': Model, ghost H': seq<seq<int>>)
    requires Valid(m) && 0 <= index < |m.possible|
    ensures Valid(m') && m'.tileset == m.tileset && m'.width == m.width && m'.height == m.height
    ensures tile !in Live(m, index) ==> !ok && m' == m && H' == H
    ensures ok ==> tile in Live(m, index) && Resolved(m, m', index, tile)
    ensures !ok && tile in Live(m, index) ==> Unfixed(m, m', index)
    ensures Stable(m, H, K) && m.tileMap[index] == -1 ==> Stable(m', H', K)
    ensures Stable(m, H, K) && m.tileMap[index] == -1 && !ok && tile in Live(m, index) ==> Ready(m'.stack)
    ensures Uniform(m.tileset) && AllLive(m) && tile in Live(m, index) ==> ok && AllLive(m')
  {
    assert CellOk(m, index);
    var top := Top(m.ends[index]);
    var q := FindLive(m.possible[index], top, tile);
    InPrefix(m.possible[index], top, tile);
    if q == -1 {
      return false, m, H;
    }
    var m1 := Collapse(m, index, q);
    ghost var H1 := H + [[0, 0, 0, 0, |m.ends[index]|]];
    CollapseStep(m, index, q, tile, H, K);
    var ok2, m2, H2 := Propagate(m1, index, H1, K);
    if ok2 {
      assert Uniform(m.tileset) && AllLive(m1) ==> m2 == m1;
      FixOkEnd(m, m1, m2, H1, H2, K, index, tile);
      FixOkLive(m, m1, m2);
      return true, m2.(stack := m2.stack + [-1]), H2;
    }
    FixFailEnd(m, m1, m2, index, tile);
    return false, m2, H2;
  }

  // ---------------------------------------------------------------------
  // fixTiles
  // ---------------------------------------------------------------------

  /** Clearing the choice stack (the end of `fixTiles`) keeps consistency, with every record now a pre-fix. */
  lemma ClearSound(m: Model, H: seq<seq<int>>, K: nat)
    requires Stable(m, H, K)
    ensures Stable(m.(stack := []), H, |m.records|)
  {
    var m' := m.(stack := []);
    StackBase(m, []);
    assert forall j | 0 <= j < |m.possible| :: CellOk(m, j) ==> CellOk(m', j);
    forall a, d: Dir | 0 <= a < |m.records|
      ensures RecFit(m', H, a, d, [])
    {
      FitIgnoresStack(m, H, [], a, d);
    }
  }

  /** The pairs `(index, tile)` all name cells of the grid. */
  predicate CellsIn(fixed: seq<(int, int)>, n: int)
  {
    forall k | 0 <= k < |fixed| :: 0 <= fixed[k].0 < n
  }

  /** The loop state of `fixTiles` after the first `k` pairs went through. */
  ghost predicate FixTilesInv(m: Model, m': Model, fixed: seq<(int, int)>, k: int)
  {
    && Valid(m) && Valid(m') && 0 <= k <= |fixed| && CellsIn(fixed, |m.possible|)
    && m'.tileset == m.tileset && m'.width == m.width && m'.height == m.height
    && |m'.possible| == |m.possible|
    && (forall k' | 0 <= k' < k :: m'.tileMap[fixed[k'].0] == fixed[k'].1 != -1)
    && (forall i | 0 <= i < |m.possible| && m.tileMap[i] != -1 :: m'.tileMap[i] == m.tileMap[i])
  }

  /** A tile the map already holds extends the fixed prefix without a change. */
  lemma FixTilesSkip(m: Model, m2: Model, fixed: seq<(int, int)>, k: int)
    requires FixTilesInv(m, m2, fixed, k) && k < |fixed| && m2.tileMap[fixed[k].0] == fixed[k].1 != -1
    ensures FixTilesInv(m, m2, fixed, k + 1)
  {
  }

  lemma FixTilesStep(m: Model, m2: Model, m3: Model, fixed: seq<(int, int)>, k: int)
    requires FixTilesInv(m, m2, fixed, k) && k < |fixed|
    requires m2.tileMap[fixed[k].0] == -1 && fixed[k].1 != -1 && Valid(m3) && |m3.possible| == |m2.possible|
    requires m3.tileset == m2.tileset && m3.width == m2.width && m3.height == m2.height
    requires m3.tileMap == m2.tileMap[fixed[k].0 := fixed[k].1]
    ensures FixTilesInv(m, m3, fixed, k + 1)
  {
  }

  /** After the first `k` fresh pairs, the run agrees with the source's and the remaining cells are unresolved. */
  ghost predicate FreshFrom(m: Model, m': Model, fixed: seq<(int, int)>, k: int)
  {
    && FreshCells(m, fixed) && AsWrittenInv(m, m', fixed, k)
    && forall k' | k <= k' < |fixed| :: m'.tileMap[fixed[k'].0] == -1
  }

  /**
    One pair of `fixTiles`: a cell already showing the tile is skipped, one
    showing another tile stops the run, and an unresolved one goes to
    `fixTile`, whose failure stops the run too.
  */
  method FixNext(m: Model, m2: Model, fixed: seq<(int, int)>, k: int, ghost H: seq<seq<int>>,
                 ghost H2: seq<seq<int>>, ghost K: nat, ghost unseen: bool)
    returns (stop: bool, m3: Model, ghost H3: seq<seq<int>>)
    requires FixTilesInv(m, m2, fixed, k) && k < |fixed|
    requires Stable(m, H, K) ==> Stable(m2, H2, K)
    requires unseen ==> FreshFrom(m, m2, fixed, k)
    ensures Valid(m3) && m3.tileset == m.tileset && m3.width == m.width && m3.height == m.height
    ensures Stable(m, H, K) ==> Stable(m3, H3, K)
    ensures !stop ==> FixTilesInv(m, m3, fixed, k + 1) && (unseen ==> FreshFrom(m, m3, fixed, k + 1))
  {
    var (index, tile) := fixed[k];
    if m2.tileMap[index] != -1 {
      // Never taken on fresh cells: there every requested cell is still unresolved.
      if m2.tileMap[index] != tile {
        return true, m2, H2;
      }
      FixTilesSkip(m, m2, fixed, k);
      return false, m2, H2;
    }
    var ok1;
    ok1, m3, H3 := FixTile(m2, index, tile, H2, K);
    if !ok1 {
      return true, m3, H3;
    }
    assert tile in Live(m2, index);
    FixTilesStep(m, m2, m3, fixed, k);
    if unseen {
      AsWrittenStep(m, m2, m3, fixed, k);
      FreshStep(m, m2, m3, fixed, k);
    }
    stop := false;
  }

  /**
    `fixTiles(fixedTiles)`, with a cell that is already resolved accepted
    when it shows the requested tile and refused otherwise: fix every pair
    in turn and stop at the first failure; when all went through, clear the
    choice stack so that generation never backtracks into the pre-fixed
    tiles' alternatives. On pairs naming distinct unresolved cells
    (`FreshCells`) it does what the source's version does: every pair goes
    to `fixTile` and the fix count grows by one per pair.
  */
  method FixTiles(m: Model, fixed: seq<(int, int)>, ghost H: seq<seq<int>>, ghost K: nat)
    returns (ok: bool, m': Model, ghost H': seq<seq<int>>, ghost K': nat)
    requires Valid(m) && CellsIn(fixed, |m.possible|)
    ensures Valid(m') && m'.tileset == m.tileset && m'.width == m.width && m'.height == m.height
    ensures ok ==> m'.stack == [] && K' == |m'.records|
    ensures ok ==> forall k | 0 <= k < |fixed| :: m'.tileMap[fixed[k].0] == fixed[k].1 != -1
    ensures ok ==> forall i | 0 <= i < |m.possible| && m.tileMap[i] != -1 :: m'.tileMap[i] == m.tileMap[i]
    ensures !ok ==> K' == K
    ensures Stable(m, H, K) ==> Stable(m', H', K')
    ensures FreshCells(m, fixed) && ok ==> AsWrittenInv(m, m', fixed, |fixed|)
  {
    m', H', K' := m, H, K;
    ghost var unseen := FreshCells(m, fixed);
    var k := 0;
    while k < |fixed|
      invariant FixTilesInv(m, m', fixed, k)
      invariant Stable(m, H, K) ==> Stable(m', H', K)
      invariant K' == K
      invariant unseen ==> FreshFrom(m, m', fixed, k)
    {
      var stop, m3, H3 := FixNext(m, m', fixed, k, H, H', K, unseen);
      m', H' := m3, H3;
      if stop {
        return false, m', H', K;
      }
      k := k + 1;
    }
    if Stable(m, H, K) {
      ClearSound(m', H', K);
    }
    StackBase(m', []);
    assert forall j | 0 <= j < |m.possible| :: CellOk(m', j) ==> CellOk(m'.(stack := []), j);
    ok, K' := true, |m'.records|;
    m' := m'.(stack := []);
  }

  /** The pairs name different cells, all unresolved in `m`. */
  ghost predicate FreshCells(m: Model, fixed: seq<(int, int)>)
  {
    && CellsIn(fixed, |m.tileMap|)
    && (forall k | 0 <= k < |fixed| :: m.tileMap[fixed[k].0] == -1)
    && (forall k, k' | 0 <= k < k' < |fixed| :: fixed[k].0 != fixed[k'].0)
  }

  /** With a one-tile catalog, a cell with a live candidate has tile 0 live. */
  lemma OneTileLive(m: Model, i: int)
    requires Valid(m) && |m.tileset| == 1 && 0 <= i < |m.possible| && |m.ends[i]| > 0 && Top(m.ends[i]) >= 0
    ensures 0 in Live(m, i)
  {
    assert CellOk(m, i);
    var live := Live(m, i);
    assert |live| == Top(m.ends[i]) + 1;
    assert live[0] == 0;
  }

  /** The loop state of `fixTiles` as written after the first `k` pairs went through. */
  ghost predicate AsWrittenInv(m: Model, m': Model, fixed: seq<(int, int)>, k: int)
  {
    && Valid(m) && Valid(m') && 0 <= k <= |fixed| && CellsIn(fixed, |m.possible|)
    && m'.tileset == m.tileset && m'.width == m.width && m'.height == m.height
    && |m'.possible| == |m.possible|
    && m'.fixedCount == m.fixedCount + k
    && (forall i | 0 <= i < |m.possible| && (forall k' | 0 <= k' < |fixed| :: fixed[k'].0 != i) ::
          m'.tileMap[i] == m.tileMap[i])
  }

  lemma AsWrittenStep(m: Model, m2: Model, m3: Model, fixed: seq<(int, int)>, k: int)
    requires AsWrittenInv(m, m2, fixed, k) && k < |fixed|
    requires Resolved(m2, m3, fixed[k].0, fixed[k].1)
    ensures AsWrittenInv(m, m3, fixed, k + 1)
  {
  }

  lemma FreshStep(m: Model, m2: Model, m3: Model, fixed: seq<(int, int)>, k: int)
    requires FreshCells(m, fixed) && 0 <= k < |fixed| && |m2.tileMap| == |m.tileMap|
    requires forall k' | k <= k' < |fixed| :: m2.tileMap[fixed[k'].0] == -1
    requires m3.tileMap == m2.tileMap[fixed[k].0 := fixed[k].1]
    ensures forall k' | k + 1 <= k' < |fixed| :: m3.tileMap[fixed[k'].0] == -1
  {
  }

  /** The pairs all carry tile 0, which a one-tile catalog with every cell live always accepts. */
  ghost predicate OneTileAllZero(m: Model, fixed: seq<(int, int)>)
  {
    Uniform(m.tileset) && |m.tileset| == 1 && AllLive(m) && forall k | 0 <= k < |fixed| :: fixed[k].1 == 0
  }

  /** The loop of `fixTiles` as written: every pair goes to `fixTile`, stopping at the first failure. */
  method FixEachAsWritten(m: Model, fixed: seq<(int, int)>, ghost H: seq<seq<int>>, ghost K: nat)
    returns (ok: bool, m': Model, ghost H': seq<seq<int>>)
    requires Valid(m) && CellsIn(fixed, |m.possible|)
    ensures Valid(m') && m'.tileset == m.tileset && m'.width == m.width && m'.height == m.height
    ensures ok ==> AsWrittenInv(m, m', fixed, |fixed|)
    ensures OneTileAllZero(m, fixed) ==> ok
    ensures Stable(m, H, K) && FreshCells(m, fixed) ==> Stable(m', H', K)
  {
    m', H' := m, H;
    ghost var one := OneTileAllZero(m, fixed);
    ghost var sound := Stable(m, H, K) && FreshCells(m, fixed);
    var k := 0;
    while k < |fixed|
      invariant AsWrittenInv(m, m', fixed, k)
      invariant one ==> AllLive(m')
      invariant sound ==> Stable(m', H', K) && forall k' | k <= k' < |fixed| :: m'.tileMap[fixed[k'].0] == -1
    {
      var (index, tile) := fixed[k];
      if one {
        OneTileLive(m', index);
      }
      var ok1, m3, H3 := FixTile(m', index, tile, H', K);
      if !ok1 {
        return false, m3, H3;
      }
      AsWrittenStep(m, m', m3, fixed, k);
      if sound {
        FreshStep(m, m', m3, fixed, k);
      }
      m', H' := m3, H3;
      k := k + 1;
    }
    ok := true;
  }

  /**
    `fixTiles(fixedTiles)` exactly as the source has it: every pair goes to
    `fixTile`, also one whose cell an earlier pair already resolved.
  */
  method FixTilesAsWritten(m: Model, fixed: seq<(int, int)>, ghost H: seq<seq<int>>, ghost K: nat)
    returns (ok: bool, m': Model, ghost H': seq<seq<int>>, ghost K': nat)
    requires Valid(m) && CellsIn(fixed, |m.possible|)
    ensures Valid(m') && m'.tileset == m.tileset && m'.width == m.width && m'.height == m.height
    ensures ok ==> m'.stack == [] && K' == |m'.records| && m'.fixedCount == m.fixedCount + |fixed|
    ensures ok ==> forall i | 0 <= i < |m.possible| && (forall k | 0 <= k < |fixed| :: fixed[k].0 != i) ::
                     m'.tileMap[i] == m.tileMap[i]
    ensures Uniform(m.tileset) && |m.tileset| == 1 && AllLive(m) && (forall k | 0 <= k < |fixed| :: fixed[k].1 == 0) ==> ok
    ensures Stable(m, H, K) && FreshCells(m, fixed) ==> Stable(m', H', K')
  {
    var ok1, m1, H1 := FixEachAsWritten(m, fixed, H, K);
    if !ok1 {
      return false, m1, H1, K;
    }
    if Stable(m, H, K) && FreshCells(m, fixed) {
      ClearSound(m1, H1, K);
    }
    StackBase(m1, []);
    assert forall j | 0 <= j < |m.possible| :: CellOk(m1, j) ==> CellOk(m1.(stack := []), j);
    ok, m', H', K' := true, m1.(stack := []), H1, |m1.records|;
  }

  /**
    Two pairs naming the same cell on a 2-by-1 grid with a one-tile catalog:
    `fixTiles` as written reports success with a fixed count equal to the
    grid size while the second cell is still unresolved, so `generateMap`
    would return that map, `-1` included, without filling it.
  */
  method DuplicateFixOvercounts() returns (count: int, size: int, unresolved: int)
    ensures count == size == 2 && unresolved == -1
  {
    var ts := [Tile(0, 0, 0, 0, 0, 0)];
    var m := Init(ts, 2, 1);
    assert AllLive(m) by {
      forall i | 0 <= i < |m.ends|
        ensures |m.ends[i]| > 0 && Top(m.ends[i]) >= 0
      {
        assert m.ends[i] == [0];
      }
    }
    var ok, m', _, _ := FixTilesAsWritten(m, [(0, 0), (0, 0)], [], 0);
    return m'.fixedCount, |m.possible|, m'.tileMap[1];
  }
}

=== FILE: solver_generate.dfy ===
/**
  The driver of the Simple Tiled Model (src/map_generator/SimpleTiledModel.ts):
  `computeEntropy`, `addPossibleFixedTiles`, `selectTile` and `generateMap`,
  with the theorems that make its result a tile map: the fixed count is the
  number of resolved cells, a full count means a full map, and a full map
  under the solver's invariant has matching edges everywhere.
*/
module SolverGenerate {
  import opened Wrappers
  import opened Tiles
  import opened Grid
  import opened EdgeCounts
  import opened SolverState
  import opened SolverSound
  import opened SolverBacktrack
  import opened SolverPropagate
  import opened SolverFix
  import Lehmer
  import Draws
  import Proportions

  // ---------------------------------------------------------------------
  // What a solved map is
  // ---------------------------------------------------------------------

  /** Every cell names a catalog tile and every pair of neighbours has matching facing edges. */
  predicate Consistent(ts: seq<Tile>, width: int, tm: seq<int>)
  {
    && ValidMap(ts, tm)
    && (width > 0 ==>
          forall i, d: Dir | 0 <= i < |tm| && 0 <= Adjacent(i, width, |tm|)[d] < |tm| ::
            Fits(ts[tm[i]], d, ts[tm[Adjacent(i, width, |tm|)[d]]]))
  }

  /** The resolved cells of a state. */
  function ResolvedSet(m: Model): set<int>
  {
    set i | 0 <= i < |m.tileMap| && m.tileMap[i] != -1
  }

  /** The cells of a grid of `n` cells. */
  function Range(n: nat): set<int>
  {
    set i | 0 <= i < n && Iota(n)[i] == i
  }

  lemma RangeCard(n: nat)
    ensures forall i :: i in Range(n) <==> 0 <= i < n
    ensures |Range(n)| == n
  {
    forall i | 0 <= i < n
      ensures i in Iota(n)
    {
      assert Iota(n)[i] == i;
    }
    assert Range(n) == set x | x in Iota(n);
    DistinctCard(Iota(n));
  }

  lemma {:induction false} DistinctCard(s: seq<int>)
    requires forall a, b | 0 <= a < b < |s| :: s[a] != s[b]
    ensures |set x | x in s| == |s|
  {
    if |s| > 0 {
      var t := s[..|s| - 1];
      DistinctCard(t);
      assert (set x | x in s) == (set x | x in t) + {s[|s| - 1]};
    }
  }

  /** A fixed cell's tile is a catalog tile, so not `-1`. */
  lemma FixedIsResolved(m: Model, a: int)
    requires Base(m) && FixedOk(m) && 0 <= a < |m.records|
    ensures First(m.records[a]) in ResolvedSet(m)
  {
    var i := First(m.records[a]);
    assert CellOk(m, i);
    assert m.possible[i][0] in multiset(Iota(|m.tileset|));
  }

  /**
    The fixed count the driver loops on is exactly the number of resolved
    cells, whenever the solver's invariant holds.
  */
  lemma ResolvedCount(m: Model, H: seq<seq<int>>, K: nat)
    requires Stable(m, H, K)
    ensures |ResolvedSet(m)| == m.fixedCount
  {
    var fs := Firsts(m.records);
    forall i | i in ResolvedSet(m)
      ensures i in fs
    {
    }
    forall x | x in fs
      ensures x in ResolvedSet(m)
    {
      var a :| 0 <= a < |fs| && fs[a] == x;
      FixedIsResolved(m, a);
    }
    assert ResolvedSet(m) == set x | x in fs;
    DistinctCard(fs);
  }

  /** With the invariant, a fixed count that has reached the grid size means no cell is left unresolved. */
  lemma FullCountFullMap(m: Model, H: seq<seq<int>>, K: nat)
    requires Stable(m, H, K) && m.fixedCount >= |m.possible|
    ensures forall i | 0 <= i < |m.possible| :: m.tileMap[i] != -1
  {
    var n := |m.possible|;
    ResolvedCount(m, H, K);
    RangeCard(n);
    Proportions.EqualCardSubset(ResolvedSet(m), Range(n));
    forall i | 0 <= i < n
      ensures m.tileMap[i] != -1
    {
      assert i in ResolvedSet(m);
    }
  }

  /** The edge a fixed cell shares with a neighbour matches the neighbour's tile, once that is resolved. */
  lemma RecordFits(m: Model, H: seq<seq<int>>, K: nat, a: int, d: Dir)
    requires Stable(m, H, K) && 0 <= a < |m.records| && m.width > 0
    requires var j := Adjacent(First(m.records[a]), m.width, |m.possible|)[d];
             0 <= j < |m.possible| && m.tileMap[j] != -1
    ensures var i := First(m.records[a]);
            var j := Adjacent(i, m.width, |m.possible|)[d];
            FitId(m.tileset, m.tileMap[i], d, m.tileMap[j])
  {
    var i := First(m.records[a]);
    var j := Adjacent(i, m.width, |m.possible|)[d];
    assert RecFit(m, H, a, d, []);
    var h := H[a][d];
    assert 0 <= h < |m.ends[j]|;
    assert |m.tileset| > 0;
    assert m.ends[j][h] >= 0;
    assert j in Firsts(m.records);
    var b :| 0 <= b < |m.records| && First(m.records[b]) == j;
    assert m.tileMap[j] == m.possible[j][0];
  }

  /**
    A state with the invariant and every cell resolved is a solved map: each
    cell holds a catalog tile and all neighbouring edges match.
  */
  lemma FullMapConsistent(m: Model, H: seq<seq<int>>, K: nat)
    requires Stable(m, H, K) && forall i | 0 <= i < |m.possible| :: m.tileMap[i] != -1
    ensures Consistent(m.tileset, m.width, m.tileMap)
  {
    var n := |m.possible|;
    forall i | 0 <= i < n
      ensures 0 <= m.tileMap[i] < |m.tileset|
    {
    }
    if m.width > 0 {
      forall i, d: Dir | 0 <= i < n && 0 <= Adjacent(i, m.width, n)[d] < n
        ensures Fits(m.tileset[m.tileMap[i]], d, m.tileset[m.tileMap[Adjacent(i, m.width, n)[d]]])
      {
        FullMapFitsAt(m, H, K, i, d);
      }
    }
  }

  /** In a settled map with every cell fixed, cell `i`'s tile fits its neighbour's on side `d`. */
  lemma FullMapFitsAt(m: Model, H: seq<seq<int>>, K: nat, i: int, d: Dir)
    requires Stable(m, H, K) && forall k | 0 <= k < |m.possible| :: m.tileMap[k] != -1
    requires m.width > 0 && 0 <= i < |m.possible| && 0 <= Adjacent(i, m.width, |m.possible|)[d] < |m.possible|
    ensures 0 <= m.tileMap[i] < |m.tileset| && 0 <= m.tileMap[Adjacent(i, m.width, |m.possible|)[d]] < |m.tileset|
    ensures Fits(m.tileset[m.tileMap[i]], d, m.tileset[m.tileMap[Adjacent(i, m.width, |m.possible|)[d]]])
  {
    assert i in Firsts(m.records);
    var a :| 0 <= a < |m.records| && First(m.records[a]) == i;
    RecordFits(m, H, K, a, d);
  }

  // ---------------------------------------------------------------------
  // The choice stack under the invariant
  // ---------------------------------------------------------------------

  /** A choice on top of the stack names an unresolved cell. */
  lemma TopUnresolved(m: Model, H: seq<seq<int>>, K: nat)
    requires Stable(m, H, K) && |m.stack| > 0 && Top(m.stack) != -1
    ensures 0 <= Top(m.stack) < |m.possible| && m.tileMap[Top(m.stack)] == -1
  {
    var p := |m.stack| - 1;
    assert m.stack[p + 1..] == [];
  }

  /** Replacing the choice stack by one that keeps its promises keeps the invariant. */
  lemma StackSwapSound(m: Model, H: seq<seq<int>>, K: nat, s: seq<int>)
    requires Stable(m, H, K) && StackOk(m.(stack := s), 0, K)
    requires forall k | 0 <= k < |s| :: -1 <= s[k] < |m.possible|
    ensures Stable(m.(stack := s), H, K)
  {
    var m' := m.(stack := s);
    StackBase(m, s);
    forall a, d: Dir | 0 <= a < |m.records|
      ensures RecFit(m', H, a, d, [])
    {
      FitIgnoresStack(m, H, s, a, d);
    }
  }

  /** Popping a choice removes no `-1` marker above any entry. */
  lemma PopStack(m: Model, K: nat)
    requires StackOk(m, 0, K) && |m.stack| > 0 && Top(m.stack) != -1
    ensures StackOk(m.(stack := Pop(m.stack)), 0, K)
  {
    var s := m.stack;
    var m' := m.(stack := Pop(s));
    assert s == Pop(s) + [Top(s)];
    assert Sentinels(s) == Sentinels(Pop(s));
    forall p | 0 <= p < |m'.stack| && m'.stack[p] != -1
      ensures Sentinels(m'.stack[p + 1..]) == Sentinels(s[p + 1..])
    {
      assert s[p + 1..] == m'.stack[p + 1..] + [Top(s)];
    }
  }

  /** Popping a choice keeps the invariant. */
  lemma PopSound(m: Model, H: seq<seq<int>>, K: nat)
    requires Stable(m, H, K) && |m.stack| > 0 && Top(m.stack) != -1
    ensures Stable(m.(stack := Pop(m.stack)), H, K)
  {
    PopStack(m, K);
    assert Base(m);
    StackSwapSound(m, H, K, Pop(m.stack));
  }

  /** Pushing unresolved cells keeps the invariant. */
  lemma PushSound(m: Model, H: seq<seq<int>>, K: nat, cells: seq<int>)
    requires Stable(m, H, K)
    requires forall k | 0 <= k < |cells| :: 0 <= cells[k] < |m.possible| && m.tileMap[cells[k]] == -1
    ensures Stable(m.(stack := m.stack + cells), H, K)
  {
    var s := m.stack;
    var m' := m.(stack := s + cells);
    StackBase(m, s + cells);
    assert Sentinels(cells) == 0 by {
      assert -1 !in cells;
    }
    assert Sentinels(s + cells) == Sentinels(s);
    forall p | 0 <= p < |m'.stack| && m'.stack[p] != -1
      ensures forall a | 0 <= a < |m.records| - Sentinels(m'.stack[p + 1..]) :: First(m.records[a]) != m'.stack[p]
    {
      if p < |s| {
        assert m'.stack[p + 1..] == s[p + 1..] + cells;
      } else {
        var c := m'.stack[p];
        assert c == cells[p - |s|];
        forall a | 0 <= a < |m.records|
          ensures First(m.records[a]) != c
        {
          FixedIsResolved(m, a);
        }
      }
    }
    forall a, d: Dir | 0 <= a < |m.records|
      ensures RecFit(m', H, a, d, [])
    {
      FitIgnoresStack(m, H, m'.stack, a, d);
    }
  }

  /** A freshly initialised solver satisfies the invariant, with no history. */
  lemma InitStable(ts: seq<Tile>, width: nat, height: nat)
    ensures Stable(Init(ts, width, height), [], 0)
  {
    var m := Init(ts, width, height);
    forall i, k | 0 <= i < |m.ends| && 0 <= k < |m.ends[i]|
      ensures |ts| > 0 ==> m.ends[i][k] >= 0
    {
      assert m.ends[i] == [|ts| - 1];
    }
  }

  // ---------------------------------------------------------------------
  // computeEntropy and addPossibleFixedTiles
  // ---------------------------------------------------------------------

  /** `Number.MAX_VALUE`, the largest finite double: (2 - 2^-52) * 2^1023. */
  const MaxValue: real := 179769313486231570814527423731704356798070567525844996598917476803157260780028538760589558632766878171540458953514382464234321326889464182768467546703537516986049910576551282076245490090389328944075868508455133942304583236903222948165808559332123348274797826204144723168738177180919299881250404026184124858368.0

  /** The tile weights the solver keeps: none is negative. */
  predicate WeightsOk(ts: seq<Tile>, wt: seq<real>)
  {
    |wt| == |ts| && forall t | 0 <= t < |wt| :: wt[t] >= 0.0
  }

  /** The weights of a live list, as `proportionSums` accumulates them: only positive weights count. */
  function WeightSum(wt: seq<real>, live: seq<int>): (r: real)
    requires forall k | 0 <= k < |live| :: 0 <= live[k] < |wt|
  {
    if live == [] then 0.0
    else WeightSum(wt, live[..|live| - 1]) + (if wt[live[|live| - 1]] > 0.0 then wt[live[|live| - 1]] else 0.0)
  }

  /**
    `computeEntropy(index)`: -1 for a cell without live candidates, 0 when
    its live weights sum to zero, and otherwise the Shannon entropy of its
    live weights, which `ent` stands for.
  */
  function Entropy(m: Model, wt: seq<real>, ent: seq<int> -> real, i: int): real
    requires Base(m) && |wt| == |m.tileset| && 0 <= i < |m.possible|
  {
    assert CellOk(m, i);
    if Top(m.ends[i]) < 0 then -1.0
    else if WeightSum(wt, Live(m, i)) <= 0.0 then 0.0
    else ent(Live(m, i))
  }

  /**
    The entropy oracle never returns the no-candidate marker -1 and never
    exceeds `Number.MAX_VALUE`, so the scan can tell a live cell from a
    dead one and always has a minimum below its starting value.
  */
  ghost predicate EntropyOk(ent: seq<int> -> real)
  {
    forall live :: ent(live) != -1.0 && ent(live) <= MaxValue
  }

  /** The entropy of every cell, as the scan reads it. */
  function Entropies(m: Model, wt: seq<real>, ent: seq<int> -> real): (es: seq<real>)
    requires Base(m) && |wt| == |m.tileset|
    ensures |es| == |m.possible|
  {
    seq(|m.possible|, i requires 0 <= i < |m.possible| => Entropy(m, wt, ent, i))
  }

  lemma EntropiesAt(m: Model, wt: seq<real>, ent: seq<int> -> real, i: int)
    requires Base(m) && |wt| == |m.tileset| && 0 <= i < |m.possible|
    ensures Entropies(m, wt, ent)[i] == Entropy(m, wt, ent, i)
  {
  }

  /** Which cells are unresolved. */
  function Unresolved(m: Model): (u: seq<bool>)
    requires |m.tileMap| == |m.possible|
    ensures |u| == |m.possible| && forall i | 0 <= i < |u| :: u[i] <==> m.tileMap[i] == -1
  {
    seq(|m.possible|, i requires 0 <= i < |m.possible| => m.tileMap[i] == -1)
  }

  /** Cell `i` is unresolved and of least, finite entropy among the unresolved cells. */
  predicate MinCell(u: seq<bool>, es: seq<real>, i: int)
    requires |u| == |es|
  {
    && 0 <= i < |u| && u[i] && es[i] <= MaxValue
    && forall j | 0 <= j < |u| && u[j] :: es[i] <= es[j]
  }

  predicate Ascending(s: seq<int>)
  {
    forall a, b | 0 <= a < b < |s| :: s[a] < s[b]
  }

  /** The state of the entropy scan after cells `0 .. i - 1`. */
  ghost predicate ScanInv(u: seq<bool>, es: seq<real>, i: int, mn: real, idx: seq<int>)
    requires |u| == |es|
  {
    && 0 <= i <= |u| && mn <= MaxValue && Ascending(idx)
    && (forall k | 0 <= k < |idx| :: 0 <= idx[k] < i)
    && (forall j | 0 <= j < i && u[j] :: es[j] != -1.0 && mn <= es[j])
    && (mn == MaxValue || exists j | 0 <= j < i && u[j] :: es[j] == mn)
    && (forall j :: j in idx <==> 0 <= j < i && u[j] && es[j] == mn)
  }

  /**
    The scan of `addPossibleFixedTiles` over the cells' unresolved flags `u`
    and entropies `es`: the unresolved cells of least entropy, in increasing
    order, or nothing when an unresolved cell reports the error entropy -1.
  */
  method MinEntropyCells(u: seq<bool>, es: seq<real>) returns (r: Option<seq<int>>)
    requires |u| == |es|
    ensures r.None? <==> exists i | 0 <= i < |u| && u[i] :: es[i] == -1.0
    ensures r.Some? ==> Ascending(r.value) && forall i :: i in r.value <==> MinCell(u, es, i)
    ensures r.Some? ==> (r.value == [] <==> forall i | 0 <= i < |u| && u[i] :: es[i] > MaxValue)
  {
    var idx: seq<int> := [];
    var mn := MaxValue;
    var i := 0;
    while i < |u|
      invariant ScanInv(u, es, i, mn, idx)
    {
      if u[i] {
        var e := es[i];
        if e == -1.0 {
          return None;
        }
        if e < mn {
          mn := e;
          idx := [i];
        } else if e == mn {
          idx := idx + [i];
        }
      }
      i := i + 1;
    }
    ScanEnd(u, es, mn, idx);
    return Some(idx);
  }

  lemma ScanEnd(u: seq<bool>, es: seq<real>, mn: real, idx: seq<int>)
    requires |u| == |es| && ScanInv(u, es, |u|, mn, idx)
    ensures forall i :: i in idx <==> MinCell(u, es, i)
    ensures idx == [] <==> forall i | 0 <= i < |u| && u[i] :: es[i] > MaxValue
  {
    forall i | MinCell(u, es, i)
      ensures i in idx
    {
      if mn != MaxValue {
        var j :| 0 <= j < |u| && u[j] && es[j] == mn;
      }
    }
    if idx != [] {
      assert idx[0] in idx;
    }
    if exists i | 0 <= i < |u| && u[i] :: es[i] <= MaxValue {
      var i :| 0 <= i < |u| && u[i] && es[i] <= MaxValue;
      if mn == MaxValue {
        assert i in idx;
      } else {
        var j :| 0 <= j < |u| && u[j] && es[j] == mn;
        assert j in idx;
      }
    }
  }

  /**
    The shuffle of `addPossibleFixedTiles`: position `i` swaps with
    `i + floor(d * (n - i))` for the next draw `d`, one draw per position.
  */
  method Shuffle(s: seq<int>, g: Lehmer.Gen) returns (s': seq<int>, g': Lehmer.Gen)
    requires 0 <= g.seed < Lehmer.M
    ensures multiset(s') == multiset(s) && |s'| == |s|
    ensures g' == Lehmer.Advance(g, |s|) && 0 <= g'.seed < Lehmer.M
  {
    s', g' := s, g;
    var i := 0;
    while i < |s|
      invariant 0 <= i <= |s| && |s'| == |s| && multiset(s') == multiset(s)
      invariant 0 <= g'.seed < Lehmer.M && Lehmer.Advance(g', |s| - i) == Lehmer.Advance(g, |s|)
    {
      var (d, g2) := Lehmer.RandNum(g');
      var j := i + Draws.Pick(d, |s| - i);
      s' := Swap(s', i, j);
      g' := g2;
      i := i + 1;
    }
  }

  /** No unresolved cell reports the error entropy, and one has a finite entropy. */
  predicate Seedable(u: seq<bool>, es: seq<real>)
    requires |u| == |es|
  {
    && (forall i | 0 <= i < |u| && u[i] :: es[i] != -1.0)
    && (exists i | 0 <= i < |u| && u[i] :: es[i] <= MaxValue)
  }

  /**
    `addPossibleFixedTiles()`: pushes the unresolved cells of least entropy,
    shuffled, onto the choice stack; fails, changing nothing, when an
    unresolved cell reports the error entropy or no cell qualifies.
  */
  method AddPossibleFixedTiles(m: Model, wt: seq<real>, ent: seq<int> -> real, g: Lehmer.Gen, ghost H: seq<seq<int>>, ghost K: nat)
    returns (ok: bool, m': Model, g': Lehmer.Gen)
    requires Valid(m) && |wt| == |m.tileset| && 0 <= g.seed < Lehmer.M
    ensures ok <==> Seedable(Unresolved(m), Entropies(m, wt, ent))
    ensures !ok ==> m' == m && g' == g
    ensures ok ==> |m'.stack| > |m.stack| && m' == m.(stack := m'.stack) && m'.stack[..|m.stack|] == m.stack
    ensures ok ==> forall i :: i in m'.stack[|m.stack|..] <==> MinCell(Unresolved(m), Entropies(m, wt, ent), i)
    ensures ok ==> forall a, b | |m.stack| <= a < b < |m'.stack| :: m'.stack[a] != m'.stack[b]
    ensures Valid(m') && 0 <= g'.seed < Lehmer.M
    ensures Stable(m, H, K) ==> Stable(m', H, K)
    ensures Stable(m, H, K) && ok ==> Ready(m'.stack)
  {
    var u, es := Unresolved(m), Entropies(m, wt, ent);
    var r := MinEntropyCells(u, es);
    if r.None? || r.value == [] {
      return false, m, g;
    }
    var cells, g2 := Shuffle(r.value, g);
    ok, m', g' := true, m.(stack := m.stack + cells), g2;
    PushEnd(m, m', u, es, r.value, cells, H, K);
  }

  lemma PushEnd(m: Model, m': Model, u: seq<bool>, es: seq<real>, idx: seq<int>, cells: seq<int>, H: seq<seq<int>>, K: nat)
    requires Valid(m) && u == Unresolved(m) && |es| == |u|
    requires Ascending(idx) && multiset(cells) == multiset(idx) && |cells| == |idx| > 0
    requires forall i :: i in idx <==> MinCell(u, es, i)
    requires m' == m.(stack := m.stack + cells)
    ensures |m'.stack| > |m.stack| && m'.stack[..|m.stack|] == m.stack
    ensures forall i :: i in m'.stack[|m.stack|..] <==> MinCell(u, es, i)
    ensures forall a, b | |m.stack| <= a < b < |m'.stack| :: m'.stack[a] != m'.stack[b]
    ensures Valid(m')
    ensures Stable(m, H, K) ==> Stable(m', H, K) && Ready(m'.stack)
  {
    PushFacts(u, es, idx, cells);
    assert m'.stack[|m.stack|..] == cells;
    StackBase(m, m'.stack);
    if Stable(m, H, K) {
      PushSound(m, H, K, cells);
    }
    forall a, b | |m.stack| <= a < b < |m'.stack|
      ensures m'.stack[a] != m'.stack[b]
    {
      assert m'.stack[a] == cells[a - |m.stack|] && m'.stack[b] == cells[b - |m.stack|];
    }
  }

  lemma PushFacts(u: seq<bool>, es: seq<real>, idx: seq<int>, cells: seq<int>)
    requires |u| == |es| && Ascending(idx) && multiset(cells) == multiset(idx)
    requires forall i :: i in idx <==> MinCell(u, es, i)
    ensures forall i :: i in cells <==> MinCell(u, es, i)
    ensures forall a, b | 0 <= a < b < |cells| :: cells[a] != cells[b]
    ensures forall k | 0 <= k < |cells| :: 0 <= cells[k] < |u| && u[cells[k]]
  {
    forall i
      ensures i in cells <==> i in idx
    {
      assert i in cells <==> i in multiset(cells);
      assert i in idx <==> i in multiset(idx);
    }
    forall a, b | 0 <= a < b < |cells|
      ensures cells[a] != cells[b]
    {
      if cells[a] == cells[b] {
        var x := cells[a];
        assert multiset(cells)[x] >= 2 by {
          assert cells == cells[..a] + [x] + cells[a + 1..b] + [x] + cells[b + 1..];
        }
        AscendingOnce(idx, x);
      }
    }
    forall k | 0 <= k < |cells|
      ensures 0 <= cells[k] < |u| && u[cells[k]]
    {
      assert cells[k] in cells;
    }
  }

  lemma {:induction false} AscendingOnce(s: seq<int>, x: int)
    requires Ascending(s)
    ensures multiset(s)[x] <= 1
  {
    if s != [] {
      var t := s[..|s| - 1];
      assert s == t + [s[|s| - 1]];
      AscendingOnce(t, x);
      if x == s[|s| - 1] {
        assert x !in t;
      }
    }
  }

  // ---------------------------------------------------------------------
  // selectTile
  // ---------------------------------------------------------------------

  /** The running total of `selectTile`'s walk after the first `k` live candidates. */
  function Prefix(wt: seq<real>, live: seq<int>, k: nat): real
    requires k <= |live| && forall j | 0 <= j < |live| :: 0 <= live[j] < |wt|
  {
    if k == 0 then 0.0 else Prefix(wt, live, k - 1) + wt[live[k - 1]]
  }

  /** With no negative weight the walk's running total ends at the live weight sum. */
  lemma {:induction false} PrefixIsSum(wt: seq<real>, live: seq<int>)
    requires forall j | 0 <= j < |live| :: 0 <= live[j] < |wt|
    requires forall t | 0 <= t < |wt| :: wt[t] >= 0.0
    ensures Prefix(wt, live, |live|) == WeightSum(wt, live)
    decreases |live|
  {
    if live != [] {
      var init := live[..|live| - 1];
      PrefixIsSum(wt, init);
      PrefixTail(wt, live, |live| - 1);
    }
  }

  /** The running total over a prefix of the list reads only that prefix. */
  lemma {:induction false} PrefixTail(wt: seq<real>, live: seq<int>, k: nat)
    requires k <= |live| && forall j | 0 <= j < |live| :: 0 <= live[j] < |wt|
    ensures Prefix(wt, live[..k], k) == Prefix(wt, live, k)
    decreases k
  {
    if k > 0 {
      assert live[..k][..k - 1] == live[..k - 1];
      PrefixTail(wt, live[..k], k - 1);
      PrefixTail(wt, live, k - 1);
    }
  }

  /** Running totals never go down when no weight is negative. */
  lemma {:induction false} PrefixMono(wt: seq<real>, live: seq<int>, k: nat, k': nat)
    requires k <= k' <= |live| && forall j | 0 <= j < |live| :: 0 <= live[j] < |wt|
    requires forall t | 0 <= t < |wt| :: wt[t] >= 0.0
    ensures Prefix(wt, live, k) <= Prefix(wt, live, k')
    decreases k'
  {
    if k < k' {
      PrefixMono(wt, live, k, k' - 1);
    }
  }

  /** No running total among the first `n` reaches the threshold. */
  ghost predicate Below(wt: seq<real>, live: seq<int>, comp: real, n: int)
    requires n <= |live| && forall j | 0 <= j < |live| :: 0 <= live[j] < |wt|
  {
    forall k | 1 <= k <= n :: Prefix(wt, live, k) < comp
  }

  /**
    The weighted walk of `selectTile`: the first position whose running
    total reaches the threshold `comp`, or -1 when none does.
  */
  method ThresholdWalk(wt: seq<real>, live: seq<int>, comp: real) returns (q: int)
    requires forall j | 0 <= j < |live| :: 0 <= live[j] < |wt|
    ensures -1 <= q < |live|
    ensures q >= 0 ==> comp <= Prefix(wt, live, q + 1) && Below(wt, live, comp, q)
    ensures q == -1 ==> Below(wt, live, comp, |live|)
  {
    var temp := 0.0;
    var i := 0;
    while i < |live|
      invariant 0 <= i <= |live| && temp == Prefix(wt, live, i) && Below(wt, live, comp, i)
    {
      temp := temp + wt[live[i]];
      if temp >= comp {
        return i;
      }
      i := i + 1;
    }
    return -1;
  }

  /**
    With a threshold within the live weight sum the walk always stops, and
    when the threshold is positive the candidate it stops at has positive
    weight: a zero-weight tile is drawn only by a zero threshold.
  */
  lemma WalkOutcome(wt: seq<real>, live: seq<int>, comp: real, q: int)
    requires forall j | 0 <= j < |live| :: 0 <= live[j] < |wt|
    requires forall t | 0 <= t < |wt| :: wt[t] >= 0.0
    requires -1 <= q < |live|
    requires q >= 0 ==> comp <= Prefix(wt, live, q + 1) && Below(wt, live, comp, q)
    requires q == -1 ==> Below(wt, live, comp, |live|)
    ensures |live| > 0 && comp <= WeightSum(wt, live) ==> q >= 0
    ensures q >= 0 && comp > 0.0 ==> wt[live[q]] > 0.0
  {
    PrefixIsSum(wt, live);
    if q > 0 {
      assert Prefix(wt, live, q) < comp;
    }
  }

  /**
    The draw of `selectTile` over one cell's live list: threshold
    `d * proportionSums[index]`, then the walk. It finds a candidate exactly
    when the list is not empty.
  */
  method WeightedChoice(wt: seq<real>, live: seq<int>, d: real) returns (q: int)
    requires forall j | 0 <= j < |live| :: 0 <= live[j] < |wt|
    requires forall t | 0 <= t < |wt| :: wt[t] >= 0.0
    requires Draws.Unit(d)
    ensures -1 <= q < |live| && (q >= 0 <==> |live| > 0)
    ensures q >= 0 && d > 0.0 && WeightSum(wt, live) > 0.0 ==> wt[live[q]] > 0.0
  {
    var sum := WeightSum(wt, live);
    WeightSumNonNeg(wt, live);
    var comp := d * sum;
    assert comp <= sum by {
      assert sum - comp == (1.0 - d) * sum;
      NonNegProduct(1.0 - d, sum);
    }
    q := ThresholdWalk(wt, live, comp);
    WalkOutcome(wt, live, comp, q);
  }

  datatype Selection = Chosen(index: int, tile: int) | NoChoice | Crash

  /**
    `selectTile()`: pops the choice stack and draws a live candidate of the
    popped cell, weighted by tile weight. An empty stack, or a cell left
    without live candidates, gives no choice; a popped `-1` sentinel makes
    the source read the live end of a cell that does not exist, which throws.
  */
  method SelectTile(m: Model, wt: seq<real>, g: Lehmer.Gen) returns (sel: Selection, m': Model, g': Lehmer.Gen)
    requires Valid(m) && WeightsOk(m.tileset, wt) && 0 <= g.seed < Lehmer.M
    ensures Valid(m') && 0 <= g'.seed < Lehmer.M
    ensures m.stack == [] ==> sel == NoChoice && m' == m && g' == g
    ensures m.stack != [] ==> m' == m.(stack := Pop(m.stack)) && g' == Lehmer.RandNum(g).1
    ensures m.stack != [] && Top(m.stack) == -1 ==> sel == Crash
    ensures m.stack != [] && Top(m.stack) != -1 ==>
              (sel.Chosen? <==> Top(m.ends[Top(m.stack)]) >= 0) && (sel.NoChoice? <==> Top(m.ends[Top(m.stack)]) < 0)
    ensures sel.Chosen? ==> sel.index == Top(m.stack) && 0 <= sel.index < |m.possible| && sel.tile in Live(m, sel.index)
  {
    if m.stack == [] {
      return NoChoice, m, g;
    }
    var index := Top(m.stack);
    m' := m.(stack := Pop(m.stack));
    StackBase(m, m'.stack);
    var (d, g2) := Lehmer.RandNum(g);
    g' := g2;
    if index == -1 {
      return Crash, m', g';
    }
    assert CellOk(m, index);
    var live := Live(m, index);
    assert |live| == Top(m.ends[index]) + 1;
    var q := WeightedChoice(wt, live, d);
    if q == -1 {
      return NoChoice, m', g';
    }
    sel := Chosen(index, live[q]);
  }

  lemma NonNegProduct(a: real, b: real)
    requires a >= 0.0 && b >= 0.0
    ensures a * b >= 0.0
  {
  }

  lemma {:induction false} WeightSumNonNeg(wt: seq<real>, live: seq<int>)
    requires forall j | 0 <= j < |live| :: 0 <= live[j] < |wt|
    ensures WeightSum(wt, live) >= 0.0
    decreases |live|
  {
    if live != [] {
      WeightSumNonNeg(wt, live[..|live| - 1]);
    }
  }

  // ---------------------------------------------------------------------
  // generateMap
  // ---------------------------------------------------------------------

  /** Under the invariant every cell keeps a live candidate, unless the catalog is empty. */
  lemma StableLive(m: Model, H: seq<seq<int>>, K: nat, i: int)
    requires Stable(m, H, K) && |m.tileset| > 0 && 0 <= i < |m.possible|
    ensures Top(m.ends[i]) >= 0
  {
    assert CellOk(m, i);
  }

  /** Below a full count some cell is unresolved. */
  lemma SomeUnresolved(m: Model, H: seq<seq<int>>, K: nat) returns (i: int)
    requires Stable(m, H, K) && m.fixedCount < |m.possible|
    ensures 0 <= i < |m.possible| && m.tileMap[i] == -1
  {
    var n := |m.possible|;
    ResolvedCount(m, H, K);
    RangeCard(n);
    if forall j | 0 <= j < n :: m.tileMap[j] != -1 {
      assert Range(n) <= ResolvedSet(m);
      Proportions.SubsetCard(Range(n), ResolvedSet(m));
    }
    i :| 0 <= i < n && m.tileMap[i] == -1;
  }

  /**
    With a well-behaved entropy, `addPossibleFixedTiles` fails under the
    invariant only for an empty catalog, where there is no history to undo.
  */
  lemma AddFailsOnlyEmpty(m: Model, wt: seq<real>, ent: seq<int> -> real, H: seq<seq<int>>, K: nat)
    requires Stable(m, H, K) && |wt| == |m.tileset| && EntropyOk(ent) && m.fixedCount < |m.possible|
    requires !Seedable(Unresolved(m), Entropies(m, wt, ent))
    ensures m.records == [] && Ready(m.stack)
  {
    var u, es := Unresolved(m), Entropies(m, wt, ent);
    if |m.tileset| > 0 {
      forall i | 0 <= i < |u| && u[i]
        ensures 0.0 <= es[i] <= MaxValue
      {
        EntropiesAt(m, wt, ent, i);
        StableLive(m, H, K, i);
      }
      var i := SomeUnresolved(m, H, K);
      assert false;
    }
    NoSentinels(m.stack, K, |m.records|);
  }

  /** A stack with no room for sentinels has no `-1` on top. */
  lemma NoSentinels(s: seq<int>, K: nat, n: nat)
    requires Sentinels(s) + K <= n && n == 0
    ensures Ready(s)
  {
    if |s| > 0 {
      assert s[|s| - 1] in multiset(s);
    }
  }

  /** What the driver knows after a selection: the invariant, and an unresolved cell with a live tile, never a crash. */
  ghost predicate Picked(m: Model, H: seq<seq<int>>, K: nat, sel: Selection)
  {
    && Stable(m, H, K) && !sel.Crash?
    && (sel.Chosen? ==> 0 <= sel.index < |m.possible| && m.tileMap[sel.index] == -1 && sel.tile in Live(m, sel.index))
  }

  lemma SelectSound(m: Model, m': Model, H: seq<seq<int>>, K: nat, sel: Selection)
    requires Stable(m, H, K) && Ready(m.stack)
    requires m.stack == [] ==> sel == NoChoice && m' == m
    requires m.stack != [] ==> m' == m.(stack := Pop(m.stack))
    requires m.stack != [] && Top(m.stack) != -1 ==> !sel.Crash?
    requires sel.Chosen? ==> sel.index == Top(m.stack) && 0 <= sel.index < |m.possible| && sel.tile in Live(m, sel.index)
    ensures Picked(m', H, K, sel)
  {
    if m.stack != [] {
      PopSound(m, H, K);
      TopUnresolved(m, H, K);
      if sel.Chosen? {
        assert CellOk(m, sel.index) && CellOk(m', sel.index);
      }
    }
  }

  datatype Outcome = Generated(tiles: seq<int>) | Failed | Crashed | OutOfFuel

  /** The catalog and grid a run works on. */
  predicate SameGrid(m: Model, m': Model)
  {
    m'.tileset == m.tileset && m'.width == m.width && m'.height == m.height
  }

  /**
    The start of `generateMap`'s loop body: seed the stack with the
    least-entropy cells, backtracking when that fails.
  */
  method SeedStack(m: Model, wt: seq<real>, ent: seq<int> -> real, g: Lehmer.Gen, ghost H: seq<seq<int>>, ghost K: nat)
    returns (m': Model, g': Lehmer.Gen, ghost H': seq<seq<int>>)
    requires Valid(m) && |wt| == |m.tileset| && 0 <= g.seed < Lehmer.M
    ensures Valid(m') && SameGrid(m, m') && 0 <= g'.seed < Lehmer.M
    ensures Stable(m, H, K) && EntropyOk(ent) && m.fixedCount < |m.possible| ==> Stable(m', H', K) && Ready(m'.stack)
    ensures Stable(m, H, K) && EntropyOk(ent) && m.fixedCount < |m.possible| ==>
              m'.records == m.records && m'.tileMap == m.tileMap
  {
    var ok;
    ok, m', g' := AddPossibleFixedTiles(m, wt, ent, g, H, K);
    H' := H;
    ghost var sound := Stable(m, H, K) && EntropyOk(ent) && m.fixedCount < |m.possible|;
    if !ok {
      if sound {
        AddFailsOnlyEmpty(m, wt, ent, H, K);
      }
      var _, m3, _ := BackTrack(m', H, K);
      assert sound ==> m3 == m;
      m' := m3;
    } else {
      assert m'.records == m.records && m'.tileMap == m.tileMap;
    }
  }

  /** The whole of `selectTile` as the driver uses it, with what the invariant adds. */
  method Select(m: Model, wt: seq<real>, g: Lehmer.Gen, ghost H: seq<seq<int>>, ghost K: nat)
    returns (sel: Selection, m': Model, g': Lehmer.Gen)
    requires Valid(m) && WeightsOk(m.tileset, wt) && 0 <= g.seed < Lehmer.M
    ensures Valid(m') && SameGrid(m, m') && 0 <= g'.seed < Lehmer.M
    ensures sel.Chosen? ==> 0 <= sel.index < |m'.possible|
    ensures m'.records == m.records && m'.tileMap == m.tileMap
    ensures Stable(m, H, K) && Ready(m.stack) ==> Picked(m', H, K, sel)
  {
    sel, m', g' := SelectTile(m, wt, g);
    if Stable(m, H, K) && Ready(m.stack) {
      SelectSound(m, m', H, K, sel);
    }
  }

  // ---------------------------------------------------------------------
  // The records made before generation stay
  // ---------------------------------------------------------------------

  /**
    The first `K` records of `m0` are still the first `K` records of `m`,
    and their fixed cells still show the tiles they showed in `m0`.
  */
  ghost predicate KeepsFixed(m0: Model, m: Model, K: nat)
  {
    && K <= |m0.records| && K <= |m.records| && m.records[..K] == m0.records[..K]
    && |m.tileMap| == |m0.tileMap|
    && forall a | 0 <= a < K && 0 <= First(m0.records[a]) < |m0.tileMap| ::
         m.tileMap[First(m0.records[a])] == m0.tileMap[First(m0.records[a])]
  }

  /** With distinct fixed cells, an older record's cell is not among the newer ones. */
  lemma OlderNotLater(rs: seq<seq<int>>, a: int, k: int)
    requires 0 <= a < k <= |rs|
    requires forall x, y | 0 <= x < y < |rs| :: First(rs[x]) != First(rs[y])
    ensures First(rs[a]) !in Firsts(rs[k..])
  {
    forall j | 0 <= j < |rs| - k
      ensures Firsts(rs[k..])[j] != First(rs[a])
    {
      assert rs[k..][j] == rs[k + j];
    }
  }

  /**
    One `fixTile` on an unresolved cell of a consistent state keeps the
    records older than `K`: a success only appends a record and resolves
    that cell, and a failure undoes records no older than `K`.
  */
  lemma FixKeeps(m0: Model, m: Model, m': Model, H: seq<seq<int>>, H': seq<seq<int>>, K: nat, i: int, tile: int, ok: bool)
    requires KeepsFixed(m0, m, K) && Stable(m, H, K) && Stable(m', H', K)
    requires 0 <= i < |m.possible| && m.tileMap[i] == -1
    requires tile !in Live(m, i) ==> !ok && m' == m
    requires ok ==> Resolved(m, m', i, tile)
    requires !ok && tile in Live(m, i) ==> Unfixed(m, m', i)
    ensures KeepsFixed(m0, m', K)
  {
    if ok {
      FixKeepsResolved(m0, m, m', H, K, i, tile);
    } else if tile in Live(m, i) {
      FixKeepsUnfixed(m0, m, m', H, H', K, i);
    }
  }

  lemma FixKeepsResolved(m0: Model, m: Model, m': Model, H: seq<seq<int>>, K: nat, i: int, tile: int)
    requires KeepsFixed(m0, m, K) && Stable(m, H, K)
    requires 0 <= i < |m.possible| && m.tileMap[i] == -1 && Resolved(m, m', i, tile)
    ensures KeepsFixed(m0, m', K)
  {
    UnresolvedNotFixed(m, i);
    assert m'.records[..K] == m.records[..K] by {
      assert m'.records[..|m.records|] == m.records;
    }
    forall a | 0 <= a < K && 0 <= First(m0.records[a]) < |m0.tileMap|
      ensures m'.tileMap[First(m0.records[a])] == m0.tileMap[First(m0.records[a])]
    {
      assert m0.records[a] == m.records[..K][a];
      assert Firsts(m.records)[a] == First(m0.records[a]);
    }
  }

  lemma FixKeepsUnfixed(m0: Model, m: Model, m': Model, H: seq<seq<int>>, H': seq<seq<int>>, K: nat, i: int)
    requires KeepsFixed(m0, m, K) && Stable(m, H, K) && Stable(m', H', K)
    requires 0 <= i < |m.possible| && m.tileMap[i] == -1 && Unfixed(m, m', i)
    ensures KeepsFixed(m0, m', K)
  {
    var k := |m'.records|;
    assert m'.records[..K] == m.records[..K] by {
      assert m'.records == m.records[..k];
    }
    forall a | 0 <= a < K && 0 <= First(m0.records[a]) < |m0.tileMap|
      ensures m'.tileMap[First(m0.records[a])] == m0.tileMap[First(m0.records[a])]
    {
      assert m0.records[a] == m.records[..K][a];
      OlderNotLater(m.records, a, k);
    }
  }

  /** A step that changes neither the records nor the map keeps them. */
  lemma KeepsSame(m0: Model, m: Model, m2: Model, K: nat)
    requires KeepsFixed(m0, m, K) && m2.records == m.records && m2.tileMap == m.tileMap
    ensures KeepsFixed(m0, m2, K)
  {
  }

  /** In a consistent state right after `fixTiles`, the kept records cover every resolved cell. */
  lemma KeptCoverResolved(m0: Model, m: Model, H: seq<seq<int>>, K: nat)
    requires Stable(m0, H, K) && K == |m0.records| && KeepsFixed(m0, m, K)
    ensures forall i | 0 <= i < |m0.tileMap| && m0.tileMap[i] != -1 :: m.tileMap[i] == m0.tileMap[i]
  {
    forall i | 0 <= i < |m0.tileMap| && m0.tileMap[i] != -1
      ensures m.tileMap[i] == m0.tileMap[i]
    {
      var a :| 0 <= a < |m0.records| && Firsts(m0.records)[a] == i;
    }
  }

  /** A full map reached from a consistent state is consistent and keeps the older records' tiles. */
  lemma GeneratedFacts(m: Model, m': Model, H: seq<seq<int>>, H': seq<seq<int>>, K: nat)
    requires Stable(m, H, K) && Stable(m', H', K) && KeepsFixed(m, m', K)
    requires |m'.possible| == |m.possible| && m'.fixedCount >= |m'.possible|
    ensures |m'.tileMap| == |m.possible| && Consistent(m'.tileset, m'.width, m'.tileMap)
    ensures forall a | 0 <= a < K :: m'.tileMap[First(m.records[a])] == m.tileMap[First(m.records[a])]
    ensures K == |m.records| ==>
              forall i | 0 <= i < |m.possible| && m.tileMap[i] != -1 :: m'.tileMap[i] == m.tileMap[i]
  {
    FullCountFullMap(m', H', K);
    FullMapConsistent(m', H', K);
    forall a | 0 <= a < K
      ensures m'.tileMap[First(m.records[a])] == m.tileMap[First(m.records[a])]
    {
      assert Firsts(m.records)[a] == First(m.records[a]);
    }
    if K == |m.records| {
      KeptCoverResolved(m, m', H, K);
    }
  }

  /** One turn of `generateMap`'s outer loop: seed the stack with the least-entropy cells, then select. */
  method StartRound(m0: Model, m: Model, wt: seq<real>, ent: seq<int> -> real, g: Lehmer.Gen,
                    ghost H: seq<seq<int>>, ghost K: nat, ghost sound: bool)
    returns (sel: Selection, m': Model, g': Lehmer.Gen, ghost H': seq<seq<int>>)
    requires Valid(m) && WeightsOk(m.tileset, wt) && 0 <= g.seed < Lehmer.M && m.fixedCount < |m.possible|
    requires sound ==> Stable(m, H, K) && EntropyOk(ent) && KeepsFixed(m0, m, K)
    ensures Valid(m') && SameGrid(m, m') && 0 <= g'.seed < Lehmer.M
    ensures sel.Chosen? ==> 0 <= sel.index < |m'.possible|
    ensures sound ==> Picked(m', H', K, sel) && KeepsFixed(m0, m', K)
  {
    var m2, g2;
    m2, g2, H' := SeedStack(m, wt, ent, g, H, K);
    sel, m', g' := Select(m2, wt, g2, H', K);
    if sound {
      KeepsSame(m0, m, m2, K);
      KeepsSame(m0, m2, m', K);
    }
  }

  /** Fix the selected tile at the selected cell (the body of `generateMap`'s inner loop). */
  method FixChoice(m0: Model, m: Model, sel: Selection, ghost H: seq<seq<int>>, ghost K: nat, ghost sound: bool)
    returns (fixed: bool, m': Model, ghost H': seq<seq<int>>)
    requires Valid(m) && sel.Chosen? && 0 <= sel.index < |m.possible|
    requires sound ==> Picked(m, H, K, sel) && KeepsFixed(m0, m, K)
    ensures Valid(m') && SameGrid(m, m')
    ensures fixed ==> m'.tileMap == m.tileMap[sel.index := sel.tile] && m'.fixedCount == m.fixedCount + 1
    ensures sound ==> Stable(m', H', K) && KeepsFixed(m0, m', K)
    ensures sound && !fixed ==> Ready(m'.stack)
  {
    fixed, m', H' := FixTile(m, sel.index, sel.tile, H, K);
    if sound {
      FixKeeps(m0, m, m', H, H', K, sel.index, sel.tile, fixed);
    }
  }

  /** After a failed fix, select again from the stack that the backtrack left. */
  method Reselect(m0: Model, m: Model, wt: seq<real>, g: Lehmer.Gen, ghost H: seq<seq<int>>, ghost K: nat, ghost sound: bool)
    returns (sel: Selection, m': Model, g': Lehmer.Gen)
    requires Valid(m) && WeightsOk(m.tileset, wt) && 0 <= g.seed < Lehmer.M
    requires sound ==> Stable(m, H, K) && Ready(m.stack) && KeepsFixed(m0, m, K)
    ensures Valid(m') && SameGrid(m, m') && 0 <= g'.seed < Lehmer.M
    ensures sel.Chosen? ==> 0 <= sel.index < |m'.possible|
    ensures m'.records == m.records && m'.tileMap == m.tileMap
    ensures sound ==> Picked(m', H, K, sel) && KeepsFixed(m0, m', K)
  {
    sel, m', g' := Select(m, wt, g, H, K);
    if sound {
      KeepsSame(m0, m, m', K);
    }
  }

  /**
    `generateMap()`: while the fixed count is below the grid size, seed the
    stack with the least-entropy cells, then select and fix until a fix
    holds; no selection, or a negative count, fails the run. `fuel` bounds
    the number of selections.
  */
  method GenerateMap(m: Model, wt: seq<real>, ent: seq<int> -> real, g: Lehmer.Gen, fuel: nat, ghost H: seq<seq<int>>, ghost K: nat)
    returns (r: Outcome, m': Model, g': Lehmer.Gen)
    requires Valid(m) && WeightsOk(m.tileset, wt) && 0 <= g.seed < Lehmer.M
    ensures Valid(m') && SameGrid(m, m') && 0 <= g'.seed < Lehmer.M
    ensures r.Generated? ==> r.tiles == m'.tileMap && |r.tiles| == |m.possible| && m'.fixedCount >= |m.possible|
    ensures Stable(m, H, K) && EntropyOk(ent) ==> !r.Crashed?
    ensures Stable(m, H, K) && EntropyOk(ent) && r.Generated? ==>
              |r.tiles| == |m.possible| && Consistent(m.tileset, m.width, r.tiles)
    ensures Stable(m, H, K) && EntropyOk(ent) && r.Generated? ==>
              forall a | 0 <= a < K :: r.tiles[First(m.records[a])] == m.tileMap[First(m.records[a])]
    ensures Stable(m, H, K) && EntropyOk(ent) && r.Generated? && K == |m.records| ==>
              forall i | 0 <= i < |m.possible| && m.tileMap[i] != -1 :: r.tiles[i] == m.tileMap[i]
  {
    m', g' := m, g;
    ghost var H' := H;
    ghost var sound := Stable(m, H, K) && EntropyOk(ent);
    var f := fuel;
    while m'.fixedCount < |m'.possible|
      invariant Valid(m') && SameGrid(m, m') && 0 <= g'.seed < Lehmer.M
      invariant sound ==> Stable(m', H', K) && KeepsFixed(m, m', K)
      decreases f
    {
      if f == 0 {
        return OutOfFuel, m', g';
      }
      f := f - 1;
      var sel;
      sel, m', g', H' := StartRound(m, m', wt, ent, g', H', K, sound);
      while sel.Chosen?
        invariant Valid(m') && SameGrid(m, m') && 0 <= g'.seed < Lehmer.M
        invariant sel.Chosen? ==> 0 <= sel.index < |m'.possible|
        invariant sound ==> Picked(m', H', K, sel) && KeepsFixed(m, m', K)
        decreases f
      {
        var fixed, m5, H5 := FixChoice(m, m', sel, H', K, sound);
        m', H' := m5, H5;
        if fixed {
          break;
        }
        if f == 0 {
          return OutOfFuel, m', g';
        }
        f := f - 1;
        sel, m', g' := Reselect(m, m', wt, g', H', K, sound);
      }
      if sel.Crash? {
        return Crashed, m', g';
      }
      if sel.NoChoice? || m'.fixedCount < 0 {
        return Failed, m', g';
      }
    }
    if sound {
      GeneratedFacts(m, m', H, H', K);
    }
    return Generated(m'.tileMap), m', g';
  }
}

=== FILE: solver_narrow.dfy ===
/**
  One step of `propagate` (src/map_generator/SimpleTiledModel.ts): after
  the filter has shrunk the live candidates of a neighbour, the new live
  end is pushed on the neighbour's stack and the neighbour is noted in the
  newest undo record. This module states what such a step keeps.
*/
module SolverNarrow {
  import opened Tiles
  import opened Grid
  import opened EdgeCounts
  import opened SolverState
  import opened SolverSound
  import opened SolverFilter

  /** The undo log with cell `j` appended to its newest record. */
  function Note(rs: seq<seq<int>>, j: int): (rs': seq<seq<int>>)
    requires |rs| > 0
    ensures |rs'| == |rs| && rs'[..|rs| - 1] == rs[..|rs| - 1]
  {
    Pop(rs) + [rs[|rs| - 1] + [j]]
  }

  lemma NoteOcc(rs: seq<seq<int>>, j: int, i: int)
    requires |rs| > 0
    ensures Occ(Note(rs, j), i) == Occ(rs, i) + (if i == j then 1 else 0)
  {
    var rs' := Note(rs, j);
    assert rs'[..|rs'| - 1] == rs[..|rs| - 1];
    assert multiset(rs'[|rs'| - 1]) == multiset(rs[|rs| - 1]) + multiset{j};
  }

  lemma NoteAfter(rs: seq<seq<int>>, j: int, a: int, i: int)
    requires 0 <= a < |rs|
    ensures After(Note(rs, j), a, i) == After(rs, a, i) + (if a < |rs| - 1 && i == j then 1 else 0)
  {
    var rs' := Note(rs, j);
    if a < |rs| - 1 {
      assert rs'[a + 1..] == Note(rs[a + 1..], j);
      NoteOcc(rs[a + 1..], j, i);
    } else {
      assert rs'[a + 1..] == [] && rs[a + 1..] == [];
    }
  }

  lemma NoteFirsts(rs: seq<seq<int>>, j: int)
    requires |rs| > 0 && |rs[|rs| - 1]| > 0
    ensures forall a | 0 <= a < |rs| :: First(Note(rs, j)[a]) == First(rs[a])
    ensures Firsts(Note(rs, j)) == Firsts(rs)
  {
    var rs' := Note(rs, j);
    forall a | 0 <= a < |rs|
      ensures First(rs'[a]) == First(rs[a])
    {
      if a < |rs| - 1 {
        assert rs'[a] == rs'[..|rs| - 1][a];
      }
    }
  }

  /** The live-candidate count of one cell: the top of its stack plus one. */
  function Height(e: seq<int>): nat
  {
    if |e| > 0 && e[|e| - 1] >= 0 then e[|e| - 1] + 1 else 0
  }

  /** The live candidates of the whole grid, which every propagation step can only lower. */
  function LiveTotal(es: seq<seq<int>>): nat
  {
    if es == [] then 0 else LiveTotal(es[..|es| - 1]) + Height(es[|es| - 1])
  }

  lemma {:induction false} LiveTotalUpdate(es: seq<seq<int>>, j: int, e: seq<int>)
    requires 0 <= j < |es|
    ensures LiveTotal(es[j := e]) + Height(es[j]) == LiveTotal(es) + Height(e)
    decreases |es|
  {
    var es' := es[j := e];
    assert es'[..|es| - 1] == if j == |es| - 1 then es[..|es| - 1] else es[..|es| - 1][j := e];
    if j < |es| - 1 {
      LiveTotalUpdate(es[..|es| - 1], j, e);
    }
  }

  /** What the filter hands to the narrowing step: a permuted live region with exact tables and a new end. */
  ghost predicate NarrowOk(m: Model, j: int, p': seq<int>, c': seq<Table>, e: int)
  {
    && Base(m) && |m.records| > 0 && 0 <= j < |m.possible| && |m.ends[j]| > 0
    && -1 <= e <= Top(m.ends[j]) && |c'| == 4
    && LiveRegionPerm(m.possible[j], p', Top(m.ends[j]))
    && CountsOk(c', m.tileset, p'[..e + 1])
    && (e == Top(m.ends[j]) ==> p' == m.possible[j] && c' == m.counts[j])
  }

  /**
    The state change after filtering neighbour `j`: store the permuted
    candidates and tables; when the live end went down, push it and note
    the cell in the newest record.
  */
  function Narrow(m: Model, j: int, p': seq<int>, c': seq<Table>, e: int): (m': Model)
    requires |m.records| > 0 && 0 <= j < |m.possible| == |m.counts| == |m.ends| && |m.ends[j]| > 0
  {
    var m1 := m.(possible := m.possible[j := p'], counts := m.counts[j := c']);
    if e < Top(m.ends[j]) then m1.(ends := m.ends[j := m.ends[j] + [e]], records := Note(m.records, j)) else m1
  }

  /** Narrowing as a relation between the states, for the lemmas below. */
  ghost predicate Narrowed(m: Model, m': Model, j: int, e: int)
  {
    && Base(m) && |m.records| > 0 && 0 <= j < |m.possible| && |m.ends[j]| > 0 && -1 <= e <= Top(m.ends[j])
    && m'.tileset == m.tileset && m'.width == m.width && m'.height == m.height
    && m'.tileMap == m.tileMap && m'.fixedCount == m.fixedCount && m'.stack == m.stack
    && |m'.possible| == |m.possible| && |m'.counts| == |m.counts| && |m'.ends| == |m.ends|
    && (forall i | 0 <= i < |m.possible| && i != j ::
          m'.possible[i] == m.possible[i] && m'.counts[i] == m.counts[i] && m'.ends[i] == m.ends[i])
    && LiveRegionPerm(m.possible[j], m'.possible[j], Top(m.ends[j]))
    && (e < Top(m.ends[j]) ==> m'.ends[j] == m.ends[j] + [e] && m'.records == Note(m.records, j))
    && (e == Top(m.ends[j]) ==> m'.ends[j] == m.ends[j] && m'.records == m.records)
  }

  lemma NarrowIsNarrowed(m: Model, j: int, p': seq<int>, c': seq<Table>, e: int)
    requires NarrowOk(m, j, p', c', e)
    ensures Narrowed(m, Narrow(m, j, p', c', e), j, e)
    ensures Narrow(m, j, p', c', e).possible[j] == p' && Narrow(m, j, p', c', e).counts[j] == c'
  {
  }

  /** Appending a cell to the newest record keeps the basic shape. */
  lemma NoteBase(m: Model, j: int)
    requires Base(m) && |m.records| > 0 && 0 <= j < |m.possible|
    ensures Base(m.(records := Note(m.records, j)))
  {
    var m' := m.(records := Note(m.records, j));
    forall i | 0 <= i < |m.possible|
      ensures CellOk(m', i)
    {
      assert CellOk(m, i);
    }
    forall a | 0 <= a < |m'.records|
      ensures RecordOk(m'.records[a], |m.possible|)
    {
      if a < |m.records| - 1 {
        assert m'.records[a] == m'.records[..|m.records| - 1][a];
      } else {
        assert RecordOk(m.records[a], |m.possible|);
      }
    }
  }

  lemma NarrowBase(m: Model, j: int, p': seq<int>, c': seq<Table>, e: int)
    requires NarrowOk(m, j, p', c', e)
    ensures Base(Narrow(m, j, p', c', e))
    ensures Top(Narrow(m, j, p', c', e).ends[j]) == e
  {
    assert CellOk(m, j);
    var T := |m.tileset|;
    var top := Top(m.ends[j]);
    LivePermWhole(m.possible[j], p', top);
    var e' := if e < top then m.ends[j] + [e] else m.ends[j];
    assert EndsOk(e', T);
    assert p'[..Top(e') + 1] == p'[..e + 1];
    CellUpdateBase(m, j, p', c', e');
    var m1 := m.(possible := m.possible[j := p'], counts := m.counts[j := c'], ends := m.ends[j := e']);
    if e < top {
      NoteBase(m1, j);
      assert Narrow(m, j, p', c', e) == m1.(records := Note(m.records, j));
    } else {
      assert m.ends[j := e'] == m.ends;
    }
  }

  /** The undo log and the stacks grow together, so the log stays poppable. */
  lemma NarrowOcc(m: Model, m': Model, j: int, e: int, extra: seq<int>)
    requires Narrowed(m, m', j, e) && OccOk(m, extra)
    ensures OccOk(m', extra)
  {
    if e < Top(m.ends[j]) {
      forall i | 0 <= i < |m.possible|
        ensures Occ(m'.records, i) + multiset(extra)[i] < |m'.ends[i]|
      {
        NoteOcc(m.records, j, i);
      }
    }
  }

  /** The filter only ever drops live candidates. */
  lemma NarrowLive(m: Model, m': Model, j: int, e: int)
    requires Narrowed(m, m', j, e) && Base(m') && |m'.ends[j]| > 0 && Top(m'.ends[j]) == e
    ensures multiset(Live(m', j)) <= multiset(Live(m, j))
  {
    var top := Top(m.ends[j]);
    var p, p' := m.possible[j], m'.possible[j];
    assert p'[..top + 1] == p'[..e + 1] + p'[e + 1..top + 1];
    assert Live(m', j) == p'[..e + 1];
    assert multiset(Live(m', j)) <= multiset(p'[..top + 1]);
  }

  lemma NarrowLiveOthers(m: Model, m': Model, j: int, e: int)
    requires Narrowed(m, m', j, e) && Base(m')
    ensures forall i | 0 <= i < |m.possible| && i != j :: Live(m', i) == Live(m, i)
  {
  }

  lemma NarrowTotal(m: Model, m': Model, j: int, e: int)
    requires Narrowed(m, m', j, e)
    ensures LiveTotal(m'.ends) + Height(m.ends[j]) == LiveTotal(m.ends) + Height(m'.ends[j])
    ensures Height(m'.ends[j]) <= Height(m.ends[j])
    ensures e < Top(m.ends[j]) ==> Height(m'.ends[j]) < Height(m.ends[j])
  {
    assert m'.ends == m.ends[j := m'.ends[j]];
    LiveTotalUpdate(m.ends, j, m'.ends[j]);
  }

  /** A fixed cell has at most its fixed tile live. */
  lemma FixedTop(m: Model, H: seq<seq<int>>, extra: seq<int>, a: int)
    requires Base(m) && SelfOk(m, H, extra) && 0 <= a < |m.records|
    ensures Top(m.ends[First(m.records[a])]) <= 0
  {
    var f := First(m.records[a]);
    assert CellOk(m, f);
    EndsMono(m.ends[f], |m.tileset|, H[a][4], |m.ends[f]| - 1);
  }

  /** A fixed cell has a single live candidate, which narrowing leaves first. */
  lemma NarrowFixedAt(m: Model, m': Model, H: seq<seq<int>>, j: int, e: int, a: int)
    requires Narrowed(m, m', j, e) && SelfOk(m, H, []) && 0 <= a < |m.records|
    requires 0 <= First(m.records[a]) < |m.possible| && |m.possible[First(m.records[a])]| > 0
    ensures |m'.possible[First(m.records[a])]| > 0
    ensures m'.possible[First(m.records[a])][0] == m.possible[First(m.records[a])][0]
  {
    if First(m.records[a]) == j {
      FixedTop(m, H, [], a);
      assert CellOk(m, j);
      FirstStays(m.possible[j], m'.possible[j], Top(m.ends[j]));
    }
  }

  /** Narrowing leaves the fixed cells, their order and the map alone. */
  lemma NarrowFirsts(m: Model, m': Model, j: int, e: int)
    requires Narrowed(m, m', j, e) && forall a | 0 <= a < |m.records| :: |m.records[a]| > 0
    ensures |m'.records| == |m.records| && Firsts(m'.records) == Firsts(m.records)
    ensures forall a | 0 <= a < |m.records| :: First(m'.records[a]) == First(m.records[a])
  {
    NoteFirsts(m.records, j);
  }

  lemma NarrowFixed(m: Model, m': Model, H: seq<seq<int>>, j: int, e: int)
    requires Narrowed(m, m', j, e) && FixedOk(m) && SelfOk(m, H, [])
    requires forall a | 0 <= a < |m.records| :: |m.records[a]| > 0
    ensures FixedOk(m')
  {
    NarrowFirsts(m, m', j, e);
    forall a | 0 <= a < |m.records|
      ensures |m'.possible[First(m.records[a])]| > 0
      ensures m'.possible[First(m.records[a])][0] == m.possible[First(m.records[a])][0]
    {
      NarrowFixedAt(m, m', H, j, e, a);
    }
  }

  lemma NarrowStack(m: Model, m': Model, K: nat, u: nat, j: int, e: int)
    requires Narrowed(m, m', j, e) && StackOk(m, u, K)
    requires forall a | 0 <= a < |m.records| :: |m.records[a]| > 0
    ensures StackOk(m', u, K)
  {
    NoteFirsts(m.records, j);
  }

  /** Narrowing keeps the `0` that record `a` pushed on its fixed cell, below what came after. */
  lemma NarrowSelfAt(m: Model, m': Model, H: seq<seq<int>>, j: int, e: int, a: int)
    requires Narrowed(m, m', j, e) && SelfOk(m, H, []) && 0 <= a < |m.records|
    ensures |m'.records| == |m.records| && First(m'.records[a]) == First(m.records[a])
    ensures var f := First(m.records[a]);
      && 0 <= f < |m'.ends| && H[a][4] + After(m'.records, a, f) < |m'.ends[f]| && m'.ends[f][H[a][4]] == 0
  {
    var f := First(m.records[a]);
    if e < Top(m.ends[j]) {
      NoteFirsts(m.records, j);
      NoteAfter(m.records, j, a, f);
      if f == j {
        assert m'.ends[j][H[a][4]] == m.ends[j][H[a][4]];
      }
    }
  }

  lemma NarrowSelf(m: Model, m': Model, H: seq<seq<int>>, j: int, e: int)
    requires Narrowed(m, m', j, e) && SelfOk(m, H, [])
    ensures SelfOk(m', H, [])
  {
    forall a | 0 <= a < |m.records|
      ensures First(m'.records[a]) == First(m.records[a])
      ensures var f := First(m.records[a]);
        && 0 <= f < |m'.ends| && H[a][4] + After(m'.records, a, f) < |m'.ends[f]| && m'.ends[f][H[a][4]] == 0
    {
      NarrowSelfAt(m, m', H, j, e, a);
    }
  }

  lemma NarrowFit(m: Model, m': Model, H: seq<seq<int>>, j: int, e: int, a: int, d: Dir)
    requires Narrowed(m, m', j, e) && RecFit(m, H, a, d, [])
    requires forall b | 0 <= b < |m.records| :: |m.records[b]| > 0
    ensures RecFit(m', H, a, d, [])
  {
    NoteFirsts(m.records, j);
    var g := First(m.records[a]);
    var j' := Adjacent(g, m.width, |m.possible|)[d];
    if e < Top(m.ends[j]) {
      NoteAfter(m.records, j, a, j');
    }
    if j' == j {
      assert CellOk(m, j);
      var top := Top(m.ends[j]);
      var p, p' := m.possible[j], m'.possible[j];
      var b := m.ends[j][H[a][d]];
      assert m'.ends[j][H[a][d]] == b;
      EndsMono(m.ends[j], |m.tileset|, H[a][d], |m.ends[j]| - 1);
      PrefixPerm(p, p', top, b);
      FitsKept(m.tileset, m.tileMap[g], d, p, p', b);
    }
  }

  lemma NarrowNonNeg(m: Model, m': Model, j: int, e: int)
    requires Narrowed(m, m', j, e) && NonNeg(m, [])
    ensures NonNeg(m', m'.records[|m'.records| - 1])
    ensures e >= 0 ==> NonNeg(m', [])
  {
    var last := m'.records[|m'.records| - 1];
    if |m.tileset| > 0 {
      if e < Top(m.ends[j]) {
        assert last == m.records[|m.records| - 1] + [j];
        assert multiset(last)[j] >= 1;
        forall i, k | 0 <= i < |m'.ends| && 0 <= k < |m'.ends[i]| - multiset(last)[i]
          ensures m'.ends[i][k] >= 0
        {
          assert m'.ends[i][k] == m.ends[i][k];
        }
      }
    }
  }

  /** A fix in progress: the newest record has no marker yet and the older ones fit. */
  ghost predicate Spreading(m: Model, H: seq<seq<int>>, K: nat)
  {
    |m.records| >= 1 && Core(m, H, K, 1, []) && FitUpTo(m, H, |m.records| - 1, [])
  }

  /** The newest record has filtered its neighbour on side `d`. */
  ghost predicate NewestFits(m: Model, H: seq<seq<int>>, d: Dir)
  {
    |m.records| >= 1 && RecFit(m, H, |m.records| - 1, d, [])
  }

  /** The newest record has filtered its neighbours on the sides below `upto`. */
  ghost predicate LastFit(m: Model, H: seq<seq<int>>, upto: int)
  {
    |m.records| >= 1 && forall d: Dir | d < upto :: NewestFits(m, H, d)
  }

  lemma NarrowCore(m: Model, m': Model, H: seq<seq<int>>, K: nat, j: int, e: int)
    requires Narrowed(m, m', j, e) && Base(m') && Core(m, H, K, 1, [])
    ensures Core(m', H, K, 1, [])
  {
    assert forall a | 0 <= a < |m.records| :: RecordOk(m.records[a], |m.possible|);
    NarrowOcc(m, m', j, e, []);
    NarrowFixed(m, m', H, j, e);
    NarrowStack(m, m', K, 1, j, e);
    NarrowSelf(m, m', H, j, e);
  }

  lemma NarrowFits(m: Model, m': Model, H: seq<seq<int>>, j: int, e: int, upto: int)
    requires Narrowed(m, m', j, e) && FitUpTo(m, H, |m.records| - 1, [])
    requires forall a | 0 <= a < |m.records| :: |m.records[a]| > 0
    ensures FitUpTo(m', H, |m.records| - 1, [])
    ensures LastFit(m, H, upto) ==> LastFit(m', H, upto)
  {
    forall a, d: Dir | 0 <= a < |m.records| - 1
      ensures RecFit(m', H, a, d, [])
    {
      NarrowFit(m, m', H, j, e, a, d);
    }
    if LastFit(m, H, upto) {
      forall d: Dir | d < upto
        ensures NewestFits(m', H, d)
      {
        assert NewestFits(m, H, d);
        NarrowFit(m, m', H, j, e, |m.records| - 1, d);
      }
    }
  }

  /** Every step of a propagation keeps the invariants; a live end of `-1` belongs to the newest record. */
  lemma NarrowSound(m: Model, m': Model, H: seq<seq<int>>, K: nat, j: int, e: int, upto: int)
    requires Narrowed(m, m', j, e) && Base(m')
    requires Spreading(m, H, K) && NonNeg(m, [])
    ensures Spreading(m', H, K) && NonNeg(m', m'.records[|m'.records| - 1])
    ensures e >= 0 ==> NonNeg(m', [])
    ensures LastFit(m, H, upto) ==> LastFit(m', H, upto)
  {
    assert forall a | 0 <= a < |m.records| :: RecordOk(m.records[a], |m.possible|);
    NarrowCore(m, m', H, K, j, e);
    NarrowFits(m, m', H, j, e, upto);
    NarrowNonNeg(m, m', j, e);
  }

  /** The ghost heights with the entry of record `a` on side `d` replaced. */
  ghost function HSet(H: seq<seq<int>>, a: int, d: Dir, v: int): seq<seq<int>>
    requires 0 <= a < |H| && |H[a]| == 5
  {
    H[a := H[a][d := v]]
  }

  lemma HSetKeeps(m: Model, H: seq<seq<int>>, K: nat, d: Dir, v: int)
    requires Spreading(m, H, K)
    ensures |H[|m.records| - 1]| == 5
    ensures Spreading(m, HSet(H, |m.records| - 1, d, v), K)
    ensures forall d': Dir | d' != d :: NewestFits(m, H, d') ==> NewestFits(m, HSet(H, |m.records| - 1, d, v), d')
  {
    var L := |m.records| - 1;
    var H' := HSet(H, L, d, v);
    assert forall a | 0 <= a < |H| && a != L :: H'[a] == H[a];
    assert H'[L][4] == H[L][4];
    assert SelfOk(m, H', []);
    forall a, d': Dir | 0 <= a < L
      ensures RecFit(m, H', a, d', [])
    {
      assert RecFit(m, H, a, d', []);
    }
    HSetNewest(m, H, d, v);
  }

  /** Setting the newest record's height on side `d` keeps its fit on every other side. */
  lemma HSetNewest(m: Model, H: seq<seq<int>>, d: Dir, v: int)
    requires |m.records| >= 1 && |m.records| - 1 < |H| && |H[|m.records| - 1]| == 5
    ensures forall d': Dir | d' != d :: NewestFits(m, H, d') ==> NewestFits(m, HSet(H, |m.records| - 1, d, v), d')
  {
    var H' := HSet(H, |m.records| - 1, d, v);
    forall d': Dir | d' != d && NewestFits(m, H, d')
      ensures NewestFits(m, H', d')
    {
      RecFitSame(m, H, H', |m.records| - 1, d', []);
    }
  }

  /** A record's fit on side `d` reads only its own height on that side. */
  lemma RecFitSame(m: Model, H: seq<seq<int>>, H': seq<seq<int>>, a: int, d: Dir, extra: seq<int>)
    requires RecFit(m, H, a, d, extra) && a < |H'| && |H'[a]| == 5 && H'[a][d] == H[a][d]
    ensures RecFit(m, H', a, d, extra)
  {
  }

  /** A tile id the current cell's side-`d` table supports fits the single live tile `t` there. */
  lemma SupportedFits(ts: seq<Tile>, c: seq<Table>, t: int, d: Dir, x: int)
    requires CountsOk(c, ts, [t]) && 0 <= t < |ts| && 0 <= x < |ts|
    requires Supported(ts, c[d], d, x)
    ensures FitId(ts, t, d, x)
  {
    var l := Edge(ts[x], Opposite(d));
    LookupIsCount(c, ts, [t], d, l);
    assert [t][..0] == [];
    assert Has(ts, t, d, l);
  }

  /** A fixed cell with live end 0 has its fixed tile as its single live candidate, counted exactly. */
  lemma FixedCellSingle(m: Model, a: int)
    requires Base(m) && FixedOk(m) && 0 <= a < |m.records|
    requires var k := First(m.records[a]); 0 <= k < |m.possible| && |m.ends[k]| > 0 && Top(m.ends[k]) == 0
    ensures var k := First(m.records[a]);
      0 <= m.tileMap[k] < |m.tileset| && CountsOk(m.counts[k], m.tileset, [m.tileMap[k]])
  {
    var k := First(m.records[a]);
    assert CellOk(m, k);
    var t := m.tileMap[k];
    assert t == m.possible[k][0];
    PermEntry(m.possible[k], |m.tileset|, 0);
    assert m.possible[k][..Top(m.ends[k]) + 1] == [t];
  }

  /**
    Filtering a neighbour of a freshly fixed cell leaves there only
    candidates that fit the fixed tile: this sets the newest record's
    height on that side.
  */
  lemma EstablishFit(m: Model, m': Model, H: seq<seq<int>>, d: Dir, j: int, e: int)
    requires Narrowed(m, m', j, e) && Base(m') && FixedOk(m) && SelfOk(m, H, []) && m.width > 0
    requires var k := First(m.records[|m.records| - 1]);
      && 0 <= k < |m.possible| && |m.ends[k]| > 0 && Top(m.ends[k]) == 0 && |m.counts[k]| == 4
      && j == Adjacent(k, m.width, |m.possible|)[d] && j != k
      && forall q | 0 <= q <= e :: 0 <= m'.possible[j][q] < |m.tileset| && Supported(m.tileset, m.counts[k][d], d, m'.possible[j][q])
    ensures |H[|m.records| - 1]| == 5
    ensures NewestFits(m', HSet(H, |m.records| - 1, d, |m'.ends[j]| - 1), d)
  {
    var L := |m.records| - 1;
    var k := First(m.records[L]);
    assert SelfOk(m, H, []);
    assert RecordOk(m.records[L], |m.possible|);
    NoteFirsts(m.records, j);
    assert First(m'.records[L]) == k;
    var H' := HSet(H, L, d, |m'.ends[j]| - 1);
    assert After(m'.records, L, j) == 0 by {
      assert m'.records[L + 1..] == [];
    }
    assert CellOk(m', j);
    var t := m.tileMap[k];
    FixedCellSingle(m, L);
    assert m'.ends[j][H'[L][d]] == e;
    forall q | 0 <= q <= e
      ensures FitId(m.tileset, t, d, m'.possible[j][q])
    {
      var x := m'.possible[j][q];
      assert 0 <= x < |m.tileset| && Supported(m.tileset, m.counts[k][d], d, x);
      SupportedFits(m.tileset, m.counts[k], t, d, x);
    }
  }
}

=== FILE: solver_propagate.dfy ===
/**
  `propagate(startIndex)` of the simple tiled model
  (src/map_generator/SimpleTiledModel.ts): a first-in first-out queue of
  cells, starting with the freshly fixed one. Each cell filters its four
  neighbours; a neighbour that lost the last carrier of one of its labels
  joins the queue. A neighbour left with no live candidate makes the
  propagation fail, backtrack and report false.
*/
module SolverPropagate {
  import opened Tiles
  import opened Grid
  import opened EdgeCounts
  import opened SolverState
  import opened SolverSound
  import opened SolverFilter
  import opened SolverBacktrack
  import opened SolverNarrow

  /** Every tile fits beside every tile on every side. */
  predicate Uniform(ts: seq<Tile>)
  {
    forall x, y, d: Dir | 0 <= x < |ts| && 0 <= y < |ts| :: Fits(ts[x], d, ts[y])
  }

  /** No cell has run out of live candidates. */
  ghost predicate AllLive(m: Model)
  {
    forall i | 0 <= i < |m.ends| :: |m.ends[i]| > 0 && Top(m.ends[i]) >= 0
  }

  /**
    What propagation leaves alone: the catalog and grid, the tile map, the
    fixed count, the choice stack and every record but the newest, which
    may only grow.
  */
  ghost predicate Kept(m: Model, m': Model)
  {
    && m'.tileset == m.tileset && m'.width == m.width && m'.height == m.height
    && m'.tileMap == m.tileMap && m'.fixedCount == m.fixedCount && m'.stack == m.stack
    && |m'.possible| == |m.possible| && |m.records| > 0 && |m'.records| == |m.records|
    && m'.records[..|m.records| - 1] == m.records[..|m.records| - 1]
    && |m.records[|m.records| - 1]| <= |m'.records[|m.records| - 1]|
    && m'.records[|m.records| - 1][..|m.records[|m.records| - 1]|] == m.records[|m.records| - 1]
  }

  lemma KeptTrans(m: Model, m': Model, m'': Model)
    requires Kept(m, m') && Kept(m', m'')
    ensures Kept(m, m'')
  {
    var L := |m.records| - 1;
    var r, r', r'' := m.records[L], m'.records[L], m''.records[L];
    assert r''[..|r|] == r''[..|r'|][..|r|];
  }

  lemma NarrowKept(m: Model, m': Model, j: int, e: int)
    requires Narrowed(m, m', j, e)
    ensures Kept(m, m')
  {
    if e < Top(m.ends[j]) {
      var L := |m.records| - 1;
      assert m'.records[L] == m.records[L] + [j];
      assert m'.records[L][..|m.records[L]|] == m.records[L];
    }
  }

  /** The basic facts about one narrowing step, for the direction loop. */
  lemma NarrowFacts(m: Model, j: int, p': seq<int>, c': seq<Table>, e: int)
    requires NarrowOk(m, j, p', c', e) && OccOk(m, [])
    ensures var m' := Narrow(m, j, p', c', e);
      && Narrowed(m, m', j, e) && Valid(m') && Kept(m, m') && |m'.ends[j]| > 0 && Top(m'.ends[j]) == e
      && m'.possible[j] == p'
      && (forall i | 0 <= i < |m.possible| && i != j ::
            m'.possible[i] == m.possible[i] && m'.counts[i] == m.counts[i] && m'.ends[i] == m.ends[i])
      && (forall i | 0 <= i < |m.possible| :: multiset(Live(m', i)) <= multiset(Live(m, i)))
      && LiveTotal(m'.ends) + (if e < Top(m.ends[j]) then 1 else 0) <= LiveTotal(m.ends)
      && (e == Top(m.ends[j]) ==> m' == m)
  {
    NarrowFactsShape(m, j, p', c', e);
    NarrowFactsLive(m, j, p', c', e);
  }

  lemma NarrowFactsShape(m: Model, j: int, p': seq<int>, c': seq<Table>, e: int)
    requires NarrowOk(m, j, p', c', e) && OccOk(m, [])
    ensures var m' := Narrow(m, j, p', c', e);
      && Narrowed(m, m', j, e) && Valid(m') && Kept(m, m') && |m'.ends[j]| > 0 && Top(m'.ends[j]) == e
      && m'.possible[j] == p'
      && (forall i | 0 <= i < |m.possible| && i != j ::
            m'.possible[i] == m.possible[i] && m'.counts[i] == m.counts[i] && m'.ends[i] == m.ends[i])
      && (e == Top(m.ends[j]) ==> m' == m)
  {
    var m' := Narrow(m, j, p', c', e);
    NarrowIsNarrowed(m, j, p', c', e);
    NarrowBase(m, j, p', c', e);
    NarrowOcc(m, m', j, e, []);
    NarrowKept(m, m', j, e);
    if e == Top(m.ends[j]) {
      assert m.possible[j := p'] == m.possible && m.counts[j := c'] == m.counts;
    }
  }

  lemma NarrowFactsLive(m: Model, j: int, p': seq<int>, c': seq<Table>, e: int)
    requires NarrowOk(m, j, p', c', e)
    ensures var m' := Narrow(m, j, p', c', e);
      && Base(m') && |m'.possible| == |m.possible|
      && (forall i | 0 <= i < |m.possible| :: multiset(Live(m', i)) <= multiset(Live(m, i)))
      && LiveTotal(m'.ends) + (if e < Top(m.ends[j]) then 1 else 0) <= LiveTotal(m.ends)
  {
    var m' := Narrow(m, j, p', c', e);
    NarrowIsNarrowed(m, j, p', c', e);
    NarrowBase(m, j, p', c', e);
    NarrowLive(m, m', j, e);
    NarrowLiveOthers(m, m', j, e);
    NarrowTotal(m, m', j, e);
  }


  /** With a uniform catalog and a live current cell, the filter keeps every candidate. */
  lemma UniformKeepsAll(m: Model, cur: int, d: Dir, p': seq<int>, e: int, top: int)
    requires Base(m) && Uniform(m.tileset) && 0 <= cur < |m.possible|
    requires |m.ends[cur]| > 0 && Top(m.ends[cur]) >= 0 && |m.counts[cur]| == 4
    requires -1 <= e <= top < |p'| && IdsIn(p', |m.tileset|)
    requires forall q | e < q <= top :: !Supported(m.tileset, m.counts[cur][d], d, p'[q])
    ensures e == top
  {
    if e < top {
      UniformSupported(m, cur, d, p'[top]);
    }
  }

  /** With a uniform catalog and a live current cell, the current cell supports every tile. */
  lemma UniformSupported(m: Model, cur: int, d: Dir, x: int)
    requires Base(m) && Uniform(m.tileset) && 0 <= cur < |m.possible| && 0 <= x < |m.tileset|
    requires |m.ends[cur]| > 0 && Top(m.ends[cur]) >= 0 && |m.counts[cur]| == 4
    ensures Supported(m.tileset, m.counts[cur][d], d, x)
  {
    assert CellOk(m, cur);
    AdjacentEdgeCountMeaning(m, d, cur, x);
    var live := Live(m, cur);
    assert |live| > 0;
    assert Fits(m.tileset[live[0]], d, m.tileset[x]);
  }

  /** The fix in progress is the one just made: its cell has only the fixed tile live. */
  ghost predicate JustFixed(m: Model, H: seq<seq<int>>, K: nat, k: int)
  {
    && Spreading(m, H, K) && NonNeg(m, [])
    && k == First(m.records[|m.records| - 1]) && 0 <= k < |m.ends|
    && |m.ends[k]| > 0 && Top(m.ends[k]) == 0
  }

  /** Recording the newest record's height on side `d` keeps the invariants and extends its fitted sides. */
  lemma HSetCombine(m: Model, H: seq<seq<int>>, K: nat, d: Dir, v: int)
    requires Spreading(m, H, K) && LastFit(m, H, d)
    requires |H[|m.records| - 1]| == 5 && NewestFits(m, HSet(H, |m.records| - 1, d, v), d)
    ensures Spreading(m, HSet(H, |m.records| - 1, d, v), K)
    ensures LastFit(m, HSet(H, |m.records| - 1, d, v), d + 1)
  {
    HSetKeeps(m, H, K, d, v);
    var H' := HSet(H, |m.records| - 1, d, v);
    forall d': Dir | d' < d + 1
      ensures NewestFits(m, H', d')
    {
      if d' < d {
        assert NewestFits(m, H, d');
      }
    }
  }

  /** On the first visit of the fixed cell, filtering side `d` leaves only fitting candidates there. */
  lemma FirstSpreadFits(m: Model, m': Model, H: seq<seq<int>>, K: nat, cur: int, d: Dir, j: int, e: int)
    requires Narrowed(m, m', j, e) && Base(m') && JustFixed(m, H, K, cur) && LastFit(m, H, d)
    requires 0 <= cur < |m.possible| && m.width > 0 && j == Adjacent(cur, m.width, |m.possible|)[d] && j != cur
    requires |m.counts[cur]| == 4 && |m'.ends[j]| > 0 && Top(m'.ends[j]) == e
    requires forall q | 0 <= q <= e :: 0 <= m'.possible[j][q] < |m.tileset| && Supported(m.tileset, m.counts[cur][d], d, m'.possible[j][q])
    ensures Spreading(m', H, K) && NonNeg(m', m'.records[|m'.records| - 1])
    ensures e >= 0 ==> NonNeg(m', [])
    ensures LastFit(m', H, d) && |m'.records| == |m.records| && |H[|m'.records| - 1]| == 5
    ensures NewestFits(m', HSet(H, |m'.records| - 1, d, |m'.ends[j]| - 1), d)
  {
    NarrowSound(m, m', H, K, j, e, d);
    assert Core(m, H, K, 1, []);
    EstablishFit(m, m', H, d, j, e);
  }

  /** After the filtering on the first visit, setting the newest record's height on side `d` keeps every invariant. */
  lemma FirstSpreadSet(m: Model, m': Model, H: seq<seq<int>>, K: nat, cur: int, d: Dir, j: int, e: int)
    returns (H': seq<seq<int>>)
    requires Base(m') && 0 <= j < |m'.ends| && |m'.ends[j]| > 0 && Top(m'.ends[j]) == e
    requires Spreading(m', H, K) && NonNeg(m', m'.records[|m'.records| - 1])
    requires e >= 0 ==> NonNeg(m', [])
    requires LastFit(m', H, d) && |H[|m'.records| - 1]| == 5
    requires NewestFits(m', HSet(H, |m'.records| - 1, d, |m'.ends[j]| - 1), d)
    ensures SpreadKeeps(m, m', H, H', K, cur, d, j, true)
  {
    H' := HSet(H, |m'.records| - 1, d, |m'.ends[j]| - 1);
    HSetCombine(m', H, K, d, |m'.ends[j]| - 1);
  }

  /**
    What one filtering step keeps of the invariants: all of them, with the
    newest record's fitted sides kept, or, on the first visit of the fixed
    cell, extended by side `d`.
  */
  ghost predicate SpreadKeeps(m: Model, m': Model, H: seq<seq<int>>, H': seq<seq<int>>, K: nat,
                              cur: int, d: Dir, j: int, first: bool)
    requires |m'.records| > 0 && (j != -1 ==> 0 <= j < |m'.ends| && |m'.ends[j]| > 0)
  {
    && (Spreading(m, H, K) && NonNeg(m, []) ==>
          && Spreading(m', H', K) && NonNeg(m', m'.records[|m'.records| - 1])
          && (j == -1 || Top(m'.ends[j]) >= 0 ==> NonNeg(m', [])))
    && (Spreading(m, H, K) && NonNeg(m, []) && !first ==> H' == H && (LastFit(m, H, 4) ==> LastFit(m', H', 4)))
    && (first && JustFixed(m, H, K, cur) && LastFit(m, H, d) ==> LastFit(m', H', d + 1))
  }

  lemma SpreadSound(m: Model, m': Model, H: seq<seq<int>>, K: nat, cur: int, d: Dir, j: int, e: int, first: bool)
    returns (H': seq<seq<int>>)
    requires Base(m) && |m.records| > 0 && 0 <= cur < |m.possible| && |m.counts[cur]| == 4
    requires j == Adj(m, cur)[d] && j != -1
    requires Narrowed(m, m', j, e) && Base(m') && |m'.ends[j]| > 0 && Top(m'.ends[j]) == e
    requires forall q | 0 <= q <= e :: 0 <= m'.possible[j][q] < |m.tileset| && Supported(m.tileset, m.counts[cur][d], d, m'.possible[j][q])
    ensures SpreadKeeps(m, m', H, H', K, cur, d, j, first)
  {
    if first && JustFixed(m, H, K, cur) && LastFit(m, H, d) {
      H' := SpreadSoundFirst(m, m', H, K, cur, d, j, e);
    } else {
      SpreadSoundPlain(m, m', H, K, cur, d, j, e, first);
      H' := H;
    }
  }

  lemma SpreadSoundFirst(m: Model, m': Model, H: seq<seq<int>>, K: nat, cur: int, d: Dir, j: int, e: int)
    returns (H': seq<seq<int>>)
    requires Base(m) && |m.records| > 0 && 0 <= cur < |m.possible| && |m.counts[cur]| == 4
    requires j == Adj(m, cur)[d] && j != -1
    requires Narrowed(m, m', j, e) && Base(m') && |m'.ends[j]| > 0 && Top(m'.ends[j]) == e
    requires forall q | 0 <= q <= e :: 0 <= m'.possible[j][q] < |m.tileset| && Supported(m.tileset, m.counts[cur][d], d, m'.possible[j][q])
    requires JustFixed(m, H, K, cur) && LastFit(m, H, d)
    ensures SpreadKeeps(m, m', H, H', K, cur, d, j, true)
  {
    CellMeansWidth(cur, m.width, m.height);
    FirstSpreadFits(m, m', H, K, cur, d, j, e);
    H' := FirstSpreadSet(m, m', H, K, cur, d, j, e);
  }

  lemma SpreadSoundPlain(m: Model, m': Model, H: seq<seq<int>>, K: nat, cur: int, d: Dir, j: int, e: int, first: bool)
    requires Narrowed(m, m', j, e) && Base(m') && |m'.ends[j]| > 0 && Top(m'.ends[j]) == e
    requires !(first && JustFixed(m, H, K, cur) && LastFit(m, H, d))
    ensures SpreadKeeps(m, m', H, H, K, cur, d, j, first)
  {
    if Spreading(m, H, K) && NonNeg(m, []) {
      NarrowSound(m, m', H, K, j, e, 4);
    }
  }

  /** A side with no neighbour needs no filtering and counts as fitted. */
  lemma SpreadNowhere(m: Model, H: seq<seq<int>>, K: nat, cur: int, d: Dir, first: bool)
    requires Base(m) && |m.records| > 0 && 0 <= cur < |m.possible| && Adj(m, cur)[d] == -1
    ensures SpreadKeeps(m, m, H, H, K, cur, d, -1, first)
  {
    if first && JustFixed(m, H, K, cur) && LastFit(m, H, d) {
      CellMeansWidth(cur, m.width, m.height);
      assert SelfOk(m, H, []);
      assert NewestFits(m, H, d);
    }
  }

  /** The basic effect of one filtering step on side `d` of cell `cur`. */
  ghost predicate SpreadDone(m: Model, m': Model, cur: int, d: Dir, j: int, impact: bool)
  {
    && Valid(m) && |m.records| > 0 && 0 <= cur < |m.possible|
    && Valid(m') && Kept(m, m') && j == Adj(m, cur)[d]
    && (j == -1 ==> m' == m && !impact)
    && (j != -1 ==> |m'.ends[j]| > 0)
    && (forall i | 0 <= i < |m.possible| && i != j ::
          m'.possible[i] == m.possible[i] && m'.counts[i] == m.counts[i] && m'.ends[i] == m.ends[i])
    && (forall i | 0 <= i < |m.possible| :: multiset(Live(m', i)) <= multiset(Live(m, i)))
    && LiveTotal(m'.ends) + (if impact then 1 else 0) <= LiveTotal(m.ends)
    && (Uniform(m.tileset) && |m.ends[cur]| > 0 && Top(m.ends[cur]) >= 0 ==> m' == m && !impact)
  }

  /** The facts of one narrowing, with the impact flag only set when the live end went down, are a spread step. */
  lemma NarrowDone(m: Model, m': Model, cur: int, d: Dir, j: int, e: int, impact: bool)
    requires Valid(m) && |m.records| > 0 && 0 <= cur < |m.possible| && j == Adj(m, cur)[d] && j != -1
    requires 0 <= j < |m.possible| && |m.ends[j]| > 0
    requires Valid(m') && Kept(m, m') && |m'.ends[j]| > 0
    requires forall i | 0 <= i < |m.possible| && i != j ::
               m'.possible[i] == m.possible[i] && m'.counts[i] == m.counts[i] && m'.ends[i] == m.ends[i]
    requires forall i | 0 <= i < |m.possible| :: multiset(Live(m', i)) <= multiset(Live(m, i))
    requires LiveTotal(m'.ends) + (if e < Top(m.ends[j]) then 1 else 0) <= LiveTotal(m.ends)
    requires e == Top(m.ends[j]) ==> m' == m
    requires impact ==> e < Top(m.ends[j])
    requires Uniform(m.tileset) && |m.ends[cur]| > 0 && Top(m.ends[cur]) >= 0 ==> e == Top(m.ends[j]) && !impact
    ensures SpreadDone(m, m', cur, d, j, impact)
  {
  }

  /**
    The body of the direction loop of `propagate` for side `d` of cell
    `cur`: filter the neighbour there, if any, against the current cell,
    push its new live end if it went down, and report whether the filter
    starved a label (`hasImpact`).
  */
  method Spread(m: Model, cur: int, d: Dir, ghost H: seq<seq<int>>, ghost K: nat, ghost first: bool)
    returns (m': Model, j: int, impact: bool, ghost H': seq<seq<int>>)
    requires Valid(m) && |m.records| > 0 && 0 <= cur < |m.possible|
    ensures SpreadDone(m, m', cur, d, j, impact) && (j == -1 ==> H' == H)
    ensures SpreadKeeps(m, m', H, H', K, cur, d, j, first)
  {
    var adj := Adj(m, cur);
    j := adj[d];
    H' := H;
    if j == -1 {
      SpreadNowhere(m, H, K, cur, d, first);
      return m, j, false, H;
    }
    assert CellOk(m, j) && CellOk(m, cur);
    BaseIds(m, j);
    var top := Top(m.ends[j]);
    var p', c', e, imp := Filter(m.tileset, m.counts[cur][d], d, m.possible[j], m.counts[j], top);
    m' := Narrow(m, j, p', c', e);
    impact := imp;
    NarrowFacts(m, j, p', c', e);
    if Uniform(m.tileset) && Top(m.ends[cur]) >= 0 {
      UniformKeepsAll(m, cur, d, p', e, top);
    }
    NarrowDone(m, m', cur, d, j, e, impact);
    H' := SpreadSound(m, m', H, K, cur, d, j, e, first);
  }

  /** The structural part of the direction loop of `propagate` on cell `cur`, with `pushes` queued so far. */
  ghost predicate VisitShape(m: Model, m': Model, cur: int, pushes: seq<int>)
  {
    && Valid(m) && 0 <= cur < |m.possible|
    && Valid(m') && Kept(m, m')
    && LiveTotal(m'.ends) + |pushes| <= LiveTotal(m.ends)
    && (forall i | 0 <= i < |m.possible| :: multiset(Live(m', i)) <= multiset(Live(m, i)))
    && (forall q | 0 <= q < |pushes| :: 0 <= pushes[q] < |m.possible|)
    && (Uniform(m.tileset) && AllLive(m) ==> m' == m && pushes == [])
  }

  /** The soundness part of the direction loop of `propagate` on cell `cur`, up to side `d`. */
  ghost predicate VisitSound(m: Model, m': Model, H: seq<seq<int>>, H': seq<seq<int>>, K: nat,
                             cur: int, first: bool, d: int)
  {
    && 0 <= d <= 4
    && (Spreading(m, H, K) && NonNeg(m, []) ==> Spreading(m', H', K) && NonNeg(m', []))
    && (Spreading(m, H, K) && NonNeg(m, []) && !first ==> H' == H && (LastFit(m, H, 4) ==> LastFit(m', H', 4)))
    && (first && JustFixed(m, H, K, cur) ==> JustFixed(m', H', K, cur) && LastFit(m', H', d))
  }

  /** What a visit of cell `cur` keeps, failed or not. */
  ghost predicate VisitKeeps(m: Model, m': Model, H: seq<seq<int>>, H': seq<seq<int>>, K: nat,
                             cur: int, first: bool, failed: bool)
    requires |m'.records| > 0
  {
    && (Spreading(m, H, K) && NonNeg(m, []) ==>
          && Spreading(m', H', K) && NonNeg(m', m'.records[|m'.records| - 1])
          && (!failed ==> NonNeg(m', [])))
    && (Spreading(m, H, K) && NonNeg(m, []) && !first ==> H' == H && (LastFit(m, H, 4) ==> LastFit(m', H', 4)))
    && (first && JustFixed(m, H, K, cur) && !failed ==> LastFit(m', H', 4))
  }

  /** Shrinking the live candidates twice shrinks them. */
  lemma LiveShrinkTrans(m: Model, m': Model, m2: Model)
    requires Base(m) && Base(m') && Base(m2) && |m'.possible| == |m.possible| && |m2.possible| == |m.possible|
    requires forall i | 0 <= i < |m.possible| :: multiset(Live(m', i)) <= multiset(Live(m, i))
    requires forall i | 0 <= i < |m'.possible| :: multiset(Live(m2, i)) <= multiset(Live(m', i))
    ensures forall i | 0 <= i < |m.possible| :: multiset(Live(m2, i)) <= multiset(Live(m, i))
  {
    forall i | 0 <= i < |m.possible|
      ensures multiset(Live(m2, i)) <= multiset(Live(m, i))
    {
      assert multiset(Live(m2, i)) <= multiset(Live(m', i)) <= multiset(Live(m, i));
    }
  }

  /** With one uniform catalog and every cell live, a spread changes nothing. */
  lemma SpreadIdle(m: Model, m': Model, m2: Model, cur: int, d: Dir, pushes: seq<int>, j: int, impact: bool)
    requires VisitShape(m, m', cur, pushes) && SpreadDone(m', m2, cur, d, j, impact)
    requires Uniform(m.tileset) && AllLive(m)
    ensures m2 == m && pushes == [] && !impact
  {
    assert m' == m && pushes == [];
    assert |m.ends[cur]| > 0 && Top(m.ends[cur]) >= 0;
  }

  lemma VisitShapeStep(m: Model, m': Model, m2: Model, cur: int, d: Dir, pushes: seq<int>, pushes2: seq<int>,
                       j: int, impact: bool)
    requires VisitShape(m, m', cur, pushes) && SpreadDone(m', m2, cur, d, j, impact)
    requires pushes2 == if impact then pushes + [j] else pushes
    requires j == -1 || Top(m2.ends[j]) >= 0
    ensures VisitShape(m, m2, cur, pushes2)
  {
    KeptTrans(m, m', m2);
    LiveShrinkTrans(m, m', m2);
    if Uniform(m.tileset) && AllLive(m) {
      SpreadIdle(m, m', m2, cur, d, pushes, j, impact);
    }
  }

  lemma VisitShapeFail(m: Model, m': Model, m2: Model, cur: int, d: Dir, pushes: seq<int>, pushes2: seq<int>,
                       j: int, impact: bool)
    requires VisitShape(m, m', cur, pushes) && SpreadDone(m', m2, cur, d, j, impact)
    requires pushes2 == if impact then pushes + [j] else pushes
    requires j != -1 && Top(m2.ends[j]) < 0
    ensures !(Uniform(m.tileset) && AllLive(m)) && VisitShape(m, m2, cur, pushes2)
  {
    KeptTrans(m, m', m2);
    LiveShrinkTrans(m, m', m2);
    if Uniform(m.tileset) && AllLive(m) {
      SpreadIdle(m, m', m2, cur, d, pushes, j, impact);
      assert false;
    }
  }

  lemma VisitSoundStep(m: Model, m': Model, m2: Model, H: seq<seq<int>>, H': seq<seq<int>>, H2: seq<seq<int>>, K: nat,
                       cur: int, first: bool, d: Dir, j: int, impact: bool)
    requires Kept(m, m') && VisitSound(m, m', H, H', K, cur, first, d)
    requires SpreadDone(m', m2, cur, d, j, impact) && SpreadKeeps(m', m2, H', H2, K, cur, d, j, first)
    requires j == -1 || Top(m2.ends[j]) >= 0
    ensures VisitSound(m, m2, H, H2, K, cur, first, d + 1)
  {
    if first && JustFixed(m, H, K, cur) {
      assert j != cur;
      assert m2.ends[cur] == m'.ends[cur];
      assert First(m2.records[|m2.records| - 1]) == cur;
      assert JustFixed(m2, H2, K, cur);
    }
  }

  lemma VisitSoundFail(m: Model, m': Model, m2: Model, H: seq<seq<int>>, H': seq<seq<int>>, H2: seq<seq<int>>, K: nat,
                       cur: int, first: bool, d: Dir, j: int, impact: bool)
    requires Kept(m, m') && VisitSound(m, m', H, H', K, cur, first, d)
    requires SpreadDone(m', m2, cur, d, j, impact) && SpreadKeeps(m', m2, H', H2, K, cur, d, j, first)
    ensures VisitKeeps(m, m2, H, H2, K, cur, first, true)
  {
  }

  lemma VisitEnd(m: Model, m': Model, H: seq<seq<int>>, H': seq<seq<int>>, K: nat, cur: int, first: bool)
    requires Kept(m, m') && VisitSound(m, m', H, H', K, cur, first, 4)
    ensures VisitKeeps(m, m', H, H', K, cur, first, false)
  {
  }

  /**
    One turn of the queue loop of `propagate`: filter the four neighbours
    of `cur` in the order north, east, south, west, collecting the
    neighbours to queue; stop at the first neighbour left without a live
    candidate.
  */
  method Visit(m: Model, cur: int, ghost H: seq<seq<int>>, ghost K: nat, ghost first: bool)
    returns (m': Model, pushes: seq<int>, failed: bool, ghost H': seq<seq<int>>)
    requires Valid(m) && |m.records| > 0 && 0 <= cur < |m.possible|
    ensures Valid(m') && Kept(m, m')
    ensures LiveTotal(m'.ends) + |pushes| <= LiveTotal(m.ends)
    ensures forall i | 0 <= i < |m.possible| :: multiset(Live(m', i)) <= multiset(Live(m, i))
    ensures forall q | 0 <= q < |pushes| :: 0 <= pushes[q] < |m.possible|
    ensures Uniform(m.tileset) && AllLive(m) ==> m' == m && pushes == [] && !failed
    ensures VisitKeeps(m, m', H, H', K, cur, first, failed)
    ensures !failed ==> NoneEmptied(m, m')
  {
    m', pushes, failed, H' := VisitSides(m, cur, H, K, first);
    if !failed {
      VisitEnd(m, m', H, H', K, cur, first);
    }
  }

  /** The direction loop of `Visit`, its outcome stated through the loop's own invariants. */
  method VisitSides(m: Model, cur: int, ghost H: seq<seq<int>>, ghost K: nat, ghost first: bool)
    returns (m': Model, pushes: seq<int>, failed: bool, ghost H': seq<seq<int>>)
    requires Valid(m) && |m.records| > 0 && 0 <= cur < |m.possible|
    ensures VisitShape(m, m', cur, pushes) && |m'.records| > 0
    ensures failed ==> VisitKeeps(m, m', H, H', K, cur, first, true) && !(Uniform(m.tileset) && AllLive(m))
    ensures !failed ==> Kept(m, m') && VisitSound(m, m', H, H', K, cur, first, 4) && NoneEmptied(m, m')
  {
    m', pushes, failed, H' := m, [], false, H;
    var d := 0;
    while d < 4
      invariant VisitShape(m, m', cur, pushes) && VisitSound(m, m', H, H', K, cur, first, d)
      invariant NoneEmptied(m, m')
    {
      var m2, pushes2, stop, H2 := VisitSide(m, m', cur, d, pushes, H, H', K, first);
      if stop {
        return m2, pushes2, true, H2;
      }
      m', pushes, H' := m2, pushes2, H2;
      d := d + 1;
    }
  }

  /** One side of the direction loop: spread to the neighbour on side `d`, stopping if it starved. */
  method VisitSide(m: Model, m': Model, cur: int, d: Dir, pushes: seq<int>,
                   ghost H: seq<seq<int>>, ghost H': seq<seq<int>>, ghost K: nat, ghost first: bool)
    returns (m2: Model, pushes2: seq<int>, stop: bool, ghost H2: seq<seq<int>>)
    requires VisitShape(m, m', cur, pushes) && VisitSound(m, m', H, H', K, cur, first, d) && |m.records| > 0
    requires NoneEmptied(m, m')
    ensures VisitShape(m, m2, cur, pushes2) && |m2.records| > 0
    ensures !stop ==> NoneEmptied(m, m2)
    ensures stop ==> VisitKeeps(m, m2, H, H2, K, cur, first, true) && !(Uniform(m.tileset) && AllLive(m))
    ensures !stop ==> VisitSound(m, m2, H, H2, K, cur, first, d + 1)
  {
    var j, impact;
    m2, j, impact, H2 := Spread(m', cur, d, H', K, first);
    pushes2 := if impact then pushes + [j] else pushes;
    stop := j != -1 && Top(m2.ends[j]) < 0;
    if stop {
      VisitShapeFail(m, m', m2, cur, d, pushes, pushes2, j, impact);
      VisitSoundFail(m, m', m2, H, H', H2, K, cur, first, d, j, impact);
    } else {
      VisitShapeStep(m, m', m2, cur, d, pushes, pushes2, j, impact);
      VisitSoundStep(m, m', m2, H, H', H2, K, cur, first, d, j, impact);
      SideNoneEmptied(m, m', m2, cur, d, j, impact);
    }
  }


  /**
    No cell that had a live candidate has lost its last one. A propagation
    stops at the first neighbour left empty, so a successful one keeps this.
  */
  ghost predicate NoneEmptied(m: Model, m': Model)
  {
    && |m'.ends| == |m.ends|
    && forall i | 0 <= i < |m.ends| && |m.ends[i]| > 0 && Top(m.ends[i]) >= 0 :: |m'.ends[i]| > 0 && Top(m'.ends[i]) >= 0
  }

  /** A spread that did not starve its neighbour empties no cell. */
  lemma SideNoneEmptied(m: Model, m': Model, m2: Model, cur: int, d: Dir, j: int, impact: bool)
    requires NoneEmptied(m, m') && SpreadDone(m', m2, cur, d, j, impact)
    requires j != -1 ==> 0 <= j < |m2.ends| && |m2.ends[j]| > 0 && Top(m2.ends[j]) >= 0
    ensures NoneEmptied(m, m2)
  {
  }

  /** A failed propagation: the backtrack undid at least the newest record, and only records. */
  ghost predicate PropFailed(m: Model, m': Model)
    requires |m.records| > 0
  {
    && |m'.records| < |m.records| && m'.records == m.records[..|m'.records|]
    && m'.fixedCount == m.fixedCount - (|m.records| - |m'.records|)
    && MapUndone(m.tileMap, m'.tileMap, m.records, |m'.records|)
  }

  /** What `propagate` leaves: on success only narrowed candidates, on failure a backtracked log. */
  ghost predicate PropOutcome(m: Model, m': Model, ok: bool)
  {
    && Valid(m) && |m.records| > 0
    && Valid(m') && m'.tileset == m.tileset && m'.width == m.width && m'.height == m.height
    && (ok ==> Kept(m, m') && forall i | 0 <= i < |m.possible| :: multiset(Live(m', i)) <= multiset(Live(m, i)))
    && (!ok ==> PropFailed(m, m'))
  }

  /** The structural part of the queue loop of `propagate` started at cell `k`. */
  ghost predicate PropShape(m: Model, m': Model, k: int, queue: seq<int>, visited: bool)
  {
    && Valid(m) && |m.records| > 0 && 0 <= k < |m.possible|
    && Valid(m') && Kept(m, m')
    && (forall i | 0 <= i < |m.possible| :: multiset(Live(m', i)) <= multiset(Live(m, i)))
    && (forall q | 0 <= q < |queue| :: 0 <= queue[q] < |m.possible|)
    && (!visited ==> queue == [k] && m' == m)
    && (Uniform(m.tileset) && AllLive(m) ==> m' == m && (visited ==> queue == []))
  }

  /** The soundness part of the queue loop of `propagate` started at the just-fixed cell `k`. */
  ghost predicate PropSound(m: Model, m': Model, H: seq<seq<int>>, H': seq<seq<int>>, K: nat, k: int, visited: bool)
  {
    && (!visited ==> H' == H)
    && (JustFixed(m, H, K, k) ==> Spreading(m', H', K) && NonNeg(m', []) && (visited ==> LastFit(m', H', 4)))
  }

  lemma PropShapeStep(m: Model, m': Model, m3: Model, k: int, queue: seq<int>, visited: bool, pushes: seq<int>)
    requires PropShape(m, m', k, queue, visited) && |queue| > 0
    requires Valid(m3) && Kept(m', m3)
    requires forall i | 0 <= i < |m'.possible| :: multiset(Live(m3, i)) <= multiset(Live(m', i))
    requires forall q | 0 <= q < |pushes| :: 0 <= pushes[q] < |m'.possible|
    requires Uniform(m'.tileset) && AllLive(m') ==> m3 == m' && pushes == []
    ensures PropShape(m, m3, k, queue[1..] + pushes, true)
  {
    KeptTrans(m, m', m3);
    var queue' := queue[1..] + pushes;
    forall q | 0 <= q < |queue'|
      ensures 0 <= queue'[q] < |m.possible|
    {
      if q < |queue| - 1 {
        assert queue'[q] == queue[q + 1];
      } else {
        assert queue'[q] == pushes[q - (|queue| - 1)];
      }
    }
  }

  lemma PropSoundStep(m: Model, m': Model, m3: Model, H: seq<seq<int>>, H': seq<seq<int>>, H3: seq<seq<int>>, K: nat,
                      k: int, queue: seq<int>, visited: bool)
    requires PropShape(m, m', k, queue, visited) && PropSound(m, m', H, H', K, k, visited) && |queue| > 0
    requires |m3.records| > 0 && VisitKeeps(m', m3, H', H3, K, queue[0], !visited, false)
    ensures PropSound(m, m3, H, H3, K, k, true)
  {
  }

  lemma PropFailSound(m: Model, m': Model, m3: Model, H: seq<seq<int>>, H': seq<seq<int>>, H3: seq<seq<int>>, K: nat,
                      k: int, cur: int, visited: bool)
    requires PropSound(m, m', H, H', K, k, visited)
    requires |m3.records| > 0 && VisitKeeps(m', m3, H', H3, K, cur, !visited, true)
    ensures JustFixed(m, H, K, k) ==> Failing(m3, H3, K)
  {
  }

  /** Undoing records after a propagation reads the same fixed cells as the log before it. */
  lemma PropFailFacts(m: Model, m3: Model, m4: Model)
    requires Valid(m) && Kept(m, m3)
    requires |m4.records| < |m3.records| && m4.records == m3.records[..|m4.records|]
    requires m4.fixedCount == m3.fixedCount - (|m3.records| - |m4.records|)
    requires MapUndone(m3.tileMap, m4.tileMap, m3.records, |m4.records|)
    ensures PropFailed(m, m4)
  {
    var L := |m.records| - 1;
    var k := |m4.records|;
    assert m3.records[..L] == m.records[..L];
    assert RecordOk(m.records[L], |m.possible|);
    assert m3.records[L][0] == m.records[L][0];
    assert Firsts(m3.records[k..]) == Firsts(m.records[k..]) by {
      forall a | 0 <= a < |m.records| - k
        ensures First(m3.records[k..][a]) == First(m.records[k..][a])
      {
        if k + a < L {
          assert m3.records[k + a] == m3.records[..L][k + a];
        }
      }
    }
    assert m4.records == m.records[..k] by {
      forall a | 0 <= a < k
        ensures m4.records[a] == m.records[a]
      {
        assert m3.records[a] == m3.records[..L][a];
      }
    }
  }

  lemma PropFailEnd(m: Model, m': Model, m3: Model, m4: Model, H: seq<seq<int>>, H3: seq<seq<int>>, H4: seq<seq<int>>, K: nat, k: int)
    requires Valid(m) && |m.records| > 0 && Kept(m, m3) && PropFailed(m, m4)
    requires Uniform(m.tileset) && AllLive(m) ==> m' == m
    requires m'.tileset == m.tileset && !(Uniform(m'.tileset) && AllLive(m'))
    requires Valid(m4) && m4.tileset == m3.tileset && m4.width == m3.width && m4.height == m3.height
    requires JustFixed(m, H, K, k) ==> Failing(m3, H3, K)
    requires Failing(m3, H3, K) ==> Stable(m4, H4, K) && Ready(m4.stack)
    ensures PropOutcome(m, m4, false)
    ensures JustFixed(m, H, K, k) ==> Stable(m4, H4, K) && Ready(m4.stack)
    ensures !(Uniform(m.tileset) && AllLive(m))
  {
  }

  lemma PropOkEnd(m: Model, m': Model, H: seq<seq<int>>, H': seq<seq<int>>, K: nat, k: int, visited: bool)
    requires PropShape(m, m', k, [], visited) && PropSound(m, m', H, H', K, k, visited)
    ensures PropOutcome(m, m', true)
    ensures JustFixed(m, H, K, k) ==> Spreading(m', H', K) && NonNeg(m', []) && LastFit(m', H', 4)
    ensures Uniform(m.tileset) && AllLive(m) ==> m' == m
  {
  }

  /** The failure exit of `propagate`: the visit of `cur` starved a neighbour, so the solver backtracks. */
  method Abandon(m: Model, m': Model, m3: Model, k: int, cur: int, ghost visited: bool,
                 ghost H: seq<seq<int>>, ghost H': seq<seq<int>>, ghost H3: seq<seq<int>>, ghost K: nat)
    returns (m4: Model, ghost H4: seq<seq<int>>)
    requires Valid(m) && |m.records| > 0 && Valid(m') && Kept(m, m') && PropSound(m, m', H, H', K, k, visited)
    requires Uniform(m.tileset) && AllLive(m) ==> m' == m
    requires Valid(m3) && Kept(m', m3) && VisitKeeps(m', m3, H', H3, K, cur, !visited, true)
    requires !(Uniform(m'.tileset) && AllLive(m'))
    ensures PropOutcome(m, m4, false)
    ensures JustFixed(m, H, K, k) ==> Stable(m4, H4, K) && Ready(m4.stack)
    ensures !(Uniform(m.tileset) && AllLive(m))
  {
    PropFailSound(m, m', m3, H, H', H3, K, k, cur, visited);
    KeptTrans(m, m', m3);
    var _, m5, H5 := BackTrack(m3, H3, K);
    PropFailFacts(m, m3, m5);
    PropFailEnd(m, m', m3, m5, H, H3, H5, K, k);
    return m5, H5;
  }

  /**
    `propagate(startIndex)`: a first-in first-out queue of cells whose
    candidates changed, starting with `k`; each is visited in turn, and a
    neighbour that loses one of its labels is queued again. A neighbour left
    without a live candidate makes the solver backtrack, and the result is
    false.
  */
  method Propagate(m: Model, k: int, ghost H: seq<seq<int>>, ghost K: nat) returns (ok: bool, m': Model, ghost H': seq<seq<int>>)
    requires Valid(m) && |m.records| > 0 && 0 <= k < |m.possible|
    ensures PropOutcome(m, m', ok)
    ensures ok ==> NoneEmptied(m, m')
    ensures JustFixed(m, H, K, k) && ok ==> Spreading(m', H', K) && NonNeg(m', []) && LastFit(m', H', 4)
    ensures JustFixed(m, H, K, k) && !ok ==> Stable(m', H', K) && Ready(m'.stack)
    ensures Uniform(m.tileset) && AllLive(m) ==> ok && m' == m
  {
    ghost var visited;
    ok, m', H', visited := PropQueue(m, k, H, K);
    if ok {
      PropOkEnd(m, m', H, H', K, k, visited);
    }
  }

  /** The queue loop of `Propagate`, its success stated through the loop's own invariants. */
  method PropQueue(m: Model, k: int, ghost H: seq<seq<int>>, ghost K: nat)
    returns (ok: bool, m': Model, ghost H': seq<seq<int>>, ghost visited: bool)
    requires Valid(m) && |m.records| > 0 && 0 <= k < |m.possible|
    ensures ok ==> PropShape(m, m', k, [], visited) && PropSound(m, m', H, H', K, k, visited) && NoneEmptied(m, m')
    ensures !ok ==> PropOutcome(m, m', false) && !(Uniform(m.tileset) && AllLive(m))
    ensures !ok && JustFixed(m, H, K, k) ==> Stable(m', H', K) && Ready(m'.stack)
  {
    var queue := [k];
    m', H' := m, H;
    visited := false;
    while |queue| > 0
      invariant PropShape(m, m', k, queue, visited) && PropSound(m, m', H, H', K, k, visited)
      invariant NoneEmptied(m, m')
      decreases LiveTotal(m'.ends), |queue|
    {
      var failed, m3, queue', H3 := PropTurn(m, m', k, queue, visited, H, H', K);
      if failed {
        return false, m3, H3, visited;
      }
      queue := queue';
      m', H' := m3, H3;
      visited := true;
    }
    return true, m', H', visited;
  }

  /** One turn of the queue loop: visit the head of the queue, then queue the cells it changed or give up. */
  method PropTurn(m: Model, m': Model, k: int, queue: seq<int>, ghost visited: bool,
                  ghost H: seq<seq<int>>, ghost H': seq<seq<int>>, ghost K: nat)
    returns (failed: bool, m3: Model, queue': seq<int>, ghost H3: seq<seq<int>>)
    requires PropShape(m, m', k, queue, visited) && PropSound(m, m', H, H', K, k, visited) && |queue| > 0
    requires NoneEmptied(m, m')
    ensures failed ==> PropOutcome(m, m3, false) && !(Uniform(m.tileset) && AllLive(m))
    ensures !failed ==> NoneEmptied(m, m3)
    ensures failed && JustFixed(m, H, K, k) ==> Stable(m3, H3, K) && Ready(m3.stack)
    ensures !failed ==> PropShape(m, m3, k, queue', true) && PropSound(m, m3, H, H3, K, k, true)
    ensures !failed ==> LiveTotal(m3.ends) < LiveTotal(m'.ends)
                        || (LiveTotal(m3.ends) == LiveTotal(m'.ends) && |queue'| < |queue|)
  {
    var cur := queue[0];
    var pushes;
    m3, pushes, failed, H3 := Visit(m', cur, H', K, !visited);
    if failed {
      m3, H3 := Abandon(m, m', m3, k, cur, visited, H, H', H3, K);
      return true, m3, [], H3;
    }
    PropShapeStep(m, m', m3, k, queue, visited, pushes);
    PropSoundStep(m, m', m3, H, H', H3, K, k, queue, visited);
    queue' := queue[1..] + pushes;
  }

}

=== FILE: solver_sound.dfy ===
/**
  The consistency invariants of the simple tiled model
  (src/map_generator/SimpleTiledModel.ts) beyond the basic one: what the
  undo log, the choice stack and the live-end stacks promise each other
  between two calls of the solver, and why a finished map is consistent.

  The ghost sequence `H` holds, for every undo record `a` and direction `d`,
  the height of the neighbour's live-end stack just after record `a`
  filtered it, and at index 4 the height of the fixed cell's own stack just
  after the `0` was pushed. Every live end at or below those heights only
  keeps candidates that fit the fixed tile, however the history has moved
  since.
*/
module SolverSound {
  import opened Tiles
  import opened Grid
  import opened EdgeCounts
  import opened SolverState

  /** The fixed cell of an undo record. */
  function First(r: seq<int>): int
  {
    if |r| > 0 then r[0] else -1
  }

  /** The fixed cells of an undo log, in order. */
  function Firsts(rs: seq<seq<int>>): (fs: seq<int>)
    ensures |fs| == |rs| && forall a | 0 <= a < |rs| :: fs[a] == First(rs[a])
  {
    seq(|rs|, a requires 0 <= a < |rs| => First(rs[a]))
  }

  /** The `-1` markers on a segment of the choice stack. */
  function Sentinels(s: seq<int>): nat
  {
    multiset(s)[-1]
  }

  /** Tile id `x` may sit on side `d` of tile id `t`. */
  predicate FitId(ts: seq<Tile>, t: int, d: Dir, x: int)
  {
    0 <= t < |ts| && 0 <= x < |ts| && Fits(ts[t], d, ts[x])
  }

  /** Occurrences of cell `j` in the records after record `a`. */
  function After(rs: seq<seq<int>>, a: int, j: int): nat
    requires 0 <= a < |rs|
  {
    Occ(rs[a + 1..], j)
  }

  /**
    The fixed cells: one per record, all different, each showing its fixed
    tile, and no other cell resolved.
  */
  ghost predicate FixedOk(m: Model)
  {
    var n := |m.possible|;
    && |m.tileMap| == n
    && m.fixedCount == |m.records|
    && (forall a, b | 0 <= a < b < |m.records| :: First(m.records[a]) != First(m.records[b]))
    && (forall a | 0 <= a < |m.records| ::
          && 0 <= First(m.records[a]) < n && |m.possible[First(m.records[a])]| > 0
          && m.tileMap[First(m.records[a])] == m.possible[First(m.records[a])][0])
    && (forall i | 0 <= i < n && m.tileMap[i] != -1 :: i in Firsts(m.records))
  }

  /**
    The choice stack: it holds at most as many `-1` markers as there are
    records, less `u` for a record that has not pushed its marker yet and
    less `K` records made before the stack was cleared; and a cell entry was
    unresolved when it was pushed, so it is not the fixed cell of any record
    older than the markers above it.
  */
  ghost predicate StackOk(m: Model, u: nat, K: nat)
  {
    && Sentinels(m.stack) + u + K <= |m.records|
    && forall p | 0 <= p < |m.stack| && m.stack[p] != -1 ::
         forall a | 0 <= a < |m.records| - u - Sentinels(m.stack[p + 1..]) :: First(m.records[a]) != m.stack[p]
  }

  /**
    With a non-empty catalog, no live end is negative, except those pushed
    by the entries `skip` of a record that is about to be undone.
  */
  ghost predicate NonNeg(m: Model, skip: seq<int>)
  {
    |m.tileset| > 0 ==>
      forall i, k | 0 <= i < |m.ends| && 0 <= k < |m.ends[i]| - multiset(skip)[i] :: m.ends[i][k] >= 0
  }

  /** Every fixed cell keeps, below what later records pushed, the `0` its record pushed. */
  ghost predicate SelfOk(m: Model, H: seq<seq<int>>, extra: seq<int>)
  {
    && |H| == |m.records| && |m.ends| == |m.possible|
    && forall a | 0 <= a < |m.records| ::
         && |H[a]| == 5 && 0 <= First(m.records[a]) < |m.ends| && 0 <= H[a][4]
         && H[a][4] + After(m.records, a, First(m.records[a])) + multiset(extra)[First(m.records[a])]
            < |m.ends[First(m.records[a])]|
         && m.ends[First(m.records[a])][H[a][4]] == 0
  }

  /**
    Record `a` filtered its neighbour `j` on side `d`: the live end it left
    there is still on `j`'s stack, and every candidate up to it fits the
    fixed tile.
  */
  ghost predicate RecFit(m: Model, H: seq<seq<int>>, a: int, d: Dir, extra: seq<int>)
  {
    && 0 <= a < |m.records| && a < |H| && |H[a]| == 5 && m.width > 0
    && |m.ends| == |m.possible| && |m.tileMap| == |m.possible|
    && 0 <= First(m.records[a]) < |m.possible|
    && var j := Adjacent(First(m.records[a]), m.width, |m.possible|)[d];
       j != -1 ==>
         && 0 <= j < |m.possible| && 0 <= H[a][d]
         && H[a][d] + After(m.records, a, j) + multiset(extra)[j] < |m.ends[j]|
         && forall q | 0 <= q <= m.ends[j][H[a][d]] && q < |m.possible[j]| ::
              FitId(m.tileset, m.tileMap[First(m.records[a])], d, m.possible[j][q])
  }

  /** The first `count` records have filtered all their neighbours. */
  ghost predicate FitUpTo(m: Model, H: seq<seq<int>>, count: int, extra: seq<int>)
  {
    forall a, d: Dir | 0 <= a < count :: RecFit(m, H, a, d, extra)
  }

  /** The invariants shared by every state of the solver. */
  ghost predicate Core(m: Model, H: seq<seq<int>>, K: nat, u: nat, extra: seq<int>)
  {
    && Base(m) && OccOk(m, extra) && FixedOk(m) && StackOk(m, u, K) && SelfOk(m, H, extra)
    && (|m.tileset| == 0 ==> m.records == [])
  }

  /** Between two operations: every record has filtered its neighbours and pushed its marker. */
  ghost predicate Stable(m: Model, H: seq<seq<int>>, K: nat)
  {
    Core(m, H, K, 0, []) && NonNeg(m, []) && FitUpTo(m, H, |m.records|, [])
  }

  /** A fix whose propagation has failed: the last record is to be undone. */
  ghost predicate Failing(m: Model, H: seq<seq<int>>, K: nat)
  {
    && |m.records| >= 1 && Core(m, H, K, 1, [])
    && NonNeg(m, m.records[|m.records| - 1]) && FitUpTo(m, H, |m.records| - 1, [])
  }

  /** The candidates up to position `top` are permuted; the rest stay in place. */
  predicate LiveRegionPerm(p: seq<int>, p': seq<int>, top: int)
  {
    && |p'| == |p| && -1 <= top < |p|
    && multiset(p'[..top + 1]) == multiset(p[..top + 1]) && p'[top + 1..] == p[top + 1..]
  }

  // ---------------------------------------------------------------------
  // Facts about the undo log
  // ---------------------------------------------------------------------

  lemma OccSnoc(rs: seq<seq<int>>, r: seq<int>, j: int)
    ensures Occ(rs + [r], j) == Occ(rs, j) + multiset(r)[j]
  {
    assert (rs + [r])[..|rs|] == rs;
  }

  /** Appending a record adds its occurrences after every older record. */
  lemma AfterSnoc(rs: seq<seq<int>>, r: seq<int>, a: int, j: int)
    requires 0 <= a < |rs|
    ensures After(rs + [r], a, j) == After(rs, a, j) + multiset(r)[j]
    ensures After(rs + [r], |rs|, j) == 0
  {
    assert (rs + [r])[a + 1..] == rs[a + 1..] + [r];
    OccSnoc(rs[a + 1..], r, j);
    assert (rs + [r])[|rs| + 1..] == [];
  }

  /** The last record's occurrences count after every older record. */
  lemma AfterPop(rs: seq<seq<int>>, a: int, j: int)
    requires 0 <= a < |rs| - 1
    ensures After(rs, a, j) == After(Pop(rs), a, j) + multiset(rs[|rs| - 1])[j]
  {
    assert rs == Pop(rs) + [rs[|rs| - 1]];
    AfterSnoc(Pop(rs), rs[|rs| - 1], a, j);
  }

  lemma OccPop(rs: seq<seq<int>>, j: int)
    requires |rs| > 0
    ensures Occ(rs, j) == Occ(Pop(rs), j) + multiset(rs[|rs| - 1])[j]
  {
  }

  lemma FirstsSnoc(rs: seq<seq<int>>, r: seq<int>)
    ensures Firsts(rs + [r]) == Firsts(rs) + [First(r)]
  {
  }

  lemma FirstsPop(rs: seq<seq<int>>)
    requires |rs| > 0
    ensures Firsts(Pop(rs)) == Pop(Firsts(rs))
  {
  }

  /** Live-end stacks never grow towards the top. */
  lemma {:induction false} EndsMono(e: seq<int>, tiles: int, k1: int, k2: int)
    requires EndsOk(e, tiles) && 0 <= k1 <= k2 < |e|
    ensures e[k2] <= e[k1]
    decreases k2 - k1
  {
    if k1 < k2 {
      EndsMono(e, tiles, k1, k2 - 1);
    }
  }

  // ---------------------------------------------------------------------
  // Facts about permuting the live region
  // ---------------------------------------------------------------------

  /** A permutation of the live region permutes every longer prefix too. */
  lemma PrefixPerm(p: seq<int>, p': seq<int>, top: int, b: int)
    requires LiveRegionPerm(p, p', top) && top <= b < |p|
    ensures multiset(p'[..b + 1]) == multiset(p[..b + 1])
  {
    assert p[..b + 1] == p[..top + 1] + p[top + 1..b + 1];
    assert p'[..b + 1] == p'[..top + 1] + p'[top + 1..b + 1];
    assert p'[top + 1..b + 1] == p[top + 1..b + 1] by {
      assert p'[top + 1..b + 1] == p'[top + 1..][..b - top];
      assert p[top + 1..b + 1] == p[top + 1..][..b - top];
    }
  }

  /** Permuting a prefix keeps "every candidate in it fits". */
  lemma FitsKept(ts: seq<Tile>, t: int, d: Dir, p: seq<int>, p': seq<int>, b: int)
    requires |p| == |p'| && -1 <= b < |p|
    requires multiset(p'[..b + 1]) == multiset(p[..b + 1])
    requires forall q | 0 <= q <= b :: FitId(ts, t, d, p[q])
    ensures forall q | 0 <= q <= b :: FitId(ts, t, d, p'[q])
  {
    forall q | 0 <= q <= b
      ensures FitId(ts, t, d, p'[q])
    {
      assert p'[q] in multiset(p'[..b + 1]) by {
        assert p'[..b + 1][q] == p'[q];
      }
      assert p'[q] in p[..b + 1];
      var q' :| 0 <= q' < b + 1 && p[..b + 1][q'] == p'[q];
      assert p[q'] == p'[q];
    }
  }

  /** A cell with at most one live candidate keeps its first position. */
  lemma FirstStays(p: seq<int>, p': seq<int>, top: int)
    requires LiveRegionPerm(p, p', top) && top <= 0 && |p| > 0
    ensures p'[0] == p[0]
  {
    if top == 0 {
      assert p'[..1] == [p'[0]] && p[..1] == [p[0]];
      assert p'[0] in multiset(p[..1]);
    } else {
      assert p'[0] == p'[0..][0] == p[0..][0];
    }
  }

  /** Swapping two live positions permutes the live region. */
  lemma SwapIsLivePerm(p: seq<int>, x: int, y: int, top: int)
    requires 0 <= x <= top && 0 <= y <= top && top < |p|
    ensures LiveRegionPerm(p, Swap(p, x, y), top)
  {
    var r := Swap(p, x, y);
    assert r[..top + 1] == Swap(p[..top + 1], x, y);
    assert r[top + 1..] == p[top + 1..];
  }

  lemma LivePermRefl(p: seq<int>, top: int)
    requires -1 <= top < |p|
    ensures LiveRegionPerm(p, p, top)
  {
  }

  /** Permutations of the live region compose, and of a smaller region are ones of a larger. */
  lemma LivePermTrans(p: seq<int>, p': seq<int>, p'': seq<int>, top: int, top': int)
    requires LiveRegionPerm(p, p', top) && LiveRegionPerm(p', p'', top') && top' <= top
    ensures LiveRegionPerm(p, p'', top)
  {
    if top' >= -1 && top < |p| {
      PrefixPerm(p', p'', top', top);
      assert p''[top + 1..] == p'[top + 1..] by {
        assert p''[top + 1..] == p''[top' + 1..][top - top'..];
        assert p'[top + 1..] == p'[top' + 1..][top - top'..];
      }
    }
  }

  /** A live-region permutation keeps the whole sequence a permutation. */
  lemma LivePermWhole(p: seq<int>, p': seq<int>, top: int)
    requires LiveRegionPerm(p, p', top)
    ensures multiset(p') == multiset(p)
  {
    assert p == p[..top + 1] + p[top + 1..];
    assert p' == p'[..top + 1] + p'[top + 1..];
  }
}

=== FILE: solver_state.dfy ===
/**
  The state of the simple tiled model (src/map_generator/SimpleTiledModel.ts)
  and its basic invariant. Cell `i` holds a permutation `possible[i]` of the
  tile ids; its live candidates are the prefix up to the live end, which is
  the top of the per-cell stack `ends[i]` (`history.possibleTilesChanged`).
  `records` is the undo log `history.indicesChanged`: one record per fixed
  tile, the fixed cell first, then every cell whose live end the fix pushed.
*/
module SolverState {
  import opened Tiles
  import opened Grid
  import opened EdgeCounts

  datatype Model = Model(
    tileset: seq<Tile>,
    width: int,
    height: int,
    possible: seq<seq<int>>,
    counts: seq<seq<Table>>,
    tileMap: seq<int>,
    fixedCount: int,
    stack: seq<int>,
    records: seq<seq<int>>,
    ends: seq<seq<int>>)

  /** `getEndOf`. */
  function Top(e: seq<int>): int
    requires |e| > 0
  {
    e[|e| - 1]
  }

  /** `arr.pop()` on a non-empty array, keeping the rest. */
  function Pop<T>(e: seq<T>): seq<T>
    requires |e| > 0
  {
    e[..|e| - 1]
  }

  /** `swap(arr, x, y)`. */
  function Swap(p: seq<int>, x: int, y: int): (r: seq<int>)
    requires 0 <= x < |p| && 0 <= y < |p|
    ensures |r| == |p| && r[x] == p[y] && r[y] == p[x]
    ensures forall k | 0 <= k < |p| && k != x && k != y :: r[k] == p[k]
    ensures multiset(r) == multiset(p)
  {
    p[x := p[y]][y := p[x]]
  }

  /** A live-end stack: every entry in [-1, T - 1], never increasing towards the top. */
  ghost predicate EndsOk(e: seq<int>, tiles: int)
  {
    && |e| >= 1
    && (forall k | 0 <= k < |e| :: -1 <= e[k] < tiles)
    && (forall k | 0 < k < |e| :: e[k] <= e[k - 1])
  }

  /** Occurrences of cell `j` in the undo log. */
  function Occ(rs: seq<seq<int>>, j: int): nat
  {
    if rs == [] then 0 else Occ(rs[..|rs| - 1], j) + multiset(rs[|rs| - 1])[j]
  }

  /** An undo record names its fixed cell first and only cells of the grid. */
  predicate RecordOk(r: seq<int>, n: int)
  {
    |r| >= 1 && forall k | 0 <= k < |r| :: 0 <= r[k] < n
  }

  /** Everything about one cell: a permutation of the ids, a well-formed stack, exact tables. */
  ghost predicate CellOk(m: Model, i: int)
    requires 0 <= i < |m.possible| && |m.ends| == |m.possible| && |m.counts| == |m.possible|
  {
    var T := |m.tileset|;
    && |m.possible[i]| == T
    && multiset(m.possible[i]) == multiset(Iota(T))
    && EndsOk(m.ends[i], T)
    && CountsOk(m.counts[i], m.tileset, m.possible[i][..Top(m.ends[i]) + 1])
  }

  /** The shape of the arrays, well-formed cells, and in-range map, stack and log entries. */
  ghost predicate Base(m: Model)
  {
    var n := |m.possible|;
    && m.width >= 0 && m.height >= 0 && n == m.width * m.height
    && |m.counts| == n && |m.tileMap| == n && |m.ends| == n
    && (forall i | 0 <= i < n :: CellOk(m, i))
    && (forall i | 0 <= i < n :: -1 <= m.tileMap[i] < |m.tileset|)
    && (forall k | 0 <= k < |m.stack| :: -1 <= m.stack[k] < n)
    && (forall a | 0 <= a < |m.records| :: RecordOk(m.records[a], n))
  }

  /**
    Every live-end stack holds more entries than the undo log (plus the
    entries `extra` of a record being undone) will pop from it.
  */
  ghost predicate OccOk(m: Model, extra: seq<int>)
    requires |m.ends| == |m.possible|
  {
    forall j | 0 <= j < |m.possible| :: Occ(m.records, j) + multiset(extra)[j] < |m.ends[j]|
  }

  /**
    The basic invariant, kept by every operation whatever its arguments:
    the shape of the arrays, exact edge tables, and an undo log whose
    entries can always be popped.
  */
  ghost predicate Valid(m: Model)
  {
    Base(m) && OccOk(m, [])
  }

  /** The live candidates of cell `i`. */
  function Live(m: Model, i: int): (live: seq<int>)
    requires Base(m) && 0 <= i < |m.possible|
    ensures forall k | 0 <= k < |live| :: 0 <= live[k] < |m.tileset|
  {
    assert CellOk(m, i);
    var live := m.possible[i][..Top(m.ends[i]) + 1];
    forall k | 0 <= k < |live|
      ensures 0 <= live[k] < |m.tileset|
    {
      assert live[k] in multiset(Iota(|m.tileset|));
    }
    live
  }

  /** Entries of a permutation of the ids are ids. */
  lemma PermEntry(p: seq<int>, tiles: nat, k: int)
    requires multiset(p) == multiset(Iota(tiles)) && 0 <= k < |p|
    ensures 0 <= p[k] < tiles
  {
    assert p[k] in multiset(Iota(tiles));
  }

  /** The nonlinear fact that only non-empty grids have cells. */
  lemma CellMeansWidth(i: int, width: int, height: int)
    requires width >= 0 && height >= 0 && 0 <= i < width * height
    ensures width > 0 && height > 0
  {
  }

  /** `getAdjacent` on the solver's grid. */
  function Adj(m: Model, i: int): (r: seq<int>)
    requires Base(m) && 0 <= i < |m.possible|
    ensures |r| == 4
    ensures forall d: Dir :: -1 <= r[d] < |m.possible| && r[d] != i
  {
    CellMeansWidth(i, m.width, m.height);
    forall d: Dir
      ensures -1 <= Adjacent(i, m.width, m.width * m.height)[d] < |m.possible|
      ensures Adjacent(i, m.width, m.width * m.height)[d] != i
    {
      AdjacentInRange(i, m.width, m.height, d);
    }
    Adjacent(i, m.width, |m.possible|)
  }

  /**
    `getAdjacentEdgeCount(direction, currIndex, tile)`: the table of side `d`
    of the current cell, read at the label `tile` shows on the facing side.
  */
  function AdjacentEdgeCount(m: Model, d: Dir, cur: int, tile: int): int
    requires Base(m) && 0 <= cur < |m.possible| && 0 <= tile < |m.tileset|
  {
    assert CellOk(m, cur);
    Lookup(m.counts[cur][d], Edge(m.tileset[tile], Opposite(d)))
  }

  /**
    The count a neighbour candidate is checked against is the number of live
    candidates of the current cell it fits beside, so it is zero exactly
    when no live candidate of the current cell matches the facing edge.
  */
  lemma AdjacentEdgeCountMeaning(m: Model, d: Dir, cur: int, tile: int)
    requires Base(m) && 0 <= cur < |m.possible| && 0 <= tile < |m.tileset|
    ensures AdjacentEdgeCount(m, d, cur, tile) == Cnt(m.tileset, Live(m, cur), d, Edge(m.tileset[tile], Opposite(d)))
    ensures AdjacentEdgeCount(m, d, cur, tile) > 0 <==>
      exists k :: 0 <= k < |Live(m, cur)| && Fits(m.tileset[Live(m, cur)[k]], d, m.tileset[tile])
  {
    assert CellOk(m, cur);
    var live := Live(m, cur);
    var l := Edge(m.tileset[tile], Opposite(d));
    LookupIsCount(m.counts[cur], m.tileset, live, d, l);
    CntPositive(m.tileset, live, d, l);
    if exists k :: 0 <= k < |live| && Has(m.tileset, live[k], d, l) {
      var k :| 0 <= k < |live| && Has(m.tileset, live[k], d, l);
      assert Fits(m.tileset[live[k]], d, m.tileset[tile]);
    }
    if exists k :: 0 <= k < |live| && Fits(m.tileset[live[k]], d, m.tileset[tile]) {
      var k :| 0 <= k < |live| && Fits(m.tileset[live[k]], d, m.tileset[tile]);
      assert Has(m.tileset, live[k], d, l);
    }
  }

  /**
    `init(tileset, width, height)`: every cell starts with all tiles live in
    id order, the catalog-wide tables, an unresolved map and empty history.
  */
  function Init(ts: seq<Tile>, width: nat, height: nat): (m: Model)
    ensures Valid(m)
    ensures |m.possible| == width * height && m.tileset == ts
    ensures forall i | 0 <= i < width * height ::
      && m.possible[i] == Iota(|ts|) && m.ends[i] == [|ts| - 1] && Live(m, i) == Iota(|ts|)
      && CountsOk(m.counts[i], ts, Live(m, i)) && m.tileMap[i] == -1
    ensures m.fixedCount == 0 && m.stack == [] && m.records == []
  {
    var m := Fresh(ts, width, height);
    FreshValid(ts, width, height);
    m
  }

  function Fresh(ts: seq<Tile>, width: nat, height: nat): Model
  {
    var n := width * height;
    Model(ts, width, height, seq(n, _ => Iota(|ts|)), seq(n, _ => CatalogTables(ts)),
          seq(n, _ => -1), 0, [], [], seq(n, _ => [|ts| - 1]))
  }

  lemma FreshValid(ts: seq<Tile>, width: nat, height: nat)
    ensures Valid(Fresh(ts, width, height))
    ensures forall i | 0 <= i < width * height :: Fresh(ts, width, height).possible[i][..|ts|] == Iota(|ts|)
  {
    var m := Fresh(ts, width, height);
    var n := width * height;
    forall i | 0 <= i < n
      ensures CellOk(m, i)
    {
      assert m.possible[i][..Top(m.ends[i]) + 1] == Iota(|ts|);
    }
  }

  /** `removeTile(index, tileIndex, endTileIndex)`: uncount the tile, then swap it to the end position. */
  function RemoveTile(m: Model, i: int, ti: int, e: int): (m': Model)
    requires |m.possible| == |m.counts| && 0 <= i < |m.possible|
    requires 0 <= ti <= e < |m.possible[i]| && |m.counts[i]| == 4
    requires 0 <= m.possible[i][ti] < |m.tileset|
  {
    var p := m.possible[i];
    m.(counts := m.counts[i := UpdateEdges(m.counts[i], m.tileset[p[ti]], -1)],
       possible := m.possible[i := Swap(p, ti, e)])
  }

  /** After the swap, the prefix before the end position has lost exactly the removed tile. */
  lemma SwapOut(p: seq<int>, ti: int, e: int)
    requires 0 <= ti <= e < |p|
    ensures multiset(p[..e + 1]) == multiset(Swap(p, ti, e)[..e]) + multiset{p[ti]}
    ensures Swap(p, ti, e)[..e + 1] == Swap(p[..e + 1], ti, e)
    ensures Swap(p, ti, e)[e + 1..] == p[e + 1..]
  {
    var r := Swap(p, ti, e);
    assert r[..e + 1] == Swap(p[..e + 1], ti, e);
    assert r[..e + 1] == r[..e] + [p[ti]];
    assert multiset(r[..e + 1]) == multiset(p[..e + 1]);
  }

  /**
    Removing the tile at live position `ti` against a running end `e`
    keeps the tables of cell `i` exact for the shortened prefix.
  */
  lemma RemoveTileCounts(m: Model, i: int, ti: int, e: int)
    requires |m.possible| == |m.counts| && 0 <= i < |m.possible|
    requires 0 <= ti <= e < |m.possible[i]| && |m.counts[i]| == 4
    requires 0 <= m.possible[i][ti] < |m.tileset|
    requires CountsOk(m.counts[i], m.tileset, m.possible[i][..e + 1])
    ensures CountsOk(RemoveTile(m, i, ti, e).counts[i], m.tileset, RemoveTile(m, i, ti, e).possible[i][..e])
  {
    var p := m.possible[i];
    SwapOut(p, ti, e);
    RemoveKeepsCounts(m.counts[i], m.tileset, p[..e + 1], Swap(p, ti, e)[..e], p[ti]);
  }

  /** Replacing one cell's candidates, tables and live-end stack by well-formed ones keeps the basic shape. */
  lemma CellUpdateBase(m: Model, f: int, p': seq<int>, c': seq<Table>, e': seq<int>)
    requires Base(m) && 0 <= f < |m.possible|
    requires |p'| == |m.tileset| && multiset(p') == multiset(Iota(|m.tileset|)) && EndsOk(e', |m.tileset|)
    requires CountsOk(c', m.tileset, p'[..Top(e') + 1])
    ensures Base(m.(possible := m.possible[f := p'], counts := m.counts[f := c'], ends := m.ends[f := e']))
  {
    var m' := m.(possible := m.possible[f := p'], counts := m.counts[f := c'], ends := m.ends[f := e']);
    assert CellOk(m', f);
    forall i | 0 <= i < |m.possible| && i != f
      ensures CellOk(m', i)
    {
      assert CellOk(m, i);
    }
  }

  /** The choice stack is free as far as the basic shape goes, as long as it names cells or `-1`. */
  lemma StackBase(m: Model, s: seq<int>)
    requires Base(m) && forall k | 0 <= k < |s| :: -1 <= s[k] < |m.possible|
    ensures Base(m.(stack := s))
  {
    var m' := m.(stack := s);
    forall i | 0 <= i < |m.possible|
      ensures CellOk(m', i)
    {
      assert CellOk(m, i);
    }
  }
}

=== FILE: solver_weights.dfy ===
/**
  The tile weights of the flat solver (src/map_generator/SimpleTiledModel.ts):
  the per-frame counts and weights that `init` sets up, the validation and
  rescaling of `setProportion`, and the per-tile weights the selection step
  reads from them. A tile's weight is its frame's weight; the weights of a
  frame's tiles together make up that frame's share.
*/
module SolverWeights {
  import opened Wrappers
  import opened Tiles
  import opened Proportions
  import SolverGenerate

  /** `proportion[frame]`: how many catalog tiles show the frame, and the weight of each of them. */
  datatype Share = Share(count: nat, weight: real)

  /** The catalog positions whose tile shows frame `f`. */
  function FrameIndices(ts: seq<Tile>, f: int): set<int>
  {
    set t | 0 <= t < |ts| && ts[t].frame == f
  }

  /** How many catalog tiles show frame `f`. */
  function FrameCount(ts: seq<Tile>, f: int): nat
  {
    |FrameIndices(ts, f)|
  }

  lemma {:induction false} FrameCountSnoc(ts: seq<Tile>, f: int)
    requires |ts| > 0
    ensures FrameCount(ts, f) == FrameCount(ts[..|ts| - 1], f) + (if ts[|ts| - 1].frame == f then 1 else 0)
  {
    var k := |ts| - 1;
    var init := ts[..k];
    var below := FrameIndices(init, f);
    assert forall t | 0 <= t < k :: init[t] == ts[t];
    assert forall t | t in below :: t < k;
    if ts[k].frame == f {
      assert FrameIndices(ts, f) == below + {k};
      assert k !in below;
    } else {
      assert FrameIndices(ts, f) == below;
    }
  }

  /** A frame of the catalog is shown by at least one tile. */
  lemma {:induction false} FrameCountPositive(ts: seq<Tile>, f: int)
    requires f in Frames(ts)
    ensures FrameCount(ts, f) > 0
  {
    var t :| t in ts && t.frame == f;
    var j :| 0 <= j < |ts| && ts[j] == t;
    assert j in FrameIndices(ts, f);
  }

  lemma {:induction false} FramesSnoc(ts: seq<Tile>)
    requires |ts| > 0
    ensures Frames(ts) == Frames(ts[..|ts| - 1]) + {ts[|ts| - 1].frame}
  {
    assert ts == ts[..|ts| - 1] + [ts[|ts| - 1]];
  }

  /**
    `init`'s pass over the catalog: the first tile of a frame creates the
    frame's entry with weight `1 / n`, `n` being the catalog size, and every
    later tile of the frame only adds to its count.
  */
  function InitShares(ts: seq<Tile>, n: nat): (p: map<int, Share>)
    requires |ts| <= n
    ensures p.Keys == Frames(ts)
    ensures forall f | f in p :: p[f].count == FrameCount(ts, f) && p[f].weight == Even(n)
    ensures forall f | f in p :: p[f].count > 0
  {
    if ts == [] then map[]
    else
      var k := |ts| - 1;
      var f := ts[k].frame;
      var p := InitShares(ts[..k], n);
      FramesSnoc(ts);
      assert forall g :: FrameCount(ts, g) == FrameCount(ts[..k], g) + (if ts[k].frame == g then 1 else 0) by {
        forall g
          ensures FrameCount(ts, g) == FrameCount(ts[..k], g) + (if ts[k].frame == g then 1 else 0)
        {
          FrameCountSnoc(ts, g);
        }
      }
      if f in p then p[f := Share(p[f].count + 1, p[f].weight)]
      else
        assert FrameCount(ts[..k], f) == 0;
        p[f := Share(1, Even(n))]
  }

  /** An equal part of one among `n`: `1 / n`. */
  function Even(n: nat): (w: real)
    ensures n > 0 ==> w * (n as real) == 1.0 && w > 0.0
  {
    if n == 0 then 0.0 else DivideBack(1.0, n as real); 1.0 / (n as real)
  }

  /** Dividing by a positive count and multiplying back gives the value again. */
  lemma DivideBack(x: real, c: real)
    requires c > 0.0
    ensures (x / c) * c == x
  {
  }

  /** `c` parts of one among `n` are `c` over `n`. */
  lemma ScaleBack(m: real, c: real, n: nat)
    requires n > 0 && m == c * Even(n)
    ensures m == c / (n as real)
  {
    assert c * Even(n) * (n as real) == c * (Even(n) * (n as real));
  }

  /** The shares of catalog `ts`: an entry for every frame shown, counting the frame's tiles, and no other. */
  ghost predicate SharesFor(ts: seq<Tile>, p: map<int, Share>)
  {
    && (forall t | 0 <= t < |ts| :: ts[t].frame in p)
    && (forall f | f in p :: p[f].count == FrameCount(ts, f) > 0)
  }

  /** `init` builds the shares of its catalog. */
  lemma {:induction false} InitSharesFor(ts: seq<Tile>)
    ensures SharesFor(ts, InitShares(ts, |ts|))
  {
    var p := InitShares(ts, |ts|);
    forall f | f in p
      ensures p[f].count > 0
    {
      FrameCountPositive(ts, f);
    }
  }

  /** `Scaler(sum)`: divide by a positive sum; with no positive sum every value becomes 1. */
  function Scale(sum: real, v: real): real
  {
    if sum > 0.0 then v / sum else 1.0
  }

  /** A frame's weight once its value has been scaled and divided among its `c` tiles. */
  function TileShare(sum: real, v: real, c: nat): (w: real)
    requires c > 0
    ensures w * (c as real) == Scale(sum, v)
  {
    DivideBack(Scale(sum, v), c as real);
    Scale(sum, v) / (c as real)
  }

  /** The `c` tiles of a frame together carry the frame's scaled value. */
  lemma TimesShare(m: real, sum: real, v: real, c: nat)
    requires c > 0 && sum > 0.0 && m == (c as real) * TileShare(sum, v, c)
    ensures m == v / sum
  {
  }

  lemma SharePositive(sum: real, v: real, c: nat)
    requires c > 0 && sum >= 0.0 && v >= 0.0
    ensures TileShare(sum, v, c) >= 0.0
  {
    var w := TileShare(sum, v, c);
    if w < 0.0 {
      assert w * (c as real) < 0.0;
    }
  }

  /** Dropping the last entry keeps the keys distinct and leaves exactly the other keys. */
  lemma PrefixKeys(es: Entries)
    requires DistinctKeys(es) && |es| > 0
    ensures var k := |es| - 1;
      && DistinctKeys(es[..k]) && es[k].0 !in KeySet(es[..k])
      && (forall g | g in KeySet(es[..k]) :: g in KeySet(es))
      && (forall i | 0 <= i < k :: es[..k][i] == es[i] && es[i].0 != es[k].0)
  {
    var k := |es| - 1;
    assert forall i | 0 <= i < k :: es[..k][i] == es[i];
    forall g | g in KeySet(es[..k])
      ensures g in KeySet(es)
    {
      var i :| 0 <= i < k && es[..k][i].0 == g;
    }
  }

  /** Setting the last entry's weight over a reweighing of the other entries reweighs them all. */
  lemma ReweighStep(p: map<int, Share>, es: Entries, sum: real, q: map<int, Share>)
    requires DistinctKeys(es) && |es| > 0 && forall i | 0 <= i < |es| :: es[i].0 in p
    requires forall f | f in p :: p[f].count > 0
    requires var k := |es| - 1;
      && DistinctKeys(es[..k]) && es[k].0 !in KeySet(es[..k])
      && (forall g | g in KeySet(es[..k]) :: g in KeySet(es))
      && (forall i | 0 <= i < k :: es[..k][i] == es[i] && es[i].0 != es[k].0)
    requires q.Keys == p.Keys && forall f | f in p :: q[f].count == p[f].count
    requires forall f | f in p && f !in KeySet(es[..|es| - 1]) :: q[f] == p[f]
    requires forall i | 0 <= i < |es| - 1 ::
              var c := p[es[i].0].count; c > 0 && q[es[i].0].weight == TileShare(sum, es[i].1, c)
    ensures var (f, v) := es[|es| - 1];
      var r := q[f := Share(p[f].count, TileShare(sum, v, p[f].count))];
      && r.Keys == p.Keys && (forall g | g in p :: r[g].count == p[g].count)
      && (forall g | g in p && g !in KeySet(es) :: r[g] == p[g])
      && forall i | 0 <= i < |es| ::
           var c := p[es[i].0].count; c > 0 && r[es[i].0].weight == TileShare(sum, es[i].1, c)
  {
    var k := |es| - 1;
    var (f, v) := es[k];
    var r := q[f := Share(p[f].count, TileShare(sum, v, p[f].count))];
    forall i | 0 <= i < |es|
      ensures r[es[i].0].weight == TileShare(sum, es[i].1, p[es[i].0].count)
    {
      if i < k {
        assert es[i].0 != f;
      }
    }
  }

  /**
    `setProportion`'s second pass: every given frame's weight becomes its
    scaled value divided among its tiles; frames not given keep theirs.
  */
  function Reweigh(p: map<int, Share>, es: Entries, sum: real): (r: map<int, Share>)
    requires DistinctKeys(es) && forall i | 0 <= i < |es| :: es[i].0 in p
    requires forall f | f in p :: p[f].count > 0
    ensures r.Keys == p.Keys && forall f | f in p :: r[f].count == p[f].count
    ensures forall f | f in p && f !in KeySet(es) :: r[f] == p[f]
    ensures forall i | 0 <= i < |es| ::
              var c := p[es[i].0].count; c > 0 && r[es[i].0].weight == TileShare(sum, es[i].1, c)
  {
    if es == [] then p
    else
      var k := |es| - 1;
      var (f, v) := es[k];
      PrefixKeys(es);
      var q := Reweigh(p, es[..k], sum);
      ReweighStep(p, es, sum, q);
      q[f := Share(p[f].count, TileShare(sum, v, p[f].count))]
  }

  /**
    `setProportion(newProportion)`, given as entries in key order: refused
    unless there are as many entries as frames, every key is a frame and no
    value is negative; otherwise every frame's weight becomes its scaled
    value divided among its tiles, the counts staying as they were.
  */
  function SetProportion(p: map<int, Share>, es: Entries): (r: Option<map<int, Share>>)
    requires DistinctKeys(es)
    requires forall f | f in p :: p[f].count > 0
    ensures r.Some? <==> KeySet(es) == p.Keys && forall i | 0 <= i < |es| :: es[i].1 >= 0.0
    ensures r.Some? ==> r.value.Keys == p.Keys && forall f | f in p :: r.value[f].count == p[f].count
    ensures r.Some? ==>
              forall i | 0 <= i < |es| ::
                var c := p[es[i].0].count; c > 0 && r.value[es[i].0].weight == TileShare(Total(es), es[i].1, c)
  {
    KeysDistinctCard(es);
    if |es| != |p.Keys| then
      assert KeySet(es) != p.Keys;
      None
    else if exists i | 0 <= i < |es| :: es[i].0 !in p || es[i].1 < 0.0 then
      None
    else
      assert KeySet(es) <= p.Keys;
      EqualCardSubset(KeySet(es), p.Keys);
      Some(Reweigh(p, es, Total(es)))
  }

  /** A successful `setProportion` keeps the shares belonging to the catalog. */
  lemma {:induction false} SetKeepsShares(ts: seq<Tile>, p: map<int, Share>, es: Entries)
    requires SharesFor(ts, p) && DistinctKeys(es)
    requires SetProportion(p, es).Some?
    ensures SharesFor(ts, SetProportion(p, es).value)
  {
  }

  /** The weight of every catalog tile: the weight of its frame. */
  function TileWeights(ts: seq<Tile>, p: map<int, Share>): (wt: seq<real>)
    requires forall t | 0 <= t < |ts| :: ts[t].frame in p
    ensures |wt| == |ts| && forall t | 0 <= t < |ts| :: wt[t] == p[ts[t].frame].weight
  {
    seq(|ts|, t requires 0 <= t < |ts| => p[ts[t].frame].weight)
  }

  /** The weight the tiles of frame `f` carry together. */
  function FrameMass(ts: seq<Tile>, wt: seq<real>, f: int): real
    requires |wt| == |ts|
  {
    if ts == [] then 0.0
    else FrameMass(ts[..|ts| - 1], wt[..|wt| - 1], f) + (if ts[|ts| - 1].frame == f then wt[|wt| - 1] else 0.0)
  }

  /** Tiles of one frame all weighing `w` carry `w` times their number. */
  lemma {:induction false} UniformMass(ts: seq<Tile>, wt: seq<real>, f: int, w: real)
    requires |wt| == |ts| && forall t | 0 <= t < |ts| && ts[t].frame == f :: wt[t] == w
    ensures FrameMass(ts, wt, f) == (FrameCount(ts, f) as real) * w
    decreases |ts|
  {
    if ts != [] {
      var k := |ts| - 1;
      assert forall t | 0 <= t < k :: ts[..k][t] == ts[t] && wt[..k][t] == wt[t];
      UniformMass(ts[..k], wt[..k], f, w);
      FrameCountSnoc(ts, f);
    }
  }

  /** Tiles of one frame each weighing one part in `|ts|` carry their number over `|ts|`. */
  lemma {:induction false} EvenMass(ts: seq<Tile>, wt: seq<real>, f: int)
    requires |wt| == |ts| > 0 && forall t | 0 <= t < |ts| && ts[t].frame == f :: wt[t] == Even(|ts|)
    ensures FrameMass(ts, wt, f) == (FrameCount(ts, f) as real) / (|ts| as real)
  {
    UniformMass(ts, wt, f, Even(|ts|));
    ScaleBack(FrameMass(ts, wt, f), FrameCount(ts, f) as real, |ts|);
  }

  /** Freshly initialised, every tile weighs the same: a frame's tiles carry their number over the catalog size. */
  lemma {:induction false} InitMass(ts: seq<Tile>, f: int)
    requires f in Frames(ts)
    ensures FrameMass(ts, TileWeights(ts, InitShares(ts, |ts|)), f) == (FrameCount(ts, f) as real) / (|ts| as real)
  {
    InitWeights(ts);
    EvenMass(ts, TileWeights(ts, InitShares(ts, |ts|)), f);
  }

  /** Freshly initialised, every tile weighs one part in the catalog size. */
  lemma {:induction false} InitWeights(ts: seq<Tile>)
    ensures forall t | 0 <= t < |ts| :: TileWeights(ts, InitShares(ts, |ts|))[t] == Even(|ts|)
  {
  }

  /** Tiles of one frame each weighing the frame's scaled value divided among them carry that value. */
  lemma {:induction false} ScaledMass(ts: seq<Tile>, wt: seq<real>, f: int, sum: real, v: real)
    requires |wt| == |ts| && FrameCount(ts, f) > 0 && sum > 0.0
    requires forall t | 0 <= t < |ts| && ts[t].frame == f :: wt[t] == TileShare(sum, v, FrameCount(ts, f))
    ensures FrameMass(ts, wt, f) == v / sum
  {
    UniformMass(ts, wt, f, TileShare(sum, v, FrameCount(ts, f)));
    TimesShare(FrameMass(ts, wt, f), sum, v, FrameCount(ts, f));
  }

  /**
    After a successful `setProportion` whose values have a positive sum,
    the tiles of each given frame together carry exactly that frame's
    value over the sum.
  */
  lemma {:induction false} FrameShare(ts: seq<Tile>, p: map<int, Share>, es: Entries, i: int)
    requires SharesFor(ts, p) && DistinctKeys(es)
    requires SetProportion(p, es).Some? && Total(es) > 0.0 && 0 <= i < |es|
    ensures FrameMass(ts, TileWeights(ts, SetProportion(p, es).value), es[i].0) == es[i].1 / Total(es)
  {
    var r := SetProportion(p, es).value;
    assert es[i].0 in KeySet(es);
    ScaledMass(ts, TileWeights(ts, r), es[i].0, Total(es), es[i].1);
  }

  /** `Object.keys(newProportion)`. */
  function Keys(es: Entries): (ks: seq<int>)
    ensures |ks| == |es| && forall i | 0 <= i < |es| :: ks[i] == es[i].0
  {
    seq(|es|, i requires 0 <= i < |es| => es[i].0)
  }

  /** A frame's part of `initSums`' proportion total: count times weight, when the weight is positive. */
  function Term(s: Share): real
  {
    if s.weight > 0.0 then (s.count as real) * s.weight else 0.0
  }

  /** `initSums`' proportion total over the frames `keys`. */
  function ProportionSum(p: map<int, Share>, keys: seq<int>): real
    requires forall k | 0 <= k < |keys| :: keys[k] in p
  {
    if keys == [] then 0.0
    else ProportionSum(p, keys[..|keys| - 1]) + Term(p[keys[|keys| - 1]])
  }

  /** Division by a positive sum distributes over addition. */
  lemma AddOver(a: real, b: real, x: real, v: real, sum: real)
    requires sum > 0.0 && a == x / sum && b == v / sum
    ensures a + b == (x + v) / sum
  {
  }

  /** A frame weighed by `setProportion` adds its value over the sum, a zero weight adding nothing. */
  lemma ScaledTerm(s: Share, sum: real, v: real)
    requires s.count > 0 && sum > 0.0 && v >= 0.0 && s.weight == TileShare(sum, v, s.count)
    ensures Term(s) == v / sum
  {
    TimesShare((s.count as real) * s.weight, sum, v, s.count);
    if s.weight <= 0.0 {
      SharePositive(sum, v, s.count);
      assert s.weight == 0.0;
    }
  }

  /** Frames each adding their value over the sum together add the values' total over the sum. */
  lemma {:induction false} SumOver(r: map<int, Share>, ks: seq<int>, es: Entries, sum: real)
    requires |ks| == |es| && sum > 0.0
    requires forall i | 0 <= i < |ks| :: ks[i] in r && Term(r[ks[i]]) == es[i].1 / sum
    ensures ProportionSum(r, ks) == Total(es) / sum
    decreases |ks|
  {
    if ks == [] {
      assert Total(es) == 0.0;
    } else {
      var k := |ks| - 1;
      assert forall i | 0 <= i < k :: ks[..k][i] == ks[i] && es[..k][i] == es[i];
      SumOver(r, ks[..k], es[..k], sum);
      AddOver(ProportionSum(r, ks[..k]), Term(r[ks[k]]), Total(es[..k]), es[k].1, sum);
    }
  }

  /**
    After a successful `setProportion` whose values have a positive sum,
    `initSums` finds a proportion total of exactly 1.
  */
  lemma {:induction false} NormalizedSum(p: map<int, Share>, es: Entries)
    requires DistinctKeys(es) && forall f | f in p :: p[f].count > 0
    requires SetProportion(p, es).Some? && Total(es) > 0.0
    ensures ProportionSum(SetProportion(p, es).value, Keys(es)) == 1.0
  {
    var r := SetProportion(p, es).value;
    var ks := Keys(es);
    forall i | 0 <= i < |ks|
      ensures ks[i] in r && Term(r[ks[i]]) == es[i].1 / Total(es)
    {
      assert ks[i] == es[i].0;
      ScaledTerm(r[ks[i]], Total(es), es[i].1);
    }
    SumOver(r, ks, es, Total(es));
    SelfOver(ProportionSum(r, ks), Total(es));
  }

  /** A positive sum over itself is one. */
  lemma SelfOver(a: real, sum: real)
    requires sum > 0.0 && a == sum / sum
    ensures a == 1.0
  {
  }

  /** No frame weighs less than nothing. */
  ghost predicate NonNegative(p: map<int, Share>)
  {
    forall f | f in p :: p[f].weight >= 0.0
  }

  /** The weights `init` sets up and those a successful `setProportion` leaves are never negative. */
  lemma {:induction false} WeightsNonNegative(ts: seq<Tile>, p: map<int, Share>, es: Entries)
    requires DistinctKeys(es) && forall f | f in p :: p[f].count > 0
    ensures NonNegative(InitShares(ts, |ts|))
    ensures SetProportion(p, es).Some? ==> NonNegative(SetProportion(p, es).value)
  {
    var q := InitShares(ts, |ts|);
    if SetProportion(p, es).Some? {
      var r := SetProportion(p, es).value;
      TotalNonNegative(es);
      forall f | f in r
        ensures r[f].weight >= 0.0
      {
        var i := ValueOfIndex(es, f);
        SharePositive(Total(es), es[i].1, p[f].count);
      }
    }
  }

  /** Nonnegative shares give the solver weights it accepts. */
  lemma {:induction false} TileWeightsOk(ts: seq<Tile>, p: map<int, Share>)
    requires SharesFor(ts, p) && NonNegative(p)
    ensures SolverGenerate.WeightsOk(ts, TileWeights(ts, p))
  {
  }
}

=== FILE: spawn_points.dfy ===
/**
  Spawn-point selection (`getSpawnPoints` in
  src/map_generator/workers/levelLayer.ts and its variant in src/map.ts).

  One pass over the cells: an air cell resting on a cell that is neither air
  nor grass is a candidate player spawn, chosen by reservoir sampling; grass
  cells are collected into `grassPos` with an inside-out shuffle. The
  shuffled grass positions are then sliced into enemy spawn lists.
  Coordinates are world units: cell coordinates times the frame side.
*/
module SpawnPoints {
  import opened Wrappers
  import opened Tiles
  import opened Grid
  import opened Draws

  datatype Coord = Coord(x: int, y: int)

  datatype Spawns = Spawns(player: seq<Coord>, guy: seq<Coord>, flame: seq<Coord>, bird: seq<Coord>)

  /** World coordinates of cell i. */
  function CoordOf(i: int, width: int, side: int): Coord
    requires width > 0
  {
    Coord(side * (i % width), side * (i / width))
  }

  /** Cell i is air and the cell below it is neither air nor grass: a place the player can stand. */
  predicate Candidate(tileset: seq<Tile>, tilemap: seq<int>, width: int, air: int, grass: int, i: int)
    requires ValidMap(tileset, tilemap) && 0 <= i < |tilemap| && width > 0
  {
    FrameAt(tileset, tilemap, i) == air && i + width < |tilemap| &&
    FrameAt(tileset, tilemap, i + width) != air && FrameAt(tileset, tilemap, i + width) != grass
  }

  /** Cell i takes the grass branch of the frame switch (the air case is tested first). */
  predicate IsGrass(tileset: seq<Tile>, tilemap: seq<int>, air: int, grass: int, i: int)
    requires ValidMap(tileset, tilemap) && 0 <= i < |tilemap|
  {
    FrameAt(tileset, tilemap, i) != air && FrameAt(tileset, tilemap, i) == grass
  }

  /** Reference list: the coordinates of the grass cells among the first k cells, in index order. */
  function GrassCoords(tileset: seq<Tile>, tilemap: seq<int>, width: int, side: int, air: int, grass: int, k: int): seq<Coord>
    requires ValidMap(tileset, tilemap) && width > 0 && 0 <= k <= |tilemap|
  {
    if k == 0 then []
    else (GrassCoords(tileset, tilemap, width, side, air, grass, k - 1) +
          if IsGrass(tileset, tilemap, air, grass, k - 1) then [CoordOf(k - 1, width, side)] else [])
  }

  /** No element occurs twice. */
  ghost predicate Distinct(s: seq<Coord>)
  {
    forall c | c in multiset(s) :: multiset(s)[c] == 1
  }

  ghost predicate Disjoint(a: seq<Coord>, b: seq<Coord>)
  {
    forall c | c in a :: c !in b
  }

  /** Distinct cells have distinct world coordinates. */
  lemma CoordOfInjective(i: int, j: int, width: int, side: int)
    requires width > 0 && side > 0 && 0 <= i && 0 <= j
    requires CoordOf(i, width, side) == CoordOf(j, width, side)
    ensures i == j
  {
    MulCancel(side, i % width, j % width);
    MulCancel(side, i / width, j / width);
    assert i == (i / width) * width + i % width;
    assert j == (j / width) * width + j % width;
  }

  lemma MulCancel(a: int, b: int, c: int)
    requires a > 0 && a * b == a * c
    ensures b == c
  {
    CellUnique(b, 0, a);
    CellUnique(c, 0, a);
    assert Cell(b, 0, a) == a * b;
    assert Cell(c, 0, a) == a * c;
  }

  /** Every listed grass coordinate is that of a grass cell below k. */
  lemma {:induction false} GrassCoordsFrom(tileset: seq<Tile>, tilemap: seq<int>, width: int, side: int, air: int, grass: int, k: int, c: Coord)
    requires ValidMap(tileset, tilemap) && width > 0 && 0 <= k <= |tilemap|
    requires c in GrassCoords(tileset, tilemap, width, side, air, grass, k)
    ensures exists m :: 0 <= m < k && IsGrass(tileset, tilemap, air, grass, m) && c == CoordOf(m, width, side)
    decreases k
  {
    var prev := GrassCoords(tileset, tilemap, width, side, air, grass, k - 1);
    if c in prev {
      GrassCoordsFrom(tileset, tilemap, width, side, air, grass, k - 1, c);
    }
  }

  /** The grass coordinates are pairwise distinct. */
  lemma {:induction false} GrassCoordsDistinct(tileset: seq<Tile>, tilemap: seq<int>, width: int, side: int, air: int, grass: int, k: int)
    requires ValidMap(tileset, tilemap) && width > 0 && side > 0 && 0 <= k <= |tilemap|
    ensures Distinct(GrassCoords(tileset, tilemap, width, side, air, grass, k))
    decreases k
  {
    if k > 0 {
      var prev := GrassCoords(tileset, tilemap, width, side, air, grass, k - 1);
      GrassCoordsDistinct(tileset, tilemap, width, side, air, grass, k - 1);
      if IsGrass(tileset, tilemap, air, grass, k - 1) {
        var c := CoordOf(k - 1, width, side);
        if c in prev {
          GrassCoordsFrom(tileset, tilemap, width, side, air, grass, k - 1, c);
          var m :| 0 <= m < k - 1 && c == CoordOf(m, width, side);
          CoordOfInjective(m, k - 1, width, side);
        }
        assert multiset(prev + [c]) == multiset(prev) + multiset{c};
      } else {
        assert prev + [] == prev;
      }
    }
  }

  /** A player candidate is an air cell, so its coordinate is not a grass coordinate. */
  lemma CandidateNotGrass(tileset: seq<Tile>, tilemap: seq<int>, width: int, side: int, air: int, grass: int, i: int)
    requires ValidMap(tileset, tilemap) && width > 0 && side > 0 && 0 <= i < |tilemap|
    requires Candidate(tileset, tilemap, width, air, grass, i)
    ensures CoordOf(i, width, side) !in GrassCoords(tileset, tilemap, width, side, air, grass, |tilemap|)
  {
    var c := CoordOf(i, width, side);
    if c in GrassCoords(tileset, tilemap, width, side, air, grass, |tilemap|) {
      GrassCoordsFrom(tileset, tilemap, width, side, air, grass, |tilemap|, c);
      var m :| 0 <= m < |tilemap| && IsGrass(tileset, tilemap, air, grass, m) && c == CoordOf(m, width, side);
      CoordOfInjective(m, i, width, side);
      assert false;
    }
  }

  /** Two slices of a duplicate-free list over disjoint index ranges share no element. */
  lemma SliceDisjoint(s: seq<Coord>, a: int, b: int, c: int, d: int)
    requires Distinct(s) && 0 <= a <= b <= c <= d <= |s|
    ensures Disjoint(s[a..b], s[c..d])
  {
    assert s == s[..c] + s[c..];
    forall x | x in s[a..b]
      ensures x !in s[c..d]
    {
      assert s[..c][a..b] == s[a..b];
      assert x in multiset(s[..c]);
      assert multiset(s)[x] == multiset(s[..c])[x] + multiset(s[c..])[x];
      assert x !in multiset(s[c..]);
      assert s[c..][..d - c] == s[c..d];
    }
  }

  /**
    The scan over all cells: reservoir sampling of the player candidate and
    the inside-out shuffle of the grass coordinates. Each air candidate and
    each grass cell consumes one draw; `used` is the number of draws taken.
  */
  method ScanCells(tileset: seq<Tile>, tilemap: seq<int>, width: int, side: int, air: int, grass: int, draws: seq<real>)
    returns (grassPos: seq<Coord>, player: Option<Coord>, ghost pick: int, used: nat)
    requires ValidMap(tileset, tilemap) && width > 0 && side > 0
    requires |draws| >= |tilemap| && AllUnit(draws)
    ensures used <= |tilemap|
    ensures multiset(grassPos) == multiset(GrassCoords(tileset, tilemap, width, side, air, grass, |tilemap|))
    ensures player.None? <==> forall i | 0 <= i < |tilemap| :: !Candidate(tileset, tilemap, width, air, grass, i)
    ensures player.Some? ==>
      0 <= pick < |tilemap| && Candidate(tileset, tilemap, width, air, grass, pick) && player.value == CoordOf(pick, width, side)
  {
    grassPos, player, pick, used := [], None, -1, 0;
    var count := 0;
    for i := 0 to |tilemap|
      invariant ScanInv(tileset, tilemap, width, side, air, grass, i, grassPos, player, pick, count, used)
    {
      grassPos, player, pick, count, used := ScanStep(tileset, tilemap, width, side, air, grass, draws, i, grassPos, player, pick, count, used);
    }
  }

  /** What the scan knows after the first i cells. */
  ghost predicate ScanInv(tileset: seq<Tile>, tilemap: seq<int>, width: int, side: int, air: int, grass: int, i: int,
                          grassPos: seq<Coord>, player: Option<Coord>, pick: int, count: int, used: int)
    requires ValidMap(tileset, tilemap) && width > 0 && 0 <= i <= |tilemap|
  {
    0 <= used <= i &&
    multiset(grassPos) == multiset(GrassCoords(tileset, tilemap, width, side, air, grass, i)) &&
    count >= 0 && (player.None? <==> count == 0) &&
    (player.None? ==> forall j | 0 <= j < i :: !Candidate(tileset, tilemap, width, air, grass, j)) &&
    (player.Some? ==>
      0 <= pick < i && Candidate(tileset, tilemap, width, air, grass, pick) && player.value == CoordOf(pick, width, side))
  }

  /** The scan's treatment of cell i: a standing place feeds the reservoir, a grass cell the shuffle. */
  method ScanStep(tileset: seq<Tile>, tilemap: seq<int>, width: int, side: int, air: int, grass: int, draws: seq<real>, i: int,
                  grassPos: seq<Coord>, player: Option<Coord>, ghost pick: int, count: int, used: int)
    returns (grassPos': seq<Coord>, player': Option<Coord>, ghost pick': int, count': int, used': int)
    requires ValidMap(tileset, tilemap) && width > 0 && side > 0 && 0 <= i < |tilemap|
    requires |draws| >= |tilemap| && AllUnit(draws)
    requires ScanInv(tileset, tilemap, width, side, air, grass, i, grassPos, player, pick, count, used)
    ensures ScanInv(tileset, tilemap, width, side, air, grass, i + 1, grassPos', player', pick', count', used')
  {
    ghost var before := GrassCoords(tileset, tilemap, width, side, air, grass, i);
    grassPos', player', pick', count', used' := grassPos, player, pick, count, used;
    var f := FrameAt(tileset, tilemap, i);
    if f == air {
      if i + width < |tilemap| {
        var below := FrameAt(tileset, tilemap, i + width);
        if below != air && below != grass {
          player', pick', count' := Reservoir(player, pick, count, draws[used], CoordOf(i, width, side), i);
          used' := used + 1;
        }
      }
      assert GrassCoords(tileset, tilemap, width, side, air, grass, i + 1) == before + [];
    } else if f == grass {
      grassPos' := ShuffleIn(grassPos, CoordOf(i, width, side), draws[used]);
      used' := used + 1;
      assert GrassCoords(tileset, tilemap, width, side, air, grass, i + 1) == before + [CoordOf(i, width, side)];
    } else {
      assert GrassCoords(tileset, tilemap, width, side, air, grass, i + 1) == before + [];
    }
    if player'.None? {
      assert !Candidate(tileset, tilemap, width, air, grass, i);
      NoCandidateYet(tileset, tilemap, width, air, grass, i);
    }
  }

  lemma NoCandidateYet(tileset: seq<Tile>, tilemap: seq<int>, width: int, air: int, grass: int, i: int)
    requires ValidMap(tileset, tilemap) && width > 0 && 0 <= i < |tilemap|
    requires forall j | 0 <= j < i :: !Candidate(tileset, tilemap, width, air, grass, j)
    requires !Candidate(tileset, tilemap, width, air, grass, i)
    ensures forall j | 0 <= j < i + 1 :: !Candidate(tileset, tilemap, width, air, grass, j)
  {
  }

  /**
    One step of reservoir sampling over the standing places: the k-th place
    seen replaces the current choice when `floor(d * k)` is 0, which is
    certain for the first one.
  */
  method Reservoir(player: Option<Coord>, ghost pick: int, count: int, d: real, c: Coord, ghost i: int)
    returns (player': Option<Coord>, ghost pick': int, count': int)
    requires Unit(d) && count >= 0 && (player.None? <==> count == 0)
    ensures count' == count + 1 && player'.Some?
    ensures (player' == player && pick' == pick) || (player' == Some(c) && pick' == i)
    ensures count == 0 ==> player' == Some(c) && pick' == i
  {
    count' := count + 1;
    if count' == 1 {
      PickOne(d);
    }
    if Pick(d, count') == 0 {
      player', pick' := Some(c), i;
    } else {
      player', pick' := player, pick;
    }
  }

  /**
    One step of the inside-out shuffle: the new element lands at a drawn
    position j in [0, n], and the element it displaces moves to the end.
  */
  method ShuffleIn(g: seq<Coord>, c: Coord, d: real) returns (r: seq<Coord>)
    requires Unit(d)
    ensures multiset(r) == multiset(g) + multiset{c}
    ensures |r| == |g| + 1 && r[Pick(d, |g| + 1)] == c
  {
    var j := Pick(d, |g| + 1);
    if j == |g| {
      r := g + [c];
    } else {
      r := (g + [g[j]])[j := c];
      assert multiset(g + [g[j]]) == multiset(g) + multiset{g[j]};
    }
  }

  /** The position used when no candidate and no grass exists, in world units. */
  function Fallback(dx: real, dy: real, width: int, height: int, side: int): (p: Coord)
    requires Unit(dx) && Unit(dy) && width >= 1 && height >= 1
  {
    Coord(side * Pick(dx, width), side * Pick(dy, height))
  }

  /** The fallback position as the source computes it: cell coordinates, not multiplied by the frame side. */
  function FallbackAsWritten(dx: real, dy: real, width: int, height: int): (p: Coord)
    requires Unit(dx) && Unit(dy) && width >= 1 && height >= 1
  {
    Coord(Pick(dx, width), Pick(dy, height))
  }

  /**
    The driver's `(y * width + x) / FRAME_SIDE`: the cell index of a spawn
    point, or None when the quotient is not an integer (no cell is written then).
  */
  function PlayerIndex(p: Coord, width: int, side: int): Option<int>
    requires side > 0
  {
    var num := p.y * width + p.x;
    if num % side == 0 then Some(num / side) else None
  }

  /** World coordinates of a cell lead the driver back to that cell. */
  lemma PlayerIndexOfCell(i: int, width: int, side: int)
    requires width > 0 && side > 0 && i >= 0
    ensures PlayerIndex(CoordOf(i, width, side), width, side) == Some(i)
  {
    var q, r := i / width, i % width;
    assert q * width + r == i;
    assert side * q * width == side * (q * width);
    assert side * (q * width) + side * r == side * i;
    CellUnique(i, 0, side);
    assert Cell(i, 0, side) == side * i;
  }

  /** The fallback position is that of a cell of the grid. */
  lemma FallbackIsCell(dx: real, dy: real, width: int, height: int, side: int)
    requires Unit(dx) && Unit(dy) && width >= 1 && height >= 1 && side > 0
    ensures var i := Cell(Pick(dy, height), Pick(dx, width), width);
      0 <= i < width * height && Fallback(dx, dy, width, height, side) == CoordOf(i, width, side)
  {
    CellInRange(Pick(dy, height), Pick(dx, width), width, height);
    CellUnique(Pick(dy, height), Pick(dx, width), width);
  }

  /**
    As written, with a frame side of 2 or more, the unscaled fallback can
    give the driver a player index that is not an integer: draws 1/width
    and 0 put the player at (1, 0), and 1 is not a multiple of the side.
  */
  lemma FallbackAsWrittenMissesCells(width: int, height: int, side: int)
    requires width >= 2 && height >= 1 && side >= 2
    ensures Unit(1.0 / (width as real))
    ensures PlayerIndex(FallbackAsWritten(1.0 / (width as real), 0.0, width, height), width, side).None?
  {
    var dx := 1.0 / (width as real);
    assert dx * (width as real) == 1.0;
    assert FallbackAsWritten(dx, 0.0, width, height) == Coord(1, 0);
  }

  /** The corrected fallback always leads the driver to a cell of the grid. */
  lemma FallbackReachesCell(dx: real, dy: real, width: int, height: int, side: int)
    requires Unit(dx) && Unit(dy) && width >= 1 && height >= 1 && side > 0
    ensures var idx := PlayerIndex(Fallback(dx, dy, width, height, side), width, side);
      idx.Some? && 0 <= idx.value < width * height
  {
    FallbackIsCell(dx, dy, width, height, side);
    PlayerIndexOfCell(Cell(Pick(dy, height), Pick(dx, width), width), width, side);
  }

  /**
    The enemy lists of the level worker: tenths of the shuffled grass
    positions, each capped at `floor(cells / 300)`. Each list is the start
    of its own tenth, so the three index ranges are disjoint.
  */
  function CappedSlices(pool: seq<Coord>, cells: int): (s: (seq<Coord>, seq<Coord>, seq<Coord>))
    requires cells >= 0
  {
    var n := |pool|;
    CappedRanges(pool, n / 10, 2 * n / 10, 3 * n / 10, cells / 300)
  }

  /** The slices from the range starts `a` and `b` (`guyEnd` and `flameEnd`), each capped at `cap`. */
  function CappedRanges(pool: seq<Coord>, a: int, b: int, c: int, cap: int): (s: (seq<Coord>, seq<Coord>, seq<Coord>))
    requires 0 <= a && 0 <= b && 0 <= c && cap >= 0
  {
    (JsSlice(pool, 0, Min(cap, a)), JsSlice(pool, a, Min(a + cap, b)), JsSlice(pool, b, Min(b + cap, c)))
  }

  /**
    Three lists are the starts of the consecutive index ranges [0, a), [a, b)
    and [b, c) of the pool, each at most `cap` long.
  */
  ghost predicate CappedAt(pool: seq<Coord>, s: (seq<Coord>, seq<Coord>, seq<Coord>), a: int, b: int, c: int, cap: int)
  {
    && 0 <= a <= b <= c <= |pool|
    && |s.0| == Min(cap, a) && |s.1| == Min(cap, b - a) && |s.2| == Min(cap, c - b)
    && s.0 == pool[0..|s.0|] && s.1 == pool[a .. a + |s.1|] && s.2 == pool[b .. b + |s.2|]
  }

  /**
    The level worker's enemy lists are the starts of the first three tenths
    of the pool, each at most `floor(cells / 300)` long, over disjoint index ranges.
  */
  lemma CappedSlicesShape(pool: seq<Coord>, cells: int)
    requires cells >= 0
    ensures CappedAt(pool, CappedSlices(pool, cells), |pool| / 10, 2 * |pool| / 10, 3 * |pool| / 10, cells / 300)
  {
    var n := |pool|;
    Tenths(n);
    CappedShapeAt(pool, n / 10, 2 * n / 10, 3 * n / 10, cells / 300);
  }

  /** Capped starts of three consecutive index ranges, with the bounds left abstract. */
  lemma CappedShapeAt(pool: seq<Coord>, a: int, b: int, c: int, cap: int)
    requires 0 <= a <= b <= c <= |pool| && cap >= 0
    ensures CappedAt(pool, CappedRanges(pool, a, b, c, cap), a, b, c, cap)
  {
  }

  /** One, two and three tenths of n are ordered and within n. */
  lemma Tenths(n: nat)
    ensures 0 <= n / 10 <= 2 * n / 10 <= 3 * n / 10 <= n
  {
  }

  /** One, two and three fifths of n are ordered and within n. */
  lemma Fifths(n: nat)
    ensures 0 <= n / 5 <= 2 * n / 5 <= 3 * n / 5 <= n
  {
  }

  /** The enemy lists of `src/map.ts`: the first three fifths of the shuffled grass positions, uncapped. */
  function FifthSlices(pool: seq<Coord>): (s: (seq<Coord>, seq<Coord>, seq<Coord>))
    ensures var n := |pool|;
      var a, b, c := n / 5, 2 * n / 5, 3 * n / 5;
      0 <= a <= b <= c <= n &&
      s.0 == pool[..a] && s.1 == pool[a..b] && s.2 == pool[b..c]
  {
    var n := |pool|;
    var guyEnd, flameEnd := n / 5, 2 * n / 5;
    Fifths(n);
    (JsSlice(pool, 0, guyEnd), JsSlice(pool, guyEnd, flameEnd), JsSlice(pool, flameEnd, 3 * n / 5))
  }

  function Min(a: int, b: int): int
  {
    if a < b then a else b
  }

  /** `Array.prototype.slice(a, b)` for non-negative bounds: clamped to the list, empty when b <= a. */
  function JsSlice(s: seq<Coord>, a: int, b: int): (r: seq<Coord>)
    requires 0 <= a && 0 <= b
    ensures a <= b <= |s| ==> r == s[a..b]
    ensures b <= a ==> r == []
  {
    var lo := if a < |s| then a else |s|;
    var hi := if b < |s| then b else |s|;
    if lo < hi then s[lo..hi] else []
  }

  /** Enemy lists drawn from a duplicate-free pool share no point with each other or with anything outside the pool. */
  ghost predicate SeparateLists(pool: seq<Coord>, s: (seq<Coord>, seq<Coord>, seq<Coord>))
  {
    Disjoint(s.0, s.1) && Disjoint(s.0, s.2) && Disjoint(s.1, s.2) &&
    forall c | c in s.0 + s.1 + s.2 :: c in pool
  }

  lemma CappedSlicesDisjoint(pool: seq<Coord>, cells: int)
    requires cells >= 0 && Distinct(pool)
    ensures SeparateLists(pool, CappedSlices(pool, cells))
  {
    var n := |pool|;
    CappedSlicesShape(pool, cells);
    CappedSeparate(pool, CappedSlices(pool, cells), n / 10, 2 * n / 10, 3 * n / 10, cells / 300);
  }

  /** Capped prefixes of three consecutive ranges of a duplicate-free list are separate lists. */
  lemma CappedSeparate(pool: seq<Coord>, s: (seq<Coord>, seq<Coord>, seq<Coord>), a: int, b: int, c: int, cap: int)
    requires Distinct(pool) && cap >= 0 && CappedAt(pool, s, a, b, c, cap)
    ensures SeparateLists(pool, s)
  {
    ThreeSlices(pool, 0, |s.0|, a, a + |s.1|, b, b + |s.2|);
  }

  /** Three slices over ordered, non-overlapping index ranges of a duplicate-free list. */
  lemma ThreeSlices(pool: seq<Coord>, a0: int, a1: int, b0: int, b1: int, c0: int, c1: int)
    requires Distinct(pool) && 0 <= a0 <= a1 <= b0 <= b1 <= c0 <= c1 <= |pool|
    ensures SeparateLists(pool, (pool[a0..a1], pool[b0..b1], pool[c0..c1]))
  {
    SliceDisjoint(pool, a0, a1, b0, b1);
    SliceDisjoint(pool, a0, a1, c0, c1);
    SliceDisjoint(pool, b0, b1, c0, c1);
    forall c | c in pool[a0..a1] + pool[b0..b1] + pool[c0..c1]
      ensures c in pool
    {
      assert c in pool[a0..a1] || c in pool[b0..b1] || c in pool[c0..c1];
    }
  }

  lemma FifthSlicesDisjoint(pool: seq<Coord>)
    requires Distinct(pool)
    ensures SeparateLists(pool, FifthSlices(pool))
  {
    var n := |pool|;
    ThreeSlices(pool, 0, n / 5, n / 5, 2 * n / 5, 2 * n / 5, 3 * n / 5);
  }

  /** The player point and its remaining grass pool after the fallback rule. */
  method ChoosePlayer(grassPos: seq<Coord>, player: Option<Coord>, dx: real, dy: real, width: int, height: int, side: int)
    returns (p: Coord, pool: seq<Coord>)
    requires Unit(dx) && Unit(dy) && width >= 1 && height >= 1
    ensures player.Some? ==> p == player.value && pool == grassPos
    ensures player.None? && |grassPos| > 0 ==> pool + [p] == grassPos
    ensures player.None? && |grassPos| == 0 ==> p == Fallback(dx, dy, width, height, side) && pool == []
  {
    if player.Some? {
      p, pool := player.value, grassPos;
    } else if |grassPos| == 0 {
      p, pool := Fallback(dx, dy, width, height, side), [];
    } else {
      p := grassPos[|grassPos| - 1];
      pool := grassPos[..|grassPos| - 1];
    }
  }

  /** The shared part of both variants: player point, remaining pool, and the facts the slicing relies on. */
  method PlayerAndPool(tileset: seq<Tile>, tilemap: seq<int>, width: int, height: int, side: int, air: int, grass: int, draws: seq<real>)
    returns (p: Coord, pool: seq<Coord>, ghost playerCell: int)
    requires ValidMap(tileset, tilemap) && width > 0 && height > 0 && |tilemap| == width * height && side > 0
    requires |draws| >= |tilemap| + 2 && AllUnit(draws)
    ensures 0 <= playerCell < |tilemap| && p == CoordOf(playerCell, width, side)
    ensures (exists i | 0 <= i < |tilemap| :: Candidate(tileset, tilemap, width, air, grass, i)) ==>
      Candidate(tileset, tilemap, width, air, grass, playerCell) &&
      multiset(pool) == multiset(GrassCoords(tileset, tilemap, width, side, air, grass, |tilemap|))
    ensures (forall i | 0 <= i < |tilemap| :: !Candidate(tileset, tilemap, width, air, grass, i)) ==>
      multiset(pool) + multiset{p} == multiset(GrassCoords(tileset, tilemap, width, side, air, grass, |tilemap|)) ||
      (pool == [] && |GrassCoords(tileset, tilemap, width, side, air, grass, |tilemap|)| == 0)
    ensures Distinct(pool) && p !in pool
  {
    var grassPos, player, pick, used := ScanCells(tileset, tilemap, width, side, air, grass, draws);
    ghost var all := GrassCoords(tileset, tilemap, width, side, air, grass, |tilemap|);
    GrassCoordsDistinct(tileset, tilemap, width, side, air, grass, |tilemap|);
    p, pool := ChoosePlayer(grassPos, player, draws[used], draws[used + 1], width, height, side);
    if player.Some? {
      playerCell := pick;
      CandidateNotGrass(tileset, tilemap, width, side, air, grass, pick);
      assert p !in multiset(all);
    } else if |grassPos| == 0 {
      FallbackIsCell(draws[used], draws[used + 1], width, height, side);
      playerCell := Cell(Pick(draws[used + 1], height), Pick(draws[used], width), width);
    } else {
      assert p in multiset(all);
      GrassCoordsFrom(tileset, tilemap, width, side, air, grass, |tilemap|, p);
      var m :| 0 <= m < |tilemap| && IsGrass(tileset, tilemap, air, grass, m) && p == CoordOf(m, width, side);
      playerCell := m;
      assert multiset(pool) + multiset{p} == multiset(grassPos);
      assert multiset(all)[p] == 1;
      assert p !in multiset(pool);
    }
    assert multiset(pool) <= multiset(all);
  }

  /**
    `getSpawnPoints` of the level worker: exactly one player point, at a
    cell of the grid, chosen among the standing places when there is one;
    otherwise the last shuffled grass position, removed from the pool;
    otherwise the fallback position. The three enemy lists are disjoint
    capped slices of the pool, and no point is shared between lists.
  */
  method GetSpawnPoints(tileset: seq<Tile>, tilemap: seq<int>, width: int, height: int, side: int, air: int, grass: int, draws: seq<real>)
    returns (sp: Spawns, pool: seq<Coord>, ghost playerCell: int)
    requires ValidMap(tileset, tilemap) && width > 0 && height > 0 && |tilemap| == width * height && side > 0
    requires |draws| >= |tilemap| + 2 && AllUnit(draws)
    ensures |sp.player| == 1 && 0 <= playerCell < |tilemap| && sp.player[0] == CoordOf(playerCell, width, side)
    ensures (exists i | 0 <= i < |tilemap| :: Candidate(tileset, tilemap, width, air, grass, i)) ==>
      Candidate(tileset, tilemap, width, air, grass, playerCell) &&
      multiset(pool) == multiset(GrassCoords(tileset, tilemap, width, side, air, grass, |tilemap|))
    ensures (sp.guy, sp.flame, sp.bird) == CappedSlices(pool, |tilemap|)
    ensures SeparateLists(pool, (sp.guy, sp.flame, sp.bird)) && sp.player[0] !in pool
  {
    var p;
    p, pool, playerCell := PlayerAndPool(tileset, tilemap, width, height, side, air, grass, draws);
    var s := CappedSlices(pool, |tilemap|);
    sp := Spawns([p], s.0, s.1, s.2);
    CappedSlicesDisjoint(pool, |tilemap|);
  }

  /** `getSpawnPoints` of `src/map.ts`: as above, but the enemy lists are the first three fifths of the pool. */
  method GetSpawnPointsFifths(tileset: seq<Tile>, tilemap: seq<int>, width: int, height: int, side: int, air: int, grass: int, draws: seq<real>)
    returns (sp: Spawns, pool: seq<Coord>, ghost playerCell: int)
    requires ValidMap(tileset, tilemap) && width > 0 && height > 0 && |tilemap| == width * height && side > 0
    requires |draws| >= |tilemap| + 2 && AllUnit(draws)
    ensures |sp.player| == 1 && 0 <= playerCell < |tilemap| && sp.player[0] == CoordOf(playerCell, width, side)
    ensures (exists i | 0 <= i < |tilemap| :: Candidate(tileset, tilemap, width, air, grass, i)) ==>
      Candidate(tileset, tilemap, width, air, grass, playerCell) &&
      multiset(pool) == multiset(GrassCoords(tileset, tilemap, width, side, air, grass, |tilemap|))
    ensures (sp.guy, sp.flame, sp.bird) == FifthSlices(pool)
    ensures SeparateLists(pool, (sp.guy, sp.flame, sp.bird)) && sp.player[0] !in pool
  {
    var p;
    p, pool, playerCell := PlayerAndPool(tileset, tilemap, width, height, side, air, grass, draws);
    var s := FifthSlices(pool);
    sp := Spawns([p], s.0, s.1, s.2);
    FifthSlicesDisjoint(pool);
  }
}

=== FILE: sub_complete.dfy ===
/**
  Sub-completeness of a catalog (`#isSubComplete` in src/NWFC.ts): the
  nested solver may only stitch blocks when every pairing of labels that can
  meet at a block seam is realised by some tile. The source builds string
  keys "a,b" from numeric labels; since a number's decimal text never holds
  a comma, those keys are in one-to-one correspondence with integer pairs.
*/
module SubComplete {
  import opened Tiles

  /** Labels that occur on a west or east edge. */
  function LabelsWE(ts: seq<Tile>): set<int>
  {
    Labels(ts, 3) + Labels(ts, 1)
  }

  /** Labels that occur on a north or south edge. */
  function LabelsNS(ts: seq<Tile>): set<int>
  {
    Labels(ts, 0) + Labels(ts, 2)
  }

  /** Some tile carries label `x` on side `d1` and label `y` on side `d2`. */
  ghost predicate HasPair(ts: seq<Tile>, d1: Dir, d2: Dir, x: int, y: int)
  {
    exists t :: t in ts && Edge(t, d1) == x && Edge(t, d2) == y
  }

  /**
    Reference definition: every (w, e) from the W/E label set is some tile's
    (W, E); every (n, s) from the N/S set is some tile's (N, S); every (n, w)
    is some tile's (N, W); every (s, e) is some tile's (S, E).
  */
  ghost predicate IsSubCompleteSpec(ts: seq<Tile>)
  {
    && (forall x, y | x in LabelsWE(ts) && y in LabelsWE(ts) :: HasPair(ts, 3, 1, x, y))
    && (forall x, y | x in LabelsNS(ts) && y in LabelsNS(ts) :: HasPair(ts, 0, 2, x, y))
    && (forall x, y | x in LabelsNS(ts) && y in LabelsWE(ts) :: HasPair(ts, 0, 3, x, y))
    && (forall x, y | x in LabelsNS(ts) && y in LabelsWE(ts) :: HasPair(ts, 2, 1, x, y))
  }

  /** The label pairs a catalog realises on sides `d1` and `d2` (the source's key sets). */
  function Pairs(ts: seq<Tile>, d1: Dir, d2: Dir): set<(int, int)>
  {
    set t | t in ts :: (Edge(t, d1), Edge(t, d2))
  }

  lemma PairsMeaning(ts: seq<Tile>, d1: Dir, d2: Dir, x: int, y: int)
    ensures (x, y) in Pairs(ts, d1, d2) <==> HasPair(ts, d1, d2, x, y)
  {
    if (x, y) in Pairs(ts, d1, d2) {
      var t :| t in ts && (Edge(t, d1), Edge(t, d2)) == (x, y);
    }
  }

  lemma LabelsAppend(ts: seq<Tile>, t: Tile, d: Dir)
    ensures Labels(ts + [t], d) == Labels(ts, d) + {Edge(t, d)}
  {
    var l := ts + [t];
    assert forall u :: u in l <==> u in ts || u == t;
  }

  lemma PairsAppend(ts: seq<Tile>, t: Tile, d1: Dir, d2: Dir)
    ensures Pairs(ts + [t], d1, d2) == Pairs(ts, d1, d2) + {(Edge(t, d1), Edge(t, d2))}
  {
    var l := ts + [t];
    assert forall u :: u in l <==> u in ts || u == t;
  }

  /** `#isSubComplete`: collect the label sets and realised pairs in one pass, then check the four families. */
  method IsSubComplete(ts: seq<Tile>) returns (ok: bool)
    ensures ok <==> IsSubCompleteSpec(ts)
  {
    var edgesWE: set<int> := {};
    var edgesNS: set<int> := {};
    var pairWE: set<(int, int)> := {};
    var pairNS: set<(int, int)> := {};
    var pairNW: set<(int, int)> := {};
    var pairSE: set<(int, int)> := {};
    var i := 0;
    while i < |ts|
      invariant 0 <= i <= |ts|
      invariant edgesWE == LabelsWE(ts[..i])
      invariant edgesNS == LabelsNS(ts[..i])
      invariant pairWE == Pairs(ts[..i], 3, 1)
      invariant pairNS == Pairs(ts[..i], 0, 2)
      invariant pairNW == Pairs(ts[..i], 0, 3)
      invariant pairSE == Pairs(ts[..i], 2, 1)
    {
      var t := ts[i];
      assert ts[..i + 1] == ts[..i] + [t];
      LabelsAppend(ts[..i], t, 0);
      LabelsAppend(ts[..i], t, 1);
      LabelsAppend(ts[..i], t, 2);
      LabelsAppend(ts[..i], t, 3);
      PairsAppend(ts[..i], t, 3, 1);
      PairsAppend(ts[..i], t, 0, 2);
      PairsAppend(ts[..i], t, 0, 3);
      PairsAppend(ts[..i], t, 2, 1);
      edgesWE := edgesWE + {t.w, t.e};
      edgesNS := edgesNS + {t.n, t.s};
      pairWE := pairWE + {(t.w, t.e)};
      pairNS := pairNS + {(t.n, t.s)};
      pairNW := pairNW + {(t.n, t.w)};
      pairSE := pairSE + {(t.s, t.e)};
      i := i + 1;
    }
    assert ts[..i] == ts;
    forall x, y
      ensures (x, y) in pairWE <==> HasPair(ts, 3, 1, x, y)
      ensures (x, y) in pairNS <==> HasPair(ts, 0, 2, x, y)
      ensures (x, y) in pairNW <==> HasPair(ts, 0, 3, x, y)
      ensures (x, y) in pairSE <==> HasPair(ts, 2, 1, x, y)
    {
      PairsMeaning(ts, 3, 1, x, y);
      PairsMeaning(ts, 0, 2, x, y);
      PairsMeaning(ts, 0, 3, x, y);
      PairsMeaning(ts, 2, 1, x, y);
    }
    ok := (forall x, y | x in edgesWE && y in edgesWE :: (x, y) in pairWE)
       && (forall x, y | x in edgesNS && y in edgesNS :: (x, y) in pairNS)
       && (forall x, y | x in edgesNS && y in edgesWE :: (x, y) in pairNW)
       && (forall x, y | x in edgesNS && y in edgesWE :: (x, y) in pairSE);
  }

  /** A catalog of one tile whose four edges share a label is sub-complete. */
  lemma UniformTileIsSubComplete(lab: int, frame: int, rotation: int)
    ensures IsSubCompleteSpec([Tile(lab, lab, lab, lab, frame, rotation)])
  {
    var t := Tile(lab, lab, lab, lab, frame, rotation);
    var ts := [t];
    assert [] + [t] == ts;
    LabelsAppend([], t, 0);
    LabelsAppend([], t, 1);
    LabelsAppend([], t, 2);
    LabelsAppend([], t, 3);
    assert LabelsWE(ts) == {lab};
    assert LabelsNS(ts) == {lab};
    assert Edge(t, 0) == lab && Edge(t, 1) == lab && Edge(t, 2) == lab && Edge(t, 3) == lab;
  }

  /** A lone tile with different west and east labels fails: no tile has west label 1 and east label 0. */
  lemma UnpartneredLabelIsNotSubComplete()
    ensures !IsSubCompleteSpec([Tile(0, 1, 0, 0, 0, 0)])
  {
    var t := Tile(0, 1, 0, 0, 0, 0);
    var ts := [t];
    assert t in ts && Edge(t, 3) == 0 && Edge(t, 1) == 1;
    assert 1 in LabelsWE(ts) && 0 in LabelsWE(ts);
    assert forall u :: u in ts ==> u == t;
    assert !HasPair(ts, 3, 1, 1, 0);
  }
}

=== FILE: tiles.dfy ===
/**
  The tile catalog (`Tile` in src/definitions.ts): four edge labels in the
  order north, east, south, west, a frame class and a rotation. A tile's
  identity is its index in the catalog.
*/
module Tiles {

  datatype Tile = Tile(n: int, e: int, s: int, w: int, frame: int, rotation: int)

  /** Directions in the order the solver uses: 0 north, 1 east, 2 south, 3 west. */
  type Dir = d: int | 0 <= d < 4

  /** `tile.edges[d]`. */
  function Edge(t: Tile, d: Dir): int
  {
    if d == 0 then t.n else if d == 1 then t.e else if d == 2 then t.s else t.w
  }

  /** The direction pointing back. */
  function Opposite(d: Dir): Dir
  {
    if d < 2 then d + 2 else d - 2
  }

  /**
    Tile `b` may sit on side `d` of tile `a`: the touching edge labels agree
    (for d = 0, the south edge of the upper tile equals the north edge of the lower one).
  */
  predicate Fits(a: Tile, d: Dir, b: Tile)
  {
    Edge(a, d) == Edge(b, Opposite(d))
  }

  /** Adjacency is symmetric: b fits on side d of a exactly when a fits on the opposite side of b. */
  lemma FitsSymmetric(a: Tile, d: Dir, b: Tile)
    ensures Fits(a, d, b) <==> Fits(b, Opposite(d), a)
  {
  }

  /** The frame classes present in a catalog. */
  function Frames(ts: seq<Tile>): set<int>
  {
    set t | t in ts :: t.frame
  }

  /** The labels a catalog uses on side `d`. */
  function Labels(ts: seq<Tile>, d: Dir): set<int>
  {
    set t | t in ts :: Edge(t, d)
  }

  /** Every cell of a tile map names a tile of the catalog. */
  predicate ValidMap(tileset: seq<Tile>, tilemap: seq<int>)
  {
    forall i | 0 <= i < |tilemap| :: 0 <= tilemap[i] < |tileset|
  }

  /** `tileset[tilemap[i]].frame`. */
  function FrameAt(tileset: seq<Tile>, tilemap: seq<int>, i: int): int
    requires ValidMap(tileset, tilemap) && 0 <= i < |tilemap|
  {
    tileset[tilemap[i]].frame
  }
}

=== FILE: wrappers.dfy ===
/** Failure-compatible wrappers shared by the whole model. */
module Wrappers {

  /** A value that may be absent: the source's `undefined` results and optional arguments. */
  datatype Option<+T> = None | Some(value: T) {

    predicate IsFailure() {
      None?
    }

    function PropagateFailure<U>(): Option<U>
      requires None?
    {
      None
    }

    function Extract(): T
      requires Some?
    {
      value
    }
  }
}
